=== FILE: README.md ===
# A Dafny model of a small CRM's stores, forms and pages

The system is a browser CRM. It keeps contacts, companies, deals, activities, campaigns,
workflows and custom-property definitions in in-memory stores behind promise-returning
service modules. React components let a user edit these records in forms, arrange deals on
a pipeline board, compose marketing e-mails from blocks, draw workflows as node graphs, and
browse, filter, sort and bulk-edit lists.

This project models the decision logic of that core as pure Dafny functions over immutable
values and proves its properties:

- **Stores.** Each service is a function from a store (a `seq` of records) and the call's
  arguments to a `Step`: the new store plus the call's `Ok` value or `Err` message. This
  covers max-plus-one ids, `parseInt`-based lookups, merges and the errors thrown for
  unknown ids.
- **Forms.** Each form has its defaults, its per-field validation rule, its validity
  predicate, its change handler (which clears only the edited field's error) and the
  payload it submits.
- **Components and pages.** Their handlers are functions from the component state and
  the event to the next state and the call they make: drag-and-drop of e-mail blocks, node
  graph editing, text and image blocks, selection, filtering and sorting, bulk actions,
  the kanban columns, and the badge, colour and icon choices.

Shared JavaScript semantics live in helper modules:

- `Js`: truthiness, `parseInt` and `Number` on integers, and `null` references.
- `Text`: trim, ASCII case, `includes`, string order, and split and join.
- `Store`: `find`, `findIndex`, max id, `filter`, count and sum.
- `Sorting`: a stable sort by key: elements sharing a key keep their input order (`Sorting.SortByKeyStable`).
- `EsModules`: whether a module loads, given the names it imports and the names the imported module exports.

The files follow the source's layout:

- one module per service;
- one module per component;
- `Form` for the error-map helpers the forms share;
- `Toast` for the notices pages show.

The clock, ids from `Date.now()`, `window.confirm`, the network delay and toasts are not
computed. They become parameters: a `now` string, a confirmation flag, or an outcome
passed in.

## Model

| member | source | states |
|---|---|---|
| Store.FindIndex | src/services/api/contactService.js:41 | `findIndex` by id: none exactly when no record has the id; otherwise an in-range index holding the id, with no earlier record holding it |
| Store.Locate | src/services/api/contactService.js:41-44 | the lookup by a `parseInt` key: none for a `NaN` key or an absent id; otherwise an index whose record has the id |
| Store.Find | src/components/organisms/KanbanBoard.jsx:17-23 | `find` by id: `undefined` exactly when the key is `null` or no record has it; otherwise a stored record with that id |
| Store.FindIndexSameIds | src/services/api/contactService.js:41 | the search looks only at ids: two stores with the same ids position by position give the same index |
| Store.FindIndexAppend | src/services/api/contactService.js:25-34 | a record appended under a fresh id is found at the end |
| Store.LocateOnly | src/services/api/contactService.js:41 | in a store with unique ids the record found is the only one with that id |
| Store.MaxId | src/services/api/contactService.js:25 | `Math.max(...ids, 0)`: at least 0, at least every id, and either 0 or one of the ids |
| Store.NextId | src/services/api/contactService.js:25-28 | the new id is at least 1 and larger than every stored id, so no record has it |
| Store.RemoveAt | src/services/api/contactService.js:65 | `splice(i, 1)`: one shorter, the records before and after `i` kept in order, and only the record at `i` gone from the multiset |
| Store.RemoveAtMembers | src/services/api/contactService.js:65 | after `splice(i, 1)` every other record is still present and no record is new |
| Store.UniqueAppend | src/services/api/contactService.js:25-34 | appending a record under an id nobody has keeps ids unique |
| Store.UniqueRemove | src/services/api/contactService.js:65 | removing one record keeps ids unique, and the removed id is then absent |
| Store.UniqueReplace | src/services/api/contactService.js:53 | replacing a record by one with the same id keeps ids unique |
| Store.First | src/components/organisms/EmailBuilder.jsx:78 | `find`: none exactly when no element passes; otherwise the element at the first position that passes |
| Store.FirstIs | src/components/organisms/EmailBuilder.jsx:78 | an element that passes, with none passing before it, is the one `find` returns |
| Store.FirstAppend | src/components/organisms/WorkflowBuilder.jsx:92 | appending an element never changes what `find` already finds |
| Store.Filter | src/services/api/dealService.js:95 | `filter`: no longer than the input, holds only input elements that pass, holds every element that passes, and is a sub-multiset of the input |
| Store.FilterConcat | src/services/api/dealService.js:95 | `filter` keeps order: filtering two lists laid end to end is filtering each and laying the results end to end |
| Store.FilterAll | src/services/api/dealService.js:95 | a filter every element passes returns the list itself |
| Store.FilterNone | src/services/api/dealService.js:95 | a filter no element passes returns the empty list |
| Store.FilterCounts | src/services/api/dealService.js:95 | `filter` keeps each passing element exactly as often as the input holds it and drops every failing one |
| Store.FilterFilter | src/components/pages/ContactsPage.jsx:78-93 | filtering by one test and then another is filtering once by both |
| Store.FilterSame | src/components/organisms/KanbanBoard.jsx:25-27 | two tests that agree on every element select the same list |
| Store.CountSplit | src/services/api/analyticsService.js:22-25 | the elements passing a test and those failing it together number all the elements |
| Store.CountDisjoint | src/services/api/analyticsService.js:44-48 | the counts of two exclusive tests add up to the count of their union |
| Store.SumConcat | src/services/api/analyticsService.js:28 | `reduce((sum, x) => sum + x.value, 0)` over two lists laid end to end is the sum of the two sums |
| Store.SumDisjoint | src/services/api/analyticsService.js:44-48 | the sums over two exclusive tests add up to the sum over their union |
| Store.SumNonNegative | src/services/api/analyticsService.js:28 | a sum of non-negative values is non-negative |
| Js.ParseInt | src/services/api/contactService.js:15 | `parseInt`: `NaN` (`None`) exactly when no digit follows the leading white space and sign |
| Js.ParseShowInt | src/services/api/contactService.js:15 | an integer printed in decimal parses back to itself |
| Js.ParseRaw | src/services/api/contactService.js:15 | `parseInt` of a loose value: a number is itself and an absent value is `NaN` |
| Js.RefOf | src/services/api/contactService.js:29 | `x ? parseInt(x) : null`: `null` for falsy values, otherwise the parsed value |
| Js.Truthy | src/services/api/dealService.js:53-56 | JavaScript truthiness of a value handed in by a form: an absent value, the empty string and 0 are falsy, anything else (the string "0" included) is truthy |
| Js.RefOfShownId | src/services/api/contactService.js:29 | an id's decimal text, as a `<select>` hands it back, coerces to the same id |
| Js.IntOrZero | src/services/api/companyService.js:29 | `parseInt(x) \|\| 0`: the parsed integer, or 0 when there is none |
| Js.ToNumber | src/components/organisms/ActivityForm.jsx:125 | the numeric coercion behind `isNaN(x)` and `x < 1`: a number is itself and a blank string is 0 |
| Js.ToNumberAgreesWithParseInt | src/components/organisms/ActivityForm.jsx:125-156 | where `Number` accepts a non-blank string, `parseInt` reads the same integer |
| Js.DigitsValueShowNat | src/services/api/contactService.js:15 | the digits of a number read back as the number |
| Text.Trim | src/components/organisms/DealForm.jsx:61 | `trim()`: no longer than the input, and without white space at either end |
| Text.TrimStart | src/components/organisms/DealForm.jsx:61 | the leading white space cut: a suffix of the input, all white space before it, and starting with a non-space |
| Text.TrimEnd | src/components/organisms/DealForm.jsx:61 | the trailing white space cut: a prefix of the input, all white space after it, and ending with a non-space |
| Text.TrimIsInfix | src/components/organisms/DealForm.jsx:61 | the trimmed text is a slice of the input with only white space cut at either side |
| Text.TrimEmptyIffBlank | src/components/organisms/ContactForm.jsx:51-57 | `trim() === ""` exactly when every character is white space |
| Text.TrimStartEmptyIff | src/components/organisms/ContactForm.jsx:51-57 | cutting the leading white space leaves nothing exactly when every character is white space |
| Text.TrimEndEmptyIff | src/components/organisms/ContactForm.jsx:51-57 | cutting the trailing white space leaves nothing exactly when every character is white space |
| Text.TrimOfTrimmed | src/components/organisms/CustomPropertyManager.jsx:72 | trimming a text without white space at its ends changes nothing |
| Text.TrimIdempotent | src/components/organisms/CustomPropertyManager.jsx:72 | trimming twice is trimming once |
| Text.Lower | src/components/pages/ContactsPage.jsx:77-80 | `toLowerCase()` on ASCII: same length, each character lowered |
| Text.Upper | src/components/molecules/LifecycleBadge.jsx:20 | `toUpperCase()` on ASCII: same length, each character raised |
| Text.LowerIdempotent | src/components/pages/ContactsPage.jsx:103-110 | lowering twice is lowering once |
| Text.LowerOfUpper | src/components/molecules/LifecycleBadge.jsx:5-20 | lowering after raising is lowering |
| Text.LowerOfConcat | src/components/pages/ContactsPage.jsx:79 | lowering a concatenation lowers each part |
| Text.Includes | src/components/pages/ContactsPage.jsx:78-81 | `includes`: true exactly when the needle occurs at some position |
| Text.IncludesEmpty | src/components/pages/WorkflowsPage.jsx:160-161 | every string includes the empty string |
| Text.LexLessIrreflexive | src/components/organisms/ActivityForm.jsx:129-131 | no string sorts before itself |
| Text.LexLessTransitive | src/components/organisms/ActivityForm.jsx:129-131 | string `<` is transitive |
| Text.LexLessTotal | src/components/organisms/ActivityForm.jsx:129-131 | of two different strings one sorts before the other |
| Text.LexLeTotalPreorder | src/components/pages/ContactsPage.jsx:113-117 | string `<=` is total and transitive, so the sort comparator is consistent |
| Text.LexLeAntisymmetric | src/components/pages/ContactsPage.jsx:113-117 | two strings each `<=` the other exactly when they are equal, so the comparator ties only equal keys |
| Text.Split | src/components/organisms/CustomPropertyManager.jsx:72 | `split(sep)`: at least one part, and no part contains the separator |
| Text.SplitPrefix | src/components/organisms/CustomPropertyManager.jsx:72 | a separator-free prefix joins the first part of the rest |
| Text.SplitJoin | src/components/organisms/CustomPropertyManager.jsx:72-101 | splitting a join of separator-free parts gives the parts back |
| Text.Join | src/components/organisms/CustomPropertyManager.jsx:101 | `join('\n')`: the parts with one separator between neighbours; by Text.SplitJoin and Text.JoinSplit it is the inverse of `split` on separator-free parts |
| Text.JoinSplit | src/components/organisms/CustomPropertyManager.jsx:72-101 | joining the parts of a split gives the text back |
| Text.SplitHeadIsPrefix | src/components/organisms/CustomPropertyManager.jsx:72 | the first part is a prefix of the text, followed by the separator when there is one |
| Text.RemoveFirst | src/components/organisms/EmailBuilder.jsx:24 | `replace(pattern, "")` on a text that starts with the pattern drops it; a text without the pattern is unchanged |
| Sorting.Insert | src/components/pages/ContactsPage.jsx:96-118 | one insertion step: one longer, the element added to the multiset |
| Sorting.Sort | src/components/pages/ContactsPage.jsx:96-118 | the sort is a permutation of its input |
| Sorting.InsertSorted | src/components/pages/ContactsPage.jsx:96-118 | inserting into an ordered list under a total preorder keeps it ordered |
| Sorting.SortSorted | src/components/pages/ContactsPage.jsx:96-118 | under a total preorder the sort's result is ordered |
| Sorting.KeyOrderTotal | src/components/pages/ContactsPage.jsx:113-117 | the comparator built from string keys, ascending or descending, is a total preorder |
| Sorting.SortByKey | src/components/pages/ContactsPage.jsx:96-118 | the sort by a string key: a permutation of its input whose keys ascend, or descend when asked |
| Sorting.InsertTies | src/components/pages/ContactsPage.jsx:96-118 | one insertion step puts the new element ahead of the elements tied with it and moves no element of a tie relative to the others |
| Sorting.SortStable | src/components/pages/ContactsPage.jsx:96-118 | the sort is stable: restricted to the elements tied with any element, its result is its input |
| Sorting.KeyTies | src/components/pages/ContactsPage.jsx:113-117 | under the key comparator two elements tie exactly when they share a key |
| Sorting.KeyTiesFilter | src/components/pages/ContactsPage.jsx:113-117 | on any list, the elements tied with an element under the key comparator are those sharing its key |
| Sorting.SortByKeyStable | src/components/pages/ContactsPage.jsx:96-118 | the sort by key is stable: the elements sharing any key appear in the result in their input order |
| ContactService.GetById | src/services/api/contactService.js:13-20 | the contact with id `parseInt(id)`; "Contact not found" exactly when there is none |
| ContactService.Create | src/services/api/contactService.js:22-36 | appends one contact with the next id, the draft's names, email, phone, stage and notes as given, the parsed company reference and both timestamps `now` |
| ContactService.Merge | src/services/api/contactService.js:46-51 | supplied fields win, id and creation time are kept, and the company reference is always re-read from the patch |
| ContactService.Update | src/services/api/contactService.js:38-55 | replaces the matching contact by the merge in place; "Contact not found" and an unchanged store otherwise |
| ContactService.Delete | src/services/api/contactService.js:57-67 | removes exactly the matching contact and returns `true`; "Contact not found" and an unchanged store otherwise |
| ContactService.CreateThenGet | src/services/api/contactService.js:13-36 | a created contact is found again by its id |
| ContactService.UpdateThenGet | src/services/api/contactService.js:13-55 | after an update the same id fetches the merged contact |
| ContactService.DeleteThenGet | src/services/api/contactService.js:57-67 | with unique ids, a deleted contact can no longer be fetched and ids stay unique |
| ContactService.CreateUpdateKeepUnique | src/services/api/contactService.js:22-55 | create and update keep contact ids unique |
| CompanyService.GetById | src/services/api/companyService.js:13-20 | the company with id `parseInt(id)`; "Company not found" exactly when there is none |
| CompanyService.Create | src/services/api/companyService.js:22-35 | appends one company with the next id, `parseInt(employeeCount) \|\| 0`, and `{}` for absent custom properties |
| CompanyService.Merge | src/services/api/companyService.js:43-51 | the employee count is re-parsed (0 when left out); custom properties merge key-wise, new keys winning and old keys surviving |
| CompanyService.Update | src/services/api/companyService.js:36-55 | replaces the matching company by the merge in place; "Company not found" and an unchanged store otherwise |
| CompanyService.Delete | src/services/api/companyService.js:57-67 | removes exactly the matching company; "Company not found" and an unchanged store otherwise |
| CompanyService.MergeIdempotent | src/services/api/companyService.js:43-51 | merging the same patch twice is merging it once |
| CompanyService.CreateUpdateThenGet | src/services/api/companyService.js:13-55 | a created company is found by its id, and an updated one reads back as the merge |
| CompanyService.DeleteKeepsUnique | src/services/api/companyService.js:57-67 | with unique ids, delete keeps them unique and the id is gone |
| DealService.StageOrderDistinct | src/services/api/dealService.js:108-115 | the six pipeline stages of `STAGE_ORDER` are pairwise different |
| DealService.GetById | src/services/api/dealService.js:14-21 | the deal with id `parseInt(id)`; "Deal not found" exactly when there is none |
| DealService.Create | src/services/api/dealService.js:23-40 | appends one deal with the next id, the draft's name, stage, close date, description and notes as given, references parsed with falsy ones `null`, value and probability parsed with 0 for anything unparseable, both timestamps `now` |
| DealService.KeepUnlessGiven | src/services/api/dealService.js:55-56 | `x ? parse(x) : stored`: a falsy field keeps the stored number, a parseable one replaces it |
| DealService.Merge | src/services/api/dealService.js:50-58 | id and creation time kept, references always re-read from the patch (so left-out ones become `null`), value and probability kept unless the patch carries truthy ones, the stage taken from the patch when given |
| DealService.Update | src/services/api/dealService.js:42-62 | replaces the matching deal by the merge in place; "Deal not found" and an unchanged store otherwise |
| DealService.Delete | src/services/api/dealService.js:64-74 | removes exactly the matching deal and returns `true`; "Deal not found" and an unchanged store otherwise |
| DealService.UpdateStage | src/services/api/dealService.js:76-91 | the matching deal with only its stage and `updatedAt` changed, written back in place; "Deal not found" and an unchanged store otherwise |
| DealService.GetByStage | src/services/api/dealService.js:93-96 | exactly the deals in the stage: every listed deal is stored and in the stage, and every stored deal in the stage is listed |
| DealService.CreateKeepsUnique | src/services/api/dealService.js:23-40 | create keeps deal ids unique |
| DealService.UpdateKeepsUnique | src/services/api/dealService.js:42-62 | update keeps deal ids unique |
| DealService.UpdateStageKeepsUnique | src/services/api/dealService.js:76-91 | a stage move keeps deal ids unique |
| DealService.DeleteKeepsUnique | src/services/api/dealService.js:64-74 | delete keeps deal ids unique, and the deleted id is gone |
| DealService.UpdateStageMoves | src/services/api/dealService.js:76-96 | after a stage move the deal is listed under its new stage and under no other, and no deal is added or lost |
| DealService.UpdateWithOwnFields | src/services/api/dealService.js:50-58 | saving a deal's own fields back (non-zero numbers and references) changes nothing but `updatedAt` |
| ActivityService.GetById | src/services/api/activityService.js:13-20 | the activity with id `parseInt(id)`; "Activity not found" exactly when there is none |
| ActivityService.GetByContactId | src/services/api/activityService.js:22-25 | exactly the activities whose contact reference equals `parseInt(contactId)`; `NaN` and `null` match nothing |
| ActivityService.GetByDealId | src/services/api/activityService.js:73-77 | a permutation of the activities referring to the deal, newest first, reading ISO timestamps in text order |
| ActivityService.Create | src/services/api/activityService.js:27-52 | appends one activity with the next id; type, subject, description and date as given; outcome, attendees, follow-up actions, location and notes as given, their `\|\| ""` default giving "" for ""; references and duration parsed with falsy ones `null`; an empty follow-up date stored as `null` and a given one as itself; an empty priority as "medium"; all three timestamps `now` |
| ActivityService.KeepRef | src/services/api/activityService.js:65-66 | `x ? parseInt(x) : stored`: a falsy reference keeps the stored one, a truthy one is parsed |
| ActivityService.Merge | src/services/api/activityService.js:62-67 | id and timestamps kept, references changed only by truthy patch fields, left-out fields kept |
| ActivityService.Update | src/services/api/activityService.js:54-71 | replaces the matching activity by the merge in place; "Activity not found" and an unchanged store otherwise |
| ActivityService.Delete | src/services/api/activityService.js:79-89 | removes exactly the matching activity and returns `true`; "Activity not found" and an unchanged store otherwise |
| ActivityService.CreateListedForContact | src/services/api/activityService.js:22-52 | an activity created for a contact is appended, last, to that contact's listing and nothing else in it changes |
| ActivityService.UpdateKeepsReferences | src/services/api/activityService.js:65-66 | an update with falsy references keeps the activity's contact and deal |
| ActivityService.CreateKeepsUnique | src/services/api/activityService.js:27-52 | create keeps activity ids unique |
| ActivityService.DeleteKeepsUnique | src/services/api/activityService.js:79-89 | delete keeps activity ids unique, and the deleted activity can no longer be fetched |
| AnalyticsService.StageEntry | src/services/api/analyticsService.js:44-48 | a distribution entry counts the deals in its stage and sums their values |
| AnalyticsService.MonthEntry | src/services/api/analyticsService.js:58-70 | a trend entry's won deals are among its created deals, which are among all deals |
| AnalyticsService.GetAnalytics | src/services/api/analyticsService.js:7-83 | contact total; open deals (neither won nor lost) and their summed value; conversion rate 0 without deals and otherwise the won share times 100; one distribution entry per stage of `STAGE_ORDER`, in order, counting that stage's deals and summing their values; one trend entry per month |
| AnalyticsService.OpenWonLostPartition | src/services/api/analyticsService.js:22-41 | open, won and lost deals together number all the deals |
| AnalyticsService.StageTotalCounts | src/services/api/analyticsService.js:44-48 | over distinct stages, the entries' counts add up to the deals in any of them |
| AnalyticsService.DistributionCoversAll | src/services/api/analyticsService.js:44-48 | when every deal is in a pipeline stage, the distribution's counts add up to all the deals |
| AnalyticsService.StageValueTotalSums | src/services/api/analyticsService.js:44-48 | over distinct stages, the stage values add up to the summed value of the deals in those stages |
| AnalyticsService.DistributionValueCoversAll | src/services/api/analyticsService.js:44-48 | when every deal is in a pipeline stage, the six stage values add up to the value of all the deals |
| AnalyticsService.Bump | src/services/api/analyticsService.js:91-92 | `acc[stage] = (acc[stage] \|\| 0) + 1`: an existing stage counts one more, a new stage is appended with 1, nothing else changes and stages stay distinct |
| AnalyticsService.Tally | src/services/api/analyticsService.js:90-94 | the tally has distinct stages and no more entries than contacts |
| AnalyticsService.NoEntryNoContacts | src/services/api/analyticsService.js:90-94 | a stage missing from a covering tally has no contacts |
| AnalyticsService.CountsAfterBump | src/services/api/analyticsService.js:90-94 | one reduce step keeps every entry's count exact |
| AnalyticsService.CoversAfterBump | src/services/api/analyticsService.js:90-94 | one reduce step keeps every contact's stage covered |
| AnalyticsService.TallyCorrect | src/services/api/analyticsService.js:90-100 | one entry per stage that occurs (a missing stage as "Unknown"), each counting exactly that stage's contacts |
| AnalyticsService.CountsBump | src/services/api/analyticsService.js:92 | one reduce step adds exactly one to the total count |
| AnalyticsService.TallyTotal | src/services/api/analyticsService.js:90-100 | the lifecycle counts add up to the number of contacts |
| AnalyticsService.LifecycleStats | src/services/api/analyticsService.js:96-100 | one row per tally entry, in first-appearance order, with the percentage as the count's share of all contacts |
| CampaignService.SeedMax | src/services/api/campaignService.js:5 | `Math.max(...ids)` over the seed: at least every seed id, and one of them |
| CampaignService.Init | src/services/api/campaignService.js:4-5 | the store starts with the seed and a `nextId` above every seed id, so unique seed ids give a valid store |
| CampaignService.Find | src/services/api/campaignService.js:48-56 | the shared prelude: "Invalid campaign ID" when `parseInt` gives `NaN`, "Campaign not found" when no campaign has the id, otherwise that campaign's index |
| CampaignService.GetById | src/services/api/campaignService.js:12-24 | the campaign with the parsed id exactly when there is one; otherwise the prelude's error |
| CampaignService.Create | src/services/api/campaignService.js:26-45 | appends one campaign numbered `nextId` with the given name, subject and status, zero counters and rates, no `lastSent`, and advances `nextId` by one |
| CampaignService.Merge | src/services/api/campaignService.js:58-62 | supplied fields override, the id never changes, and an empty patch changes nothing |
| CampaignService.Update | src/services/api/campaignService.js:47-66 | the matching campaign becomes the merge, in place, keeping its id; a failed lookup returns its error and changes nothing |
| CampaignService.Delete | src/services/api/campaignService.js:68-83 | removes exactly the matching campaign and returns it; a failed lookup returns its error and changes nothing |
| CampaignService.Launch | src/services/api/campaignService.js:85-108 | succeeds exactly for a draft, which becomes active with `lastSent` set; a non-draft gets "Only draft campaigns can be launched"; every failure leaves the store as it was |
| CampaignService.Pause | src/services/api/campaignService.js:110-132 | succeeds exactly for an active campaign, which goes back to draft; otherwise "Only active campaigns can be paused" or the lookup's error, with the store unchanged |
| CampaignService.CreateKeepsValid | src/services/api/campaignService.js:26-45 | create keeps ids unique and below `nextId` |
| CampaignService.UpdateKeepsValid | src/services/api/campaignService.js:47-66 | update keeps ids unique and below `nextId` |
| CampaignService.DeleteKeepsValid | src/services/api/campaignService.js:68-83 | delete keeps ids unique and below `nextId` |
| CampaignService.LaunchPauseKeepValid | src/services/api/campaignService.js:85-132 | launch and pause keep ids unique and below `nextId` |
| CampaignService.NoReuseAfterDelete | src/services/api/campaignService.js:26-83 | a campaign created after a delete never gets the deleted id, nor any id still present |
| CampaignService.LaunchThenPause | src/services/api/campaignService.js:85-132 | launching a draft and pausing it again succeeds and restores the store, except that the campaign's `lastSent` is the launch time |
| CampaignService.LaunchedAt | src/services/api/campaignService.js:85-108 | launching a stored draft makes it active and stamps `lastSent`, in place, and leaves every other campaign as it was |
| CampaignService.PausedAt | src/services/api/campaignService.js:110-132 | pausing a stored active campaign succeeds and makes it a draft, in place, leaving every other campaign as it was |
| CampaignService.MetricsAfterCreate | src/services/api/campaignService.js:26-45 | creating a campaign adds one to the total and to its status's count and leaves the sums and rates as they were |
| CampaignService.Percent | src/services/api/campaignService.js:144-145 | a rate is 0 when nothing was sent and otherwise exactly `part / whole * 100`; never negative for non-negative counts |
| CampaignService.GetMetrics | src/services/api/campaignService.js:134-158 | the campaign total; the active, draft and sent counts; the summed `sent`, `opened` and `clicked`; each rate the summed count as a percentage of the summed `sent`, 0 when nothing was sent |
| CustomPropertyService.Seed | src/services/api/customPropertyService.js:1-50 | the five initial definitions have unique ids and names unique per entity type |
| CustomPropertyService.GetById | src/services/api/customPropertyService.js:59-66 | the definition with id `parseInt(id)`; "Custom property not found" exactly when there is none |
| CustomPropertyService.GetByEntityType | src/services/api/customPropertyService.js:68-71 | exactly the definitions of one entity type, each as often as in the store |
| CustomPropertyService.GetByEntityTypeKeepsOrder | src/services/api/customPropertyService.js:70 | store order: two stores laid end to end give the first's matches followed by the second's |
| CustomPropertyService.Create | src/services/api/customPropertyService.js:73-100 | "Missing required fields" when name, label, type or entity type is empty; "Property name already exists for this entity type" when the name is taken for that type; otherwise appends the definition under the next id with the given name, label, type, entity type and required flag, absent options read as none; failures change nothing |
| CustomPropertyService.CreateKeepsValid | src/services/api/customPropertyService.js:73-100 | create keeps ids unique and names unique per entity type |
| CustomPropertyService.Merge | src/services/api/customPropertyService.js:120-125 | supplied fields override, id and creation time kept, `updatedAt` set, and options left out of the patch are cleared |
| CustomPropertyService.Update | src/services/api/customPropertyService.js:102-129 | as written: "Custom property not found" for an unknown id; the duplicate error only when the patch itself carries a name and entity type taken by another definition; otherwise the merge in place |
| CustomPropertyService.UpdateAdmitsDuplicate | src/services/api/customPropertyService.js:110-118 | renaming `skills` to `department` without restating the entity type succeeds and leaves two contact properties named `department` |
| CustomPropertyService.UpdateChecked | src/services/api/customPropertyService.js:110-129 | succeeds exactly when the id is found and the merged name and entity type clash with no other definition; then the merge replaces the stored definition in place; a successful update never produces a name its entity type already has |
| CustomPropertyService.UpdateCheckedKeepsValid | src/services/api/customPropertyService.js:110-129 | with the merged test, every update keeps ids unique and names unique per entity type |
| CustomPropertyService.Delete | src/services/api/customPropertyService.js:131-142 | removes exactly the matching definition and returns it; "Custom property not found" and an unchanged store otherwise |
| CustomPropertyService.DeleteKeepsValid | src/services/api/customPropertyService.js:131-142 | delete keeps both uniqueness properties, and the deleted id is gone |
| WorkflowService.Init | src/services/api/workflowService.js:9-10 | the store starts with the seed and `nextId` at least 1 and above every seed id, so unique seed ids give a valid store |
| WorkflowService.GetById | src/services/api/workflowService.js:17-24 | the workflow with id `parseInt(id)`; "Workflow not found" exactly when there is none |
| WorkflowService.Create | src/services/api/workflowService.js:26-43 | appends one workflow numbered `nextId` with the given name, description, trigger, actions, nodes and connections, active only when asked (`isActive \|\| false`), no runs, success rate 100, empty history, both timestamps `now`; advances `nextId` |
| WorkflowService.Merge | src/services/api/workflowService.js:53-57 | supplied fields override (`Id` too), left-out ones are kept, `updatedAt` is set |
| WorkflowService.MergeWholePatch | src/services/api/workflowService.js:53-57 | a workflow sent back whole with one flag changed replaces the stored one exactly, stamped with the time |
| WorkflowService.Update | src/services/api/workflowService.js:45-62 | replaces the matching workflow by the merge in place; "Workflow not found" and an unchanged store otherwise |
| WorkflowService.Delete | src/services/api/workflowService.js:64-75 | removes exactly the matching workflow and returns `true`; "Workflow not found" and an unchanged store otherwise |
| WorkflowService.SetActive | src/services/api/workflowService.js:77-111 | `activate`/`deactivate`: only the flag and `updatedAt` of the matching workflow change; "Workflow not found" and an unchanged store otherwise |
| WorkflowService.SetActiveIdempotent | src/services/api/workflowService.js:77-111 | activating (or deactivating) twice is doing it once |
| WorkflowService.ActivateThenDeactivate | src/services/api/workflowService.js:77-111 | deactivating after activating leaves the workflow inactive with everything else as before but `updatedAt` |
| WorkflowService.CreateKeepsValid | src/services/api/workflowService.js:26-43 | create keeps ids unique and below `nextId` |
| WorkflowService.UpdateKeepsValid | src/services/api/workflowService.js:45-62 | update keeps ids unique and below `nextId` when the patch carries no other id |
| WorkflowService.DeleteKeepsValid | src/services/api/workflowService.js:64-75 | delete keeps ids unique and below `nextId`, and the workflow can no longer be fetched |
| Form.Get | src/components/organisms/ContactForm.jsx:10-18 | `formData[name]` is `undefined` for a field the form does not have |
| Form.ClearError | src/components/organisms/ContactForm.jsx:105-110 | a truthy error for the field becomes `""`; every other entry, and a field without an error, is left as it was |
| Form.Change | src/components/organisms/ContactForm.jsx:98-110 | `handleChange`: the named field takes the new value, every other field keeps its value, and the field's error is cleared |
| Form.ChangeClearsOnlyItsError | src/components/organisms/DealForm.jsx:98-106 | an edit clears the edited field's error and leaves every other field's error as it was |
| Form.ClearErrorIdempotent | src/components/organisms/DealForm.jsx:103-105 | clearing an error twice is clearing it once |
| ContactForm.Defaults | src/components/organisms/ContactForm.jsx:10-18 | a new form has the seven fields, all empty except the lifecycle stage "Lead" |
| ContactForm.FromContact | src/components/organisms/ContactForm.jsx:23-35 | the edit load: first and last name, email, phone and notes as stored, an empty stage read as "Lead", the company reference kept when truthy and blank without one |
| ContactForm.Check | src/components/organisms/ContactForm.jsx:48-72 | names and phone fail exactly when blank; the email fails when blank or not matching `\S+@\S+\.\S+`; the stage fails when falsy; company and notes never fail; messages are non-empty |
| ContactForm.Validate | src/components/organisms/ContactForm.jsx:48-75 | `validateForm`: an entry exactly for each failing field, each a truthy message |
| ContactForm.EmailMessage | src/components/organisms/ContactForm.jsx:59-63 | a blank email reads "Email is required" and a malformed one "Email is invalid" |
| ContactForm.ValidIff | src/components/organisms/ContactForm.jsx:48-75 | the form passes exactly when both names and the phone are non-blank, the email is non-blank and matches the pattern, and a stage is set |
| ContactForm.DefaultsErrors | src/components/organisms/ContactForm.jsx:10-75 | a fresh form is refused for names, email and phone but not for the stage |
| ContactForm.EmailExamples | src/components/organisms/ContactForm.jsx:61 | the unanchored pattern accepts "ann@example.com" and "to: a@b.c please" and refuses "ann@example" and "a @b.c" |
| DealForm.Defaults | src/components/organisms/DealForm.jsx:18-28 | a new form has the nine fields, all empty except the stage "Prospect" |
| DealForm.NumOrBlank | src/components/organisms/DealForm.jsx:37-38 | `n \|\| ''`: truthy exactly when the number is non-zero, and then the number itself |
| DealForm.RefOrBlank | src/components/organisms/DealForm.jsx:35-36 | `ref \|\| ''`: coerces back to the same reference, or to `null` for a missing or zero one |
| DealForm.DayOf | src/components/organisms/DealForm.jsx:40 | `split('T')[0]`: a prefix of the date without a `T`, the whole date when it has none, and cut exactly at the first `T` |
| DealForm.FromDealAsWritten | src/components/organisms/DealForm.jsx:31-45 | the edit load as written: the nine fields, with the probability passed through `\|\| ''` |
| DealForm.LoadAsWritten | src/components/organisms/DealForm.jsx:31-45 | what each field loads: name, description and notes as stored; each reference and number only when non-zero, otherwise the empty string; "Prospect" for a deal without a stage; the close date cut to its day |
| DealForm.FromDeal | src/components/organisms/DealForm.jsx:31-45 | the edit load with the probability as its text, truthy and parsing back to the stored probability; every other field as written |
| DealForm.Check | src/components/organisms/DealForm.jsx:58-77 | the name fails exactly when blank; the value passes exactly when truthy and parsing to a positive number; the probability passes exactly when truthy and parsing into [0, 100]; the close date fails exactly when empty; other fields never fail |
| DealForm.ToDraft | src/components/organisms/DealForm.jsx:82-91 | `onSave(formData)`: the draft carries the form's name, stage, close date, description and notes as shown, and its references, value and probability as typed, for the store to parse |
| DealForm.Validate | src/components/organisms/DealForm.jsx:58-80 | `validateForm`: an entry exactly for each failing field, only among name, value, probability and close date |
| DealForm.ValidIff | src/components/organisms/DealForm.jsx:58-80 | the form passes exactly when the name is non-blank, the value is positive, the probability is in [0, 100] and a close date is set |
| DealForm.ValidFormCreatesSaneDeal | src/components/organisms/DealForm.jsx:82-96 | a deal created from a form that passed validation has a positive value and a probability in [0, 100] |
| DealForm.ZeroProbabilityRefusedAsWritten | src/components/organisms/DealForm.jsx:38 | editing a deal whose probability is 0 loads a form the probability rule refuses |
| DealForm.StoredProbabilityAccepted | src/components/organisms/DealForm.jsx:69-72 | with the probability loaded as text, every stored probability in [0, 100], 0 included, passes the rule |
| ActivityForm.OrBlank | src/components/organisms/ActivityForm.jsx:54-55 | `x \|\| ""`: a truthy value is kept, a falsy one becomes `""` |
| ActivityForm.Defaults | src/components/organisms/ActivityForm.jsx:46-62 | a new form is a 30-minute call of medium priority, linked to the preselected contact and deal, every other field empty |
| ActivityForm.Check | src/components/organisms/ActivityForm.jsx:106-131 | type and date fail exactly when empty; the subject exactly when blank; the time exactly when empty for a call or meeting; a given duration exactly when not a number or below 1; a given follow-up date exactly when it sorts before the activity date; other fields never fail |
| ActivityForm.Validate | src/components/organisms/ActivityForm.jsx:106-135 | `validateForm`: an entry exactly for each failing field, each a truthy message |
| ActivityForm.Coerce | src/components/organisms/ActivityForm.jsx:154-156 | `x ? parseInt(x) : null` handed on as a number or `null` |
| ActivityForm.Submit | src/components/organisms/ActivityForm.jsx:148-157 | the submitted activity: type, subject, description, outcome, attendees, follow-up actions, priority, location and notes as the form shows them; references and duration parsed with empty ones `null`; no date exactly when the date is empty, otherwise the date joined to the time with `T` when a time is set and the date alone without; the follow-up date as shown, or none exactly when it is empty |
| ActivityForm.ValidIff | src/components/organisms/ActivityForm.jsx:106-135 | the form passes exactly when it has a type, a non-blank subject and a date, a time for calls and meetings, a duration of at least 1 if any, and a follow-up date not before the activity date if any |
| ActivityForm.TimeOnlyForCallsAndMeetings | src/components/organisms/ActivityForm.jsx:121-123 | an email or note without a time passes the time rule |
| ActivityForm.ValidFormStoresPositiveDuration | src/components/organisms/ActivityForm.jsx:125-159 | an activity stored from a valid form has no duration or one of at least 1 |
| ActivityForm.DefaultsErrors | src/components/organisms/ActivityForm.jsx:46-135 | a fresh form is refused for exactly the subject, the date and the time |
| ActivityForm.UntouchedCallErrors | src/components/organisms/ActivityForm.jsx:106-135 | an untouched 30-minute call is refused for subject, date and time but not for type, duration or follow-up date |
| WorkflowForm.ActiveDefault | src/components/organisms/WorkflowForm.jsx:12 | `isActive ?? true`: a given flag is kept, only an absent one defaults, to active |
| WorkflowForm.Init | src/components/organisms/WorkflowForm.jsx:9-14 | blank, active and "contact_created" for a new workflow; the workflow's name, description, flag and trigger type when editing, "contact_created" standing in for a missing type; the trigger type is never empty |
| WorkflowForm.Validate | src/components/organisms/WorkflowForm.jsx:38-51 | a name error exactly when the name is blank, a trigger error exactly when the type is empty, nothing else |
| WorkflowForm.Change | src/components/organisms/WorkflowForm.jsx:25-36 | the checkbox writes its checked state, other inputs their value, and only the edited field's error is cleared |
| WorkflowForm.Submit | src/components/organisms/WorkflowForm.jsx:53-72 | nothing is sent from an invalid form; a valid one sends its fields with the trigger `{type, config: {}}` and empty actions, nodes and connections |
| WorkflowForm.SubmitIff | src/components/organisms/WorkflowForm.jsx:38-72 | the form submits exactly when the name is not blank and a trigger type is chosen |
| WorkflowForm.ResubmitKeepsFieldsDropsGraph | src/components/organisms/WorkflowForm.jsx:9-72 | resubmitting an edited workflow unchanged keeps name, description and flag but replaces its trigger and empties its node graph |
| WorkflowForm.NewFormCreatesActive | src/components/organisms/WorkflowForm.jsx:9-72 | a workflow created from a fresh form with a name is active, has that name and no nodes |
| EmailBuilder.SpliceIndex | src/components/organisms/EmailBuilder.jsx:34 | where `splice(start, …)` acts on a list: within bounds for every start, the start itself when in range, clamped to the end when past it, counted from the end when negative |
| EmailBuilder.InsertAt | src/components/organisms/EmailBuilder.jsx:33-34 | `splice(k, 0, x)`: one longer, `x` at `k`, the elements before `k` kept and those after shifted by one |
| EmailBuilder.RemoveInserted | src/components/organisms/EmailBuilder.jsx:44-45 | taking out what was just inserted at the same place gives the list back |
| EmailBuilder.InsertRemoved | src/components/organisms/EmailBuilder.jsx:44-45 | inserting back what was just taken out, where it was, gives the list back |
| EmailBuilder.Move | src/components/organisms/EmailBuilder.jsx:43-45 | the reorder is a permutation that puts the moved block at the target index and keeps the other blocks in their relative order |
| EmailBuilder.NewBlock | src/components/organisms/EmailBuilder.jsx:24-31 | a toolbar item `toolbar-<type>` creates a block of that type under the fresh id, with the text defaults for text and the image defaults otherwise |
| EmailBuilder.HandleDragEnd | src/components/organisms/EmailBuilder.jsx:17-49 | a drop outside any target, or between other areas, changes nothing; a toolbar drop inserts the new block at the drop index and selects it; a canvas drop permutes the blocks, putting the dragged one at the target with the others in their relative order, and keeps the selection; settings never change |
| EmailBuilder.UpdateBlock | src/components/organisms/EmailBuilder.jsx:51-56 | every block keeps its place, id and type; blocks with the id get their data merged with the new data winning; others are unchanged |
| EmailBuilder.DeleteBlock | src/components/organisms/EmailBuilder.jsx:58-64 | no block with the id remains; every other block keeps its multiplicity and none is added; the selection is cleared exactly when it was that block |
| EmailBuilder.UpdateSettings | src/components/organisms/EmailBuilder.jsx:66-68 | settings merged with the new keys winning and the old keys surviving; blocks and selection untouched |
| EmailBuilder.Save | src/components/organisms/EmailBuilder.jsx:70-76 | refused with "Please add at least one block to your email" exactly when there is no block; otherwise the content is handed on unchanged |
| EmailBuilder.SelectedBlock | src/components/organisms/EmailBuilder.jsx:78 | `find` by the selected id: none exactly when nothing is selected or no block has the id; otherwise the first block with it |
| EmailBuilder.DropSelectsNewBlock | src/components/organisms/EmailBuilder.jsx:17-78 | after a toolbar drop under a fresh id the selected block is the new block, and the email can be saved |
| EmailBuilder.DeleteUndoesDrop | src/components/organisms/EmailBuilder.jsx:17-64 | deleting a freshly dropped block restores the content and clears the selection |
| EmailBuilder.FilterDropsOne | src/components/organisms/EmailBuilder.jsx:59 | filtering out the one failing element leaves the others in order |
| EmailBuilder.MoveAndBack | src/components/organisms/EmailBuilder.jsx:41-48 | dragging a block from `i` to `j` and back restores the editor |
| EmailBuilder.UpdateBlockIdempotent | src/components/organisms/EmailBuilder.jsx:51-56 | merging the same data into a block twice is merging it once |
| EmailBuilder.DeleteBlockKeepsOrder | src/components/organisms/EmailBuilder.jsx:59 | deleting keeps block order: the blocks of two runs laid end to end are deleted from each run separately |
| TextBlock.Initial | src/components/organisms/TextBlock.jsx:4-5 | a block starts out of editing with the buffer holding its content |
| TextBlock.Commit | src/components/organisms/TextBlock.jsx:20-25 | `handleBlur`: editing ends; something is emitted exactly when the trimmed buffer differs from the content, namely the trimmed buffer, or the placeholder when the buffer is blank |
| TextBlock.Handle | src/components/organisms/TextBlock.jsx:15-35 | double-click opens the buffer on the content; typing edits the buffer; blur and plain Enter commit; Escape abandons the edit; Shift+Enter and other keys change nothing |
| TextBlock.EmittedIsTrimmed | src/components/organisms/TextBlock.jsx:22-23 | whatever a commit emits is non-empty and already trimmed |
| TextBlock.CommitSettles | src/components/organisms/TextBlock.jsx:22-23 | once the block holds what a non-blank buffer emitted, committing the same buffer again emits nothing |
| TextBlock.OpenThenEscape | src/components/organisms/TextBlock.jsx:15-35 | opening the editor and pressing Escape returns to the starting state and emits nothing |
| TextBlock.ShiftEnterKeepsEditing | src/components/organisms/TextBlock.jsx:27-35 | Shift+Enter is not a commit |
| ImageBlock.Initial | src/components/organisms/ImageBlock.jsx:7-8 | a block starts out of editing with the URL buffer holding the stored image |
| ImageBlock.SaveUrl | src/components/organisms/ImageBlock.jsx:17-20 | `handleUrlSave`: editing ends and the trimmed URL is emitted, empty exactly when the buffer is blank |
| ImageBlock.CancelUrl | src/components/organisms/ImageBlock.jsx:22-25 | `handleUrlCancel`: back to the starting state, nothing emitted |
| ImageBlock.Handle | src/components/organisms/ImageBlock.jsx:10-159 | with the editor's clicks kept from the placeholder: the placeholder opens an empty editor only without an image; Edit opens it on the stored URL; the Save button acts only on a non-blank URL; Enter saves regardless; Cancel and Escape restore; a click into the field changes nothing; Remove emits an empty `src` |
| ImageBlock.Justify | src/components/organisms/ImageBlock.jsx:35-45 | `flex-start` exactly for left, `flex-end` exactly for right, `center` otherwise |
| ImageBlock.SaveButtonVersusEnter | src/components/organisms/ImageBlock.jsx:27-144 | the Save button never emits an empty `src`, while Enter on a blank URL emits one |
| ImageBlock.TypeThenSaveOrCancel | src/components/organisms/ImageBlock.jsx:17-33 | typing a URL then Enter emits it trimmed; Escape instead emits nothing and restores the starting state |
| ImageBlock.HandleAsWritten | src/components/organisms/ImageBlock.jsx:10-159 | as the component runs it: a Save, Cancel or field click inside the editor of a block without an image also runs the placeholder's handler, so the editor stays open with an empty field; every other event as `Handle` |
| ImageBlock.NewImageHiddenAfterClickAsWritten | src/components/organisms/ImageBlock.jsx:27-159 | as written, a click on Save on a new block hands the URL on but keeps the editor open, so the image is not shown after a click on Save; Cancel keeps the editor open; a click into the field wipes it; Enter in the field, which involves no click, saves and shows the image |
| ImageBlock.NewImageShows | src/components/organisms/ImageBlock.jsx:57-159 | with the clicks kept apart, saving a non-blank URL on a new block shows the image, Cancel closes the editor and a click into the field keeps the typed URL |
| WorkflowNode.Clamp | src/components/organisms/WorkflowNode.jsx:40 | `Math.max(0, v)`: never negative, never below `v`, `v` itself when non-negative and 0 when negative |
| WorkflowNode.Handle | src/components/organisms/WorkflowNode.jsx:24-45 | mouse-down off the node's buttons starts a drag with the grab offset and selects the node; a move while dragging reports the pointer minus the offset, clamped at 0; a move while idle and mouse-up report nothing; mouse-up ends the drag |
| WorkflowNode.DragFollowsPointer | src/components/organisms/WorkflowNode.jsx:24-41 | grabbing a node and moving the pointer by `(dx, dy)` moves the node by the same amount, stopped at the canvas edge |
| WorkflowNode.NoMoveAfterRelease | src/components/organisms/WorkflowNode.jsx:35-45 | after mouse-up no movement is reported |
| WorkflowBuilder.Open | src/components/organisms/WorkflowBuilder.jsx:10-15 | the builder starts on the workflow's nodes, connections, name and description (all empty for a new one) with nothing selected |
| WorkflowBuilder.AddNode | src/components/organisms/WorkflowBuilder.jsx:36-46 | one node appended after the existing ones, with the fresh id, the given type and subtype, an empty config and both coordinates `100 + 50·(nodes already present)`; connections and selection unchanged |
| WorkflowBuilder.UpdateNode | src/components/organisms/WorkflowBuilder.jsx:48-52 | the list keeps its length, order, ids, types and subtypes; nodes with other ids are untouched; the matching node takes each supplied coordinate and config and keeps each one not supplied |
| WorkflowBuilder.DragNode | src/components/organisms/WorkflowBuilder.jsx:70-72 | the dragged node gets exactly the reported position; every other node is unchanged |
| WorkflowBuilder.ConfigChange | src/components/organisms/WorkflowBuilder.jsx:279-284 | with no node selected, or none having the selected id, nothing changes; otherwise every node with the selected id gets the shown node's config with the key set to the value, and nothing else changes |
| WorkflowBuilder.FirstNode | src/components/organisms/WorkflowBuilder.jsx:259 | `find` by id: none exactly when no node has the id; otherwise the first node with the id |
| WorkflowBuilder.DeleteNode | src/components/organisms/WorkflowBuilder.jsx:54-59 | no node with the id and no connection into or out of it remains; every other node keeps its multiplicity and every other connection survives; nothing is added; the selection is kept |
| WorkflowBuilder.Connect | src/components/organisms/WorkflowBuilder.jsx:61-68 | afterwards the edge is present; an edge already present changes nothing, a new one is appended last; a duplicate-free edge list stays duplicate-free |
| WorkflowBuilder.CanvasClick | src/components/organisms/WorkflowBuilder.jsx:74-78 | a click on the bare canvas clears the selection and changes nothing else; a click elsewhere changes nothing |
| WorkflowBuilder.FirstTrigger | src/components/organisms/WorkflowBuilder.jsx:92 | `find` of a trigger node: none exactly when the canvas has no trigger node, otherwise the first one |
| WorkflowBuilder.TriggerOf | src/components/organisms/WorkflowBuilder.jsx:92 | the saved trigger is the canvas's first trigger node, or the bare `contact_created` trigger only when there is no trigger node |
| WorkflowBuilder.ActionsOf | src/components/organisms/WorkflowBuilder.jsx:93-96 | one saved action per action node on the canvas |
| WorkflowBuilder.Save | src/components/organisms/WorkflowBuilder.jsx:80-100 | refused with "Please enter a workflow name" exactly when the name is blank; otherwise the patch carries the name, description, canvas, derived trigger and actions, and the edited workflow's id and active flag (none for a new one) |
| WorkflowBuilder.AddActionAppendsAction | src/components/organisms/WorkflowBuilder.jsx:36-46 | adding an action node appends exactly its `{ type, config }` to the actions a save derives |
| WorkflowBuilder.AddNodeKeepsTrigger | src/components/organisms/WorkflowBuilder.jsx:36-46 | adding a node never changes a trigger the canvas already has |
| WorkflowBuilder.ConnectIdempotent | src/components/organisms/WorkflowBuilder.jsx:61-68 | connecting the same pair twice is connecting it once |
| WorkflowBuilder.DeleteThenConnectOthers | src/components/organisms/WorkflowBuilder.jsx:54-68 | after a node is deleted, connecting two other nodes cannot bring back an edge that touches it |
| WorkflowBuilder.SaveThenUpdate | src/components/organisms/WorkflowBuilder.jsx:80-100 | a saved builder sent to the store as an update leaves the stored workflow with its id and the builder's canvas, trigger and actions |
| WorkflowBuilder.ActionsOfConcat | src/components/organisms/WorkflowBuilder.jsx:93-96 | the actions of two runs of nodes laid end to end are the first run's actions followed by the second's |
| WorkflowBuilder.ActionsOfOne | src/components/organisms/WorkflowBuilder.jsx:93-96 | an action node gives exactly `{ type: subType, config }`; any other node gives nothing |
| WorkflowBuilder.TriggerIsEarliest | src/components/organisms/WorkflowBuilder.jsx:92 | the saved trigger is the earliest trigger node on the canvas |
| WorkflowBuilder.UpdateNodeIdempotent | src/components/organisms/WorkflowBuilder.jsx:48-52 | applying the same update twice is applying it once |
| WorkflowBuilder.ConfigChangeReadsBack | src/components/organisms/WorkflowBuilder.jsx:279-284 | after a change the selected node's config is its old config with the key set to the value |
| WorkflowBuilder.DeleteNodeKeepsOrder | src/components/organisms/WorkflowBuilder.jsx:55 | deleting keeps node order: the survivors of two runs laid end to end are those of the first run followed by those of the second |
| WorkflowBuilder.DeleteNodeKeepsConnectionOrder | src/components/organisms/WorkflowBuilder.jsx:56-58 | deleting keeps connection order in the same way |
| WorkflowsPage.Filtered | src/components/pages/WorkflowsPage.jsx:159-166 | a workflow is shown exactly when it is in the list, its lower-cased name or description contains the lower-cased search term, and the status filter is "all" or agrees with its flag |
| WorkflowsPage.MatchesSearch | src/components/pages/WorkflowsPage.jsx:160-161 | the lower-cased search term occurs in the lower-cased name or in the lower-cased description |
| WorkflowsPage.MatchesStatus | src/components/pages/WorkflowsPage.jsx:162-164 | the filter is "all", or "active" for an active workflow, or "inactive" for an inactive one; any other filter value matches nothing |
| WorkflowsPage.Ids | src/components/pages/WorkflowsPage.jsx:172 | the shown rows' ids, one per row, in row order |
| WorkflowsPage.Toggle | src/components/pages/WorkflowsPage.jsx:176-182 | the clicked id becomes selected exactly when it was not; no other id changes membership; a newly selected id is appended last |
| WorkflowsPage.SelectAll | src/components/pages/WorkflowsPage.jsx:168-174 | clears the selection when its size equals the number of shown rows, otherwise selects exactly the shown rows' ids; the list and filters are unchanged |
| WorkflowsPage.SetOne | src/components/pages/WorkflowsPage.jsx:130-143 | an id with no workflow on the page changes nothing; a failed update leaves the store as it was |
| WorkflowsPage.SetEach | src/components/pages/WorkflowsPage.jsx:130-143 | an empty selection leaves the store as it was |
| WorkflowsPage.Finish | src/components/pages/WorkflowsPage.jsx:152-156 | after success the selection is cleared, the list reloaded from the store and the success notice shown; after a failure the page is as it was and "Failed to perform bulk action" is shown |
| WorkflowsPage.BulkAction | src/components/pages/WorkflowsPage.jsx:122-157 | with nothing selected only the warning "Please select workflows first" is shown; a declined delete changes nothing; an unknown action only clears the selection and reloads |
| WorkflowsPage.ToggleStatus | src/components/pages/WorkflowsPage.jsx:109-120 | succeeds exactly when the store holds the workflow, which then becomes the page's copy with its flag flipped and stamped; a failure leaves the store as it was |
| WorkflowsPage.AsPatch | src/components/pages/WorkflowsPage.jsx:68-76 | the form's data sent as an update carries its name, flag and nodes and never an id, execution count, history or creation time |
| WorkflowsPage.Save | src/components/pages/WorkflowsPage.jsx:68-83 | an edit updates the workflow being edited; otherwise a workflow is created |
| WorkflowsPage.ToggleTwice | src/components/pages/WorkflowsPage.jsx:176-182 | toggling an id twice restores every id's membership, and restores the selection exactly when the id was unselected |
| WorkflowsPage.SelectAllTwice | src/components/pages/WorkflowsPage.jsx:168-174 | from a selection of a different size, select-all selects the shown rows and a second press clears them |
| WorkflowsPage.SetEachFrom | src/components/pages/WorkflowsPage.jsx:129-143 | the bulk activate or deactivate loop over a page that matches the store succeeds and leaves every handled workflow with the flag set and stamped when it changed |
| WorkflowsPage.BulkSetsSelected | src/components/pages/WorkflowsPage.jsx:122-157 | bulk activate or deactivate on a page showing the store succeeds, clears the selection, sets the flag of every selected workflow and leaves every other workflow untouched |
| WorkflowsPage.DeleteEach | src/components/pages/WorkflowsPage.jsx:145-150 | the bulk delete loop: no ids leave the store as it was; a first id the store lacks stops it with "Workflow not found" and nothing removed; on success one workflow is gone per id, on failure fewer; no workflow is ever added and the id counter does not move |
| WorkflowsPage.DeleteOne | src/components/pages/WorkflowsPage.jsx:147-149 | deleting a present id succeeds, removes it, keeps ids unique and keeps every other workflow |
| WorkflowsPage.DeleteEachRemoves | src/components/pages/WorkflowsPage.jsx:145-150 | a bulk delete of distinct stored ids succeeds, removes each of them, keeps every unselected workflow and adds nothing |
| WorkflowsPage.QuickSaveClearsGraph | src/components/pages/WorkflowsPage.jsx:68-76 | saving the quick form over a workflow drawn in the builder keeps its id but empties its nodes and connections, because the form sends empty ones |
| EsModules.FirstDuplicate | src/services/api/contactService.js:57-69 | none exactly when no name is exported twice; otherwise a name exported at two positions |
| EsModules.FirstMissing | src/components/pages/WorkflowsPage.jsx:15 | none exactly when every imported name is exported; otherwise an imported name the module does not export |
| EsModules.Load | src/components/pages/WorkflowsPage.jsx:15 | a module loads exactly when the module it imports exports no name twice and exports every name it imports; a failure names the offending binding |
| EsModules.ContactModuleFailsAsWritten | src/services/api/contactService.js:57-69 | as written the contact module exports `delete_` twice, so neither the contacts page nor the analytics service loads |
| EsModules.ContactModuleLoads | src/services/api/contactService.js:8-67 | without the second export the contact module loads for both of its importers |
| EsModules.WorkflowsPageFailsAsWritten | src/components/pages/WorkflowsPage.jsx:15 | as written the workflows page imports a `workflowService` binding the workflow module does not export, so the page does not load |
| EsModules.WorkflowsPageLoads | src/components/pages/WorkflowsPage.jsx:15-148 | imported as a namespace, the workflow module loads and provides every function the page calls |
| ContactsPage.Initial | src/components/pages/ContactsPage.jsx:17-43 | the page starts with no contacts, nothing selected, the bulk bar hidden, both filters empty and the list sorted by name ascending |
| ContactsPage.CompanyName | src/components/pages/ContactsPage.jsx:101-102 | the sort's company text: a non-empty name belongs to a company with the contact's company id; a contact without a company sorts as "" |
| ContactsPage.Visible | src/components/pages/ContactsPage.jsx:72-121 | the shown list holds exactly the contacts passing the search (skipped for a blank query), lifecycle and company filters, each as often as in the list, ordered ascending or descending by the chosen column's lower-cased key |
| ContactsPage.MatchesSearch | src/components/pages/ContactsPage.jsx:76-83 | the lower-cased query occurs in the lower-cased "first last" name, in the lower-cased email, or in the phone as typed |
| ContactsPage.MatchesFilters | src/components/pages/ContactsPage.jsx:85-93 | a set stage filter keeps only contacts in that stage, and a set company filter only contacts whose company id is `parseInt` of it, so a contact without a company never passes it |
| ContactsPage.SortKey | src/components/pages/ContactsPage.jsx:95-111 | the compared value: the lower-cased full name for the name column, the lower-cased name of the first matching company ("" without one) for the company column, and the lower-cased field otherwise |
| ContactsPage.ClearFilters | src/components/pages/ContactsPage.jsx:135-141 | both filters and the search are emptied; the contacts, selection and sort are unchanged |
| ContactsPage.Select | src/components/pages/ContactsPage.jsx:198-207 | checking a row appends its id; unchecking removes every copy of it and keeps the other ids; nothing else enters the selection; the bulk bar shows exactly while something is selected |
| ContactsPage.SelectAll | src/components/pages/ContactsPage.jsx:209-218 | checking selects exactly the shown rows' ids in order and shows the bulk bar; unchecking clears the selection and hides the bar |
| ContactsPage.DeleteAsWritten | src/components/pages/ContactsPage.jsx:159-171 | the delete as the page calls it leaves page and store unchanged, confirmed or not |
| ContactsPage.DeleteContact | src/components/pages/ContactsPage.jsx:159-171 | a declined confirmation or a failed delete changes nothing; otherwise the store deletes the contact and the page drops every row with that id |
| ContactsPage.BulkDelete | src/components/pages/ContactsPage.jsx:220-234 | after a confirmed, successful bulk delete no selected contact remains, every unselected one does, nothing is added, and the selection and bar are cleared; otherwise nothing changes |
| ContactsPage.Replacement | src/components/pages/ContactsPage.jsx:245-248 | a contact is replaced by an updated contact with its id when the reply has one, and otherwise kept |
| ContactsPage.BulkLifecycle | src/components/pages/ContactsPage.jsx:236-255 | an empty stage, a declined confirmation or a failed call changes nothing; otherwise every row keeps its place and id and is either unchanged or taken from the reply, and the selection and bar are cleared |
| ContactsPage.SaveContact | src/components/pages/ContactsPage.jsx:173-190 | a new contact is created in the store and appended to the page; an edit updates the store and replaces exactly the rows with that id in place; a failed update is passed back as an error |
| ContactsPage.AsPatch | src/components/pages/ContactsPage.jsx:178 | the form sent as an update supplies every field, so the merged contact takes each form field, the company reference parsed from the form, and keeps only its id and creation time |
| ContactsPage.ClearedShowsAll | src/components/pages/ContactsPage.jsx:72-141 | once the filters and search are cleared, the shown list is a reordering of all the contacts |
| ContactsPage.SelectThenDeselect | src/components/pages/ContactsPage.jsx:198-207 | checking and then unchecking a row that was not selected restores the selection |
| ContactsPage.SelectAllThenBulkDelete | src/components/pages/ContactsPage.jsx:209-234 | selecting all and then deleting in bulk leaves no contact the current search and filters would show |
| ContactsPage.DeleteContactRemoves | src/components/pages/ContactsPage.jsx:159-171 | the corrected delete leaves the contact neither in the store nor on the page |
| ContactsPage.DeleteAsWrittenKeepsContact | src/components/pages/ContactsPage.jsx:159-171 | as written, a confirmed delete leaves the contact on the page |
| CustomPropertyFields.Shown | src/components/organisms/CustomPropertyFields.jsx:31 | a field shows the stored value when it is set and not the empty string, and the empty string otherwise |
| CustomPropertyFields.Chars | src/components/organisms/CustomPropertyFields.jsx:24 | spreading a string gives its characters, one one-letter string each, in order |
| CustomPropertyFields.Flip | src/components/organisms/CustomPropertyFields.jsx:21-25 | the option is in the new list exactly when it was not in the old one |
| CustomPropertyFields.FlipKeepsOthers | src/components/organisms/CustomPropertyFields.jsx:21-25 | flipping one option never changes whether another option is in the list |
| CustomPropertyFields.Toggle | src/components/organisms/CustomPropertyFields.jsx:17-28 | only the toggled property's value changes (and is set afterwards); the toggle throws exactly when the stored value is a non-empty string containing the option |
| CustomPropertyFields.RenderField | src/components/organisms/CustomPropertyFields.jsx:30-126 | a widget is drawn exactly for the five known types; the dropdown offers the empty choice and then the options; the multi-select draws one box per option, in order, ticked exactly when the current list holds it |
| CustomPropertyFields.Render | src/components/organisms/CustomPropertyFields.jsx:128-140 | nothing at all without definitions; otherwise at most one widget per definition, and, when every type is known, exactly each definition's widget in order |
| CustomPropertyFields.WidgetsConcat | src/components/organisms/CustomPropertyFields.jsx:137 | the widgets of two runs of definitions laid end to end are the first run's followed by the second's |
| CustomPropertyFields.WidgetsOne | src/components/organisms/CustomPropertyFields.jsx:137 | a lone definition gives its widget, or none when its type is unknown |
| CustomPropertyFields.WidgetsOfKnown | src/components/organisms/CustomPropertyFields.jsx:137 | when every type is known, the section holds each definition's widget, in order |
| CustomPropertyFields.WidgetsFromDefinitions | src/components/organisms/CustomPropertyFields.jsx:137 | every widget drawn is the widget of one of the definitions |
| CustomPropertyFields.ToggleFlips | src/components/organisms/CustomPropertyFields.jsx:17-28 | on a list or unset value, ticking a box flips that box and leaves every other box as it was |
| CustomPropertyFields.FlipTwice | src/components/organisms/CustomPropertyFields.jsx:21-25 | adding an absent option and then removing it gives the list back |
| CustomPropertyFields.ToggleTwiceRestores | src/components/organisms/CustomPropertyFields.jsx:17-28 | ticking an unticked box and then unticking it restores the values exactly |
| CustomPropertyFields.ToggleOnList | src/components/organisms/CustomPropertyFields.jsx:17-28 | on a list value the toggle replaces the list by its flip |
| CustomPropertyFields.NonListUnchecked | src/components/organisms/CustomPropertyFields.jsx:96-115 | a multi-select whose value is not a list draws every box unticked |
| CustomPropertyFields.StringValueCrashes | src/components/organisms/CustomPropertyFields.jsx:18-22 | a stored string containing the option makes the toggle throw |
| CustomPropertyManager.MatchName | src/components/organisms/CustomPropertyManager.jsx:63 | accepts a name exactly when it is an ASCII letter followed only by ASCII letters, digits and underscores |
| CustomPropertyManager.TrimKeepsOut | src/components/organisms/CustomPropertyManager.jsx:72 | trimming a line never introduces a character it did not have |
| CustomPropertyManager.Clean | src/components/organisms/CustomPropertyManager.jsx:72 | at most one option per line; every option is non-empty with no white space at either end; every non-blank line contributes its trimmed text; no option holds a line break when no line does |
| CustomPropertyManager.ParseOptions | src/components/organisms/CustomPropertyManager.jsx:69-74 | only a dropdown or a multi-select saves options, and each saved option is non-empty, trimmed and free of line breaks |
| CustomPropertyManager.Reset | src/components/organisms/CustomPropertyManager.jsx:119-131 | resetting empties the name and label, sets the type to text and the entity to contact, clears the required flag, the options and their text, leaves edit mode, hides the form and keeps the stored definitions |
| CustomPropertyManager.Edit | src/components/organisms/CustomPropertyManager.jsx:91-103 | editing opens the form on the definition: its name, label, type, entity type, required flag and options, with the options text the options joined by line breaks |
| CustomPropertyManager.Change | src/components/organisms/CustomPropertyManager.jsx:133-139 | a change sets exactly the named field: the checkbox its checked state, the other inputs their value |
| CustomPropertyManager.Submit | src/components/organisms/CustomPropertyManager.jsx:54-89 | a missing name or label, and then a name breaking the pattern, is refused with its message and nothing changes; a save that succeeds had a valid name and a label, is the store's update of the edited definition or the store's create of the form's draft with the matching message, and resets the form; a store refusal changes nothing |
| CustomPropertyManager.AsPatch | src/components/organisms/CustomPropertyManager.jsx:68-77 | `{ ...formData, options }` as an update supplies every field, so the merged definition takes each form field and the parsed options, and keeps only its id and creation time |
| CustomPropertyManager.Remove | src/components/organisms/CustomPropertyManager.jsx:105-117 | a declined confirmation does nothing; an unknown id reports "Failed to delete custom property"; a successful delete removes exactly one definition, keeps every definition with another id and changes nothing else on the screen |
| CustomPropertyManager.OptionsRoundTrip | src/components/organisms/CustomPropertyManager.jsx:72-101 | options already non-empty, trimmed and free of line breaks come back unchanged after being joined into the textarea and split again |
| CustomPropertyManager.CleanKeepsClean | src/components/organisms/CustomPropertyManager.jsx:72 | lines that are non-empty and trimmed pass through the cleaning untouched |
| CustomPropertyManager.OptionsStable | src/components/organisms/CustomPropertyManager.jsx:72-101 | saving the textarea's options a second time changes nothing |
| CustomPropertyManager.EditKeepsNamesUnique | src/components/organisms/CustomPropertyManager.jsx:54-89 | whatever the screen saves, the store keeps unique ids and no two definitions of one entity type with the same name |
| CustomPropertyManager.EditSaveKeepsOptions | src/components/organisms/CustomPropertyManager.jsx:91-103 | opening a definition for editing and saving it unchanged succeeds and keeps its options |
| CustomPropertyManager.CancelForgetsEdit | src/components/organisms/CustomPropertyManager.jsx:119-131 | cancelling after opening a definition forgets it: the form is as blank as when cancelling without one |
| CustomPropertyManager.SaveOwnFields | src/components/organisms/CustomPropertyManager.jsx:76-78 | sending a stored definition's own fields back to the store succeeds, and the definition then holds the options sent |
| CustomPropertyManager.RemoveDropsDefinition | src/components/organisms/CustomPropertyManager.jsx:105-117 | deleting a stored definition succeeds, leaves no definition with its id and keeps names and ids unique |
| KanbanBoard.Deals | src/components/organisms/KanbanBoard.jsx:129 | the deals a column's cards show, one per card, in card order |
| KanbanBoard.StageColor | src/components/organisms/KanbanBoard.jsx:47-57 | the grey column colour is given exactly to a stage that is not one of the five pipeline stages after "Prospect" |
| KanbanBoard.HeaderColor | src/components/organisms/KanbanBoard.jsx:59-69 | the grey header colour is given exactly to a stage that is not one of the five pipeline stages after "Prospect" |
| KanbanBoard.StageStats | src/components/organisms/KanbanBoard.jsx:29-36 | the count is the number of the stage's deals, zero exactly when no deal has the stage; the total is their summed value, non-negative when every value is |
| KanbanBoard.CardFor | src/components/organisms/KanbanBoard.jsx:17-23 | a card shows its deal, and the contact and company with the deal's ids when they exist; each is missing exactly when the id is absent or unmatched |
| KanbanBoard.ColumnFor | src/components/organisms/KanbanBoard.jsx:92-160 | a column holds the stage's deals in store order, each with its card, its header counts its cards, and the empty hint shows exactly when no deal has the stage and nothing is dragged over it |
| KanbanBoard.Columns | src/components/organisms/KanbanBoard.jsx:92-94 | one column per stage given, in that order |
| KanbanBoard.Board | src/components/organisms/KanbanBoard.jsx:92-94 | the board has one column per pipeline stage, in pipeline order |
| KanbanBoard.StageDealsKeepOrder | src/components/organisms/KanbanBoard.jsx:25-27 | a column keeps the store's order: the stage's deals of two stores laid end to end are the first store's and then the second's |
| KanbanBoard.ShownIffStage | src/components/organisms/KanbanBoard.jsx:92-129 | a stored deal shows in a column exactly when its stage is that column's |
| KanbanBoard.AtMostOneColumn | src/components/organisms/KanbanBoard.jsx:92-129 | no deal shows in two columns |
| KanbanBoard.UnlistedStageHidden | src/components/organisms/KanbanBoard.jsx:92-129 | a deal whose stage is not a pipeline stage shows in no column |
| KanbanBoard.StatsMatchAnalytics | src/components/organisms/KanbanBoard.jsx:29-36 | each column header's count and total equal the dashboard's figures for that stage |
| KanbanBoard.CountedIsStageTotal | src/components/organisms/KanbanBoard.jsx:92-107 | the header counts of the given stages add up to the number of deals in those stages |
| KanbanBoard.BoardCountsEveryDeal | src/components/organisms/KanbanBoard.jsx:92-107 | when every deal is in a pipeline stage, the header counts add up to the number of deals |
| KanbanBoard.ValuedIsStageValueTotal | src/components/organisms/KanbanBoard.jsx:92-107 | the header totals of the given stages add up to the dashboard's stage values for them |
| KanbanBoard.ColumnsValueEveryDeal | src/components/organisms/KanbanBoard.jsx:92-107 | over distinct stages that hold every deal, the header totals add up to the value of all the deals |
| KanbanBoard.BoardValuesEveryDeal | src/components/organisms/KanbanBoard.jsx:92-107 | when every deal is in a pipeline stage, the board's header totals add up to the value of all the deals |
| KanbanBoard.PipelineColors | src/components/organisms/KanbanBoard.jsx:47-69 | the six pipeline stages get the column and header colours of the switches, in board order |
| KanbanBoard.StageColorsDistinct | src/components/organisms/KanbanBoard.jsx:47-69 | no two pipeline stages share a column colour or a header colour |
| KanbanBoard.UnknownStageLikeProspect | src/components/organisms/KanbanBoard.jsx:47-69 | a stage outside the pipeline is drawn like "Prospect" |
| DealCard.ProbabilityTone | src/components/organisms/DealCard.jsx:24-29 | the band is "success" exactly from 80, "warning" exactly from 60 below 80, "info" exactly from 40 below 60, and "error" exactly below 40 |
| DealCard.ProbabilityColor | src/components/organisms/DealCard.jsx:24-29 | the probability badge depends on the probability only through its band |
| DealCard.StageColor | src/components/organisms/DealCard.jsx:31-41 | the grey badge is given exactly to a stage that is not one of the five pipeline stages after "Prospect" |
| DealCard.BandsMonotone | src/components/organisms/DealCard.jsx:24-29 | a higher probability never falls in a worse band |
| DealCard.BadgesDistinct | src/components/organisms/DealCard.jsx:24-29 | different bands draw different badges |
| DealCard.PipelineStageColors | src/components/organisms/DealCard.jsx:31-41 | the six pipeline stages get the badge classes of the switch, in board order |
| DealCard.StageColorsDistinct | src/components/organisms/DealCard.jsx:31-41 | no two pipeline stages share a badge |
| DealCard.UnknownStageLikeProspect | src/components/organisms/DealCard.jsx:31-41 | a stage outside the pipeline is drawn like "Prospect" |
| DealModal.StageColor | src/components/organisms/DealModal.jsx:38-48 | the grey badge is given exactly to a stage that is not one of the five pipeline stages after "Prospect" |
| DealModal.ProbabilityColor | src/components/organisms/DealModal.jsx:50-55 | the probability colour depends on the probability only through the card's band |
| DealModal.DealActivities | src/components/organisms/DealModal.jsx:63 | exactly the activities of the deal, each as often as in the list |
| DealModal.DealActivitiesKeepOrder | src/components/organisms/DealModal.jsx:63 | list order: two lists laid end to end give the first's activities of the deal followed by the second's |
| DealModal.Show | src/components/organisms/DealModal.jsx:57-267 | the dialog lists the deal's activities, shows the description section exactly when there is a description, shows the notes or "No notes added yet", and keeps the open tab |
| DealModal.RenderAsWritten | src/components/organisms/DealModal.jsx:63-65 | as written the dialog throws exactly when the deal is missing and the activity list is not empty; otherwise it draws nothing for a missing deal and the deal's view for a present one |
| DealModal.Render | src/components/organisms/DealModal.jsx:63-65 | with the guard first the dialog draws nothing exactly when the deal is missing, and otherwise the deal's view |
| DealModal.StageColorMatchesCard | src/components/organisms/DealModal.jsx:38-48 | the dialog's stage badge is the card's |
| DealModal.ProbabilityColorPrefixesCard | src/components/organisms/DealModal.jsx:50-55 | the dialog's probability colour is the text half of the card's badge |
| DealModal.SameActivitiesAsStore | src/components/organisms/DealModal.jsx:63 | the dialog lists the same activities as the store's lookup by deal, up to order |
| DealModal.MissingDealCrashes | src/components/organisms/DealModal.jsx:63-65 | for a missing deal and a non-empty activity list the written dialog throws where the guarded one draws nothing |
| DealModal.RendersAgreeOtherwise | src/components/organisms/DealModal.jsx:63-65 | whenever the written dialog does not throw it draws what the guarded one draws; with no activities the two always agree |
| ContactsTable.NextDirection | src/components/organisms/ContactsTable.jsx:27-30 | a header click asks for descending exactly when that column is already sorted ascending |
| ContactsTable.SortIcon | src/components/organisms/ContactsTable.jsx:32-35 | both chevrons exactly on an unsorted column, the up chevron exactly on the column sorted ascending, the down chevron exactly on the column sorted descending |
| ContactsTable.CompanyName | src/components/organisms/ContactsTable.jsx:22-25 | "No Company" when the contact has no company id or no company has it; otherwise the name of a company with that id |
| ContactsTable.SortClicks | src/components/organisms/ContactsTable.jsx:27-30 | two clicks on an ascending column come back to ascending; a click on another column always starts ascending |
| ContactsTable.ClickedHeaderShowsDirection | src/components/organisms/ContactsTable.jsx:27-35 | once a click is applied, the clicked header shows the new direction's chevron and every other header shows both |
| ContactsTable.SelectAllTicksHeader | src/components/organisms/ContactsTable.jsx:62-68 | select-all on the page ticks the header box whenever a row is shown, and clearing it unticks the box |
| ContactsTable.AllChecked | src/components/organisms/ContactsTable.jsx:65 | the header box is ticked exactly when as many ids are selected as rows are shown and at least one row is shown; it compares counts, not ids |
| ContactsTable.RowChecked | src/components/organisms/ContactsTable.jsx:132 | a row's box is ticked exactly when its id is among the selected ids |
| ContactsTable.SelectAllTicksRows | src/components/organisms/ContactsTable.jsx:132 | after select-all every shown row's box is ticked |
| ContactsTable.HeaderCountsOnly | src/components/organisms/ContactsTable.jsx:65 | the header box compares counts only: two selected ids that match no row tick it over two unticked rows |
| ContactsTable.CompanyNameMatchesPage | src/components/organisms/ContactsTable.jsx:22-25 | the table's company text is the page's company sort text when a company matches, and "No Company" otherwise |
| ContactsTable.FindTail | src/components/organisms/ContactsTable.jsx:23 | past a first company with another id, the lookup is the lookup of the rest |
| ContactModal.CompanyDetails | src/components/organisms/ContactModal.jsx:29-31 | a company from the list with the contact's company id, missing exactly when the id is absent or unmatched |
| ContactModal.ContactActivities | src/components/organisms/ContactModal.jsx:33 | exactly the activities of the contact, each as often as in the list |
| ContactModal.ContactActivitiesKeepOrder | src/components/organisms/ContactModal.jsx:33 | list order: two lists laid end to end give the first's activities of the contact followed by the second's |
| ContactModal.Render | src/components/organisms/ContactModal.jsx:22-41 | nothing exactly when the contact is missing; otherwise the contact's activities and company details |
| ContactModal.CompanyLineMatchesSection | src/components/organisms/ContactModal.jsx:24-149 | the company line names the company the section shows, and reads "No Company" exactly when the section is hidden |
| ContactModal.SameActivitiesAsStore | src/components/organisms/ContactModal.jsx:33 | the dialog lists exactly the store's lookup of the contact's activities, in the same order |
| LifecycleBadge.GetVariant | src/components/molecules/LifecycleBadge.jsx:5-16 | the lead, prospect and customer variants are chosen exactly for a stage that lower-cases to that word; a missing stage gets the default |
| LifecycleBadge.DisplayText | src/components/molecules/LifecycleBadge.jsx:18-21 | "Unknown" for a missing or empty stage; otherwise the stage with its first character raised and every other character lowered |
| LifecycleBadge.LowerUpperChar | src/components/molecules/LifecycleBadge.jsx:5-21 | lowering a raised character is lowering it |
| LifecycleBadge.VariantIgnoresCase | src/components/molecules/LifecycleBadge.jsx:5-16 | the stage lowered or raised picks the same variant |
| LifecycleBadge.TextKeepsVariant | src/components/molecules/LifecycleBadge.jsx:5-21 | the displayed text picks the stage's own variant |
| LifecycleBadge.TextIdempotent | src/components/molecules/LifecycleBadge.jsx:18-21 | formatting the displayed text again changes nothing |
| LifecycleBadge.LeadReadsAsItself | src/components/molecules/LifecycleBadge.jsx:5-21 | "Lead" reads as itself and gets the lead variant |
| LifecycleBadge.MissingStageUnknown | src/components/molecules/LifecycleBadge.jsx:5-21 | a missing stage reads "Unknown" in the default variant |

## Left out

- Timing and side effects: `async`, `delay` and `Promise.all` are not modelled; every store call is one state transition. Toasts become a `Notice` value. `window.confirm` becomes a boolean argument. `alert` becomes an error result. `console` output is dropped.
- Clock and fresh ids: `new Date().toISOString()` and the ids built from `Date.now()` are parameters (`now`, `freshId`), so the model assumes nothing about them beyond what is passed in.
- Seed data: the JSON seed files are not part of this model; each store starts from an arbitrary sequence with unique ids.
- Floating point: percentages and rates are exact `real` quotients. `parseFloat` and `Number` are read over integers only, so fractions, exponents, hexadecimal and `NaN` arithmetic are not modelled.
- CampaignService.GetMetrics: the open and click rates are the exact quotients, without `Math.round(x * 10) / 10`.
- CampaignService.Init: requires a non-empty seed, because `Math.max` over no ids is `-Infinity` and the counter would not be an integer.
- AnalyticsService.GetAnalytics: the lifecycle percentages (`toFixed(1)`) are not computed. Month labels built from `Date` are parameters. The closed-this-month figures have no contract beyond their count and sum definitions.
- AnalyticsService.MonthEntry: the month test reads the `YYYY-MM` prefix of the ISO `createdAt` instead of going through `Date` and the local time zone; the contract states the entry's counts only as bounds (won deals among created deals among all deals), not as exact figures, and says nothing of the revenue.
- Formatting: `Intl.NumberFormat` currency text, `date-fns` dates and the execution-history display are not modelled.
- Text: case conversion and white space are ASCII only. The two regular expressions (the e-mail shape and the property-name pattern) are character predicates.
- Rendering: DOM listeners (Escape handlers, `mousemove`/`mouseup` on `document`), refs, focus and textarea sizing, react-beautiful-dnd internals, and Tailwind classes other than the colour and icon tables are not modelled.
- Presentational files: the atoms, `ActionButton`, `FilterSelect`, `Header`, `Sidebar`, `ContactFilters`, `EmailPreview`, the loading, error and empty views, the other pages, the custom-property context and the execution-history view are not part of this model.
- Js.RefOf: a truthy string without digits gives `NaN` in JavaScript. Here it is `null`, because `NaN` equals nothing and every lookup treats the two alike.
- DealService.KeepUnlessGiven: a truthy but unparseable value or probability keeps the stored number, where the source would store `NaN`.
- EmailBuilder.HandleDragEnd: a canvas drag whose source index is past the end of the list changes nothing; the source's `splice` would insert `undefined`.
- ActivityForm.Submit: the `Date` conversions to UTC ISO strings are not modelled: that of the joined local date and time, that of a date alone, and that of the follow-up date (`new Date(followUpDate).toISOString()`). The contract states the dates as the form holds them: the date joined to the time, or alone, and the follow-up date as shown. The edit-mode load, which goes through `Date`, is not modelled either.
- ContactsPage.BulkDelete: whether the bulk call succeeded is an argument. As written the contact module does not load at all (see the findings). Even with that fixed it exports no `bulkDelete`, so the call would always throw and the page would report failure.
- ContactsPage.BulkLifecycle: the bulk call's reply is an argument. As written the contact module does not load at all (see the findings). Even with that fixed it exports no `bulkUpdateLifecycleStage`, so the call would always throw (`None`).
- WorkflowsPage: the page's import fails as written (see the findings). The page is modelled as if it imported the module as a namespace, with its `delete` calls read as the module's `delete_`.
- ImageBlock: `Button.jsx` is not part of this model. Its `disabled` is taken to reach the native button, so a disabled Save button fires no click and nothing bubbles from it.
- Field names that are Dafny keywords or clash with a type are renamed: `type` is `kind`, `label` is `labelText`, and the campaign's `opened` is `openedCount`.
- CustomPropertyManager.Clean: the contract does not state that every option comes from some line of the textarea, only the other direction, the order-preserving round trip (`OptionsRoundTrip`) and idempotence (`OptionsStable`).

## Findings

| source | as written | input that shows it | evidently intended | confidence | as-written member | corrected member |
|---|---|---|---|---|---|---|
| src/services/api/customPropertyService.js:110-118 | the duplicate test in `update` compares stored definitions with the patch's own `name` and `entityType`, so a patch that leaves either out is compared with `undefined` | contact properties `department` (Id 1) and `skills` (Id 3); `update(3, { name: "department" })` succeeds and leaves two contact properties named `department` | test the merged definition's name and entity type | not executed | CustomPropertyService.UpdateAdmitsDuplicate | CustomPropertyService.UpdateCheckedKeepsValid |
| src/components/pages/ContactsPage.jsx:159-171 | once the contact module loads (see the next finding), `handleDeleteContact` still calls `contactService.delete`, but the module exports only `delete_`, so the call throws, the failure notice shows and the contact stays | any confirmed delete, for example of the contact with Id 1 | call `contactService.delete_` | not executed | ContactsPage.DeleteAsWrittenKeepsContact | ContactsPage.DeleteContactRemoves |
| src/services/api/contactService.js:57-69 | `delete_` is exported by its declaration and again by `export { delete_ }`, a duplicate export, which is a syntax error; the module, the contacts page and the analytics service that import it, and through the page the whole app, never load | loading the app at all | drop the closing `export { delete_ }` | not executed | EsModules.ContactModuleFailsAsWritten | EsModules.ContactModuleLoads |
| src/components/pages/WorkflowsPage.jsx:15 | `import { workflowService } from '@/services/api/workflowService'` names a binding the module does not export (it exports `getAll`, `create`, `update`, `delete_` and others), so the page fails to link and never loads | loading the workflows page | `import * as workflowService`, with `delete` calls made to `delete_` | not executed | EsModules.WorkflowsPageFailsAsWritten | EsModules.WorkflowsPageLoads |
| src/components/organisms/ImageBlock.jsx:114-159 | the URL editor is drawn inside the placeholder whose `onClick` is `handleImageClick`, so on a block without an image every click on Save, Cancel or the field also reopens the editor with an empty field; the saved URL is handed on but the image, which needs `!isEditing`, is not shown after a click on Save (Enter in the field saves without a click and does show it) | a new image block: type "https://x/a.png", click Save | stop the editor's clicks from reaching the placeholder | not executed | ImageBlock.NewImageHiddenAfterClickAsWritten | ImageBlock.NewImageShows |
| src/components/organisms/DealForm.jsx:38 | the edit-mode load writes `deal.probability \|\| ''`, so a probability of 0 loads as the empty string, which `validateForm` refuses | editing a stored deal whose probability is 0 (a lost deal); submitting unchanged shows "Probability must be between 0 and 100" | load `String(deal.probability)`, the text the input would hold, so that 0 loads as "0" (the rule's `!formData.probability` would still refuse a numeric 0) | not executed | DealForm.ZeroProbabilityRefusedAsWritten | DealForm.StoredProbabilityAccepted |
| src/components/organisms/DealModal.jsx:63-65 | `deal.Id` is read to filter the activities before the `if (!deal) return null` guard | rendering the dialog with `deal = null` and a non-empty activity list throws "Cannot read properties of null" instead of drawing nothing (with no activities the filter never reads `deal.Id`) | run the guard before reading the deal | not executed | DealModal.MissingDealCrashes | DealModal.Render |

For the first finding the screen in `CustomPropertyManager` always sends the name and entity type, so both definitions agree on every update it makes (`CustomPropertyManager.EditKeepsNamesUnique`), and `CustomPropertyService.UpdateChecked` states the intended test for every other caller.

=== FILE: activity_form.dfy ===
/** The activity form: defaults (with a contact or deal preselected by the caller),
    `validateForm`'s rules, which fields calls and meetings require, and the coercions
    `handleSubmit` applies before handing the activity to the store. */
module ActivityForm {
  import opened Wrappers
  import opened Js
  import Text
  import Form
  import ActivityService

  /** The form's fields; `Kind` is the source's `type`. */
  datatype Field =
    | Kind | Subject | Description | ScheduledDate | ScheduledTime | Duration | Outcome
    | ContactId | DealId | Attendees | FollowUpActions | FollowUpDate | Priority | Location | Notes

  type Data = Form.Data<Field>

  const Fields: set<Field> := {Kind, Subject, Description, ScheduledDate, ScheduledTime, Duration, Outcome,
    ContactId, DealId, Attendees, FollowUpActions, FollowUpDate, Priority, Location, Notes}

  /** `x || ""`. */
  function OrBlank(x: Raw): (r: Raw)
    ensures Truthy(x) ==> r == x
    ensures !Truthy(x) ==> r == Str("")
  {
    if Truthy(x) then x else Str("")
  }

  /** A new form: a 30-minute call of medium priority, linked to the preselected contact
      and deal when the caller passes them, every other field empty. */
  function Defaults(preselectedContact: Raw, preselectedDeal: Raw): (d: Data)
    ensures d.Keys == Fields
    ensures d[Kind] == Str("call") && d[Duration] == Num(30) && d[Priority] == Str("medium")
    ensures RefOf(d[ContactId]) == RefOf(preselectedContact) && RefOf(d[DealId]) == RefOf(preselectedDeal)
    ensures forall f :: f in d && f !in {Kind, Duration, Priority, ContactId, DealId} ==> d[f] == Str("")
  {
    map[Kind := Str("call"), Subject := Str(""), Description := Str(""), ScheduledDate := Str(""),
        ScheduledTime := Str(""), Duration := Num(30), Outcome := Str(""),
        ContactId := OrBlank(preselectedContact), DealId := OrBlank(preselectedDeal),
        Attendees := Str(""), FollowUpActions := Str(""), FollowUpDate := Str(""),
        Priority := Str("medium"), Location := Str(""), Notes := Str("")]
  }

  /** `["call", "meeting"].includes(formData.type)`: the time, duration and attendees
      inputs are marked required exactly for calls and meetings. */
  predicate RequiresTimeAndDuration(d: Data) {
    Form.Get(d, Kind) == Str("call") || Form.Get(d, Kind) == Str("meeting")
  }

  /** The rule `validateForm` applies to one field. `isNaN(duration)` and `duration < 1`
      both coerce with `Number`; the follow-up date is compared with the activity date as
      strings, which orders `YYYY-MM-DD` dates by day. */
  function Check(d: Data, f: Field): (m: Option<string>)
    requires d.Keys == Fields
    ensures f == Kind ==> (m.Some? <==> !Truthy(d[Kind]))
    ensures f == Subject ==> (m.Some? <==> Text.AllSpace(Form.Shown(d, Subject)))
    ensures f == ScheduledDate ==> (m.Some? <==> !Truthy(d[ScheduledDate]))
    ensures f == ScheduledTime ==> (m.Some? <==> !Truthy(d[ScheduledTime]) && RequiresTimeAndDuration(d))
    ensures f == Duration ==> (m.Some? <==> Truthy(d[Duration]) && (ToNumber(d[Duration]).None? || ToNumber(d[Duration]).value < 1))
    ensures f == FollowUpDate ==>
      (m.Some? <==> Truthy(d[FollowUpDate]) && Text.LexLess(Form.Shown(d, FollowUpDate), Form.Shown(d, ScheduledDate)))
    ensures f !in {Kind, Subject, ScheduledDate, ScheduledTime, Duration, FollowUpDate} ==> m.None?
    ensures m.Some? ==> m.value != ""
  {
    match f
    case Kind => if !Truthy(d[Kind]) then Some("Activity type is required") else None
    case Subject =>
      Text.TrimEmptyIffBlank(Form.Shown(d, Subject));
      if Text.Trim(Form.Shown(d, Subject)) == "" then Some("Subject is required") else None
    case ScheduledDate => if !Truthy(d[ScheduledDate]) then Some("Date is required") else None
    case ScheduledTime =>
      if !Truthy(d[ScheduledTime]) && RequiresTimeAndDuration(d) then Some("Time is required for calls and meetings")
      else None
    case Duration =>
      var n := ToNumber(d[Duration]);
      if Truthy(d[Duration]) && (n.None? || n.value < 1) then Some("Duration must be a positive number") else None
    case FollowUpDate =>
      if Truthy(d[FollowUpDate]) && Text.LexLess(Form.Shown(d, FollowUpDate), Form.Shown(d, ScheduledDate))
      then Some("Follow-up date cannot be before activity date")
      else None
    case _ => None
  }

  /** `validateForm`: one message for each failing field. */
  function Validate(d: Data): (errors: Form.Errors<Field>)
    requires d.Keys == Fields
    ensures forall f :: f in errors <==> f in Fields && Check(d, f).Some?
    ensures forall f :: f in errors ==> Form.HasError(errors, f)
    ensures errors.Keys <= {Kind, Subject, ScheduledDate, ScheduledTime, Duration, FollowUpDate}
  {
    map f | f in Fields && Check(d, f).Some? :: Check(d, f).value
  }

  /** `x ? parseInt(x) : null`, handed on as a number or `null`. */
  function Coerce(x: Raw): (r: Raw)
    ensures ParseRaw(r) == RefOf(x)
  {
    match RefOf(x)
    case Some(n) => Num(n)
    case None => Missing
  }

  /** The activity `handleSubmit` hands to the store: references and duration parsed (empty
      ones null); the date joined with the time when both are set. The conversion of that
      local date-time to a UTC ISO string is not part of this model. */
  function Submit(d: Data): (a: ActivityService.Draft)
    requires d.Keys == Fields
    ensures ParseRaw(a.contactId) == RefOf(d[ContactId]) && ParseRaw(a.dealId) == RefOf(d[DealId])
    ensures ParseRaw(a.duration) == RefOf(d[Duration])
    ensures a.scheduledDate.None? <==> !Truthy(d[ScheduledDate])
    ensures a.followUpDate == "" <==> !Truthy(d[FollowUpDate])
    ensures Truthy(d[FollowUpDate]) ==> a.followUpDate == Form.Shown(d, FollowUpDate)
    ensures Truthy(d[ScheduledDate]) && Truthy(d[ScheduledTime]) ==>
      a.scheduledDate == Some(Form.Shown(d, ScheduledDate) + "T" + Form.Shown(d, ScheduledTime))
    ensures Truthy(d[ScheduledDate]) && !Truthy(d[ScheduledTime]) ==> a.scheduledDate == Some(Form.Shown(d, ScheduledDate))
    ensures a.kind == Form.Shown(d, Kind) && a.subject == Form.Shown(d, Subject)
    ensures a.description == Form.Shown(d, Description) && a.outcome == Form.Shown(d, Outcome)
    ensures a.attendees == Form.Shown(d, Attendees) && a.followUpActions == Form.Shown(d, FollowUpActions)
    ensures a.priority == Form.Shown(d, Priority) && a.location == Form.Shown(d, Location)
    ensures a.notes == Form.Shown(d, Notes)
  {
    var date := Form.Shown(d, ScheduledDate);
    var time := Form.Shown(d, ScheduledTime);
    ActivityService.Draft(
      Form.Shown(d, Kind), Form.Shown(d, Subject), Form.Shown(d, Description),
      if !Truthy(d[ScheduledDate]) then None
      else if Truthy(d[ScheduledTime]) then Some(date + "T" + time)
      else Some(date),
      Coerce(d[Duration]), Form.Shown(d, Outcome), Coerce(d[ContactId]), Coerce(d[DealId]),
      Form.Shown(d, Attendees), Form.Shown(d, FollowUpActions),
      if Truthy(d[FollowUpDate]) then (assert Form.Shown(d, FollowUpDate) != ""; Form.Shown(d, FollowUpDate)) else "",
      Form.Shown(d, Priority), Form.Shown(d, Location), Form.Shown(d, Notes))
  }

  // ---------------------------------------------------------------- properties

  /** The form is valid exactly when it has a type, a non-blank subject and a date; a call
      or meeting also has a time; a given duration is a number of at least 1; and a given
      follow-up date does not sort before the activity date. */
  lemma ValidIff(d: Data)
    requires d.Keys == Fields
    ensures Form.NoErrors(Validate(d)) <==>
      && Truthy(d[Kind])
      && !Text.AllSpace(Form.Shown(d, Subject))
      && Truthy(d[ScheduledDate])
      && (RequiresTimeAndDuration(d) ==> Truthy(d[ScheduledTime]))
      && (Truthy(d[Duration]) ==> ToNumber(d[Duration]).Some? && ToNumber(d[Duration]).value >= 1)
      && (Truthy(d[FollowUpDate]) ==> !Text.LexLess(Form.Shown(d, FollowUpDate), Form.Shown(d, ScheduledDate)))
  {
    var e := Validate(d);
    if !Form.NoErrors(e) {
      var k :| k in e;
    } else {
      assert Kind !in e && Subject !in e && ScheduledDate !in e;
      assert ScheduledTime !in e && Duration !in e && FollowUpDate !in e;
    }
  }

  /** Time is demanded only of calls and meetings: an email or a note without a time passes
      that rule. */
  lemma TimeOnlyForCallsAndMeetings(d: Data)
    requires d.Keys == Fields && !RequiresTimeAndDuration(d)
    ensures ScheduledTime !in Validate(d)
  {
    assert Check(d, ScheduledTime).None?;
  }

  /** An activity stored from a valid form has either no duration or one of at least 1,
      because the `Number` check and the `parseInt` coercion agree on what they accept. */
  lemma ValidFormStoresPositiveDuration(s: seq<ActivityService.Activity>, d: Data, now: string)
    requires d.Keys == Fields && Form.NoErrors(Validate(d))
    ensures var a := ActivityService.Create(s, Submit(d), now).result.value;
      a.duration.None? || a.duration.value >= 1
  {
    ValidIff(d);
    var x := d[Duration];
    if Truthy(x) && x.Str? && Text.Trim(x.s) != "" {
      ToNumberAgreesWithParseInt(x.s);
    }
  }

  /** A new form, before the user types anything, is refused for exactly the subject, the
      date and the time: its type, duration and follow-up date pass. */
  lemma DefaultsErrors(preselectedContact: Raw, preselectedDeal: Raw)
    ensures var e := Validate(Defaults(preselectedContact, preselectedDeal));
      && Subject in e && ScheduledDate in e && ScheduledTime in e
      && Kind !in e && Duration !in e && FollowUpDate !in e
  {
    UntouchedCallErrors(Defaults(preselectedContact, preselectedDeal));
  }

  lemma UntouchedCallErrors(d: Data)
    requires d.Keys == Fields
    requires d[Subject] == Str("") && d[ScheduledDate] == Str("") && d[ScheduledTime] == Str("")
    requires d[FollowUpDate] == Str("") && d[Kind] == Str("call") && d[Duration] == Num(30)
    ensures var e := Validate(d);
      && Subject in e && ScheduledDate in e && ScheduledTime in e
      && Kind !in e && Duration !in e && FollowUpDate !in e
  {
    BlankSubjectFails(d);
    MissingWhenFails(d);
    KindAndDurationPass(d);
    BlankFollowUpPasses(d);
    ErrorsOfChecks(d);
  }

  lemma BlankFollowUpPasses(d: Data)
    requires d.Keys == Fields && d[FollowUpDate] == Str("")
    ensures Check(d, FollowUpDate).None?
  {
  }

  lemma ErrorsOfChecks(d: Data)
    requires d.Keys == Fields
    requires Check(d, Subject).Some? && Check(d, ScheduledDate).Some? && Check(d, ScheduledTime).Some?
    requires Check(d, Kind).None? && Check(d, Duration).None? && Check(d, FollowUpDate).None?
    ensures var e := Validate(d);
      && Subject in e && ScheduledDate in e && ScheduledTime in e
      && Kind !in e && Duration !in e && FollowUpDate !in e
  {
    var e := Validate(d);
    assert Subject in Fields && ScheduledDate in Fields && ScheduledTime in Fields;
  }

  lemma BlankSubjectFails(d: Data)
    requires d.Keys == Fields && d[Subject] == Str("")
    ensures Check(d, Subject).Some?
  {
    assert Form.Shown(d, Subject) == "";
    assert Text.AllSpace(Form.Shown(d, Subject));
  }

  lemma MissingWhenFails(d: Data)
    requires d.Keys == Fields && d[ScheduledDate] == Str("") && d[ScheduledTime] == Str("") && d[Kind] == Str("call")
    ensures Check(d, ScheduledDate).Some? && Check(d, ScheduledTime).Some?
  {
    assert RequiresTimeAndDuration(d);
  }

  lemma KindAndDurationPass(d: Data)
    requires d.Keys == Fields && d[Kind] == Str("call") && d[Duration] == Num(30)
    ensures Check(d, Kind).None? && Check(d, Duration).None?
  {
    assert ToNumber(d[Duration]) == Some(30);
  }
}

=== FILE: activity_service.dfy ===
/** The activity store: calls, emails, meetings and notes logged against contacts and deals,
    with defaults filled in on create, references kept on update unless replaced, and the
    per-contact and per-deal listings. */
module ActivityService {
  import opened Wrappers
  import opened Js
  import opened Store
  import Sorting
  import Text

  /** A stored activity; `kind` is the source's `type` (call, email, meeting, note). */
  datatype Activity = Activity(
    Id: int,
    kind: string,
    subject: string,
    description: string,
    scheduledDate: Option<string>,
    duration: Option<int>,
    outcome: string,
    contactId: Option<int>,
    dealId: Option<int>,
    attendees: string,
    followUpActions: string,
    followUpDate: Option<string>,
    priority: string,
    location: string,
    notes: string,
    timestamp: string,
    createdAt: string,
    updatedAt: string)

  /** What `create` receives; a missing text field is the empty string. */
  datatype Draft = Draft(
    kind: string,
    subject: string,
    description: string,
    scheduledDate: Option<string>,
    duration: Raw,
    outcome: string,
    contactId: Raw,
    dealId: Raw,
    attendees: string,
    followUpActions: string,
    followUpDate: string,
    priority: string,
    location: string,
    notes: string)

  /** What `update` receives; `None`/`Missing` is a field the object leaves out. */
  datatype Patch = Patch(
    kind: Option<string>,
    subject: Option<string>,
    description: Option<string>,
    scheduledDate: Option<Option<string>>,
    duration: Option<Option<int>>,
    outcome: Option<string>,
    contactId: Raw,
    dealId: Raw,
    attendees: Option<string>,
    followUpActions: Option<string>,
    followUpDate: Option<Option<string>>,
    priority: Option<string>,
    location: Option<string>,
    notes: Option<string>)

  function IdOf(a: Activity): int {
    a.Id
  }

  /** `getById`: the activity whose id is `parseInt(id)`. */
  function GetById(s: seq<Activity>, id: Raw): (r: Result<Activity>)
    ensures r.Ok? <==> ParseRaw(id).Some? && HasId(s, IdOf, ParseRaw(id).value)
    ensures r.Ok? ==> r.value in s && r.value.Id == ParseRaw(id).value
    ensures r.Err? ==> r.message == "Activity not found"
  {
    match Locate(s, IdOf, ParseRaw(id))
    case None => Err("Activity not found")
    case Some(i) => Ok(s[i])
  }

  /** `a.contactId === parseInt(x)`: `NaN` and `null` match nothing. */
  predicate RefersTo(ref: Option<int>, x: Raw) {
    ref.Some? && ParseRaw(x) == ref
  }

  /** `getByContactId`: exactly the activities logged against the contact, in store order
      (none at all when the id does not parse). */
  function GetByContactId(s: seq<Activity>, contactId: Raw): (r: seq<Activity>)
    ensures forall i :: 0 <= i < |r| ==> r[i] in s && r[i].contactId.Some? && ParseRaw(contactId) == r[i].contactId
    ensures forall i :: 0 <= i < |s| && RefersTo(s[i].contactId, contactId) ==> s[i] in r
    ensures forall a :: multiset(r)[a] == if RefersTo(a.contactId, contactId) then multiset(s)[a] else 0
  {
    FilterCounts(s, (a: Activity) => RefersTo(a.contactId, contactId));
    Filter(s, (a: Activity) => RefersTo(a.contactId, contactId))
  }

  /** The key `getByDealId` sorts by, newest first (see `NewestFirst`). */
  function Timestamp(a: Activity): string {
    a.timestamp
  }

  /** Newest first. `getByDealId` compares `new Date(timestamp)` values; the model compares
      the ISO-8601 strings themselves, which in the store's one format (fixed-width fields,
      UTC) order the same way as the times they name. */
  predicate NewestFirst(r: seq<Activity>) {
    forall i, j :: 0 <= i < j < |r| ==> Text.LexLe(r[j].timestamp, r[i].timestamp)
  }

  /** `getByDealId`: the activities logged against the deal, newest first. */
  function GetByDealId(s: seq<Activity>, dealId: Raw): (r: seq<Activity>)
    ensures multiset(r) == multiset(Filter(s, (a: Activity) => RefersTo(a.dealId, dealId)))
    ensures forall i :: 0 <= i < |r| ==> r[i] in s && RefersTo(r[i].dealId, dealId)
    ensures forall i :: 0 <= i < |s| && RefersTo(s[i].dealId, dealId) ==> s[i] in r
    ensures NewestFirst(r)
  {
    var f := Filter(s, (a: Activity) => RefersTo(a.dealId, dealId));
    var r := Sorting.SortByKey(f, Timestamp, true);
    forall i | 0 <= i < |r|
      ensures r[i] in s && RefersTo(r[i].dealId, dealId)
    {
      assert r[i] in multiset(r);
      assert r[i] in multiset(f);
    }
    forall i | 0 <= i < |s| && RefersTo(s[i].dealId, dealId)
      ensures s[i] in r
    {
      assert s[i] in multiset(f);
      assert s[i] in multiset(r);
    }
    r
  }

  /** `create`: the next id; references and duration parsed (falsy ones null); the empty
      follow-up date stored as null and an empty priority as "medium"; stamped with `now`.
      The other text fields are copied: their `|| ""` default gives "" for "" and is the
      identity on every other text. */
  function Create(s: seq<Activity>, d: Draft, now: string): (r: Step<seq<Activity>, Activity>)
    ensures r.result.Ok?
    ensures r.state == s + [r.result.value]
    ensures var a := r.result.value;
      && a.Id == NextId(s, IdOf)
      && a.contactId == RefOf(d.contactId) && a.dealId == RefOf(d.dealId)
      && a.duration == RefOf(d.duration)
      && (d.priority == "" ==> a.priority == "medium")
      && (d.priority != "" ==> a.priority == d.priority)
      && a.kind == d.kind && a.subject == d.subject && a.description == d.description
      && a.scheduledDate == d.scheduledDate
      && a.outcome == d.outcome && a.attendees == d.attendees && a.followUpActions == d.followUpActions
      && a.location == d.location && a.notes == d.notes
      && (d.followUpDate == "" <==> a.followUpDate.None?)
      && (d.followUpDate != "" ==> a.followUpDate == Some(d.followUpDate))
      && a.timestamp == now && a.createdAt == now && a.updatedAt == now
  {
    var a := Activity(MaxId(s, IdOf) + 1, d.kind, d.subject, d.description, d.scheduledDate,
      RefOf(d.duration), d.outcome, RefOf(d.contactId), RefOf(d.dealId), d.attendees,
      d.followUpActions, if d.followUpDate == "" then None else Some(d.followUpDate),
      if d.priority == "" then "medium" else d.priority, d.location, d.notes, now, now, now);
    Step(s + [a], Ok(a))
  }

  /** `x ? parseInt(x) : stored`: a falsy reference leaves the stored one. */
  function KeepRef(x: Raw, stored: Option<int>): (v: Option<int>)
    ensures !Truthy(x) ==> v == stored
    ensures Truthy(x) ==> v == ParseRaw(x)
  {
    if Truthy(x) then ParseRaw(x) else stored
  }

  /** The merge `update` performs: supplied fields override; the references change only
      when the patch carries a truthy one; neither `timestamp` nor `updatedAt` moves. */
  function Merge(a: Activity, p: Patch): (m: Activity)
    ensures m.Id == a.Id && m.timestamp == a.timestamp && m.createdAt == a.createdAt && m.updatedAt == a.updatedAt
    ensures m.contactId == KeepRef(p.contactId, a.contactId) && m.dealId == KeepRef(p.dealId, a.dealId)
    ensures p.kind.Some? ==> m.kind == p.kind.value
    ensures p.kind.None? ==> m.kind == a.kind
    ensures p.subject.Some? ==> m.subject == p.subject.value
    ensures p.subject.None? ==> m.subject == a.subject
    ensures p.description.Some? ==> m.description == p.description.value
    ensures p.description.None? ==> m.description == a.description
    ensures p.scheduledDate.Some? ==> m.scheduledDate == p.scheduledDate.value
    ensures p.scheduledDate.None? ==> m.scheduledDate == a.scheduledDate
    ensures p.duration.Some? ==> m.duration == p.duration.value
    ensures p.duration.None? ==> m.duration == a.duration
    ensures p.outcome.Some? ==> m.outcome == p.outcome.value
    ensures p.outcome.None? ==> m.outcome == a.outcome
    ensures p.attendees.Some? ==> m.attendees == p.attendees.value
    ensures p.attendees.None? ==> m.attendees == a.attendees
    ensures p.followUpActions.Some? ==> m.followUpActions == p.followUpActions.value
    ensures p.followUpActions.None? ==> m.followUpActions == a.followUpActions
    ensures p.followUpDate.Some? ==> m.followUpDate == p.followUpDate.value
    ensures p.followUpDate.None? ==> m.followUpDate == a.followUpDate
    ensures p.priority.Some? ==> m.priority == p.priority.value
    ensures p.priority.None? ==> m.priority == a.priority
    ensures p.location.Some? ==> m.location == p.location.value
    ensures p.location.None? ==> m.location == a.location
    ensures p.notes.Some? ==> m.notes == p.notes.value
    ensures p.notes.None? ==> m.notes == a.notes
  {
    Activity(a.Id, p.kind.GetOr(a.kind), p.subject.GetOr(a.subject), p.description.GetOr(a.description),
      p.scheduledDate.GetOr(a.scheduledDate), p.duration.GetOr(a.duration), p.outcome.GetOr(a.outcome),
      KeepRef(p.contactId, a.contactId), KeepRef(p.dealId, a.dealId), p.attendees.GetOr(a.attendees),
      p.followUpActions.GetOr(a.followUpActions), p.followUpDate.GetOr(a.followUpDate),
      p.priority.GetOr(a.priority), p.location.GetOr(a.location), p.notes.GetOr(a.notes),
      a.timestamp, a.createdAt, a.updatedAt)
  }

  /** `update`: merges into the matching activity; an unknown id changes nothing. */
  function Update(s: seq<Activity>, id: Raw, p: Patch): (r: Step<seq<Activity>, Activity>)
    ensures r.result.Ok? <==> GetById(s, id).Ok?
    ensures r.result.Err? ==> r == Step(s, Err("Activity not found"))
    ensures r.result.Ok? ==>
      var i := Locate(s, IdOf, ParseRaw(id)).value;
      r.result.value == Merge(s[i], p) && r.state == s[i := r.result.value]
  {
    match Locate(s, IdOf, ParseRaw(id))
    case None => Step(s, Err("Activity not found"))
    case Some(i) =>
      var a := Merge(s[i], p);
      Step(s[i := a], Ok(a))
  }

  /** `delete_`: removes the matching activity and resolves to `true`. */
  function Delete(s: seq<Activity>, id: Raw): (r: Step<seq<Activity>, bool>)
    ensures r.result.Ok? <==> GetById(s, id).Ok?
    ensures r.result.Err? ==> r == Step(s, Err("Activity not found"))
    ensures r.result.Ok? ==>
      r.result.value && r.state == RemoveAt(s, Locate(s, IdOf, ParseRaw(id)).value)
  {
    match Locate(s, IdOf, ParseRaw(id))
    case None => Step(s, Err("Activity not found"))
    case Some(i) => Step(RemoveAt(s, i), Ok(true))
  }

  // ---------------------------------------------------------------- properties across calls

  /** An activity created for a contact shows up in that contact's listing, last. */
  lemma CreateListedForContact(s: seq<Activity>, d: Draft, now: string)
    requires RefOf(d.contactId).Some?
    ensures var r := Create(s, d, now);
      GetByContactId(r.state, Num(RefOf(d.contactId).value))
        == GetByContactId(s, Num(RefOf(d.contactId).value)) + [r.result.value]
  {
    var r := Create(s, d, now);
    var p := (a: Activity) => RefersTo(a.contactId, Num(RefOf(d.contactId).value));
    FilterConcat(s, [r.result.value], p);
  }

  /** An update whose references are falsy leaves every contact's and deal's listing
      membership as it was. */
  lemma UpdateKeepsReferences(s: seq<Activity>, id: Raw, p: Patch)
    requires !Truthy(p.contactId) && !Truthy(p.dealId) && Update(s, id, p).result.Ok?
    ensures var i := Locate(s, IdOf, ParseRaw(id)).value;
      && Update(s, id, p).state[i].contactId == s[i].contactId
      && Update(s, id, p).state[i].dealId == s[i].dealId
  {
  }

  lemma CreateKeepsUnique(s: seq<Activity>, d: Draft, now: string)
    requires Unique(s, IdOf)
    ensures Unique(Create(s, d, now).state, IdOf)
  {
    UniqueAppend(s, IdOf, Create(s, d, now).result.value);
  }

  lemma DeleteKeepsUnique(s: seq<Activity>, id: Raw)
    requires Unique(s, IdOf)
    ensures Unique(Delete(s, id).state, IdOf)
    ensures GetById(Delete(s, id).state, id).Err?
  {
    if Delete(s, id).result.Ok? {
      UniqueRemove(s, IdOf, Locate(s, IdOf, ParseRaw(id)).value);
    }
  }
}

=== FILE: analytics_service.dfy ===
/** Dashboard figures computed from the contact and deal stores: the deal pipeline summary,
    the per-stage distribution, the monthly trend, and the contact lifecycle tally. */
module AnalyticsService {
  import opened Store
  import Text
  import DealService
  import ContactService

  type Deal = DealService.Deal
  type Contact = ContactService.Contact

  /** A deal neither won nor lost. */
  predicate IsOpen(d: Deal) {
    d.stage != "Closed Won" && d.stage != "Closed Lost"
  }

  predicate IsWon(d: Deal) {
    d.stage == "Closed Won"
  }

  function DealValue(d: Deal): int {
    d.value
  }

  /** The date a won deal counts as closed on: `updatedAt || createdAt`. */
  function ClosedOn(d: Deal): string {
    if d.updatedAt != "" then d.updatedAt else d.createdAt
  }

  /** An ISO timestamp falls in the month written `YYYY-MM`: the month is its prefix. */
  predicate InMonth(timestamp: string, month: string) {
    month <= timestamp
  }

  datatype StageStat = StageStat(stage: string, count: nat, value: int)

  datatype MonthStat = MonthStat(month: string, deals: nat, revenue: int, closedDeals: nat)

  datatype Analytics = Analytics(
    totalContacts: nat,
    activeDeals: nat,
    pipelineValue: int,
    closedDealsThisMonth: nat,
    closedDealsThisMonthValue: int,
    conversionRate: real,
    stageDistribution: seq<StageStat>,
    monthlyTrend: seq<MonthStat>)

  /** One stage's entry: how many deals sit in it and their summed value. */
  function StageEntry(deals: seq<Deal>, stage: string): (e: StageStat)
    ensures e.stage == stage && e.count <= |deals|
    ensures e.count == Count(deals, (d: Deal) => d.stage == stage)
    ensures e.value == Sum(Filter(deals, (d: Deal) => d.stage == stage), DealValue)
  {
    var inStage := Filter(deals, (d: Deal) => d.stage == stage);
    StageStat(stage, |inStage|, Sum(inStage, DealValue))
  }

  /** One month's trend entry: deals created that month, and of those the won ones. */
  function MonthEntry(deals: seq<Deal>, month: string): (e: MonthStat)
    ensures e.month == month && e.closedDeals <= e.deals <= |deals|
  {
    var created := Filter(deals, (d: Deal) => InMonth(d.createdAt, month));
    var won := Filter(created, IsWon);
    MonthStat(month, |created|, Sum(won, DealValue), |won|)
  }

  /** `getAnalytics`, given the current month and the six months of the trend as `YYYY-MM`
      keys: contact total, open deals and their value, deals won this month, the share of
      deals won, one distribution entry per pipeline stage, one trend entry per month. */
  function GetAnalytics(contacts: seq<Contact>, deals: seq<Deal>, currentMonth: string, months: seq<string>): (a: Analytics)
    ensures a.totalContacts == |contacts|
    ensures a.activeDeals == Count(deals, IsOpen)
    ensures a.pipelineValue == Sum(Filter(deals, IsOpen), DealValue)
    ensures |deals| == 0 ==> a.conversionRate == 0.0
    ensures |deals| > 0 ==> a.conversionRate == (Count(deals, IsWon) as real / |deals| as real) * 100.0
    ensures |a.stageDistribution| == |DealService.StageOrder|
    ensures forall i :: 0 <= i < |a.stageDistribution| ==>
      a.stageDistribution[i].stage == DealService.StageOrder[i]
      && a.stageDistribution[i].count == Count(deals, (d: Deal) => d.stage == DealService.StageOrder[i])
      && a.stageDistribution[i].value == Sum(Filter(deals, (d: Deal) => d.stage == DealService.StageOrder[i]), DealValue)
    ensures |a.monthlyTrend| == |months|
    ensures forall i :: 0 <= i < |months| ==> a.monthlyTrend[i].month == months[i]
  {
    var open := Filter(deals, IsOpen);
    var closedThisMonth := Filter(deals, (d: Deal) => IsWon(d) && InMonth(ClosedOn(d), currentMonth));
    var won := Count(deals, IsWon);
    Analytics(
      |contacts|,
      |open|,
      Sum(open, DealValue),
      |closedThisMonth|,
      Sum(closedThisMonth, DealValue),
      if |deals| > 0 then (won as real / |deals| as real) * 100.0 else 0.0,
      seq(|DealService.StageOrder|, i requires 0 <= i < |DealService.StageOrder| => StageEntry(deals, DealService.StageOrder[i])),
      seq(|months|, i requires 0 <= i < |months| => MonthEntry(deals, months[i])))
  }

  /** Open, won and lost deals together are all the deals. */
  lemma OpenWonLostPartition(deals: seq<Deal>)
    ensures Count(deals, IsOpen) + Count(deals, IsWon) + Count(deals, (d: Deal) => d.stage == "Closed Lost") == |deals|
  {
    var lost := (d: Deal) => d.stage == "Closed Lost";
    var closed := (d: Deal) => IsWon(d) || lost(d);
    CountDisjoint(deals, IsWon, lost, closed);
    CountDisjoint(deals, IsOpen, closed, (d: Deal) => true);
    FilterAll(deals, (d: Deal) => true);
  }

  /** The stage counts sum to the number of deals whose stage is one of the stages. */
  function StageTotal(deals: seq<Deal>, stages: seq<string>): nat
    decreases |stages|
  {
    if |stages| == 0 then 0 else Count(deals, (d: Deal) => d.stage == stages[0]) + StageTotal(deals, stages[1..])
  }

  lemma {:induction false} StageTotalCounts(deals: seq<Deal>, stages: seq<string>)
    requires forall i, j :: 0 <= i < j < |stages| ==> stages[i] != stages[j]
    ensures StageTotal(deals, stages) == Count(deals, (d: Deal) => d.stage in stages)
    decreases |stages|
  {
    if |stages| == 0 {
      FilterNone(deals, (d: Deal) => d.stage in stages);
    } else {
      var rest := stages[1..];
      StageTotalCounts(deals, rest);
      CountDisjoint(deals, (d: Deal) => d.stage == stages[0], (d: Deal) => d.stage in rest,
        (d: Deal) => d.stage in stages);
    }
  }

  /** When every deal is in a pipeline stage, the distribution accounts for every deal. */
  lemma DistributionCoversAll(deals: seq<Deal>)
    requires forall i :: 0 <= i < |deals| ==> deals[i].stage in DealService.StageOrder
    ensures StageTotal(deals, DealService.StageOrder) == |deals|
  {
    DealService.StageOrderDistinct();
    StageTotalCounts(deals, DealService.StageOrder);
    FilterAll(deals, (d: Deal) => d.stage in DealService.StageOrder);
  }

  /** The stage values summed over the given stages. */
  function StageValueTotal(deals: seq<Deal>, stages: seq<string>): int
    decreases |stages|
  {
    if |stages| == 0 then 0
    else Sum(Filter(deals, (d: Deal) => d.stage == stages[0]), DealValue) + StageValueTotal(deals, stages[1..])
  }

  /** The stage values over distinct stages add up to the value of the deals in them. */
  lemma {:induction false} StageValueTotalSums(deals: seq<Deal>, stages: seq<string>)
    requires forall i, j :: 0 <= i < j < |stages| ==> stages[i] != stages[j]
    ensures StageValueTotal(deals, stages) == Sum(Filter(deals, (d: Deal) => d.stage in stages), DealValue)
    decreases |stages|
  {
    if |stages| == 0 {
      FilterNone(deals, (d: Deal) => d.stage in stages);
    } else {
      var rest := stages[1..];
      StageValueTotalSums(deals, rest);
      SumDisjoint(deals, (d: Deal) => d.stage == stages[0], (d: Deal) => d.stage in rest,
        (d: Deal) => d.stage in stages, DealValue);
    }
  }

  /** When every deal is in a pipeline stage, the six stage values add up to the value of
      all the deals. */
  lemma DistributionValueCoversAll(deals: seq<Deal>)
    requires forall i :: 0 <= i < |deals| ==> deals[i].stage in DealService.StageOrder
    ensures StageValueTotal(deals, DealService.StageOrder) == Sum(deals, DealValue)
  {
    DealService.StageOrderDistinct();
    ValuesCoverAll(deals, DealService.StageOrder);
  }

  lemma ValuesCoverAll(deals: seq<Deal>, stages: seq<string>)
    requires forall i, j :: 0 <= i < j < |stages| ==> stages[i] != stages[j]
    requires forall i :: 0 <= i < |deals| ==> deals[i].stage in stages
    ensures StageValueTotal(deals, stages) == Sum(deals, DealValue)
  {
    StageValueTotalSums(deals, stages);
    FilterAll(deals, (d: Deal) => d.stage in stages);
  }

  // ---------------------------------------------------------------- lifecycle tally

  datatype LifecycleStat = LifecycleStat(stage: string, count: nat)

  /** The tally key of a contact: its lifecycle stage, or "Unknown" when it has none. */
  function StageKey(c: Contact): string {
    if c.lifecycleStage != "" then c.lifecycleStage else "Unknown"
  }

  /** No two entries share a stage, as no object has a key twice. */
  ghost predicate Distinct(t: seq<LifecycleStat>) {
    forall i, j :: 0 <= i < j < |t| ==> t[i].stage != t[j].stage
  }

  /** `acc[stage] = (acc[stage] || 0) + 1` on an insertion-ordered object: an existing
      entry counts one more, a new stage is appended with count 1. */
  function Bump(acc: seq<LifecycleStat>, key: string): (r: seq<LifecycleStat>)
    requires Distinct(acc)
    ensures Distinct(r)
    ensures |r| == |acc| || |r| == |acc| + 1
    ensures forall i :: 0 <= i < |acc| ==> r[i].stage == acc[i].stage
    ensures forall i :: 0 <= i < |acc| ==> r[i].count == acc[i].count + (if acc[i].stage == key then 1 else 0)
    ensures |r| == |acc| + 1 ==> r[|acc|] == LifecycleStat(key, 1) && forall i :: 0 <= i < |acc| ==> acc[i].stage != key
    ensures |r| == |acc| ==> exists i :: 0 <= i < |acc| && acc[i].stage == key
    decreases |acc|
  {
    if |acc| == 0 then [LifecycleStat(key, 1)]
    else if acc[0].stage == key then
      BumpHit(acc, key);
      [acc[0].(count := acc[0].count + 1)] + acc[1..]
    else
      var rest := Bump(acc[1..], key);
      BumpMiss(acc, key, rest);
      [acc[0]] + rest
  }

  /** What `Bump` promises, as one predicate for its two recursive steps. */
  ghost predicate Bumped(acc: seq<LifecycleStat>, key: string, r: seq<LifecycleStat>) {
    && Distinct(r)
    && (|r| == |acc| || |r| == |acc| + 1)
    && (forall i :: 0 <= i < |acc| ==> r[i].stage == acc[i].stage)
    && (forall i :: 0 <= i < |acc| ==> r[i].count == acc[i].count + (if acc[i].stage == key then 1 else 0))
    && (|r| == |acc| + 1 ==> r[|acc|] == LifecycleStat(key, 1) && forall i :: 0 <= i < |acc| ==> acc[i].stage != key)
    && (|r| == |acc| ==> exists i :: 0 <= i < |acc| && acc[i].stage == key)
  }

  /** The first entry has the stage: it counts one more and the rest is kept. */
  lemma BumpHit(acc: seq<LifecycleStat>, key: string)
    requires Distinct(acc) && |acc| > 0 && acc[0].stage == key
    ensures Bumped(acc, key, [acc[0].(count := acc[0].count + 1)] + acc[1..])
  {
    var r := [acc[0].(count := acc[0].count + 1)] + acc[1..];
    forall i | 0 <= i < |acc|
      ensures r[i].stage == acc[i].stage
      ensures r[i].count == acc[i].count + (if acc[i].stage == key then 1 else 0)
    {
      if i > 0 {
        assert r[i] == acc[i];
        assert acc[i].stage != acc[0].stage;
      }
    }
    forall i, j | 0 <= i < j < |r|
      ensures r[i].stage != r[j].stage
    {
      assert r[i].stage == acc[i].stage && r[j].stage == acc[j].stage;
    }
  }

  /** The first entry has another stage: it is kept in front of the bumped rest. */
  lemma BumpMiss(acc: seq<LifecycleStat>, key: string, rest: seq<LifecycleStat>)
    requires Distinct(acc) && |acc| > 0 && acc[0].stage != key
    requires Bumped(acc[1..], key, rest)
    ensures Bumped(acc, key, [acc[0]] + rest)
  {
    var r := [acc[0]] + rest;
    var tail := acc[1..];
    forall i | 0 <= i < |acc|
      ensures r[i].stage == acc[i].stage
      ensures r[i].count == acc[i].count + (if acc[i].stage == key then 1 else 0)
    {
      if i > 0 {
        assert r[i] == rest[i - 1] && acc[i] == tail[i - 1];
      }
    }
    forall i, j | 0 <= i < j < |r|
      ensures r[i].stage != r[j].stage
    {
      if i == 0 {
        if j - 1 < |tail| {
          assert r[j].stage == tail[j - 1].stage == acc[j].stage;
        } else {
          assert r[j] == rest[|tail|] == LifecycleStat(key, 1);
        }
      } else {
        assert r[i] == rest[i - 1] && r[j] == rest[j - 1];
      }
    }
    if |r| == |acc| + 1 {
      assert r[|acc|] == rest[|tail|];
      forall i | 0 <= i < |acc|
        ensures acc[i].stage != key
      {
        if i > 0 {
          assert acc[i] == tail[i - 1];
        }
      }
    }
    if |r| == |acc| {
      var i :| 0 <= i < |tail| && tail[i].stage == key;
      assert acc[i + 1].stage == key;
    }
  }

  /** The `reduce` over the contacts, left to right. */
  function Tally(contacts: seq<Contact>): (t: seq<LifecycleStat>)
    ensures Distinct(t)
    ensures |t| <= |contacts|
    decreases |contacts|
  {
    if |contacts| == 0 then [] else Bump(Tally(contacts[..|contacts| - 1]), StageKey(contacts[|contacts| - 1]))
  }

  /** Every entry counts exactly the contacts of its stage. */
  ghost predicate CountsExact(t: seq<LifecycleStat>, contacts: seq<Contact>) {
    forall i :: 0 <= i < |t| ==> t[i].count == Count(contacts, (c: Contact) => StageKey(c) == t[i].stage)
  }

  /** Every contact's stage has an entry. */
  ghost predicate Covers(t: seq<LifecycleStat>, contacts: seq<Contact>) {
    forall k :: 0 <= k < |contacts| ==> exists i :: 0 <= i < |t| && t[i].stage == StageKey(contacts[k])
  }

  /** A well-formed tally: one entry per stage, each counting exactly its contacts, and every
      contact's stage has an entry. */
  ghost predicate TallyOf(t: seq<LifecycleStat>, contacts: seq<Contact>) {
    Distinct(t) && CountsExact(t, contacts) && Covers(t, contacts)
  }

  /** A stage without an entry in a covering tally has no contacts. */
  lemma NoEntryNoContacts(t: seq<LifecycleStat>, contacts: seq<Contact>, key: string)
    requires Covers(t, contacts) && forall i :: 0 <= i < |t| ==> t[i].stage != key
    ensures Count(contacts, (c: Contact) => StageKey(c) == key) == 0
  {
    forall k | 0 <= k < |contacts|
      ensures StageKey(contacts[k]) != key
    {
      var j :| 0 <= j < |t| && t[j].stage == StageKey(contacts[k]);
    }
    FilterNone(contacts, (c: Contact) => StageKey(c) == key);
  }

  lemma CountsAfterBump(acc: seq<LifecycleStat>, init: seq<Contact>, last: Contact)
    requires Distinct(acc) && CountsExact(acc, init) && Covers(acc, init)
    ensures CountsExact(Bump(acc, StageKey(last)), init + [last])
  {
    var key := StageKey(last);
    var t := Bump(acc, key);
    forall i | 0 <= i < |t|
      ensures t[i].count == Count(init + [last], (c: Contact) => StageKey(c) == t[i].stage)
    {
      var stage := t[i].stage;
      if i < |acc| {
        assert stage == acc[i].stage && t[i].count == acc[i].count + (if stage == key then 1 else 0);
        CountStep(init, last, stage, acc[i].count);
      } else {
        assert t[i] == LifecycleStat(key, 1);
        NoEntryNoContacts(acc, init, key);
        CountStep(init, last, stage, 0);
      }
    }
  }

  /** A stage counted `n` times among `init` is counted once more with `last` exactly when
      `last` has it. */
  lemma CountStep(init: seq<Contact>, last: Contact, stage: string, n: nat)
    requires n == Count(init, (c: Contact) => StageKey(c) == stage)
    ensures Count(init + [last], (c: Contact) => StageKey(c) == stage) == n + (if StageKey(last) == stage then 1 else 0)
  {
    CountAppend(init, last, (c: Contact) => StageKey(c) == stage);
  }

  lemma CoversAfterBump(acc: seq<LifecycleStat>, init: seq<Contact>, last: Contact)
    requires Distinct(acc) && Covers(acc, init)
    ensures Covers(Bump(acc, StageKey(last)), init + [last])
  {
    var key := StageKey(last);
    var t := Bump(acc, key);
    var contacts := init + [last];
    forall k | 0 <= k < |contacts|
      ensures exists i :: 0 <= i < |t| && t[i].stage == StageKey(contacts[k])
    {
      if k < |init| {
        assert contacts[k] == init[k];
        var j :| 0 <= j < |acc| && acc[j].stage == StageKey(init[k]);
        assert t[j].stage == acc[j].stage;
      } else if |t| == |acc| {
        var j :| 0 <= j < |acc| && acc[j].stage == key;
        assert t[j].stage == key;
      } else {
        assert t[|acc|].stage == key;
      }
    }
  }

  /** The tally has one entry per stage that occurs, counting exactly that stage's contacts. */
  lemma {:induction false} TallyCorrect(contacts: seq<Contact>)
    ensures TallyOf(Tally(contacts), contacts)
    decreases |contacts|
  {
    if |contacts| > 0 {
      var n := |contacts| - 1;
      var init := contacts[..n];
      assert contacts == init + [contacts[n]];
      TallyCorrect(init);
      CountsAfterBump(Tally(init), init, contacts[n]);
      CoversAfterBump(Tally(init), init, contacts[n]);
    }
  }

  function Counts(t: seq<LifecycleStat>): nat
    decreases |t|
  {
    if |t| == 0 then 0 else t[0].count + Counts(t[1..])
  }

  lemma {:induction false} CountsBump(acc: seq<LifecycleStat>, key: string)
    requires Distinct(acc)
    ensures Counts(Bump(acc, key)) == Counts(acc) + 1
    decreases |acc|
  {
    if |acc| > 0 && acc[0].stage != key {
      CountsBump(acc[1..], key);
      assert Bump(acc, key)[1..] == Bump(acc[1..], key);
    } else if |acc| > 0 {
      assert Bump(acc, key)[1..] == acc[1..];
    }
  }

  /** The tally's counts add up to the number of contacts. */
  lemma {:induction false} TallyTotal(contacts: seq<Contact>)
    ensures Counts(Tally(contacts)) == |contacts|
    decreases |contacts|
  {
    if |contacts| > 0 {
      TallyTotal(contacts[..|contacts| - 1]);
      CountsBump(Tally(contacts[..|contacts| - 1]), StageKey(contacts[|contacts| - 1]));
    }
  }

  /** `getContactLifecycleStats`: one entry per distinct stage (missing ones as "Unknown"),
      in order of first appearance, counting that stage's contacts; the percentages are
      each count's share of all contacts. */
  function LifecycleStats(contacts: seq<Contact>): (r: seq<(LifecycleStat, real)>)
    ensures |r| == |Tally(contacts)|
    ensures forall i :: 0 <= i < |r| ==> r[i].0 == Tally(contacts)[i]
    ensures forall i :: 0 <= i < |r| ==> r[i].1 == (r[i].0.count as real / |contacts| as real) * 100.0
  {
    var t := Tally(contacts);
    seq(|t|, i requires 0 <= i < |t| => (t[i], (t[i].count as real / |contacts| as real) * 100.0))
  }
}

=== FILE: campaign_service.dfy ===
/** The campaign store (`campaignService`): records with a monotone `nextId` counter, a
    draft/active launch-and-pause machine, and aggregate metrics. Every id-taking call first
    runs `parseInt` on the id, rejecting `NaN` as an invalid id before looking it up. */
module CampaignService {
  import opened Wrappers
  import opened Js
  import opened Store

  datatype Campaign = Campaign(
    Id: int,
    name: string,
    subject: string,
    status: string,
    sent: int,
    openedCount: int,
    clicked: int,
    unsubscribed: int,
    bounced: int,
    openRate: real,
    clickRate: real,
    conversionRate: real,
    createdAt: string,
    lastSent: Option<string>)

  /** What a caller hands to `create`: the descriptive fields; the counters are not taken. */
  datatype Draft = Draft(name: string, subject: string, status: string)

  /** The fields an `update` call may carry; `None` is a field the object leaves out. */
  datatype Patch = Patch(
    Id: Option<int>,
    name: Option<string>,
    subject: Option<string>,
    status: Option<string>,
    sent: Option<int>,
    openedCount: Option<int>,
    clicked: Option<int>,
    unsubscribed: Option<int>,
    bounced: Option<int>,
    openRate: Option<real>,
    clickRate: Option<real>,
    conversionRate: Option<real>,
    createdAt: Option<string>,
    lastSent: Option<Option<string>>)

  /** The module's state: the campaign list and the id the next `create` hands out. */
  datatype Campaigns = Campaigns(items: seq<Campaign>, nextId: int)

  function IdOf(c: Campaign): int {
    c.Id
  }

  /** Ids are unique and all below `nextId`, so `nextId` is fresh. */
  ghost predicate Valid(st: Campaigns) {
    Unique(st.items, IdOf) && forall i :: 0 <= i < |st.items| ==> st.items[i].Id < st.nextId
  }

  /** `Math.max(...seed.map(c => c.Id))`, which has no floor: the seed must be non-empty. */
  function SeedMax(seed: seq<Campaign>): (m: int)
    requires |seed| > 0
    ensures forall i :: 0 <= i < |seed| ==> seed[i].Id <= m
    ensures HasId(seed, IdOf, m)
    decreases |seed|
  {
    if |seed| == 1 then seed[0].Id
    else
      var rest := SeedMax(seed[1..]);
      assert forall i :: 1 <= i < |seed| ==> seed[i] == seed[1..][i - 1];
      assert HasId(seed, IdOf, rest) by {
        var k :| 0 <= k < |seed| - 1 && IdOf(seed[1..][k]) == rest;
        assert IdOf(seed[k + 1]) == rest;
      }
      if seed[0].Id > rest then seed[0].Id else rest
  }

  /** The state at module load: the seed and one more than its largest id. */
  function Init(seed: seq<Campaign>): (st: Campaigns)
    requires |seed| > 0
    ensures st.items == seed
    ensures Unique(seed, IdOf) ==> Valid(st)
  {
    Campaigns(seed, SeedMax(seed) + 1)
  }

  /** The shared prelude of every id-taking call: `parseInt` the id, then `findIndex`. */
  function Find(st: Campaigns, id: Raw): (r: Result<nat>)
    ensures ParseRaw(id).None? ==> r == Err("Invalid campaign ID")
    ensures ParseRaw(id).Some? && !HasId(st.items, IdOf, ParseRaw(id).value) ==> r == Err("Campaign not found")
    ensures r.Ok? ==> ParseRaw(id).Some? && r.value < |st.items| && st.items[r.value].Id == ParseRaw(id).value
  {
    match ParseRaw(id)
    case None => Err("Invalid campaign ID")
    case Some(k) =>
      match FindIndex(st.items, IdOf, k)
      case None => Err("Campaign not found")
      case Some(i) => Ok(i)
  }

  /** `getById`: a copy of the matching campaign, or the lookup's error. */
  function GetById(st: Campaigns, id: Raw): (r: Result<Campaign>)
    ensures r.Ok? <==> ParseRaw(id).Some? && HasId(st.items, IdOf, ParseRaw(id).value)
    ensures r.Ok? ==> r.value in st.items && r.value.Id == ParseRaw(id).value
    ensures r.Err? ==> r.message == Find(st, id).message && Find(st, id).Err?
  {
    match Find(st, id)
    case Err(m) => Err(m)
    case Ok(i) => Ok(st.items[i])
  }

  /** `create`: appends one campaign numbered `nextId` with zeroed counters and rates and no
      `lastSent`, and advances `nextId`. */
  function Create(st: Campaigns, d: Draft, now: string): (r: Step<Campaigns, Campaign>)
    ensures r.result.Ok?
    ensures r.state.items == st.items + [r.result.value]
    ensures r.state.nextId == st.nextId + 1
    ensures var c := r.result.value;
      && c.Id == st.nextId
      && c.name == d.name && c.subject == d.subject && c.status == d.status
      && c.sent == 0 && c.openedCount == 0 && c.clicked == 0 && c.unsubscribed == 0 && c.bounced == 0
      && c.openRate == 0.0 && c.clickRate == 0.0 && c.conversionRate == 0.0
      && c.createdAt == now && c.lastSent == None
  {
    var c := Campaign(st.nextId, d.name, d.subject, d.status, 0, 0, 0, 0, 0, 0.0, 0.0, 0.0, now, None);
    Step(Campaigns(st.items + [c], st.nextId + 1), Ok(c))
  }

  /** `{ ...c, ...p, Id: c.Id }`: the supplied fields override, the id never changes. */
  function Merge(c: Campaign, p: Patch): (m: Campaign)
    ensures m.Id == c.Id
    ensures p == Patch(None, None, None, None, None, None, None, None, None, None, None, None, None, None) ==> m == c
    ensures p.name.Some? ==> m.name == p.name.value
    ensures p.name.None? ==> m.name == c.name
    ensures p.subject.Some? ==> m.subject == p.subject.value
    ensures p.subject.None? ==> m.subject == c.subject
    ensures p.status.Some? ==> m.status == p.status.value
    ensures p.status.None? ==> m.status == c.status
    ensures p.sent.Some? ==> m.sent == p.sent.value
    ensures p.sent.None? ==> m.sent == c.sent
    ensures p.openedCount.Some? ==> m.openedCount == p.openedCount.value
    ensures p.openedCount.None? ==> m.openedCount == c.openedCount
    ensures p.clicked.Some? ==> m.clicked == p.clicked.value
    ensures p.clicked.None? ==> m.clicked == c.clicked
    ensures p.unsubscribed.Some? ==> m.unsubscribed == p.unsubscribed.value
    ensures p.unsubscribed.None? ==> m.unsubscribed == c.unsubscribed
    ensures p.bounced.Some? ==> m.bounced == p.bounced.value
    ensures p.bounced.None? ==> m.bounced == c.bounced
    ensures p.openRate.Some? ==> m.openRate == p.openRate.value
    ensures p.openRate.None? ==> m.openRate == c.openRate
    ensures p.clickRate.Some? ==> m.clickRate == p.clickRate.value
    ensures p.clickRate.None? ==> m.clickRate == c.clickRate
    ensures p.conversionRate.Some? ==> m.conversionRate == p.conversionRate.value
    ensures p.conversionRate.None? ==> m.conversionRate == c.conversionRate
    ensures p.createdAt.Some? ==> m.createdAt == p.createdAt.value
    ensures p.createdAt.None? ==> m.createdAt == c.createdAt
    ensures p.lastSent.Some? ==> m.lastSent == p.lastSent.value
    ensures p.lastSent.None? ==> m.lastSent == c.lastSent
  {
    Campaign(
      c.Id,
      p.name.GetOr(c.name),
      p.subject.GetOr(c.subject),
      p.status.GetOr(c.status),
      p.sent.GetOr(c.sent),
      p.openedCount.GetOr(c.openedCount),
      p.clicked.GetOr(c.clicked),
      p.unsubscribed.GetOr(c.unsubscribed),
      p.bounced.GetOr(c.bounced),
      p.openRate.GetOr(c.openRate),
      p.clickRate.GetOr(c.clickRate),
      p.conversionRate.GetOr(c.conversionRate),
      p.createdAt.GetOr(c.createdAt),
      p.lastSent.GetOr(c.lastSent))
  }

  /** `update`: the matching campaign gets the supplied fields, keeping its id even when the
      patch names another; every other campaign is untouched; a failed lookup changes nothing. */
  function Update(st: Campaigns, id: Raw, p: Patch): (r: Step<Campaigns, Campaign>)
    ensures r.result.Err? ==> r.state == st && r.result == GetById(st, id)
    ensures r.result.Ok? <==> GetById(st, id).Ok?
    ensures r.result.Ok? ==>
      var i := Find(st, id).value;
      && r.state == st.(items := st.items[i := r.result.value])
      && r.result.value == Merge(st.items[i], p)
      && r.result.value.Id == st.items[i].Id
  {
    match Find(st, id)
    case Err(m) => Step(st, Err(m))
    case Ok(i) =>
      var c := Merge(st.items[i], p);
      Step(st.(items := st.items[i := c]), Ok(c))
  }

  /** `delete`: removes exactly the matching campaign and returns it; the rest keep order. */
  function Delete(st: Campaigns, id: Raw): (r: Step<Campaigns, Campaign>)
    ensures r.result.Err? ==> r.state == st && r.result == GetById(st, id)
    ensures r.result.Ok? <==> GetById(st, id).Ok?
    ensures r.result.Ok? ==>
      var i := Find(st, id).value;
      && r.result.value == st.items[i]
      && r.state == st.(items := RemoveAt(st.items, i))
  {
    match Find(st, id)
    case Err(m) => Step(st, Err(m))
    case Ok(i) => Step(st.(items := RemoveAt(st.items, i)), Ok(st.items[i]))
  }

  /** `launch`: only a draft can be launched; it becomes active and records `lastSent`. */
  function Launch(st: Campaigns, id: Raw, now: string): (r: Step<Campaigns, Campaign>)
    ensures r.result.Ok? <==> GetById(st, id).Ok? && GetById(st, id).value.status == "draft"
    ensures GetById(st, id).Err? ==> r.result == GetById(st, id)
    ensures GetById(st, id).Ok? && GetById(st, id).value.status != "draft" ==>
      r.result == Err("Only draft campaigns can be launched")
    ensures r.result.Err? ==> r.state == st
    ensures r.result.Ok? ==>
      var i := Find(st, id).value;
      && r.result.value == st.items[i].(status := "active", lastSent := Some(now))
      && r.state == st.(items := st.items[i := r.result.value])
  {
    match Find(st, id)
    case Err(m) => Step(st, Err(m))
    case Ok(i) =>
      if st.items[i].status != "draft" then Step(st, Err("Only draft campaigns can be launched"))
      else
        var c := st.items[i].(status := "active", lastSent := Some(now));
        Step(st.(items := st.items[i := c]), Ok(c))
  }

  /** `pause`: only an active campaign can be paused; it goes back to draft. */
  function Pause(st: Campaigns, id: Raw): (r: Step<Campaigns, Campaign>)
    ensures r.result.Ok? <==> GetById(st, id).Ok? && GetById(st, id).value.status == "active"
    ensures GetById(st, id).Err? ==> r.result == GetById(st, id)
    ensures GetById(st, id).Ok? && GetById(st, id).value.status != "active" ==>
      r.result == Err("Only active campaigns can be paused")
    ensures r.result.Err? ==> r.state == st
    ensures r.result.Ok? ==>
      var i := Find(st, id).value;
      && r.result.value == st.items[i].(status := "draft")
      && r.state == st.(items := st.items[i := r.result.value])
  {
    match Find(st, id)
    case Err(m) => Step(st, Err(m))
    case Ok(i) =>
      if st.items[i].status != "active" then Step(st, Err("Only active campaigns can be paused"))
      else
        var c := st.items[i].(status := "draft");
        Step(st.(items := st.items[i := c]), Ok(c))
  }

  // ---------------------------------------------------------------- invariants across calls

  lemma CreateKeepsValid(st: Campaigns, d: Draft, now: string)
    requires Valid(st)
    ensures Valid(Create(st, d, now).state)
  {
    var st' := Create(st, d, now).state;
    var c := Create(st, d, now).result.value;
    UniqueAppend(st.items, IdOf, c);
  }

  lemma UpdateKeepsValid(st: Campaigns, id: Raw, p: Patch)
    requires Valid(st)
    ensures Valid(Update(st, id, p).state)
  {
    var r := Update(st, id, p);
    if r.result.Ok? {
      UniqueReplace(st.items, IdOf, Find(st, id).value, r.result.value);
    }
  }

  lemma DeleteKeepsValid(st: Campaigns, id: Raw)
    requires Valid(st)
    ensures Valid(Delete(st, id).state)
  {
    if Delete(st, id).result.Ok? {
      UniqueRemove(st.items, IdOf, Find(st, id).value);
    }
  }

  lemma LaunchPauseKeepValid(st: Campaigns, id: Raw, now: string)
    requires Valid(st)
    ensures Valid(Launch(st, id, now).state)
    ensures Valid(Pause(st, id).state)
  {
    ReplaceKeepsValid(st, Launch(st, id, now), id);
    ReplaceKeepsValid(st, Pause(st, id), id);
  }

  /** A call that either fails with the state unchanged or rewrites the found campaign in
      place under its own id keeps the store valid. */
  lemma ReplaceKeepsValid(st: Campaigns, r: Step<Campaigns, Campaign>, id: Raw)
    requires Valid(st)
    requires r.result.Err? ==> r.state == st
    requires r.result.Ok? ==> Find(st, id).Ok?
    requires r.result.Ok? ==>
      var i := Find(st, id).value;
      r.result.value.Id == st.items[i].Id && r.state == st.(items := st.items[i := r.result.value])
    ensures Valid(r.state)
  {
    if r.result.Ok? {
      UniqueReplace(st.items, IdOf, Find(st, id).value, r.result.value);
    }
  }

  /** An id is never reused: a campaign created after a delete gets an id different from
      the deleted one's (and from every id still present). */
  lemma NoReuseAfterDelete(st: Campaigns, id: Raw, d: Draft, now: string)
    requires Valid(st) && Delete(st, id).result.Ok?
    ensures Create(Delete(st, id).state, d, now).result.value.Id != Delete(st, id).result.value.Id
    ensures !HasId(Delete(st, id).state.items, IdOf, Create(Delete(st, id).state, d, now).result.value.Id)
  {
    var i := Find(st, id).value;
    assert Delete(st, id).result.value == st.items[i];
    DeleteKeepsValid(st, id);
  }

  /** Launching a draft and pausing it again restores status "draft"; only `lastSent`
      remembers the launch. */
  lemma LaunchThenPause(st: Campaigns, id: Raw, now: string)
    requires GetById(st, id).Ok? && GetById(st, id).value.status == "draft"
    ensures Pause(Launch(st, id, now).state, id).result.Ok?
    ensures var i := Find(st, id).value;
      Pause(Launch(st, id, now).state, id).state
        == st.(items := st.items[i := st.items[i].(lastSent := Some(now))])
  {
    var i := Find(st, id).value;
    var launched := st.items[i].(status := "active", lastSent := Some(now));
    LaunchedAt(st, id, now);
    var st1 := Launch(st, id, now).state;
    PausedAt(st1, id, i);
    assert launched.(status := "draft") == st.items[i].(lastSent := Some(now));
    assert st1.items[i := launched.(status := "draft")] == st.items[i := st.items[i].(lastSent := Some(now))];
  }

  /** A launch leaves the launched campaign where it was, so the next lookup finds it there. */
  lemma LaunchedAt(st: Campaigns, id: Raw, now: string)
    requires GetById(st, id).Ok? && GetById(st, id).value.status == "draft"
    ensures var i := Find(st, id).value;
      && Launch(st, id, now).state == st.(items := st.items[i := st.items[i].(status := "active", lastSent := Some(now))])
      && Find(Launch(st, id, now).state, id) == Ok(i)
  {
    var i := Find(st, id).value;
    var st1 := Launch(st, id, now).state;
    assert st1.items == st.items[i := st.items[i].(status := "active", lastSent := Some(now))];
    FindIndexSameIds(st.items, st1.items, IdOf, ParseRaw(id).value);
  }

  /** Pausing the active campaign found at `i` sets it back to draft in place. */
  lemma PausedAt(st: Campaigns, id: Raw, i: nat)
    requires Find(st, id) == Ok(i) && st.items[i].status == "active"
    ensures Pause(st, id).result.Ok?
    ensures Pause(st, id).state == st.(items := st.items[i := st.items[i].(status := "draft")])
  {
  }

  // ---------------------------------------------------------------- metrics

  datatype Metrics = Metrics(
    totalCampaigns: nat,
    activeCampaigns: nat,
    draftCampaigns: nat,
    sentCampaigns: nat,
    totalSent: int,
    totalOpened: int,
    totalClicked: int,
    avgOpenRate: real,
    avgClickRate: real)

  /** `(part / whole) * 100` when `whole > 0`, else 0. */
  function Percent(part: int, whole: int): (r: real)
    ensures whole <= 0 ==> r == 0.0
    ensures whole > 0 ==> r * whole as real == part as real * 100.0
    ensures whole > 0 && part >= 0 ==> r >= 0.0
  {
    if whole > 0 then (part as real / whole as real) * 100.0 else 0.0
  }

  /** `getMetrics`: the number of campaigns, how many are active, draft and sent (never more
      than all of them together), the summed counters, and the open and click rates, 0 when
      nothing was sent. */
  function GetMetrics(st: Campaigns): (m: Metrics)
    ensures m.totalCampaigns == |st.items|
    ensures m.activeCampaigns + m.draftCampaigns + m.sentCampaigns <= m.totalCampaigns
    ensures m.activeCampaigns == Count(st.items, (c: Campaign) => c.status == "active")
    ensures m.draftCampaigns == Count(st.items, (c: Campaign) => c.status == "draft")
    ensures m.sentCampaigns == Count(st.items, (c: Campaign) => c.status == "sent")
    ensures m.totalSent == Sum(st.items, (c: Campaign) => c.sent)
    ensures m.totalOpened == Sum(st.items, (c: Campaign) => c.openedCount)
    ensures m.totalClicked == Sum(st.items, (c: Campaign) => c.clicked)
    ensures m.avgOpenRate == Percent(m.totalOpened, m.totalSent)
    ensures m.avgClickRate == Percent(m.totalClicked, m.totalSent)
    ensures m.totalSent == 0 ==> m.avgOpenRate == 0.0 && m.avgClickRate == 0.0
  {
    var items := st.items;
    var active := (c: Campaign) => c.status == "active";
    var draft := (c: Campaign) => c.status == "draft";
    var sentStatus := (c: Campaign) => c.status == "sent";
    var activeOrDraft := (c: Campaign) => c.status == "active" || c.status == "draft";
    var any3 := (c: Campaign) => c.status == "active" || c.status == "draft" || c.status == "sent";
    CountDisjoint(items, active, draft, activeOrDraft);
    CountDisjoint(items, activeOrDraft, sentStatus, any3);
    var totalSent := Sum(items, (c: Campaign) => c.sent);
    var totalOpened := Sum(items, (c: Campaign) => c.openedCount);
    var totalClicked := Sum(items, (c: Campaign) => c.clicked);
    Metrics(
      |items|,
      Count(items, active),
      Count(items, draft),
      Count(items, sentStatus),
      totalSent,
      totalOpened,
      totalClicked,
      Percent(totalOpened, totalSent),
      Percent(totalClicked, totalSent))
  }

  /** A newly created campaign counts once more among all campaigns and among those of its
      status, and, having sent nothing, leaves every summed counter and both rates as they
      were. */
  lemma MetricsAfterCreate(st: Campaigns, d: Draft, now: string)
    ensures var before := GetMetrics(st);
      var after := GetMetrics(Create(st, d, now).state);
      && after.totalCampaigns == before.totalCampaigns + 1
      && after.activeCampaigns == before.activeCampaigns + (if d.status == "active" then 1 else 0)
      && after.draftCampaigns == before.draftCampaigns + (if d.status == "draft" then 1 else 0)
      && after.sentCampaigns == before.sentCampaigns + (if d.status == "sent" then 1 else 0)
      && after.totalSent == before.totalSent
      && after.totalOpened == before.totalOpened
      && after.totalClicked == before.totalClicked
      && after.avgOpenRate == before.avgOpenRate && after.avgClickRate == before.avgClickRate
  {
    var c := Create(st, d, now).result.value;
    assert Create(st, d, now).state.items == st.items + [c];
    CountsAfterAppend(st.items, c);
    SumsAfterAppend(st.items, c);
  }

  lemma CountsAfterAppend(items: seq<Campaign>, c: Campaign)
    ensures Count(items + [c], (c: Campaign) => c.status == "active") ==
      Count(items, (c: Campaign) => c.status == "active") + (if c.status == "active" then 1 else 0)
    ensures Count(items + [c], (c: Campaign) => c.status == "draft") ==
      Count(items, (c: Campaign) => c.status == "draft") + (if c.status == "draft" then 1 else 0)
    ensures Count(items + [c], (c: Campaign) => c.status == "sent") ==
      Count(items, (c: Campaign) => c.status == "sent") + (if c.status == "sent" then 1 else 0)
  {
    CountAppend(items, c, (c: Campaign) => c.status == "active");
    CountAppend(items, c, (c: Campaign) => c.status == "draft");
    CountAppend(items, c, (c: Campaign) => c.status == "sent");
  }

  lemma SumsAfterAppend(items: seq<Campaign>, c: Campaign)
    requires c.sent == 0 && c.openedCount == 0 && c.clicked == 0
    ensures Sum(items + [c], (c: Campaign) => c.sent) == Sum(items, (c: Campaign) => c.sent)
    ensures Sum(items + [c], (c: Campaign) => c.openedCount) == Sum(items, (c: Campaign) => c.openedCount)
    ensures Sum(items + [c], (c: Campaign) => c.clicked) == Sum(items, (c: Campaign) => c.clicked)
  {
    SumConcat(items, [c], (c: Campaign) => c.sent);
    SumConcat(items, [c], (c: Campaign) => c.openedCount);
    SumConcat(items, [c], (c: Campaign) => c.clicked);
  }
}

=== FILE: company_service.dfy ===
/** The company store: companies with max-plus-one ids, an employee count coerced to an
    integer on every write, and a custom-property map that updates merge key by key. */
module CompanyService {
  import opened Wrappers
  import opened Js
  import opened Store
  import opened CustomPropertyService

  datatype Company = Company(
    Id: int,
    name: string,
    industry: string,
    employeeCount: int,
    customProperties: map<string, PropertyValue>)

  /** What `create` receives; absent custom properties are `None`. */
  datatype Draft = Draft(
    name: string,
    industry: string,
    employeeCount: Raw,
    customProperties: Option<map<string, PropertyValue>>)

  /** What `update` receives; `None`/`Missing` is a field the object leaves out. */
  datatype Patch = Patch(
    name: Option<string>,
    industry: Option<string>,
    employeeCount: Raw,
    customProperties: Option<map<string, PropertyValue>>)

  function CompanyId(c: Company): int {
    c.Id
  }

  /** `getById`: the company whose id is `parseInt(id)`. */
  function GetById(s: seq<Company>, id: Raw): (r: Result<Company>)
    ensures r.Ok? <==> ParseRaw(id).Some? && HasId(s, CompanyId, ParseRaw(id).value)
    ensures r.Ok? ==> r.value in s && r.value.Id == ParseRaw(id).value
    ensures r.Err? ==> r.message == "Company not found"
  {
    match Locate(s, CompanyId, ParseRaw(id))
    case None => Err("Company not found")
    case Some(i) => Ok(s[i])
  }

  /** `create`: the next id, `parseInt(employeeCount) || 0`, and `{}` for absent custom
      properties. */
  function Create(s: seq<Company>, d: Draft): (r: Step<seq<Company>, Company>)
    ensures r.result.Ok?
    ensures r.state == s + [r.result.value]
    ensures var c := r.result.value;
      && c.Id == NextId(s, CompanyId)
      && c.employeeCount == IntOrZero(d.employeeCount)
      && (d.customProperties.None? ==> c.customProperties == map[])
      && (d.customProperties.Some? ==> c.customProperties == d.customProperties.value)
      && c.name == d.name && c.industry == d.industry
  {
    var c := Company(MaxId(s, CompanyId) + 1, d.name, d.industry, IntOrZero(d.employeeCount),
      d.customProperties.GetOr(map[]));
    Step(s + [c], Ok(c))
  }

  /** The merge `update` performs: the employee count is re-parsed from the patch even when
      the patch leaves it out (giving 0), and custom properties are merged key by key with
      the patch's values winning. */
  function Merge(c: Company, p: Patch): (m: Company)
    ensures m.Id == c.Id
    ensures p.name.Some? ==> m.name == p.name.value
    ensures p.name.None? ==> m.name == c.name
    ensures p.industry.Some? ==> m.industry == p.industry.value
    ensures p.industry.None? ==> m.industry == c.industry
    ensures m.employeeCount == IntOrZero(p.employeeCount)
    ensures p.employeeCount.Missing? ==> m.employeeCount == 0
    ensures m.customProperties.Keys == c.customProperties.Keys + p.customProperties.GetOr(map[]).Keys
    ensures forall k :: k in p.customProperties.GetOr(map[]) ==> m.customProperties[k] == p.customProperties.value[k]
    ensures forall k :: k in c.customProperties && k !in p.customProperties.GetOr(map[]) ==>
      m.customProperties[k] == c.customProperties[k]
  {
    Company(c.Id, p.name.GetOr(c.name), p.industry.GetOr(c.industry), IntOrZero(p.employeeCount),
      c.customProperties + p.customProperties.GetOr(map[]))
  }

  /** `update`: merges into the matching company; an unknown id changes nothing. */
  function Update(s: seq<Company>, id: Raw, p: Patch): (r: Step<seq<Company>, Company>)
    ensures r.result.Ok? <==> GetById(s, id).Ok?
    ensures r.result.Err? ==> r == Step(s, Err("Company not found"))
    ensures r.result.Ok? ==>
      var i := Locate(s, CompanyId, ParseRaw(id)).value;
      r.result.value == Merge(s[i], p) && r.state == s[i := r.result.value]
  {
    match Locate(s, CompanyId, ParseRaw(id))
    case None => Step(s, Err("Company not found"))
    case Some(i) =>
      var c := Merge(s[i], p);
      Step(s[i := c], Ok(c))
  }

  /** `delete_`: removes the matching company and resolves to `true`. */
  function Delete(s: seq<Company>, id: Raw): (r: Step<seq<Company>, bool>)
    ensures r.result.Ok? <==> GetById(s, id).Ok?
    ensures r.result.Err? ==> r == Step(s, Err("Company not found"))
    ensures r.result.Ok? ==>
      r.result.value && r.state == RemoveAt(s, Locate(s, CompanyId, ParseRaw(id)).value)
  {
    match Locate(s, CompanyId, ParseRaw(id))
    case None => Step(s, Err("Company not found"))
    case Some(i) => Step(RemoveAt(s, i), Ok(true))
  }

  /** Merging custom properties twice with the same patch is the same as merging once. */
  lemma MergeIdempotent(c: Company, p: Patch)
    ensures Merge(Merge(c, p), p) == Merge(c, p)
  {
    var once := Merge(c, p).customProperties;
    var twice := Merge(Merge(c, p), p).customProperties;
    assert once == twice;
  }

  /** A created company can be fetched back by its id, and an updated one yields the merge. */
  lemma CreateUpdateThenGet(s: seq<Company>, d: Draft, id: Raw, p: Patch)
    ensures var r := Create(s, d);
      GetById(r.state, Num(r.result.value.Id)) == Ok(r.result.value)
    ensures Update(s, id, p).result.Ok? ==> GetById(Update(s, id, p).state, id) == Update(s, id, p).result
  {
    FindIndexAppend(s, CompanyId, Create(s, d).result.value);
    if Update(s, id, p).result.Ok? {
      FindIndexSameIds(s, Update(s, id, p).state, CompanyId, ParseRaw(id).value);
    }
  }

  lemma DeleteKeepsUnique(s: seq<Company>, id: Raw)
    requires Unique(s, CompanyId)
    ensures Unique(Delete(s, id).state, CompanyId)
    ensures GetById(Delete(s, id).state, id).Err?
  {
    if Delete(s, id).result.Ok? {
      UniqueRemove(s, CompanyId, Locate(s, CompanyId, ParseRaw(id)).value);
    }
  }
}

=== FILE: contact_form.dfy ===
/** The contact form: its defaults, the values it loads from a contact being edited, and
    `validateForm`'s rules for names, email, phone and lifecycle stage. */
module ContactForm {
  import opened Wrappers
  import opened Js
  import Text
  import Form
  import ContactService

  datatype Field = FirstName | LastName | Email | Phone | CompanyId | LifecycleStage | Notes

  type Data = Form.Data<Field>

  /** The data of a new form: every field empty except the lifecycle stage, "Lead". */
  function Defaults(): (d: Data)
    ensures Form.Get(d, LifecycleStage) == Str("Lead")
    ensures forall k :: k in d && k != LifecycleStage ==> d[k] == Str("")
    ensures d.Keys == Fields
  {
    map[FirstName := Str(""), LastName := Str(""), Email := Str(""), Phone := Str(""),
        CompanyId := Str(""), LifecycleStage := Str("Lead"), Notes := Str("")]
  }

  /** The data loaded from a contact being edited: each field, or its default when falsy;
      the company reference is kept as the number it is, or `""` without one. */
  function FromContact(c: ContactService.Contact): (d: Data)
    ensures d.Keys == Defaults().Keys
    ensures Form.Shown(d, FirstName) == c.firstName && Form.Shown(d, Email) == c.email
    ensures Form.Shown(d, LastName) == c.lastName && Form.Shown(d, Phone) == c.phone
    ensures Form.Shown(d, Notes) == c.notes
    ensures c.lifecycleStage == "" ==> d[LifecycleStage] == Str("Lead")
    ensures c.lifecycleStage != "" ==> d[LifecycleStage] == Str(c.lifecycleStage)
    ensures c.companyId.Some? && c.companyId.value != 0 ==> RefOf(d[CompanyId]) == c.companyId
    ensures c.companyId.None? ==> RefOf(d[CompanyId]).None?
  {
    map[FirstName := Str(c.firstName), LastName := Str(c.lastName),
        Email := Str(c.email), Phone := Str(c.phone),
        CompanyId := (if c.companyId.Some? && c.companyId.value != 0 then Num(c.companyId.value) else Str("")),
        LifecycleStage := Str(if c.lifecycleStage == "" then "Lead" else c.lifecycleStage),
        Notes := Str(c.notes)]
  }

  /** The pattern matched with its `@` at `at` and its `.` at `dot`: a non-space character
      before the `@`, only non-space characters between the two, one after the `.`. */
  predicate EmailAt(s: string, at: int, dot: int)
    requires 0 < at && at + 1 < dot && dot + 1 < |s|
  {
    && s[at] == '@' && s[dot] == '.'
    && !Text.IsSpace(s[at - 1]) && !Text.IsSpace(s[dot + 1])
    && (forall m :: at < m < dot ==> !Text.IsSpace(s[m]))
  }

  /** `/\S+@\S+\.\S+/.test(s)`: the pattern is unanchored, so it matches wherever some `@`
      and some later `.` fit it. */
  predicate EmailLike(s: string) {
    exists at, dot :: 0 < at && at + 1 < dot && dot + 1 < |s| && EmailAt(s, at, dot)
  }

  /** The rule `validateForm` applies to one field, as the message it stores for it. */
  function Check(d: Data, f: Field): (m: Option<string>)
    ensures f in {FirstName, LastName, Phone} ==> (m.Some? <==> Text.AllSpace(Form.Shown(d, f)))
    ensures f == Email ==> (m.Some? <==> Text.AllSpace(Form.Shown(d, f)) || !EmailLike(Form.Shown(d, f)))
    ensures f == LifecycleStage ==> (m.Some? <==> !Truthy(Form.Get(d, f)))
    ensures f in {CompanyId, Notes} ==> m.None?
    ensures m.Some? ==> m.value != ""
  {
    var t := Text.Trim(Form.Shown(d, f));
    Text.TrimEmptyIffBlank(Form.Shown(d, f));
    match f
    case FirstName => if t == "" then Some("First name is required") else None
    case LastName => if t == "" then Some("Last name is required") else None
    case Email =>
      if t == "" then Some("Email is required")
      else if !EmailLike(Form.Shown(d, f)) then Some("Email is invalid")
      else None
    case Phone => if t == "" then Some("Phone number is required") else None
    case LifecycleStage => if !Truthy(Form.Get(d, f)) then Some("Lifecycle stage is required") else None
    case CompanyId => None
    case Notes => None
  }

  const Fields: set<Field> := {FirstName, LastName, Email, Phone, CompanyId, LifecycleStage, Notes}

  /** `validateForm`: one message per failing field, and only for failing fields. */
  function Validate(d: Data): (errors: Form.Errors<Field>)
    ensures FirstName in errors <==> Text.AllSpace(Form.Shown(d, FirstName))
    ensures LastName in errors <==> Text.AllSpace(Form.Shown(d, LastName))
    ensures Phone in errors <==> Text.AllSpace(Form.Shown(d, Phone))
    ensures Email in errors <==> Text.AllSpace(Form.Shown(d, Email)) || !EmailLike(Form.Shown(d, Email))
    ensures LifecycleStage in errors <==> !Truthy(Form.Get(d, LifecycleStage))
    ensures CompanyId !in errors && Notes !in errors
    ensures forall k :: k in errors ==> Form.HasError(errors, k)
  {
    map f | f in Fields && Check(d, f).Some? :: Check(d, f).value
  }

  /** The email's message tells a blank address from a malformed one. */
  lemma EmailMessage(d: Data)
    requires Email in Validate(d)
    ensures Text.AllSpace(Form.Shown(d, Email)) ==> Validate(d)[Email] == "Email is required"
    ensures !Text.AllSpace(Form.Shown(d, Email)) ==> Validate(d)[Email] == "Email is invalid"
  {
    Text.TrimEmptyIffBlank(Form.Shown(d, Email));
  }

  /** The form submits exactly when both names and the phone are non-blank, the email is
      non-blank and looks like an address, and a lifecycle stage is chosen. */
  lemma ValidIff(d: Data)
    ensures Form.NoErrors(Validate(d)) <==>
      && !Text.AllSpace(Form.Shown(d, FirstName))
      && !Text.AllSpace(Form.Shown(d, LastName))
      && !Text.AllSpace(Form.Shown(d, Phone))
      && !Text.AllSpace(Form.Shown(d, Email)) && EmailLike(Form.Shown(d, Email))
      && Truthy(Form.Get(d, LifecycleStage))
  {
    var errors := Validate(d);
    if !Form.NoErrors(errors) {
      var k :| k in errors;
    }
  }

  /** A fresh form is refused for the two names, the email and the phone, but not for the
      lifecycle stage, which starts as "Lead". */
  lemma DefaultsErrors()
    ensures var e := Validate(Defaults());
      && FirstName in e && LastName in e && Email in e && Phone in e
      && LifecycleStage !in e && e[Email] == "Email is required"
  {
    var d := Defaults();
    assert Form.Shown(d, FirstName) == "" && Form.Shown(d, LastName) == "";
    assert Form.Shown(d, Email) == "" && Form.Shown(d, Phone) == "";
    assert Form.Get(d, LifecycleStage) == Str("Lead");
    EmailMessage(d);
  }

  /** The pattern is unanchored and loose: a plain address passes, and so does one with
      text around it; a missing top-level dot or a space before `@` fails. */
  lemma EmailExamples()
    ensures EmailLike("ann@example.com")
    ensures EmailLike("to: a@b.c please")
    ensures !EmailLike("ann@example")
    ensures !EmailLike("a @b.c")
  {
    assert EmailAt("ann@example.com", 3, 11);
    assert EmailAt("to: a@b.c please", 5, 7);
    var t := "ann@example";
    assert forall dot :: 0 <= dot < |t| ==> t[dot] != '.';
    var u := "a @b.c";
    assert forall at :: 0 < at < |u| && u[at] == '@' ==> at == 2;
  }
}

=== FILE: contact_modal.dfy ===
/** The contact details dialog: nothing for a missing contact; otherwise the contact's
    company name, the company section (only when the company is found), and the contact's
    activities. */
module ContactModal {
  import opened Wrappers
  import opened Store
  import ContactService
  import CompanyService
  import ActivityService
  import ContactsTable
  import Js

  type Contact = ContactService.Contact
  type Company = CompanyService.Company
  type Activity = ActivityService.Activity

  /** What the dialog draws: the company line, the company section's company if shown,
      and the contact's activities. */
  datatype View = View(companyName: string, company: Option<Company>, activities: seq<Activity>)

  /** `getCompanyDetails`: the first company with the id, if any. */
  function CompanyDetails(companies: seq<Company>, id: Option<int>): (c: Option<Company>)
    ensures c.None? <==> id.None? || !HasId(companies, CompanyService.CompanyId, id.value)
    ensures c.Some? ==> c.value in companies && c.value.Id == id.value
  {
    Find(companies, CompanyService.CompanyId, id)
  }

  /** `activities.filter(a => a.contactId === contact.Id)`, in the order given. */
  function ContactActivities(activities: seq<Activity>, contact: Contact): (r: seq<Activity>)
    ensures forall i :: 0 <= i < |r| ==> r[i] in activities && r[i].contactId == Some(contact.Id)
    ensures forall i :: 0 <= i < |activities| && activities[i].contactId == Some(contact.Id) ==> activities[i] in r
    ensures forall a :: multiset(r)[a] == if a.contactId == Some(contact.Id) then multiset(activities)[a] else 0
  {
    FilterCounts(activities, (a: Activity) => a.contactId == Some(contact.Id));
    Filter(activities, (a: Activity) => a.contactId == Some(contact.Id))
  }

  /** The list keeps the given order: two stretches of activities list as the first
      stretch's followed by the second's. */
  lemma ContactActivitiesKeepOrder(a: seq<Activity>, b: seq<Activity>, contact: Contact)
    ensures ContactActivities(a + b, contact) == ContactActivities(a, contact) + ContactActivities(b, contact)
  {
    FilterConcat(a, b, (x: Activity) => x.contactId == Some(contact.Id));
  }

  /** The dialog: `null` without a contact (the guard comes before anything reads it). */
  function Render(contact: Option<Contact>, companies: seq<Company>, activities: seq<Activity>): (v: Option<View>)
    ensures v.None? <==> contact.None?
    ensures v.Some? ==> v.value.activities == ContactActivities(activities, contact.value)
    ensures v.Some? ==> v.value.company == CompanyDetails(companies, contact.value.companyId)
  {
    match contact
    case None => None
    case Some(c) =>
      Some(View(ContactsTable.CompanyName(companies, c.companyId), CompanyDetails(companies, c.companyId),
        ContactActivities(activities, c)))
  }

  // ---------------------------------------------------------------- properties

  /** The company line and the company section agree: with the company found, the line is
      its name and the section shows it; without it, the line reads "No Company" and the
      section is hidden. */
  lemma CompanyLineMatchesSection(contact: Contact, companies: seq<Company>, activities: seq<Activity>)
    ensures var v := Render(Some(contact), companies, activities).value;
      && (v.company.Some? ==> v.companyName == v.company.value.name)
      && (v.company.None? ==> v.companyName == ContactsTable.NoCompany)
  {
  }

  /** The dialog lists exactly what the store's `getByContactId` returns for the contact,
      in the same order. */
  lemma SameActivitiesAsStore(activities: seq<Activity>, contact: Contact)
    ensures ContactActivities(activities, contact) == ActivityService.GetByContactId(activities, Js.Num(contact.Id))
  {
    FilterSame(activities, (a: Activity) => a.contactId == Some(contact.Id),
      (a: Activity) => ActivityService.RefersTo(a.contactId, Js.Num(contact.Id)));
  }
}

=== FILE: contact_service.dfy ===
/** The contact store: contacts with max-plus-one ids and a company reference that every
    create and update re-derives from the caller's (loose) `companyId`. */
module ContactService {
  import opened Wrappers
  import opened Js
  import opened Store

  /** A stored contact; an absent lifecycle stage is the empty string. */
  datatype Contact = Contact(
    Id: int,
    firstName: string,
    lastName: string,
    email: string,
    phone: string,
    companyId: Option<int>,
    lifecycleStage: string,
    notes: string,
    createdAt: string,
    updatedAt: string)

  /** The contact form's fields as `create` receives them. */
  datatype Draft = Draft(
    firstName: string,
    lastName: string,
    email: string,
    phone: string,
    companyId: Raw,
    lifecycleStage: string,
    notes: string)

  /** What `update` receives; `None`/`Missing` is a field the object leaves out. */
  datatype Patch = Patch(
    firstName: Option<string>,
    lastName: Option<string>,
    email: Option<string>,
    phone: Option<string>,
    companyId: Raw,
    lifecycleStage: Option<string>,
    notes: Option<string>)

  function IdOf(c: Contact): int {
    c.Id
  }

  /** `getById`: the contact whose id is `parseInt(id)`. */
  function GetById(s: seq<Contact>, id: Raw): (r: Result<Contact>)
    ensures r.Ok? <==> ParseRaw(id).Some? && HasId(s, IdOf, ParseRaw(id).value)
    ensures r.Ok? ==> r.value in s && r.value.Id == ParseRaw(id).value
    ensures r.Err? ==> r.message == "Contact not found"
  {
    match Locate(s, IdOf, ParseRaw(id))
    case None => Err("Contact not found")
    case Some(i) => Ok(s[i])
  }

  /** `create`: the next id and the parsed company reference (null when falsy). */
  function Create(s: seq<Contact>, d: Draft, now: string): (r: Step<seq<Contact>, Contact>)
    ensures r.result.Ok?
    ensures r.state == s + [r.result.value]
    ensures var c := r.result.value;
      && c.Id == NextId(s, IdOf) && c.companyId == RefOf(d.companyId)
      && c.firstName == d.firstName && c.lastName == d.lastName && c.email == d.email
      && c.phone == d.phone && c.notes == d.notes
      && c.lifecycleStage == d.lifecycleStage && c.createdAt == now && c.updatedAt == now
  {
    var c := Contact(MaxId(s, IdOf) + 1, d.firstName, d.lastName, d.email, d.phone,
      RefOf(d.companyId), d.lifecycleStage, d.notes, now, now);
    Step(s + [c], Ok(c))
  }

  /** The merge `update` performs: supplied fields override, and the company reference is
      always taken from the patch, so a patch without one clears it. */
  function Merge(c: Contact, p: Patch, now: string): (m: Contact)
    ensures m.Id == c.Id && m.createdAt == c.createdAt && m.updatedAt == now
    ensures m.companyId == RefOf(p.companyId)
    ensures p.lifecycleStage.None? ==> m.lifecycleStage == c.lifecycleStage
    ensures p.lifecycleStage.Some? ==> m.lifecycleStage == p.lifecycleStage.value
    ensures p.firstName.Some? ==> m.firstName == p.firstName.value
    ensures p.firstName.None? ==> m.firstName == c.firstName
    ensures p.lastName.Some? ==> m.lastName == p.lastName.value
    ensures p.lastName.None? ==> m.lastName == c.lastName
    ensures p.email.Some? ==> m.email == p.email.value
    ensures p.email.None? ==> m.email == c.email
    ensures p.phone.Some? ==> m.phone == p.phone.value
    ensures p.phone.None? ==> m.phone == c.phone
    ensures p.notes.Some? ==> m.notes == p.notes.value
    ensures p.notes.None? ==> m.notes == c.notes
  {
    Contact(c.Id, p.firstName.GetOr(c.firstName), p.lastName.GetOr(c.lastName),
      p.email.GetOr(c.email), p.phone.GetOr(c.phone), RefOf(p.companyId),
      p.lifecycleStage.GetOr(c.lifecycleStage), p.notes.GetOr(c.notes), c.createdAt, now)
  }

  /** `update`: merges into the matching contact; an unknown id changes nothing. */
  function Update(s: seq<Contact>, id: Raw, p: Patch, now: string): (r: Step<seq<Contact>, Contact>)
    ensures r.result.Ok? <==> GetById(s, id).Ok?
    ensures r.result.Err? ==> r == Step(s, Err("Contact not found"))
    ensures r.result.Ok? ==>
      var i := Locate(s, IdOf, ParseRaw(id)).value;
      r.result.value == Merge(s[i], p, now) && r.state == s[i := r.result.value]
  {
    match Locate(s, IdOf, ParseRaw(id))
    case None => Step(s, Err("Contact not found"))
    case Some(i) =>
      var c := Merge(s[i], p, now);
      Step(s[i := c], Ok(c))
  }

  /** `delete_`: removes the matching contact and resolves to `true`. */
  function Delete(s: seq<Contact>, id: Raw): (r: Step<seq<Contact>, bool>)
    ensures r.result.Ok? <==> GetById(s, id).Ok?
    ensures r.result.Err? ==> r == Step(s, Err("Contact not found"))
    ensures r.result.Ok? ==>
      r.result.value && r.state == RemoveAt(s, Locate(s, IdOf, ParseRaw(id)).value)
  {
    match Locate(s, IdOf, ParseRaw(id))
    case None => Step(s, Err("Contact not found"))
    case Some(i) => Step(RemoveAt(s, i), Ok(true))
  }

  // ---------------------------------------------------------------- properties across calls

  /** A created contact can be fetched back by its id. */
  lemma CreateThenGet(s: seq<Contact>, d: Draft, now: string)
    ensures var r := Create(s, d, now);
      GetById(r.state, Num(r.result.value.Id)) == Ok(r.result.value)
  {
    var r := Create(s, d, now);
    FindIndexAppend(s, IdOf, r.result.value);
  }

  /** After an update, fetching the same id gives the merged contact. */
  lemma UpdateThenGet(s: seq<Contact>, id: Raw, p: Patch, now: string)
    requires Update(s, id, p, now).result.Ok?
    ensures GetById(Update(s, id, p, now).state, id) == Update(s, id, p, now).result
  {
    var r := Update(s, id, p, now);
    FindIndexSameIds(s, r.state, IdOf, ParseRaw(id).value);
  }

  /** After a delete the id is gone, provided ids were unique. */
  lemma DeleteThenGet(s: seq<Contact>, id: Raw)
    requires Unique(s, IdOf) && Delete(s, id).result.Ok?
    ensures GetById(Delete(s, id).state, id).Err?
    ensures Unique(Delete(s, id).state, IdOf)
  {
    UniqueRemove(s, IdOf, Locate(s, IdOf, ParseRaw(id)).value);
  }

  lemma CreateUpdateKeepUnique(s: seq<Contact>, d: Draft, id: Raw, p: Patch, now: string)
    requires Unique(s, IdOf)
    ensures Unique(Create(s, d, now).state, IdOf)
    ensures Unique(Update(s, id, p, now).state, IdOf)
  {
    UniqueAppend(s, IdOf, Create(s, d, now).result.value);
    if Update(s, id, p, now).result.Ok? {
      UniqueReplace(s, IdOf, Locate(s, IdOf, ParseRaw(id)).value, Update(s, id, p, now).result.value);
    }
  }
}

=== FILE: contacts_page.dfy ===
/** The contacts page: the list the table shows (search, lifecycle and company filters,
    then a sort on the chosen column), row selection with its bulk-action bar, and the
    handlers that write contacts back after a delete, a bulk action or a form save. */
module ContactsPage {
  import opened Wrappers
  import opened Js
  import opened Store
  import Text
  import Sorting
  import ContactService
  import CompanyService

  type Contact = ContactService.Contact
  type Company = CompanyService.Company

  datatype Filters = Filters(lifecycleStage: string, companyId: string)

  /** The sortable columns: name, company, email, lifecycle stage and creation date. */
  datatype SortField = FirstName | CompanyId | Email | LifecycleStage | CreatedAt

  datatype Direction = Asc | Desc

  datatype Page = Page(
    contacts: seq<Contact>,
    companies: seq<Company>,
    query: string,
    filters: Filters,
    sortField: SortField,
    direction: Direction,
    selection: seq<int>,
    showBulk: bool)

  /** The page as it first renders, before the contacts arrive. */
  function Initial(): (p: Page)
    ensures p.contacts == [] && p.selection == [] && !p.showBulk
    ensures p.sortField == FirstName && p.direction == Asc && p.filters == Filters("", "")
  {
    Page([], [], "", Filters("", ""), FirstName, Asc, [], false)
  }

  // ---------------------------------------------------------------- the visible list

  function FullName(c: Contact): string {
    c.firstName + " " + c.lastName
  }

  /** The search: the lower-cased query inside the lower-cased full name or email, or inside
      the phone number as typed. */
  predicate MatchesSearch(c: Contact, query: string) {
    var q := Text.Lower(query);
    Text.Includes(Text.Lower(FullName(c)), q) || Text.Includes(Text.Lower(c.email), q) || Text.Includes(c.phone, q)
  }

  /** Both filters, each applying only when set; the company filter compares with
      `parseInt` of its value, so a contact without a company never matches it. */
  predicate MatchesFilters(c: Contact, f: Filters) {
    && (f.lifecycleStage != "" ==> c.lifecycleStage == f.lifecycleStage)
    && (f.companyId != "" ==> c.companyId.Some? && ParseInt(f.companyId) == c.companyId)
  }

  /** Whether a contact survives the page's filters; a blank query searches nothing. */
  predicate Shown(c: Contact, query: string, f: Filters) {
    (Text.AllSpace(query) || MatchesSearch(c, query)) && MatchesFilters(c, f)
  }

  /** `companies.find(c => c.Id === id)?.name || ""`. */
  function CompanyName(companies: seq<Company>, id: Option<int>): (name: string)
    ensures name != "" ==> exists i :: 0 <= i < |companies| && Some(companies[i].Id) == id && companies[i].name == name
    ensures id.None? ==> name == ""
  {
    if |companies| == 0 || id.None? then ""
    else if companies[0].Id == id.value then companies[0].name
    else
      var rest := CompanyName(companies[1..], id);
      assert rest != "" ==> exists i :: 1 <= i < |companies| && Some(companies[i].Id) == id && companies[i].name == rest by {
        if rest != "" {
          var i :| 0 <= i < |companies[1..]| && Some(companies[1..][i].Id) == id && companies[1..][i].name == rest;
          assert companies[i + 1] == companies[1..][i];
        }
      }
      rest
  }

  /** The string the sort compares for a column: lower-cased, with the full name standing
      for the name column and the company's name for the company column. */
  function SortKey(field: SortField, companies: seq<Company>, c: Contact): string {
    match field
    case FirstName => Text.Lower(FullName(c))
    case CompanyId => Text.Lower(CompanyName(companies, c.companyId))
    case Email => Text.Lower(c.email)
    case LifecycleStage => Text.Lower(c.lifecycleStage)
    case CreatedAt => Text.Lower(c.createdAt)
  }

  /** `filteredContacts`: exactly the contacts passing search and filters, in sort order. */
  function Visible(p: Page): (r: seq<Contact>)
    ensures forall i :: 0 <= i < |r| ==> r[i] in p.contacts && Shown(r[i], p.query, p.filters)
    ensures forall i :: 0 <= i < |p.contacts| && Shown(p.contacts[i], p.query, p.filters) ==> p.contacts[i] in r
    ensures multiset(r) == multiset(Filter(p.contacts, (c: Contact) => Shown(c, p.query, p.filters)))
    ensures p.direction == Asc ==> forall i, j :: 0 <= i < j < |r| ==>
      Text.LexLe(SortKey(p.sortField, p.companies, r[i]), SortKey(p.sortField, p.companies, r[j]))
    ensures p.direction == Desc ==> forall i, j :: 0 <= i < j < |r| ==>
      Text.LexLe(SortKey(p.sortField, p.companies, r[j]), SortKey(p.sortField, p.companies, r[i]))
  {
    var f := Filter(p.contacts, (c: Contact) => Shown(c, p.query, p.filters));
    var r := Sorting.SortByKey(f, (c: Contact) => SortKey(p.sortField, p.companies, c), p.direction == Desc);
    forall i | 0 <= i < |r|
      ensures r[i] in p.contacts && Shown(r[i], p.query, p.filters)
    {
      assert r[i] in multiset(r);
      assert r[i] in multiset(f);
    }
    forall i | 0 <= i < |p.contacts| && Shown(p.contacts[i], p.query, p.filters)
      ensures p.contacts[i] in r
    {
      assert p.contacts[i] in multiset(f);
      assert p.contacts[i] in multiset(r);
    }
    r
  }

  // ---------------------------------------------------------------- filters

  /** `handleClearFilters`: both filters and the search emptied. */
  function ClearFilters(p: Page): (r: Page)
    ensures r.filters == Filters("", "") && r.query == ""
    ensures r.contacts == p.contacts && r.selection == p.selection && r.sortField == p.sortField
  {
    p.(filters := Filters("", ""), query := "")
  }

  // ---------------------------------------------------------------- selection

  /** `handleContactSelect`: a checked row's id appended, an unchecked row's id removed;
      the bulk bar shows while anything is selected. */
  function Select(p: Page, id: int, isSelected: bool): (r: Page)
    ensures r.contacts == p.contacts && r.query == p.query && r.filters == p.filters
    ensures isSelected ==> r.selection == p.selection + [id]
    ensures !isSelected ==> id !in r.selection && forall x :: x in p.selection && x != id ==> x in r.selection
    ensures forall x :: x in r.selection ==> x in p.selection || x == id
    ensures r.showBulk <==> |r.selection| > 0
  {
    var s := if isSelected then p.selection + [id] else Filter(p.selection, (x: int) => x != id);
    p.(selection := s, showBulk := |s| > 0)
  }

  /** `handleSelectAll`: checking selects exactly the visible rows (and shows the bar even
      when there are none); unchecking clears the selection and hides the bar. */
  function SelectAll(p: Page, all: bool): (r: Page)
    ensures all ==> |r.selection| == |Visible(p)| && r.showBulk
    ensures all ==> forall i :: 0 <= i < |Visible(p)| ==> r.selection[i] == Visible(p)[i].Id
    ensures !all ==> r.selection == [] && !r.showBulk
    ensures r.contacts == p.contacts
  {
    if all then p.(selection := IdsOf(Visible(p)), showBulk := true)
    else p.(selection := [], showBulk := false)
  }

  /** `rows.map(c => c.Id)`. */
  function IdsOf(rows: seq<Contact>): (ids: seq<int>)
    ensures |ids| == |rows| && forall i :: 0 <= i < |rows| ==> ids[i] == rows[i].Id
  {
    seq(|rows|, i requires 0 <= i < |rows| => rows[i].Id)
  }

  // ---------------------------------------------------------------- writes

  /** `handleDeleteContact` as written: the page calls `contactService.delete`, which the
      contact module does not export (it exports `delete_`), so the call throws, the error is
      caught and reported, and nothing is removed, confirmed or not. */
  function DeleteAsWritten(p: Page, store: seq<Contact>, id: int, confirmed: bool): (r: (Page, seq<Contact>))
    ensures r == (p, store)
  {
    (p, store)
  }

  /** The delete the page means: once confirmed, the store's `delete_` removes the contact
      and the page drops it from its list; a refused confirmation or a failed delete changes
      nothing. */
  function DeleteContact(p: Page, store: seq<Contact>, id: int, confirmed: bool): (r: (Page, seq<Contact>))
    ensures !confirmed ==> r == (p, store)
    ensures confirmed && ContactService.Delete(store, Num(id)).result.Err? ==> r == (p, store)
    ensures confirmed && ContactService.Delete(store, Num(id)).result.Ok? ==>
      && r.1 == ContactService.Delete(store, Num(id)).state
      && r.0 == p.(contacts := Filter(p.contacts, (c: Contact) => c.Id != id))
  {
    if !confirmed then (p, store)
    else
      var d := ContactService.Delete(store, Num(id));
      if d.result.Err? then (p, store)
      else (p.(contacts := Filter(p.contacts, (c: Contact) => c.Id != id)), d.state)
  }

  /** `handleBulkDelete`, given whether the bulk delete call succeeded: the selected
      contacts leave the list, the selection empties and the bar hides. */
  function BulkDelete(p: Page, confirmed: bool, succeeded: bool): (r: Page)
    ensures !confirmed || !succeeded ==> r == p
    ensures confirmed && succeeded ==>
      && r.selection == [] && !r.showBulk
      && (forall i :: 0 <= i < |r.contacts| ==> r.contacts[i].Id !in p.selection)
      && (forall i :: 0 <= i < |p.contacts| && p.contacts[i].Id !in p.selection ==> p.contacts[i] in r.contacts)
      && multiset(r.contacts) <= multiset(p.contacts)
  {
    if !confirmed || !succeeded then p
    else p.(contacts := Filter(p.contacts, (c: Contact) => c.Id !in p.selection), selection := [], showBulk := false)
  }

  /** `updatedContacts.find(uc => uc.Id === contact.Id) || contact`. */
  function Replacement(updated: seq<Contact>, c: Contact): (r: Contact)
    ensures r.Id == c.Id
    ensures r == c || r in updated
    ensures (forall i :: 0 <= i < |updated| ==> updated[i].Id != c.Id) ==> r == c
  {
    if |updated| == 0 then c
    else if updated[0].Id == c.Id then updated[0]
    else Replacement(updated[1..], c)
  }

  /** `handleBulkLifecycleUpdate`, given the bulk call's reply (`None` when it failed): an
      empty stage or a refused confirmation does nothing; otherwise each contact is replaced
      by its updated version when the reply has one, in place. */
  function BulkLifecycle(p: Page, stage: string, confirmed: bool, reply: Option<seq<Contact>>): (r: Page)
    ensures stage == "" || !confirmed || reply.None? ==> r == p
    ensures stage != "" && confirmed && reply.Some? ==>
      && r.selection == [] && !r.showBulk
      && |r.contacts| == |p.contacts|
      && forall i :: 0 <= i < |p.contacts| ==>
           && r.contacts[i].Id == p.contacts[i].Id
           && (r.contacts[i] == p.contacts[i] || r.contacts[i] in reply.value)
  {
    if stage == "" || !confirmed || reply.None? then p
    else
      var cs := seq(|p.contacts|, i requires 0 <= i < |p.contacts| => Replacement(reply.value, p.contacts[i]));
      p.(contacts := cs, selection := [], showBulk := false)
  }

  /** The form's fields as an update: every field supplied, so the merge overwrites each
      form field of the stored contact and keeps only its id and creation time. */
  function AsPatch(d: ContactService.Draft): (p: ContactService.Patch)
    ensures forall c: Contact, now: string {:trigger ContactService.Merge(c, p, now)} ::
      ContactService.Merge(c, p, now) == c.(firstName := d.firstName, lastName := d.lastName, email := d.email,
        phone := d.phone, companyId := RefOf(d.companyId), lifecycleStage := d.lifecycleStage, notes := d.notes,
        updatedAt := now)
  {
    ContactService.Patch(Some(d.firstName), Some(d.lastName), Some(d.email), Some(d.phone),
      d.companyId, Some(d.lifecycleStage), Some(d.notes))
  }

  /** `handleSaveContact`: an edit goes through the store's `update` and replaces the row
      with the same id; a new contact goes through `create` and is appended. A failing
      update leaves both as they were (the error goes back to the form). */
  function SaveContact(p: Page, store: seq<Contact>, editing: Option<Contact>, form: ContactService.Draft, now: string)
    : (r: Result<(Page, seq<Contact>)>)
    ensures editing.None? ==>
      var c := ContactService.Create(store, form, now);
      r == Ok((p.(contacts := p.contacts + [c.result.value]), c.state))
    ensures editing.Some? ==>
      var u := ContactService.Update(store, Num(editing.value.Id), AsPatch(form), now);
      && (u.result.Err? ==> r.Err?)
      && (u.result.Ok? ==>
            && r.Ok? && r.value.1 == u.state && |r.value.0.contacts| == |p.contacts|
            && forall i :: 0 <= i < |p.contacts| ==>
                 r.value.0.contacts[i] == if p.contacts[i].Id == editing.value.Id then u.result.value else p.contacts[i])
  {
    match editing
    case None =>
      var c := ContactService.Create(store, form, now);
      Ok((p.(contacts := p.contacts + [c.result.value]), c.state))
    case Some(e) =>
      var u := ContactService.Update(store, Num(e.Id), AsPatch(form), now);
      if u.result.Err? then Err(u.result.message)
      else
        var cs := seq(|p.contacts|, i requires 0 <= i < |p.contacts| =>
          if p.contacts[i].Id == e.Id then u.result.value else p.contacts[i]);
        Ok((p.(contacts := cs), u.state))
  }

  // ---------------------------------------------------------------- properties across calls

  /** With the filters and the search cleared, every contact is listed: the visible list is
      a reordering of the whole list. */
  lemma ClearedShowsAll(p: Page)
    ensures multiset(Visible(ClearFilters(p))) == multiset(p.contacts)
  {
    var q := ClearFilters(p);
    FilterAll(p.contacts, (c: Contact) => Shown(c, q.query, q.filters));
  }

  /** Checking and then unchecking a row that was not selected restores the selection. */
  lemma SelectThenDeselect(p: Page, id: int)
    requires id !in p.selection
    ensures Select(Select(p, id, true), id, false).selection == p.selection
  {
    var keep := (x: int) => x != id;
    FilterConcat(p.selection, [id], keep);
    FilterAll(p.selection, keep);
    FilterNone([id], keep);
  }

  /** Selecting all and then deleting in bulk empties the visible list. */
  lemma SelectAllThenBulkDelete(p: Page)
    ensures var r := BulkDelete(SelectAll(p, true), true, true);
      forall i :: 0 <= i < |r.contacts| ==> !Shown(r.contacts[i], r.query, r.filters)
  {
    var s := SelectAll(p, true);
    var r := BulkDelete(s, true, true);
    var v := Visible(p);
    forall i | 0 <= i < |r.contacts|
      ensures !Shown(r.contacts[i], r.query, r.filters)
    {
      var c := r.contacts[i];
      assert c in p.contacts;
    }
  }

  /** The corrected delete removes the contact from the store and the page alike. */
  lemma DeleteContactRemoves(p: Page, store: seq<Contact>, id: int)
    requires Unique(store, ContactService.IdOf) && HasId(store, ContactService.IdOf, id)
    ensures var r := DeleteContact(p, store, id, true);
      && ContactService.GetById(r.1, Num(id)).Err?
      && forall i :: 0 <= i < |r.0.contacts| ==> r.0.contacts[i].Id != id
  {
    ParseShowInt(id);
    ContactService.DeleteThenGet(store, Num(id));
  }

  /** As written, confirming a delete leaves the contact in place. */
  lemma DeleteAsWrittenKeepsContact(p: Page, store: seq<Contact>, i: nat)
    requires i < |p.contacts|
    ensures DeleteAsWritten(p, store, p.contacts[i].Id, true).0.contacts[i] == p.contacts[i]
  {
  }
}

=== FILE: contacts_table.dfy ===
/** The contacts table: the column-header sort toggle and its icons, the select-all and row
    checkboxes, and the company column's text. */
module ContactsTable {
  import opened Wrappers
  import opened Store
  import ContactService
  import CompanyService
  import ContactsPage

  type Contact = ContactService.Contact
  type Company = CompanyService.Company
  type SortField = ContactsPage.SortField
  type Direction = ContactsPage.Direction

  /** The header icons: both chevrons for an unsorted column, one for the sorted one. */
  datatype Icon = ChevronsUpDown | ChevronUp | ChevronDown

  const NoCompany := "No Company"

  /** `handleSort`: the direction sent up with a header click. Only a click on the column
      already sorted ascending asks for descending. */
  function NextDirection(sortField: SortField, direction: Direction, field: SortField): (d: Direction)
    ensures d == ContactsPage.Desc <==> sortField == field && direction == ContactsPage.Asc
  {
    if sortField == field && direction == ContactsPage.Asc then ContactsPage.Desc else ContactsPage.Asc
  }

  /** `getSortIcon`: which chevron a column header shows. */
  function SortIcon(sortField: SortField, direction: Direction, field: SortField): (i: Icon)
    ensures i == ChevronsUpDown <==> sortField != field
    ensures i == ChevronUp <==> sortField == field && direction == ContactsPage.Asc
    ensures i == ChevronDown <==> sortField == field && direction == ContactsPage.Desc
  {
    if sortField != field then ChevronsUpDown
    else match direction
      case Asc => ChevronUp
      case Desc => ChevronDown
  }

  /** The select-all box: ticked when as many ids are selected as there are rows, and
      there is at least one row. */
  predicate AllChecked(selected: seq<int>, rows: seq<Contact>) {
    |selected| == |rows| && |rows| > 0
  }

  /** A row's box: ticked when its id is selected. */
  predicate RowChecked(selected: seq<int>, c: Contact) {
    c.Id in selected
  }

  /** `getCompanyName`: the first company with the id's name (even an empty one), or
      "No Company" when there is none. */
  function CompanyName(companies: seq<Company>, id: Option<int>): (name: string)
    ensures id.None? || !HasId(companies, CompanyService.CompanyId, id.value) ==> name == NoCompany
    ensures id.Some? && HasId(companies, CompanyService.CompanyId, id.value) ==>
      exists i :: 0 <= i < |companies| && companies[i].Id == id.value && companies[i].name == name
  {
    match Find(companies, CompanyService.CompanyId, id)
    case None => NoCompany
    case Some(c) =>
      assert c in companies;
      c.name
  }

  // ---------------------------------------------------------------- properties

  /** Clicking the same header twice from ascending comes back to ascending; clicking
      another header always starts ascending. */
  lemma SortClicks(sortField: SortField, field: SortField, other: SortField)
    requires other != field
    ensures NextDirection(field, NextDirection(field, ContactsPage.Asc, field), field) == ContactsPage.Asc
    ensures forall d :: NextDirection(field, d, other) == ContactsPage.Asc
  {
  }

  /** After a header click is applied, that header shows the chevron of the new direction
      and every other header shows both chevrons. */
  lemma ClickedHeaderShowsDirection(sortField: SortField, direction: Direction, field: SortField, other: SortField)
    requires other != field
    ensures var d := NextDirection(sortField, direction, field);
      && SortIcon(field, d, field) == (if d == ContactsPage.Asc then ChevronUp else ChevronDown)
      && SortIcon(field, d, other) == ChevronsUpDown
  {
  }

  /** Select-all on the page ticks the header box whenever some row is visible, and
      clearing it unticks the box. */
  lemma SelectAllTicksHeader(p: ContactsPage.Page)
    ensures var v := ContactsPage.Visible(p);
      |v| > 0 ==> AllChecked(ContactsPage.SelectAll(p, true).selection, v)
    ensures !AllChecked(ContactsPage.SelectAll(p, false).selection, ContactsPage.Visible(p))
  {
  }

  /** After select-all every visible row's box is ticked. */
  lemma SelectAllTicksRows(p: ContactsPage.Page)
    ensures var v := ContactsPage.Visible(p);
      forall i :: 0 <= i < |v| ==> RowChecked(ContactsPage.SelectAll(p, true).selection, v[i])
  {
    var v := ContactsPage.Visible(p);
    var s := ContactsPage.SelectAll(p, true).selection;
    forall i | 0 <= i < |v|
      ensures RowChecked(s, v[i])
    {
      assert s[i] == v[i].Id;
    }
  }

  /** The header box counts instead of comparing: two selected ids that belong to no row
      still tick it over two rows none of which is ticked. */
  lemma HeaderCountsOnly(a: Contact, b: Contact)
    requires a.Id == 1 && b.Id == 2
    ensures AllChecked([3, 4], [a, b])
    ensures !RowChecked([3, 4], a) && !RowChecked([3, 4], b)
  {
  }

  /** The table's company text is the page's sort key text (the first matching company's
      name), except that a contact without a matching company reads "No Company" where the
      sort uses the empty string. */
  lemma {:induction false} CompanyNameMatchesPage(companies: seq<Company>, id: Option<int>)
    ensures CompanyName(companies, id) ==
      if id.Some? && HasId(companies, CompanyService.CompanyId, id.value) then ContactsPage.CompanyName(companies, id)
      else NoCompany
    decreases |companies|
  {
    if id.Some? && HasId(companies, CompanyService.CompanyId, id.value) && companies[0].Id != id.value {
      var i :| 0 <= i < |companies| && CompanyService.CompanyId(companies[i]) == id.value;
      assert CompanyService.CompanyId(companies[1..][i - 1]) == id.value;
      CompanyNameMatchesPage(companies[1..], id);
      FindTail(companies, id.value);
    }
  }

  /** Past a first company with another id, the search is the search of the rest. */
  lemma FindTail(companies: seq<Company>, id: int)
    requires |companies| > 0 && companies[0].Id != id
    ensures Find(companies, CompanyService.CompanyId, Some(id)) == Find(companies[1..], CompanyService.CompanyId, Some(id))
  {
  }
}

=== FILE: custom_property_fields.dfy ===
/** The custom-property inputs a contact or company form shows: one widget per definition,
    chosen by its type, and the checkbox group of a multi-select, whose toggle adds the
    option when it is not selected and removes every copy of it when it is. */
module CustomPropertyFields {
  import opened Wrappers
  import Text
  import opened Store
  import opened CustomPropertyService

  /** `values`: property name to the value a record holds; an absent name has none. */
  type Values = map<string, PropertyValue>

  /** One box of a multi-select: the option and whether it is ticked. */
  datatype Box = Box(option: string, checked: bool)

  /** What `renderField` draws. `Entry` is the text, number and date input (its `kind` is
      the input type) and `Choice` the dropdown, both showing `values[name] || ""`; the
      dropdown's choices start with the empty "Select …" entry. `Boxes` is the multi-select. */
  datatype Widget =
    | Entry(kind: string, name: string, value: PropertyValue, error: Option<string>, required: bool)
    | Choice(name: string, value: PropertyValue, choices: seq<string>, error: Option<string>, required: bool)
    | Boxes(name: string, boxes: seq<Box>, error: Option<string>, required: bool)

  /** `x || ...` on a stored value: the empty string is the only falsy value a record
      holds (an array, even an empty one, is truthy). */
  predicate Given(v: PropertyValue) {
    !(v.Scalar? && v.s == "")
  }

  /** `values[name] || ""`. */
  function Shown(values: Values, name: string): (v: PropertyValue)
    ensures name in values && Given(values[name]) ==> v == values[name]
    ensures !(name in values && Given(values[name])) ==> v == Scalar("")
  {
    if name in values && Given(values[name]) then values[name] else Scalar("")
  }

  /** `Array.isArray(value) ? value : []`, then `.includes(option)`. */
  predicate Checked(values: Values, name: string, option: string) {
    Shown(values, name).List? && option in Shown(values, name).items
  }

  /** `[...s]` on a string: its characters, one string each. */
  function Chars(s: string): (r: seq<string>)
    ensures |r| == |s|
    ensures forall i :: 0 <= i < |s| ==> r[i] == [s[i]]
    decreases |s|
  {
    if |s| == 0 then [] else [[s[0]]] + Chars(s[1..])
  }

  /** The test `filter(v => v !== option)` keeps. */
  function Except(option: string): string -> bool {
    v => v != option
  }

  /** The toggle on a list: every copy of a present option removed, or an absent one
      appended. */
  function Flip(items: seq<string>, option: string): (r: seq<string>)
    ensures option in r <==> option !in items
  {
    if option in items then Filter(items, Except(option)) else items + [option]
  }

  /** The toggle of one option leaves every other option's membership alone. */
  lemma FlipKeepsOthers(items: seq<string>, option: string, other: string)
    requires other != option
    ensures other in Flip(items, option) <==> other in items
  {
    if option in items && other in items {
      var i :| 0 <= i < |items| && items[i] == other;
    }
  }

  /** The types `renderField` draws a widget for. */
  predicate Known(kind: string) {
    kind == "text" || kind == "number" || kind == "date" || kind == "dropdown" || kind == "multi-select"
  }

  /** `handleMultiSelectChange`: the current list (`values[name] || []`) loses every copy of
      a selected option, or gains the option at its end. A non-empty string value is what
      the source does not expect: `includes` then tests for a substring, and a hit calls
      `filter` on a string, which throws. */
  function Toggle(values: Values, name: string, option: string): (r: Result<Values>)
    ensures r.Ok? ==> r.value.Keys == values.Keys + {name}
    ensures r.Ok? ==> forall k :: k in values && k != name ==> r.value[k] == values[k]
    ensures r.Err? <==> name in values && values[name].Scalar? && values[name].s != "" && Text.Includes(values[name].s, option)
  {
    var current := if name in values && Given(values[name]) then values[name] else List([]);
    match current
    case List(items) =>
      Ok(values[name := List(Flip(items, option))])
    case Scalar(s) =>
      if Text.Includes(s, option) then Err("currentValues.filter is not a function")
      else Ok(values[name := List(Chars(s) + [option])])
  }

  /** The widget for one definition: the input its type calls for, or nothing for a type the
      form does not know. The boxes of a multi-select follow the definition's options, each
      ticked when the current list holds it. */
  function RenderField(p: Property, values: Values, errors: map<string, string>): (w: Option<Widget>)
    ensures w.None? <==> !Known(p.kind)
    ensures w.Some? && w.value.Boxes? ==>
      && |w.value.boxes| == |p.options|
      && forall i :: 0 <= i < |p.options| ==>
        w.value.boxes[i] == Box(p.options[i], Checked(values, p.name, p.options[i]))
    ensures w.Some? && w.value.Choice? ==> w.value.choices == [""] + p.options
    ensures w.Some? ==> (w.value.Boxes? <==> p.kind == "multi-select")
  {
    var error := if p.name in errors then Some(errors[p.name]) else None;
    var value := Shown(values, p.name);
    if p.kind == "text" || p.kind == "number" || p.kind == "date" then Some(Entry(p.kind, p.name, value, error, p.required))
    else if p.kind == "dropdown" then Some(Choice(p.name, value, [""] + p.options, error, p.required))
    else if p.kind == "multi-select" then
      Some(Boxes(p.name, seq(|p.options|, i requires 0 <= i < |p.options| => Box(p.options[i], Checked(values, p.name, p.options[i]))),
        error, p.required))
    else None
  }

  /** The whole section: nothing at all without definitions; otherwise one widget per
      definition of a known type, in the definitions' order. */
  function Render(properties: seq<Property>, values: Values, errors: map<string, string>): (r: Option<seq<Widget>>)
    ensures r.None? <==> |properties| == 0
    ensures r.Some? ==> |r.value| <= |properties|
    ensures r.Some? && (forall i :: 0 <= i < |properties| ==> RenderField(properties[i], values, errors).Some?) ==>
      && |r.value| == |properties|
      && forall i :: 0 <= i < |properties| ==> Some(r.value[i]) == RenderField(properties[i], values, errors)
  {
    if |properties| == 0 then None
    else
      WidgetsOfKnown(properties, values, errors);
      Some(Widgets(properties, values, errors))
  }

  /** `properties.map(renderField)` with the `null`s React draws as nothing left out. */
  function Widgets(properties: seq<Property>, values: Values, errors: map<string, string>): (ws: seq<Widget>)
    ensures |ws| <= |properties|
    decreases |properties|
  {
    if |properties| == 0 then []
    else
      var rest := Widgets(properties[1..], values, errors);
      assert forall i :: 1 <= i < |properties| ==> properties[i] == properties[1..][i - 1];
      WidgetOf(properties[0], values, errors) + rest
  }

  /** `renderField` for one definition as the nodes React draws: its widget, or nothing. */
  function WidgetOf(p: Property, values: Values, errors: map<string, string>): (ws: seq<Widget>)
    ensures |ws| <= 1
    ensures |ws| == 1 <==> Known(p.kind)
    ensures |ws| == 1 ==> RenderField(p, values, errors) == Some(ws[0])
  {
    match RenderField(p, values, errors)
    case Some(w) => [w]
    case None => []
  }

  // ---------------------------------------------------------------- properties

  /** The widgets of two runs of definitions laid end to end are the first run's widgets
      followed by the second's: the section keeps the definitions' order. */
  lemma {:induction false} WidgetsConcat(a: seq<Property>, b: seq<Property>, values: Values, errors: map<string, string>)
    ensures Widgets(a + b, values, errors) == Widgets(a, values, errors) + Widgets(b, values, errors)
    decreases |a|
  {
    if |a| == 0 {
      assert a + b == b;
    } else {
      WidgetsConcat(a[1..], b, values, errors);
      assert (a + b)[1..] == a[1..] + b;
      assert (a + b)[0] == a[0];
      var head := WidgetOf(a[0], values, errors);
      assert head + (Widgets(a[1..], values, errors) + Widgets(b, values, errors))
        == (head + Widgets(a[1..], values, errors)) + Widgets(b, values, errors);
    }
  }

  /** With every definition of a known type, the section holds exactly their widgets, in
      order. */
  lemma {:induction false} WidgetsOfKnown(properties: seq<Property>, values: Values, errors: map<string, string>)
    ensures (forall i :: 0 <= i < |properties| ==> RenderField(properties[i], values, errors).Some?) ==>
      var ws := Widgets(properties, values, errors);
      && |ws| == |properties|
      && forall i :: 0 <= i < |properties| ==> Some(ws[i]) == RenderField(properties[i], values, errors)
    decreases |properties|
  {
    if |properties| > 0 && forall i :: 0 <= i < |properties| ==> RenderField(properties[i], values, errors).Some? {
      var rest := properties[1..];
      assert forall i :: 0 <= i < |rest| ==> rest[i] == properties[i + 1];
      WidgetsOfKnown(rest, values, errors);
      var head := WidgetOf(properties[0], values, errors);
      assert |head| == 1;
      var ws := Widgets(properties, values, errors);
      assert ws == head + Widgets(rest, values, errors);
      forall i | 0 <= i < |properties|
        ensures Some(ws[i]) == RenderField(properties[i], values, errors)
      {
        if i > 0 {
          assert ws[i] == Widgets(rest, values, errors)[i - 1];
        }
      }
    }
  }

  /** Every widget is the widget of one of the definitions. */
  lemma {:induction false} WidgetsFromDefinitions(properties: seq<Property>, values: Values, errors: map<string, string>)
    ensures var ws := Widgets(properties, values, errors);
      forall k :: 0 <= k < |ws| ==> exists i :: 0 <= i < |properties| && RenderField(properties[i], values, errors) == Some(ws[k])
    decreases |properties|
  {
    if |properties| > 0 {
      var rest := properties[1..];
      WidgetsFromDefinitions(rest, values, errors);
      var head := WidgetOf(properties[0], values, errors);
      var ws := Widgets(properties, values, errors);
      assert ws == head + Widgets(rest, values, errors);
      forall k | 0 <= k < |ws|
        ensures exists i :: 0 <= i < |properties| && RenderField(properties[i], values, errors) == Some(ws[k])
      {
        if k < |head| {
          assert RenderField(properties[0], values, errors) == Some(ws[k]);
        } else {
          var i :| 0 <= i < |rest| && RenderField(rest[i], values, errors) == Some(Widgets(rest, values, errors)[k - |head|]);
          assert properties[i + 1] == rest[i];
        }
      }
    }
  }

  /** A lone definition gives its widget, or none when its type is unknown. */
  lemma WidgetsOne(p: Property, values: Values, errors: map<string, string>)
    ensures Known(p.kind) ==> Widgets([p], values, errors) == [RenderField(p, values, errors).value]
    ensures !Known(p.kind) ==> Widgets([p], values, errors) == []
  {
    assert [p][1..] == [];
    assert Widgets([p][1..], values, errors) == [];
  }

  /** Ticking a box flips it and leaves every other box of the group as it was, as long as
      the value is a list or not yet set. */
  lemma ToggleFlips(values: Values, name: string, option: string, other: string)
    requires name !in values || values[name].List? || values[name] == Scalar("")
    requires other != option
    ensures var r := Toggle(values, name, option);
      && r.Ok?
      && (Checked(r.value, name, option) <==> !Checked(values, name, option))
      && (Checked(r.value, name, other) <==> Checked(values, name, other))
  {
    FlipKeepsOthers(if name in values && Given(values[name]) then values[name].items else [], option, other);
  }

  /** Appending an absent option and then removing it gives the list back. */
  lemma FlipTwice(items: seq<string>, option: string)
    requires option !in items
    ensures Flip(Flip(items, option), option) == items
  {
    var p := Except(option);
    FilterConcat(items, [option], p);
    FilterAll(items, p);
    FilterNone([option], p);
  }

  /** Ticking an unticked box and then unticking it restores the values exactly. */
  lemma ToggleTwiceRestores(values: Values, name: string, option: string)
    requires name in values && values[name].List? && option !in values[name].items
    ensures var once := Toggle(values, name, option);
      && once.Ok? && Toggle(once.value, name, option) == Ok(values)
  {
    var items := values[name].items;
    var once := values[name := List(Flip(items, option))];
    ToggleOnList(values, name, option);
    assert once[name].items == Flip(items, option);
    ToggleOnList(once, name, option);
    FlipTwice(items, option);
    UpdateBack(values, name, List(Flip(items, option)));
  }

  /** Writing a key and then writing back its old value gives the map back. */
  lemma UpdateBack(values: Values, name: string, v: PropertyValue)
    requires name in values
    ensures values[name := v][name := values[name]] == values
  {
  }

  /** On a list value the toggle is `Flip`. */
  lemma ToggleOnList(values: Values, name: string, option: string)
    requires name in values && values[name].List?
    ensures Toggle(values, name, option) == Ok(values[name := List(Flip(values[name].items, option))])
  {
  }

  /** A multi-select whose value is not a list (absent, or a string) draws every box
      unticked. */
  lemma NonListUnchecked(p: Property, values: Values, errors: map<string, string>)
    requires p.kind == "multi-select" && !(p.name in values && values[p.name].List?)
    ensures var w := RenderField(p, values, errors);
      && w.Some? && w.value.Boxes? && |w.value.boxes| == |p.options|
      && forall i :: 0 <= i < |w.value.boxes| ==> !w.value.boxes[i].checked
  {
    assert Known(p.kind);
  }

  /** A string value containing the option crashes the toggle: `"ab"` for option `"a"`. */
  lemma StringValueCrashes()
    ensures Toggle(map["tags" := Scalar("ab")], "tags", "a").Err?
  {
    assert Text.OccursAt("ab", "a", 0);
  }
}

=== FILE: custom_property_manager.dfy ===
/** The settings screen for custom properties: its form, the name rule it enforces before
    saving, the options textarea (one option per line) and what a save sends to the store.
    The list the screen shows is the store itself, reloaded after every successful save. */
module CustomPropertyManager {
  import opened Wrappers
  import opened Js
  import Text
  import opened Toast
  import CustomPropertyService
  import Store

  type Property = CustomPropertyService.Property

  /** `formData`; `kind` is the source's `type`, `labelText` its `label`. */
  datatype FormData = FormData(
    name: string,
    labelText: string,
    kind: string,
    entityType: string,
    required: bool,
    options: seq<string>)

  /** The inputs `handleChange` serves; `Required` is the form's only checkbox. */
  datatype Field = Name | LabelText | Kind | EntityType | Required

  /** The screen: the stored definitions, the form, the options textarea, the definition
      being edited and whether the form is open. */
  datatype Manager = Manager(
    store: seq<Property>,
    form: FormData,
    optionsText: string,
    editing: Option<Property>,
    showForm: bool)

  datatype Outcome = Outcome(manager: Manager, notice: Notice)

  /** The form's initial data: a text property of contacts, optional, without options. */
  const Blank := FormData("", "", "text", "contact", false, [])

  const MissingMessage := "Name and label are required"
  const NameMessage := "Name must start with a letter and contain only letters, numbers, and underscores"

  // ---------------------------------------------------------------- the name rule

  predicate IsLetter(c: char) {
    'a' <= c <= 'z' || 'A' <= c <= 'Z'
  }

  predicate IsWordChar(c: char) {
    IsLetter(c) || '0' <= c <= '9' || c == '_'
  }

  /** `/^[a-zA-Z][a-zA-Z0-9_]*$/`: an ASCII letter, then ASCII letters, digits and
      underscores only. */
  predicate NameOk(name: string) {
    |name| > 0 && IsLetter(name[0]) && forall i :: 0 < i < |name| ==> IsWordChar(name[i])
  }

  /** The pattern tested one character at a time, the way a matcher for it runs. */
  method MatchName(name: string) returns (ok: bool)
    ensures ok <==> NameOk(name)
  {
    if |name| == 0 || !IsLetter(name[0]) {
      return false;
    }
    var i := 1;
    while i < |name|
      invariant 1 <= i <= |name|
      invariant forall k :: 0 < k < i ==> IsWordChar(name[k])
    {
      if !IsWordChar(name[i]) {
        return false;
      }
      i := i + 1;
    }
    return true;
  }

  // ---------------------------------------------------------------- options

  /** Dropdowns and multi-selects carry options; other types save none. */
  predicate HasOptions(kind: string) {
    kind == "dropdown" || kind == "multi-select"
  }

  /** A string `trim` leaves alone that is not empty: what each saved option looks like. */
  predicate Tidy(o: string) {
    o != "" && !Text.IsSpace(o[0]) && !Text.IsSpace(o[|o| - 1])
  }

  /** Trimming removes characters and adds none. */
  lemma TrimKeepsOut(s: string, c: char)
    requires c !in s
    ensures c !in Text.Trim(s)
  {
    var r := Text.Trim(s);
    Text.TrimIsInfix(s);
    var i :| Text.TrimmedAt(s, r, i);
    forall k | 0 <= k < |r|
      ensures r[k] != c
    {
      assert r[k] == s[i..i + |r|][k] == s[i + k];
    }
  }

  /** `.filter(opt => opt.trim()).map(opt => opt.trim())`: each non-blank line, trimmed,
      in order; nothing blank or padded survives. */
  function Clean(lines: seq<string>): (r: seq<string>)
    ensures |r| <= |lines|
    ensures forall j :: 0 <= j < |r| ==> Tidy(r[j])
    ensures forall i :: 0 <= i < |lines| && !Text.AllSpace(lines[i]) ==> Text.Trim(lines[i]) in r
    decreases |lines|
  {
    if |lines| == 0 then []
    else
      var rest := Clean(lines[1..]);
      CleanCons(lines, rest);
      if Text.Trim(lines[0]) == "" then rest else [Text.Trim(lines[0])] + rest
  }

  /** One more line keeps the cleaning's guarantees: its trimmed text, if any, joins the
      front of the options cleaned from the lines after it. */
  lemma CleanCons(lines: seq<string>, rest: seq<string>)
    requires |lines| > 0 && |rest| <= |lines| - 1
    requires forall j :: 0 <= j < |rest| ==> Tidy(rest[j])
    requires forall i :: 1 <= i < |lines| && !Text.AllSpace(lines[i]) ==> Text.Trim(lines[i]) in rest
    ensures var r := if Text.Trim(lines[0]) == "" then rest else [Text.Trim(lines[0])] + rest;
      && |r| <= |lines|
      && (forall j :: 0 <= j < |r| ==> Tidy(r[j]))
      && (forall i :: 0 <= i < |lines| && !Text.AllSpace(lines[i]) ==> Text.Trim(lines[i]) in r)
  {
    var t := Text.Trim(lines[0]);
    Text.TrimEmptyIffBlank(lines[0]);
    var r := if t == "" then rest else [t] + rest;
    if t != "" {
      TidyCons(t, rest);
    }
    assert forall i :: 1 <= i < |lines| && !Text.AllSpace(lines[i]) ==> Text.Trim(lines[i]) in r;
    CoversFront(lines, r);
  }

  lemma TidyCons(t: string, rest: seq<string>)
    requires Tidy(t) && forall j :: 0 <= j < |rest| ==> Tidy(rest[j])
    ensures forall j :: 0 <= j < |[t] + rest| ==> Tidy(([t] + rest)[j])
  {
    forall j | 0 <= j < |[t] + rest|
      ensures Tidy(([t] + rest)[j])
    {
      if j > 0 {
        assert ([t] + rest)[j] == rest[j - 1];
      }
    }
  }

  lemma CoversFront(lines: seq<string>, r: seq<string>)
    requires |lines| > 0
    requires !Text.AllSpace(lines[0]) ==> Text.Trim(lines[0]) in r
    requires forall i :: 1 <= i < |lines| && !Text.AllSpace(lines[i]) ==> Text.Trim(lines[i]) in r
    ensures forall i :: 0 <= i < |lines| && !Text.AllSpace(lines[i]) ==> Text.Trim(lines[i]) in r
  {
  }

  /** No option holds a line break when no line does. */
  lemma {:induction false} CleanKeepsBreaksOut(lines: seq<string>)
    requires forall i :: 0 <= i < |lines| ==> '\n' !in lines[i]
    ensures forall j :: 0 <= j < |Clean(lines)| ==> '\n' !in Clean(lines)[j]
    decreases |lines|
  {
    if |lines| > 0 {
      var rest := Clean(lines[1..]);
      CleanKeepsBreaksOut(lines[1..]);
      TrimKeepsOut(lines[0], '\n');
      var t := Text.Trim(lines[0]);
      if t == "" {
        assert Clean(lines) == rest;
      } else {
        assert Clean(lines) == [t] + rest;
        BreakFreeCons(t, rest);
      }
    }
  }

  lemma BreakFreeCons(t: string, rest: seq<string>)
    requires '\n' !in t && forall j :: 0 <= j < |rest| ==> '\n' !in rest[j]
    ensures forall j :: 0 <= j < |[t] + rest| ==> '\n' !in ([t] + rest)[j]
  {
    forall j | 0 <= j < |[t] + rest|
      ensures '\n' !in ([t] + rest)[j]
    {
      if j > 0 {
        assert ([t] + rest)[j] == rest[j - 1];
      }
    }
  }

  /** The options a save sends: the textarea's non-blank lines, trimmed, for a dropdown or a
      multi-select; none for any other type. */
  function ParseOptions(kind: string, text: string): (opts: seq<string>)
    ensures !HasOptions(kind) ==> opts == []
    ensures forall i :: 0 <= i < |opts| ==> Tidy(opts[i]) && '\n' !in opts[i]
  {
    if HasOptions(kind) then
      CleanKeepsBreaksOut(Text.Split(text, '\n'));
      Clean(Text.Split(text, '\n'))
    else []
  }

  // ---------------------------------------------------------------- handlers

  /** `resetForm`: the blank form, an empty textarea, nothing being edited, form closed. */
  function Reset(m: Manager): (r: Manager)
    ensures r.store == m.store
    ensures r.form.name == "" && r.form.labelText == "" && r.form.kind == "text"
    ensures r.form.entityType == "contact" && !r.form.required && r.form.options == []
    ensures r.optionsText == "" && r.editing.None? && !r.showForm
  {
    m.(form := Blank, optionsText := "", editing := None, showForm := false)
  }

  /** `handleEdit`: the definition's own fields, its options one per line, form open. */
  function Edit(m: Manager, p: Property): (r: Manager)
    ensures r.editing == Some(p) && r.showForm && r.store == m.store
    ensures r.form.name == p.name && r.form.entityType == p.entityType && r.form.options == p.options
    ensures r.form.labelText == p.labelText && r.form.kind == p.kind && r.form.required == p.required
    ensures r.optionsText == Text.Join(p.options, '\n')
  {
    m.(form := FormData(p.name, p.labelText, p.kind, p.entityType, p.required, p.options),
       optionsText := Text.Join(p.options, '\n'), editing := Some(p), showForm := true)
  }

  /** `handleChange`: the checkbox writes its `checked` state, the other inputs their value. */
  function Change(f: FormData, field: Field, value: string, checked: bool): (r: FormData)
    ensures field == Required ==> r == f.(required := checked)
    ensures field == Name ==> r == f.(name := value)
    ensures field == LabelText ==> r == f.(labelText := value)
    ensures field == Kind ==> r == f.(kind := value)
    ensures field == EntityType ==> r == f.(entityType := value)
  {
    match field
    case Name => f.(name := value)
    case LabelText => f.(labelText := value)
    case Kind => f.(kind := value)
    case EntityType => f.(entityType := value)
    case Required => f.(required := checked)
  }

  /** `{ ...formData, options }` as the patch `update` receives: every field present, so the
      merge overwrites every field of the stored definition but its id and creation time. */
  function AsPatch(f: FormData, opts: seq<string>): (p: CustomPropertyService.Patch)
    ensures forall d: CustomPropertyService.Property, now: string {:trigger CustomPropertyService.Merge(d, p, now)} ::
      CustomPropertyService.Merge(d, p, now) == d.(name := f.name, labelText := f.labelText, kind := f.kind,
        entityType := f.entityType, options := opts, required := f.required, updatedAt := Some(now))
  {
    CustomPropertyService.Patch(Some(f.name), Some(f.labelText), Some(f.kind), Some(f.entityType), Some(opts), Some(f.required))
  }

  /** `handleSubmit`: an empty name or label, then a name breaking the pattern, is refused
      with the form left as it is; otherwise the definition is updated (when editing) or
      created, and on success the form is reset and the list reloaded. A store refusal is
      shown with its own message and leaves everything as it was. */
  function Submit(m: Manager, now: string): (o: Outcome)
    ensures m.form.name == "" || m.form.labelText == "" ==> o == Outcome(m, Failure(MissingMessage))
    ensures m.form.name != "" && m.form.labelText != "" && !NameOk(m.form.name) ==> o == Outcome(m, Failure(NameMessage))
    ensures o.notice.Success? ==> NameOk(m.form.name) && m.form.labelText != ""
    ensures o.notice.Success? ==> o.manager == Reset(o.manager) && |o.manager.store| >= |m.store|
    ensures o.notice.Success? && m.editing.Some? ==>
      var u := CustomPropertyService.Update(m.store, Num(m.editing.value.Id),
        AsPatch(m.form, ParseOptions(m.form.kind, m.optionsText)), now);
      && u.result.Ok? && o.manager.store == u.state
      && o.notice == Success("Custom property updated successfully!")
    ensures o.notice.Success? && m.editing.None? ==>
      var f := m.form;
      var c := CustomPropertyService.Create(m.store, CustomPropertyService.Draft(f.name, f.labelText, f.kind,
        f.entityType, Some(ParseOptions(f.kind, m.optionsText)), f.required), now);
      && c.result.Ok? && o.manager.store == c.state
      && o.notice == Success("Custom property created successfully!")
    ensures o.notice.Failure? ==> o.manager == m
    ensures o.notice.Success? || o.notice.Failure?
  {
    if m.form.name == "" || m.form.labelText == "" then Outcome(m, Failure(MissingMessage))
    else if !NameOk(m.form.name) then Outcome(m, Failure(NameMessage))
    else
      var opts := ParseOptions(m.form.kind, m.optionsText);
      var r := match m.editing
        case Some(p) => CustomPropertyService.Update(m.store, Num(p.Id), AsPatch(m.form, opts), now)
        case None =>
          var f := m.form;
          CustomPropertyService.Create(m.store, CustomPropertyService.Draft(f.name, f.labelText, f.kind, f.entityType, Some(opts), f.required), now);
      if r.result.Err? then Outcome(m, Failure(r.result.message))
      else
        Outcome(Reset(m.(store := r.state)),
          Success(if m.editing.Some? then "Custom property updated successfully!" else "Custom property created successfully!"))
  }

  /** `handleDelete`: once confirmed, the definition is deleted from the store, which is the
      list reloaded; a refused confirmation does nothing and a store refusal is reported. */
  function Remove(m: Manager, p: Property, confirmed: bool): (o: Outcome)
    ensures !confirmed ==> o == Outcome(m, Quiet)
    ensures confirmed && CustomPropertyService.GetById(m.store, Num(p.Id)).Err? ==>
      o == Outcome(m, Failure("Failed to delete custom property"))
    ensures o.notice.Success? ==>
      && o.manager == m.(store := o.manager.store)
      && |o.manager.store| == |m.store| - 1
      && (forall q :: q in o.manager.store ==> q in m.store)
      && (forall q :: q in m.store && q.Id != p.Id ==> q in o.manager.store)
  {
    if !confirmed then Outcome(m, Quiet)
    else
      var d := CustomPropertyService.Delete(m.store, Num(p.Id));
      if d.result.Err? then Outcome(m, Failure("Failed to delete custom property"))
      else
        var i := Store.Locate(m.store, CustomPropertyService.IdOf, ParseRaw(Num(p.Id))).value;
        Store.RemoveAtMembers(m.store, i);
        Outcome(m.(store := d.state), Success("Custom property deleted successfully!"))
  }

  // ---------------------------------------------------------------- properties

  /** Stored options that are already clean come back unchanged from the textarea: editing
      a definition and saving it without touching the options keeps them. */
  lemma {:induction false} OptionsRoundTrip(kind: string, opts: seq<string>)
    requires HasOptions(kind)
    requires forall i :: 0 <= i < |opts| ==> Tidy(opts[i]) && '\n' !in opts[i]
    ensures ParseOptions(kind, Text.Join(opts, '\n')) == opts
  {
    if |opts| == 0 {
      assert Text.Split("", '\n') == [""];
      Text.TrimEmptyIffBlank("");
    } else {
      Text.SplitJoin(opts, '\n');
      CleanKeepsClean(opts);
    }
  }

  /** Lines that are non-empty and trimmed pass through the cleaning untouched. */
  lemma {:induction false} CleanKeepsClean(lines: seq<string>)
    requires forall i :: 0 <= i < |lines| ==> Tidy(lines[i])
    ensures Clean(lines) == lines
    decreases |lines|
  {
    if |lines| > 0 {
      Text.TrimOfTrimmed(lines[0]);
      CleanKeepsClean(lines[1..]);
      assert [lines[0]] + lines[1..] == lines;
    }
  }

  /** Saving twice through the textarea changes nothing the second time. */
  lemma OptionsStable(kind: string, text: string)
    requires HasOptions(kind)
    ensures ParseOptions(kind, Text.Join(ParseOptions(kind, text), '\n')) == ParseOptions(kind, text)
  {
    OptionsRoundTrip(kind, ParseOptions(kind, text));
  }

  /** Every patch the screen sends names the definition's name and entity type, so the store's
      patch-only duplicate test is the full one: an edit from this screen cannot leave two
      definitions of one entity type with the same name. */
  lemma EditKeepsNamesUnique(m: Manager, now: string)
    requires CustomPropertyService.Valid(m.store)
    ensures CustomPropertyService.Valid(Submit(m, now).manager.store)
  {
    if m.form.name != "" && m.form.labelText != "" && NameOk(m.form.name) {
      var opts := ParseOptions(m.form.kind, m.optionsText);
      var f := m.form;
      match m.editing
      case Some(p) =>
        var patch := AsPatch(f, opts);
        CustomPropertyService.UpdateCheckedKeepsValid(m.store, Num(p.Id), patch, now);
        assert CustomPropertyService.Update(m.store, Num(p.Id), patch, now)
          == CustomPropertyService.UpdateChecked(m.store, Num(p.Id), patch, now);
      case None =>
        CustomPropertyService.CreateKeepsValid(m.store,
          CustomPropertyService.Draft(f.name, f.labelText, f.kind, f.entityType, Some(opts), f.required), now);
    }
  }

  /** Cancelling an edit (the form's Cancel button runs `resetForm`) leaves the screen as
      if the edit had never been opened. */
  lemma CancelForgetsEdit(m: Manager, p: Property)
    ensures Reset(Edit(m, p)) == Reset(m)
    ensures Reset(Edit(m, p)).form == Blank
  {
  }

  /** Opening a definition for editing and saving it unchanged keeps its options. */
  lemma EditSaveKeepsOptions(m: Manager, p: Property, now: string)
    requires CustomPropertyService.Valid(m.store) && p in m.store
    requires HasOptions(p.kind) && NameOk(p.name) && p.labelText != ""
    requires forall i :: 0 <= i < |p.options| ==> Tidy(p.options[i]) && '\n' !in p.options[i]
    ensures var o := Submit(Edit(m, p), now);
      o.notice == Success("Custom property updated successfully!")
      && exists q :: q in o.manager.store && q.Id == p.Id && q.options == p.options
  {
    OptionsRoundTrip(p.kind, p.options);
    SaveOwnFields(m.store, p, p.options, now);
  }

  /** Sending a stored definition's own fields back to the store succeeds, whatever options
      go with them, and the definition then holds those options. */
  lemma SaveOwnFields(s: seq<Property>, p: Property, opts: seq<string>, now: string)
    requires CustomPropertyService.Valid(s) && p in s
    ensures var u := CustomPropertyService.Update(s, Num(p.Id),
      AsPatch(FormData(p.name, p.labelText, p.kind, p.entityType, p.required, p.options), opts), now);
      u.result.Ok? && exists q :: q in u.state && q.Id == p.Id && q.options == opts
  {
    var patch := AsPatch(FormData(p.name, p.labelText, p.kind, p.entityType, p.required, p.options), opts);
    var k :| 0 <= k < |s| && s[k] == p;
    assert CustomPropertyService.GetById(s, Num(p.Id)).Ok?;
    var i := Store.Locate(s, CustomPropertyService.IdOf, Some(p.Id)).value;
    assert i == k;
    assert !CustomPropertyService.Taken(s, p.name, p.entityType, Some(p.Id));
    var u := CustomPropertyService.Update(s, Num(p.Id), patch, now);
    assert u.state[k] in u.state;
  }

  /** Deleting a stored definition succeeds, leaves no definition with its id, and keeps
      the store's ids and names unique. */
  lemma RemoveDropsDefinition(m: Manager, p: Property)
    requires CustomPropertyService.Valid(m.store) && p in m.store
    ensures var o := Remove(m, p, true);
      && o.notice == Success("Custom property deleted successfully!")
      && CustomPropertyService.Valid(o.manager.store)
      && forall q :: q in o.manager.store ==> q.Id != p.Id
  {
    CustomPropertyService.DeleteKeepsValid(m.store, Num(p.Id));
    assert CustomPropertyService.GetById(m.store, Num(p.Id)).Ok?;
  }
}

=== FILE: custom_property_service.dfy ===
/** The custom-property store: definitions of extra fields for contacts and companies.
    A definition's `name` is meant to be unique within its entity type; `create` enforces it,
    `update` only against the fields its patch supplies (see `UpdateChecked` for the
    intended check). */
module CustomPropertyService {
  import opened Wrappers
  import opened Js
  import opened Store

  /** A stored definition; `kind` is the source's `type` field (text, number, date, dropdown,
      multi-select). A definition without `options` is read as having none. */
  datatype Property = Property(
    Id: int,
    name: string,
    labelText: string,
    kind: string,
    entityType: string,
    options: seq<string>,
    required: bool,
    createdAt: string,
    updatedAt: Option<string>)

  /** A value a record holds for a custom property: one string (text, number, date,
      dropdown) or a list of them (multi-select). */
  datatype PropertyValue = Scalar(s: string) | List(items: seq<string>)

  /** What `create` is given; a missing field is the empty string, absent options `None`. */
  datatype Draft = Draft(
    name: string,
    labelText: string,
    kind: string,
    entityType: string,
    options: Option<seq<string>>,
    required: bool)

  /** What `update` is given; `None` is a field the object leaves out. */
  datatype Patch = Patch(
    name: Option<string>,
    labelText: Option<string>,
    kind: Option<string>,
    entityType: Option<string>,
    options: Option<seq<string>>,
    required: Option<bool>)

  function IdOf(p: Property): int {
    p.Id
  }

  /** No two definitions of one entity type share a name. */
  ghost predicate PairsUnique(s: seq<Property>) {
    forall i, j :: 0 <= i < j < |s| ==> !(s[i].name == s[j].name && s[i].entityType == s[j].entityType)
  }

  ghost predicate Valid(s: seq<Property>) {
    Unique(s, IdOf) && PairsUnique(s)
  }

  /** Some definition other than the one numbered `except` has this name and entity type. */
  predicate Taken(s: seq<Property>, name: string, entityType: string, except: Option<int>)
  {
    exists i :: 0 <= i < |s| && s[i].name == name && s[i].entityType == entityType
      && (except.None? || s[i].Id != except.value)
  }

  /** The five definitions the module starts with. */
  function Seed(): (s: seq<Property>)
    ensures Valid(s)
    ensures |s| == 5
  {
    var s := [ Property(1, "department", "Department", "dropdown", "contact",
        ["Sales", "Marketing", "Support", "Engineering"], false, "2024-01-15T10:00:00Z", None),
      Property(2, "experience_years", "Years of Experience", "number", "contact",
        [], false, "2024-01-15T10:15:00Z", None),
      Property(3, "skills", "Skills", "multi-select", "contact",
        ["JavaScript", "React", "Node.js", "Python", "Java", "C#"], false, "2024-01-15T10:30:00Z", None),
      Property(4, "founded_date", "Founded Date", "date", "company",
        [], false, "2024-01-15T11:00:00Z", None),
      Property(5, "industry_tags", "Industry Tags", "multi-select", "company",
        ["Technology", "Healthcare", "Finance", "Education", "Retail", "Manufacturing"], false,
        "2024-01-15T11:15:00Z", None) ];
    assert forall i :: 0 <= i < |s| ==> s[i].Id == i + 1;
    assert |s[0].name| == 10 && |s[1].name| == 16 && |s[2].name| == 6 && |s[3].name| == 12 && |s[4].name| == 13;
    s
  }

  /** `getById`: the definition whose id is `parseInt(id)`. */
  function GetById(s: seq<Property>, id: Raw): (r: Result<Property>)
    ensures r.Ok? <==> ParseRaw(id).Some? && HasId(s, IdOf, ParseRaw(id).value)
    ensures r.Ok? ==> r.value in s && r.value.Id == ParseRaw(id).value
    ensures r.Err? ==> r.message == "Custom property not found"
  {
    match Locate(s, IdOf, ParseRaw(id))
    case None => Err("Custom property not found")
    case Some(i) => Ok(s[i])
  }

  /** `getByEntityType`: exactly the definitions for one entity type, in store order. */
  function GetByEntityType(s: seq<Property>, entityType: string): (r: seq<Property>)
    ensures forall i :: 0 <= i < |r| ==> r[i] in s && r[i].entityType == entityType
    ensures forall i :: 0 <= i < |s| && s[i].entityType == entityType ==> s[i] in r
    ensures forall p :: multiset(r)[p] == if p.entityType == entityType then multiset(s)[p] else 0
  {
    FilterCounts(s, (p: Property) => p.entityType == entityType);
    Filter(s, (p: Property) => p.entityType == entityType)
  }

  /** The listing keeps store order: listing two stretches of the store gives the first
      stretch's definitions followed by the second's. */
  lemma GetByEntityTypeKeepsOrder(a: seq<Property>, b: seq<Property>, entityType: string)
    ensures GetByEntityType(a + b, entityType) == GetByEntityType(a, entityType) + GetByEntityType(b, entityType)
  {
    FilterConcat(a, b, (p: Property) => p.entityType == entityType);
  }

  /** `create`: refuses a draft missing a name, label, type or entity type, and a name its
      entity type already has; otherwise appends the definition under the next id. */
  function Create(s: seq<Property>, d: Draft, now: string): (r: Step<seq<Property>, Property>)
    ensures (d.name == "" || d.labelText == "" || d.kind == "" || d.entityType == "") ==>
      r == Step(s, Err("Missing required fields"))
    ensures (d.name != "" && d.labelText != "" && d.kind != "" && d.entityType != ""
      && Taken(s, d.name, d.entityType, None)) ==>
      r == Step(s, Err("Property name already exists for this entity type"))
    ensures r.result.Err? ==> r.state == s
    ensures r.result.Ok? ==>
      && r.state == s + [r.result.value]
      && r.result.value.Id == NextId(s, IdOf)
      && r.result.value.name == d.name && r.result.value.entityType == d.entityType
      && r.result.value.labelText == d.labelText && r.result.value.kind == d.kind
      && r.result.value.required == d.required
      && r.result.value.options == d.options.GetOr([])
      && r.result.value.createdAt == now && r.result.value.updatedAt == Some(now)
  {
    if d.name == "" || d.labelText == "" || d.kind == "" || d.entityType == "" then
      Step(s, Err("Missing required fields"))
    else if Taken(s, d.name, d.entityType, None) then
      Step(s, Err("Property name already exists for this entity type"))
    else
      var p := Property(MaxId(s, IdOf) + 1, d.name, d.labelText, d.kind, d.entityType,
        d.options.GetOr([]), d.required, now, Some(now));
      Step(s + [p], Ok(p))
  }

  /** A successful `create` keeps ids unique and names unique per entity type. */
  lemma CreateKeepsValid(s: seq<Property>, d: Draft, now: string)
    requires Valid(s)
    ensures Valid(Create(s, d, now).state)
  {
    var r := Create(s, d, now);
    if r.result.Ok? {
      var p := r.result.value;
      UniqueAppend(s, IdOf, p);
      var t := s + [p];
      forall i, j | 0 <= i < j < |t|
        ensures !(t[i].name == t[j].name && t[i].entityType == t[j].entityType)
      {
        if j == |s| {
          assert t[i] == s[i];
        }
      }
    }
  }

  /** `{ ...old, ...patch, updatedAt, options: patch.options || [] }`: unlike the other
      fields, options left out of the patch are cleared rather than kept. */
  function Merge(p: Property, patch: Patch, now: string): (m: Property)
    ensures m.Id == p.Id && m.createdAt == p.createdAt
    ensures m.options == patch.options.GetOr([])
    ensures m.updatedAt == Some(now)
    ensures patch.name.None? ==> m.name == p.name
    ensures patch.name.Some? ==> m.name == patch.name.value
    ensures patch.entityType.None? ==> m.entityType == p.entityType
    ensures patch.entityType.Some? ==> m.entityType == patch.entityType.value
    ensures patch.labelText.Some? ==> m.labelText == patch.labelText.value
    ensures patch.labelText.None? ==> m.labelText == p.labelText
    ensures patch.kind.Some? ==> m.kind == patch.kind.value
    ensures patch.kind.None? ==> m.kind == p.kind
    ensures patch.required.Some? ==> m.required == patch.required.value
    ensures patch.required.None? ==> m.required == p.required
  {
    Property(p.Id, patch.name.GetOr(p.name), patch.labelText.GetOr(p.labelText), patch.kind.GetOr(p.kind),
      patch.entityType.GetOr(p.entityType), patch.options.GetOr([]), patch.required.GetOr(p.required),
      p.createdAt, Some(now))
  }

  /** The duplicate test `update` makes, as written: it compares against the patch's own
      `name` and `entityType`, and a field the patch leaves out (`undefined`) matches nothing. */
  predicate PatchClashes(s: seq<Property>, patch: Patch, k: int) {
    patch.name.Some? && patch.entityType.Some? && Taken(s, patch.name.value, patch.entityType.value, Some(k))
  }

  /** `update` as written: unknown id, then the patch-only duplicate test, then the merge. */
  function Update(s: seq<Property>, id: Raw, patch: Patch, now: string): (r: Step<seq<Property>, Property>)
    ensures GetById(s, id).Err? ==> r == Step(s, Err("Custom property not found"))
    ensures GetById(s, id).Ok? && PatchClashes(s, patch, ParseRaw(id).value) ==>
      r == Step(s, Err("Property name already exists for this entity type"))
    ensures r.result.Ok? <==> GetById(s, id).Ok? && !PatchClashes(s, patch, ParseRaw(id).value)
    ensures r.result.Ok? ==>
      var i := Locate(s, IdOf, ParseRaw(id)).value;
      r.result.value == Merge(s[i], patch, now) && r.state == s[i := r.result.value]
  {
    match Locate(s, IdOf, ParseRaw(id))
    case None => Step(s, Err("Custom property not found"))
    case Some(i) =>
      if PatchClashes(s, patch, ParseRaw(id).value) then
        Step(s, Err("Property name already exists for this entity type"))
      else
        var p := Merge(s[i], patch, now);
        Step(s[i := p], Ok(p))
  }

  /** A patch that renames a definition without restating its entity type passes the
      duplicate test even when the new name is taken: renaming the contact property `skills`
      to `department` leaves two contact properties named `department`. */
  lemma UpdateAdmitsDuplicate()
    ensures var s := [Contact(1, "department"), Contact(3, "skills")];
      && Valid(s)
      && Update(s, Num(3), Rename("department"), "t").result.Ok?
      && !PairsUnique(Update(s, Num(3), Rename("department"), "t").state)
  {
    var s := [Contact(1, "department"), Contact(3, "skills")];
    assert |s[0].name| != |s[1].name|;
    assert Valid(s);
    assert Locate(s, IdOf, Some(3)) == Some(1);
    assert GetById(s, Num(3)).Ok?;
    assert !PatchClashes(s, Rename("department"), 3);
    var r := Update(s, Num(3), Rename("department"), "t");
    assert r.result.Ok? && r.state == s[1 := Merge(s[1], Rename("department"), "t")];
    var t := r.state;
    assert t[0].name == t[1].name && t[0].entityType == t[1].entityType;
  }

  /** A contact text property, as the example above needs it. */
  function Contact(id: int, name: string): Property {
    Property(id, name, name, "text", "contact", [], false, "", None)
  }

  /** A patch that only renames. */
  function Rename(name: string): Patch {
    Patch(Some(name), None, None, None, None, None)
  }

  /** The duplicate test against the definition as it will be after the merge. */
  predicate MergedClashes(s: seq<Property>, p: Property, patch: Patch) {
    Taken(s, patch.name.GetOr(p.name), patch.entityType.GetOr(p.entityType), Some(p.Id))
  }

  /** `update` with the duplicate test applied to the merged name and entity type. */
  function UpdateChecked(s: seq<Property>, id: Raw, patch: Patch, now: string): (r: Step<seq<Property>, Property>)
    ensures GetById(s, id).Err? ==> r == Step(s, Err("Custom property not found"))
    ensures r.result.Ok? <==>
      GetById(s, id).Ok? && !MergedClashes(s, s[Locate(s, IdOf, ParseRaw(id)).value], patch)
    ensures r.result.Err? ==> r.state == s
    ensures r.result.Ok? ==>
      var i := Locate(s, IdOf, ParseRaw(id)).value;
      && r.result.value == Merge(s[i], patch, now)
      && r.state == s[i := r.result.value]
      && !Taken(s, r.result.value.name, r.result.value.entityType, Some(r.result.value.Id))
  {
    match Locate(s, IdOf, ParseRaw(id))
    case None => Step(s, Err("Custom property not found"))
    case Some(i) =>
      if MergedClashes(s, s[i], patch) then
        Step(s, Err("Property name already exists for this entity type"))
      else
        var p := Merge(s[i], patch, now);
        Step(s[i := p], Ok(p))
  }

  /** With the merged check, every update keeps names unique per entity type. */
  lemma UpdateCheckedKeepsValid(s: seq<Property>, id: Raw, patch: Patch, now: string)
    requires Valid(s)
    ensures Valid(UpdateChecked(s, id, patch, now).state)
  {
    var r := UpdateChecked(s, id, patch, now);
    if r.result.Ok? {
      var i := Locate(s, IdOf, ParseRaw(id)).value;
      var p := r.result.value;
      UniqueReplace(s, IdOf, i, p);
      var t := s[i := p];
      forall a, b | 0 <= a < b < |t|
        ensures !(t[a].name == t[b].name && t[a].entityType == t[b].entityType)
      {
        if a == i {
          assert s[b].Id != p.Id;
        } else if b == i {
          assert s[a].Id != p.Id;
        }
      }
    }
  }

  /** `delete_`: removes the definition and returns it; the others keep their order. */
  function Delete(s: seq<Property>, id: Raw): (r: Step<seq<Property>, Property>)
    ensures GetById(s, id).Err? ==> r == Step(s, Err("Custom property not found"))
    ensures r.result.Ok? <==> GetById(s, id).Ok?
    ensures r.result.Ok? ==>
      var i := Locate(s, IdOf, ParseRaw(id)).value;
      r.result.value == s[i] && r.state == RemoveAt(s, i)
  {
    match Locate(s, IdOf, ParseRaw(id))
    case None => Step(s, Err("Custom property not found"))
    case Some(i) => Step(RemoveAt(s, i), Ok(s[i]))
  }

  lemma DeleteKeepsValid(s: seq<Property>, id: Raw)
    requires Valid(s)
    ensures Valid(Delete(s, id).state)
    ensures Delete(s, id).result.Ok? ==> !HasId(Delete(s, id).state, IdOf, ParseRaw(id).value)
  {
    var r := Delete(s, id);
    if r.result.Ok? {
      var i := Locate(s, IdOf, ParseRaw(id)).value;
      UniqueRemove(s, IdOf, i);
      var t := RemoveAt(s, i);
      forall a, b | 0 <= a < b < |t|
        ensures !(t[a].name == t[b].name && t[a].entityType == t[b].entityType)
      {
        var a' := if a < i then a else a + 1;
        var b' := if b < i then b else b + 1;
        assert t[a] == s[a'] && t[b] == s[b'];
      }
    }
  }
}

=== FILE: deal_card.dfy ===
/** The deal card on the pipeline board: the colour band its win probability falls in, and
    the badge colour of its stage. */
module DealCard {
  import DealService

  /** The four probability bands, named after the colours that draw them. */
  datatype Tone = Success | Warning | Info | Error

  /** `getProbabilityColor`'s thresholds: 80 and up, 60 to 79, 40 to 59, below 40. */
  function ProbabilityTone(probability: int): (t: Tone)
    ensures t == Success <==> probability >= 80
    ensures t == Warning <==> 60 <= probability < 80
    ensures t == Info <==> 40 <= probability < 60
    ensures t == Error <==> probability < 40
  {
    if probability >= 80 then Success
    else if probability >= 60 then Warning
    else if probability >= 40 then Info
    else Error
  }

  /** The bands from worst to best. */
  function Rank(t: Tone): nat {
    match t
    case Error => 0
    case Info => 1
    case Warning => 2
    case Success => 3
  }

  /** The probability badge's classes for each band. */
  function Badge(t: Tone): string {
    match t
    case Success => "text-success-600 bg-success-50"
    case Warning => "text-warning-600 bg-warning-50"
    case Info => "text-info-600 bg-info-50"
    case Error => "text-error-600 bg-error-50"
  }

  /** `getProbabilityColor`: the badge depends on the probability only through its band. */
  function ProbabilityColor(probability: int): (c: string)
    ensures c == Badge(ProbabilityTone(probability))
  {
    if probability >= 80 then "text-success-600 bg-success-50"
    else if probability >= 60 then "text-warning-600 bg-warning-50"
    else if probability >= 40 then "text-info-600 bg-info-50"
    else "text-error-600 bg-error-50"
  }

  /** `getStageColor`: the stage badge's classes; every stage outside the pipeline gets the
      grey of "Prospect". */
  function StageColor(stage: string): (c: string)
    ensures c == "text-gray-600 bg-gray-100" <==> stage !in DealService.StageOrder[1..]
  {
    if stage == "Qualified" then "text-info-600 bg-info-100"
    else if stage == "Proposal" then "text-warning-600 bg-warning-100"
    else if stage == "Negotiation" then "text-accent-600 bg-accent-100"
    else if stage == "Closed Won" then "text-success-600 bg-success-100"
    else if stage == "Closed Lost" then "text-error-600 bg-error-100"
    else "text-gray-600 bg-gray-100"
  }

  /** The badge classes of the six pipeline stages, in board order. */
  const StageColors := ["text-gray-600 bg-gray-100", "text-info-600 bg-info-100", "text-warning-600 bg-warning-100",
    "text-accent-600 bg-accent-100", "text-success-600 bg-success-100", "text-error-600 bg-error-100"]

  // ---------------------------------------------------------------- properties

  /** A higher probability never falls in a worse band. */
  lemma BandsMonotone(p: int, q: int)
    requires p <= q
    ensures Rank(ProbabilityTone(p)) <= Rank(ProbabilityTone(q))
  {
  }

  /** Different bands draw different badges, so the badge tells the band. */
  lemma BadgesDistinct(t: Tone, u: Tone)
    requires t != u
    ensures Badge(t) != Badge(u)
  {
    assert Badge(t)[5] != Badge(u)[5];
  }

  /** The badge classes the switch gives the pipeline stages. */
  lemma PipelineStageColors(i: nat)
    requires i < |DealService.StageOrder|
    ensures StageColor(DealService.StageOrder[i]) == StageColors[i]
  {
  }

  /** Each of the six pipeline stages has its own badge. */
  lemma StageColorsDistinct(i: nat, j: nat)
    requires i < j < |DealService.StageOrder|
    ensures StageColor(DealService.StageOrder[i]) != StageColor(DealService.StageOrder[j])
  {
    PipelineStageColors(i);
    PipelineStageColors(j);
    assert StageColors[i][5] != StageColors[j][5] || |StageColors[i]| != |StageColors[j]|;
  }

  /** A stage outside the pipeline is drawn like "Prospect". */
  lemma UnknownStageLikeProspect(stage: string)
    requires stage !in DealService.StageOrder
    ensures StageColor(stage) == StageColor("Prospect")
  {
  }
}

=== FILE: deal_form.dfy ===
/** The deal form: defaults, the values loaded from a deal being edited (the close date cut
    to its day), `validateForm`'s rules for name, value, probability and close date, and the
    draft a valid form hands to the deal store. */
module DealForm {
  import opened Wrappers
  import opened Js
  import Text
  import Form
  import DealService

  datatype Field = Name | ContactId | CompanyId | Value | Probability | Stage | ExpectedCloseDate | Description | Notes

  type Data = Form.Data<Field>

  const Fields: set<Field> := {Name, ContactId, CompanyId, Value, Probability, Stage, ExpectedCloseDate, Description, Notes}

  /** A new form: every field empty except the stage, "Prospect". */
  function Defaults(): (d: Data)
    ensures d.Keys == Fields
    ensures d[Stage] == Str("Prospect")
    ensures forall f :: f in d && f != Stage ==> d[f] == Str("")
  {
    map[Name := Str(""), ContactId := Str(""), CompanyId := Str(""), Value := Str(""),
        Probability := Str(""), Stage := Str("Prospect"), ExpectedCloseDate := Str(""),
        Description := Str(""), Notes := Str("")]
  }

  /** `n || ''` on a stored number: zero becomes the empty string. */
  function NumOrBlank(n: int): (r: Raw)
    ensures Truthy(r) <==> n != 0
    ensures n != 0 ==> r == Num(n)
  {
    if n != 0 then Num(n) else Str("")
  }

  /** `ref || ''` on a stored reference. */
  function RefOrBlank(r: Option<int>): (v: Raw)
    ensures RefOf(v) == (if r.Some? && r.value != 0 then r else None)
  {
    if r.Some? then NumOrBlank(r.value) else Str("")
  }

  /** `date ? date.split('T')[0] : ''`: the day part of an ISO timestamp. */
  function DayOf(date: string): (day: string)
    ensures day <= date
    ensures 'T' !in day
    ensures 'T' !in date ==> day == date
    ensures 'T' in date ==> date[|day|] == 'T'
  {
    Text.SplitHeadIsPrefix(date, 'T');
    if date == "" then "" else Text.Split(date, 'T')[0]
  }

  /** The edit-mode load as written: every number passes through `|| ''`, so a deal whose
      probability is 0 loads an empty probability. */
  function FromDealAsWritten(deal: DealService.Deal): (d: Data)
    ensures d.Keys == Fields
    ensures d[Probability] == NumOrBlank(deal.probability)
  {
    map[Name := Str(deal.name), ContactId := RefOrBlank(deal.contactId),
        CompanyId := RefOrBlank(deal.companyId), Value := NumOrBlank(deal.value),
        Probability := NumOrBlank(deal.probability),
        Stage := Str(if deal.stage == "" then "Prospect" else deal.stage),
        ExpectedCloseDate := Str(DayOf(deal.expectedCloseDate)),
        Description := Str(deal.description), Notes := Str(deal.notes)]
  }

  /** What the edit-mode load puts in each field: the name, description and notes as they
      are; a reference or number only when it is non-zero, the empty string otherwise;
      "Prospect" for a deal without a stage; the close date cut to its day. */
  lemma LoadAsWritten(deal: DealService.Deal)
    ensures var d := FromDealAsWritten(deal);
      && Form.Shown(d, Name) == deal.name
      && RefOf(d[ContactId]) == (if deal.contactId.Some? && deal.contactId.value != 0 then deal.contactId else None)
      && RefOf(d[CompanyId]) == (if deal.companyId.Some? && deal.companyId.value != 0 then deal.companyId else None)
      && (Truthy(d[Value]) <==> deal.value != 0) && (deal.value != 0 ==> d[Value] == Num(deal.value))
      && (Truthy(d[Probability]) <==> deal.probability != 0) && (deal.probability != 0 ==> d[Probability] == Num(deal.probability))
      && (deal.probability == 0 ==> d[Probability] == Str(""))
      && d[Stage] == Str(if deal.stage == "" then "Prospect" else deal.stage)
      && Form.Shown(d, ExpectedCloseDate) <= deal.expectedCloseDate && 'T' !in Form.Shown(d, ExpectedCloseDate)
      && ('T' !in deal.expectedCloseDate ==> Form.Shown(d, ExpectedCloseDate) == deal.expectedCloseDate)
      && Form.Shown(d, Description) == deal.description && Form.Shown(d, Notes) == deal.notes
  {
  }

  /** `String(n)` as an input holds it: non-empty, and it parses back to the number. */
  function IntText(n: int): (r: Raw)
    ensures Truthy(r) && ParseRaw(r) == Some(n)
  {
    ParseShowInt(n);
    Str(ShowInt(n))
  }

  /** The edit-mode load with the probability loaded as the text the input would hold
      (`String(deal.probability)`), so a 0% deal loads as "0"; everything else as written. */
  function FromDeal(deal: DealService.Deal): (d: Data)
    ensures d.Keys == Fields
    ensures Truthy(d[Probability]) && ParseRaw(d[Probability]) == Some(deal.probability)
    ensures forall f :: f in d && f != Probability ==> d[f] == FromDealAsWritten(deal)[f]
  {
    FromDealAsWritten(deal)[Probability := IntText(deal.probability)]
  }

  /** The rule `validateForm` applies to one field. `parseFloat` of the value is taken over
      integers, like `parseInt`. */
  function Check(d: Data, f: Field): (m: Option<string>)
    ensures f == Name ==> (m.Some? <==> Text.AllSpace(Form.Shown(d, Name)))
    ensures f == Value ==> (m.None? <==> Truthy(d[Value]) && ParseRaw(d[Value]).Some? && ParseRaw(d[Value]).value > 0)
    ensures f == Probability ==>
      (m.None? <==> Truthy(d[Probability]) && ParseRaw(d[Probability]).Some? && 0 <= ParseRaw(d[Probability]).value <= 100)
    ensures f == ExpectedCloseDate ==> (m.Some? <==> !Truthy(d[ExpectedCloseDate]))
    ensures f in {ContactId, CompanyId, Stage, Description, Notes} ==> m.None?
    ensures m.Some? ==> m.value != ""
    requires d.Keys == Fields
  {
    match f
    case Name =>
      Text.TrimEmptyIffBlank(Form.Shown(d, Name));
      if Text.Trim(Form.Shown(d, Name)) == "" then Some("Deal name is required") else None
    case Value =>
      var v := d[Value];
      if !Truthy(v) || ParseRaw(v).None? || ParseRaw(v).value <= 0 then Some("Valid deal value is required") else None
    case Probability =>
      var p := d[Probability];
      if !Truthy(p) || ParseRaw(p).None? || ParseRaw(p).value < 0 || ParseRaw(p).value > 100
      then Some("Probability must be between 0 and 100") else None
    case ExpectedCloseDate =>
      if !Truthy(d[ExpectedCloseDate]) then Some("Expected close date is required") else None
    case _ => None
  }

  /** `validateForm`: one message for each failing field. */
  function Validate(d: Data): (errors: Form.Errors<Field>)
    requires d.Keys == Fields
    ensures forall f :: f in errors <==> f in Fields && Check(d, f).Some?
    ensures forall f :: f in errors ==> Form.HasError(errors, f)
    ensures errors.Keys <= {Name, Value, Probability, ExpectedCloseDate}
  {
    map f | f in Fields && Check(d, f).Some? :: Check(d, f).value
  }

  /** The draft `onSave(formData)` hands to the deal store: the form's data as it stands,
      the text fields as shown and the references and numbers as the inputs hold them, left
      for the store to parse. */
  function ToDraft(d: Data): (r: DealService.Draft)
    requires d.Keys == Fields
    ensures r.name == Form.Shown(d, Name) && r.stage == Form.Shown(d, Stage)
    ensures r.contactId == d[ContactId] && r.companyId == d[CompanyId]
    ensures r.value == d[Value] && r.probability == d[Probability]
    ensures r.expectedCloseDate == Form.Shown(d, ExpectedCloseDate)
    ensures r.description == Form.Shown(d, Description) && r.notes == Form.Shown(d, Notes)
  {
    DealService.Draft(Form.Shown(d, Name), d[ContactId], d[CompanyId], d[Value], d[Probability],
      Form.Shown(d, Stage), Form.Shown(d, ExpectedCloseDate), Form.Shown(d, Description), Form.Shown(d, Notes))
  }

  // ---------------------------------------------------------------- properties

  /** The form is valid exactly when the name is non-blank, the value parses to a positive
      number, the probability parses into [0, 100], and a close date is set. */
  lemma ValidIff(d: Data)
    requires d.Keys == Fields
    ensures Form.NoErrors(Validate(d)) <==>
      && !Text.AllSpace(Form.Shown(d, Name))
      && Truthy(d[Value]) && ParseRaw(d[Value]).Some? && ParseRaw(d[Value]).value > 0
      && Truthy(d[Probability]) && ParseRaw(d[Probability]).Some? && 0 <= ParseRaw(d[Probability]).value <= 100
      && Truthy(d[ExpectedCloseDate])
  {
    var e := Validate(d);
    if !Form.NoErrors(e) {
      var k :| k in e;
    } else {
      assert Name !in e && Value !in e && Probability !in e && ExpectedCloseDate !in e;
    }
  }

  /** A deal created from a form that passed validation has a positive value and a
      probability between 0 and 100. */
  lemma ValidFormCreatesSaneDeal(s: seq<DealService.Deal>, d: Data, now: string)
    requires d.Keys == Fields && Form.NoErrors(Validate(d))
    ensures var n := DealService.Create(s, ToDraft(d), now).result.value;
      n.value > 0 && 0 <= n.probability <= 100
  {
    ValidIff(d);
  }

  /** Editing a stored deal whose probability is 0 loads a form the probability rule
      refuses, so the deal cannot be saved until the field is retyped. */
  lemma ZeroProbabilityRefusedAsWritten(deal: DealService.Deal)
    requires deal.probability == 0
    ensures Probability in Validate(FromDealAsWritten(deal))
  {
    assert Check(FromDealAsWritten(deal), Probability).Some?;
  }

  /** With the probability loaded as its text, any stored probability in [0, 100]
      passes the probability rule, 0 included. */
  lemma StoredProbabilityAccepted(deal: DealService.Deal)
    requires 0 <= deal.probability <= 100
    ensures Probability !in Validate(FromDeal(deal))
  {
    assert Check(FromDeal(deal), Probability).None?;
  }
}

=== FILE: deal_modal.dfy ===
/** The deal details dialog: its own copies of the stage and probability colours, its three
    tabs, and the activities it lists for the deal. The list is computed from `deal.Id`
    before the component checks for a missing deal, so a missing deal crashes instead of
    rendering nothing whenever there is an activity to test against it. */
module DealModal {
  import opened Wrappers
  import opened Store
  import DealService
  import ActivityService
  import DealCard
  import Js

  type Deal = DealService.Deal
  type Activity = ActivityService.Activity

  datatype Tab = Overview | ActivityTab | Notes

  /** The tab the dialog opens on. */
  const InitialTab := Overview

  /** What the dialog draws for a deal: the badges, the open tab, the deal's activities,
      whether the description section shows, and the notes text. */
  datatype View = View(stageColor: string, probabilityColor: string, tab: Tab, activities: seq<Activity>,
    showsDescription: bool, notes: string)

  const NoNotes := "No notes added yet"

  /** The dialog's `getStageColor`, a second copy of the card's table. */
  function StageColor(stage: string): (c: string)
    ensures c == "text-gray-600 bg-gray-100" <==> stage !in DealService.StageOrder[1..]
  {
    if stage == "Qualified" then "text-info-600 bg-info-100"
    else if stage == "Proposal" then "text-warning-600 bg-warning-100"
    else if stage == "Negotiation" then "text-accent-600 bg-accent-100"
    else if stage == "Closed Won" then "text-success-600 bg-success-100"
    else if stage == "Closed Lost" then "text-error-600 bg-error-100"
    else "text-gray-600 bg-gray-100"
  }

  /** The probability text colour for each band. */
  function TextColor(t: DealCard.Tone): string {
    match t
    case Success => "text-success-600"
    case Warning => "text-warning-600"
    case Info => "text-info-600"
    case Error => "text-error-600"
  }

  /** The dialog's `getProbabilityColor`: a text colour only, by the card's thresholds. */
  function ProbabilityColor(probability: int): (c: string)
    ensures c == TextColor(DealCard.ProbabilityTone(probability))
  {
    if probability >= 80 then "text-success-600"
    else if probability >= 60 then "text-warning-600"
    else if probability >= 40 then "text-info-600"
    else "text-error-600"
  }

  /** `activities.filter(a => a.dealId === deal.Id)`: the deal's activities in the order
      they were given. */
  function DealActivities(activities: seq<Activity>, deal: Deal): (r: seq<Activity>)
    ensures forall i :: 0 <= i < |r| ==> r[i] in activities && r[i].dealId == Some(deal.Id)
    ensures forall i :: 0 <= i < |activities| && activities[i].dealId == Some(deal.Id) ==> activities[i] in r
    ensures forall a :: multiset(r)[a] == if a.dealId == Some(deal.Id) then multiset(activities)[a] else 0
  {
    FilterCounts(activities, (a: Activity) => a.dealId == Some(deal.Id));
    Filter(activities, (a: Activity) => a.dealId == Some(deal.Id))
  }

  /** The list keeps the given order: two stretches of activities list as the first
      stretch's followed by the second's. */
  lemma DealActivitiesKeepOrder(a: seq<Activity>, b: seq<Activity>, deal: Deal)
    ensures DealActivities(a + b, deal) == DealActivities(a, deal) + DealActivities(b, deal)
  {
    FilterConcat(a, b, (x: Activity) => x.dealId == Some(deal.Id));
  }

  /** The dialog for a present deal. */
  function Show(deal: Deal, activities: seq<Activity>, tab: Tab): (v: View)
    ensures v.activities == DealActivities(activities, deal)
    ensures v.showsDescription <==> deal.description != ""
    ensures v.notes == (if deal.notes != "" then deal.notes else NoNotes)
    ensures v.tab == tab
  {
    View(StageColor(deal.stage), ProbabilityColor(deal.probability), tab, DealActivities(activities, deal),
      deal.description != "", if deal.notes != "" then deal.notes else NoNotes)
  }

  /** The component as written: `deal.Id` is read inside the filter callback before
      `if (!deal) return null`. The callback runs once per activity, so a missing deal
      throws when there is at least one activity; with none (the prop's default) the guard
      is reached and nothing is drawn. */
  function RenderAsWritten(deal: Option<Deal>, activities: seq<Activity>, tab: Tab): (r: Result<Option<View>>)
    ensures r.Err? <==> deal.None? && |activities| > 0
    ensures r.Ok? ==> (r.value.None? <==> deal.None?)
    ensures deal.Some? ==> r == Ok(Some(Show(deal.value, activities, tab)))
  {
    match deal
    case None =>
      if |activities| > 0 then Err("Cannot read properties of null (reading 'Id')") else Ok(None)
    case Some(d) => Ok(Some(Show(d, activities, tab)))
  }

  /** The component with the guard first: nothing for a missing deal, the dialog otherwise. */
  function Render(deal: Option<Deal>, activities: seq<Activity>, tab: Tab): (r: Option<View>)
    ensures r.None? <==> deal.None?
    ensures deal.Some? ==> r == Some(Show(deal.value, activities, tab))
  {
    match deal
    case None => None
    case Some(d) => Some(Show(d, activities, tab))
  }

  // ---------------------------------------------------------------- properties

  /** The dialog's stage badge is the card's. */
  lemma StageColorMatchesCard(stage: string)
    ensures StageColor(stage) == DealCard.StageColor(stage)
  {
  }

  /** The dialog's probability colour is the text half of the card's badge: the two use the
      same thresholds. */
  lemma ProbabilityColorPrefixesCard(probability: int)
    ensures DealCard.ProbabilityColor(probability) == ProbabilityColor(probability) + DealCard.ProbabilityColor(probability)[|ProbabilityColor(probability)|..]
    ensures ProbabilityColor(probability) <= DealCard.ProbabilityColor(probability)
  {
    var t := DealCard.ProbabilityTone(probability);
    assert ProbabilityColor(probability) == TextColor(t);
    assert DealCard.ProbabilityColor(probability) == DealCard.Badge(t);
    TextColorPrefixesBadge(t);
  }

  /** Each tone's text colour opens the card's badge classes for that tone. */
  lemma TextColorPrefixesBadge(t: DealCard.Tone)
    ensures DealCard.Badge(t) == TextColor(t) + DealCard.Badge(t)[|TextColor(t)|..]
    ensures TextColor(t) <= DealCard.Badge(t)
  {
    var bg := match t
      case Success => " bg-success-50"
      case Warning => " bg-warning-50"
      case Info => " bg-info-50"
      case Error => " bg-error-50";
    BadgeSplits(t, bg);
    PrefixedBy(DealCard.Badge(t), TextColor(t), bg);
  }

  /** Each card badge is the tone's text colour followed by its background class. */
  lemma BadgeSplits(t: DealCard.Tone, bg: string)
    requires bg == match t
      case Success => " bg-success-50"
      case Warning => " bg-warning-50"
      case Info => " bg-info-50"
      case Error => " bg-error-50"
    ensures DealCard.Badge(t) == TextColor(t) + bg
  {
    match t
    case Success => assert "text-success-600 bg-success-50" == "text-success-600" + " bg-success-50";
    case Warning => assert "text-warning-600 bg-warning-50" == "text-warning-600" + " bg-warning-50";
    case Info => assert "text-info-600 bg-info-50" == "text-info-600" + " bg-info-50";
    case Error => assert "text-error-600 bg-error-50" == "text-error-600" + " bg-error-50";
  }

  /** A string that is `a + rest` starts with `a`, and `rest` is what follows it. */
  lemma PrefixedBy(b: string, a: string, rest: string)
    requires b == a + rest
    ensures b == a + b[|a|..] && a <= b
  {
    assert b[|a|..] == rest;
  }

  /** The dialog lists the same activities as the store's `getByDealId`, but in store order
      rather than newest first. */
  lemma SameActivitiesAsStore(activities: seq<Activity>, deal: Deal)
    ensures multiset(DealActivities(activities, deal)) == multiset(ActivityService.GetByDealId(activities, Js.Num(deal.Id)))
  {
    FilterSame(activities, (a: Activity) => a.dealId == Some(deal.Id),
      (a: Activity) => ActivityService.RefersTo(a.dealId, Js.Num(deal.Id)));
  }

  /** A missing deal with activities to list: the written component throws where the
      guarded one draws nothing. */
  lemma MissingDealCrashes(activities: seq<Activity>)
    requires |activities| > 0
    ensures RenderAsWritten(None, activities, InitialTab).Err?
    ensures Render(None, activities, InitialTab) == None
  {
  }

  /** Apart from that crash the two components draw the same thing; in particular they
      agree on every deal when no activities are passed. */
  lemma RendersAgreeOtherwise(deal: Option<Deal>, activities: seq<Activity>, tab: Tab)
    ensures RenderAsWritten(deal, activities, tab).Ok? ==> RenderAsWritten(deal, activities, tab).value == Render(deal, activities, tab)
    ensures RenderAsWritten(deal, [], tab) == Ok(Render(deal, [], tab))
  {
  }
}

=== FILE: deal_service.dfy ===
/** The deal store: deals with max-plus-one ids, loose-to-typed coercion of the form's fields
    on create and update, a stage move, and the fixed order of pipeline stages. */
module DealService {
  import opened Wrappers
  import opened Js
  import opened Store

  datatype Deal = Deal(
    Id: int,
    name: string,
    contactId: Option<int>,
    companyId: Option<int>,
    value: int,
    probability: int,
    stage: string,
    expectedCloseDate: string,
    description: string,
    notes: string,
    createdAt: string,
    updatedAt: string)

  /** The deal form's fields as `create` receives them, ids and numbers still loose. */
  datatype Draft = Draft(
    name: string,
    contactId: Raw,
    companyId: Raw,
    value: Raw,
    probability: Raw,
    stage: string,
    expectedCloseDate: string,
    description: string,
    notes: string)

  /** What `update` receives; `None`/`Missing` is a field the object leaves out. */
  datatype Patch = Patch(
    name: Option<string>,
    contactId: Raw,
    companyId: Raw,
    value: Raw,
    probability: Raw,
    stage: Option<string>,
    expectedCloseDate: Option<string>,
    description: Option<string>,
    notes: Option<string>)

  /** The pipeline stages in board order (`STAGE_ORDER`; `DEAL_STAGES` lists the same values
      in the same order). */
  const StageOrder: seq<string> := ["Prospect", "Qualified", "Proposal", "Negotiation", "Closed Won", "Closed Lost"]

  /** Every stage appears once in the order. */
  lemma StageOrderDistinct()
    ensures |StageOrder| == 6
    ensures forall i, j :: 0 <= i < j < |StageOrder| ==> StageOrder[i] != StageOrder[j]
  {
  }

  function IdOf(d: Deal): int {
    d.Id
  }

  /** `getById`: the deal whose id is `parseInt(id)`. */
  function GetById(s: seq<Deal>, id: Raw): (r: Result<Deal>)
    ensures r.Ok? <==> ParseRaw(id).Some? && HasId(s, IdOf, ParseRaw(id).value)
    ensures r.Ok? ==> r.value in s && r.value.Id == ParseRaw(id).value
    ensures r.Err? ==> r.message == "Deal not found"
  {
    match Locate(s, IdOf, ParseRaw(id))
    case None => Err("Deal not found")
    case Some(i) => Ok(s[i])
  }

  /** `create`: the next id, references parsed (falsy ones null), value and probability
      parsed with 0 for anything unparseable. */
  function Create(s: seq<Deal>, d: Draft, now: string): (r: Step<seq<Deal>, Deal>)
    ensures r.result.Ok?
    ensures r.state == s + [r.result.value]
    ensures var n := r.result.value;
      && n.Id == NextId(s, IdOf)
      && n.contactId == RefOf(d.contactId) && n.companyId == RefOf(d.companyId)
      && n.value == IntOrZero(d.value) && n.probability == IntOrZero(d.probability)
      && n.name == d.name && n.stage == d.stage
      && n.expectedCloseDate == d.expectedCloseDate && n.description == d.description && n.notes == d.notes
      && n.createdAt == now && n.updatedAt == now
  {
    var n := Deal(MaxId(s, IdOf) + 1, d.name, RefOf(d.contactId), RefOf(d.companyId),
      IntOrZero(d.value), IntOrZero(d.probability), d.stage, d.expectedCloseDate,
      d.description, d.notes, now, now);
    Step(s + [n], Ok(n))
  }

  /** `x ? parse(x) : old`: a falsy field keeps the stored number. */
  function KeepUnlessGiven(x: Raw, stored: int): (v: int)
    ensures !Truthy(x) ==> v == stored
    ensures Truthy(x) && ParseRaw(x).Some? ==> v == ParseRaw(x).value
  {
    if Truthy(x) then ParseRaw(x).GetOr(stored) else stored
  }

  /** The merge `update` performs: the supplied fields override, references are always
      rewritten from the patch (so a patch without them clears them), and value and
      probability change only when the patch carries a truthy one. */
  function Merge(d: Deal, p: Patch, now: string): (m: Deal)
    ensures m.Id == d.Id && m.createdAt == d.createdAt && m.updatedAt == now
    ensures m.contactId == RefOf(p.contactId) && m.companyId == RefOf(p.companyId)
    ensures !Truthy(p.value) ==> m.value == d.value
    ensures Truthy(p.value) && ParseRaw(p.value).Some? ==> m.value == ParseRaw(p.value).value
    ensures !Truthy(p.probability) ==> m.probability == d.probability
    ensures Truthy(p.probability) && ParseRaw(p.probability).Some? ==> m.probability == ParseRaw(p.probability).value
    ensures p.name.Some? ==> m.name == p.name.value
    ensures p.name.None? ==> m.name == d.name
    ensures p.stage.Some? ==> m.stage == p.stage.value
    ensures p.stage.None? ==> m.stage == d.stage
    ensures p.expectedCloseDate.Some? ==> m.expectedCloseDate == p.expectedCloseDate.value
    ensures p.expectedCloseDate.None? ==> m.expectedCloseDate == d.expectedCloseDate
    ensures p.description.Some? ==> m.description == p.description.value
    ensures p.description.None? ==> m.description == d.description
    ensures p.notes.Some? ==> m.notes == p.notes.value
    ensures p.notes.None? ==> m.notes == d.notes
  {
    Deal(d.Id, p.name.GetOr(d.name), RefOf(p.contactId), RefOf(p.companyId),
      KeepUnlessGiven(p.value, d.value), KeepUnlessGiven(p.probability, d.probability),
      p.stage.GetOr(d.stage), p.expectedCloseDate.GetOr(d.expectedCloseDate),
      p.description.GetOr(d.description), p.notes.GetOr(d.notes), d.createdAt, now)
  }

  /** `update`: merges into the matching deal; an unknown id changes nothing. */
  function Update(s: seq<Deal>, id: Raw, p: Patch, now: string): (r: Step<seq<Deal>, Deal>)
    ensures r.result.Ok? <==> GetById(s, id).Ok?
    ensures r.result.Err? ==> r == Step(s, Err("Deal not found"))
    ensures r.result.Ok? ==>
      var i := Locate(s, IdOf, ParseRaw(id)).value;
      r.result.value == Merge(s[i], p, now) && r.state == s[i := r.result.value]
  {
    match Locate(s, IdOf, ParseRaw(id))
    case None => Step(s, Err("Deal not found"))
    case Some(i) =>
      var n := Merge(s[i], p, now);
      Step(s[i := n], Ok(n))
  }

  /** `delete_`: removes the matching deal and resolves to `true`. */
  function Delete(s: seq<Deal>, id: Raw): (r: Step<seq<Deal>, bool>)
    ensures r.result.Ok? <==> GetById(s, id).Ok?
    ensures r.result.Err? ==> r == Step(s, Err("Deal not found"))
    ensures r.result.Ok? ==>
      r.result.value && r.state == RemoveAt(s, Locate(s, IdOf, ParseRaw(id)).value)
  {
    match Locate(s, IdOf, ParseRaw(id))
    case None => Step(s, Err("Deal not found"))
    case Some(i) => Step(RemoveAt(s, i), Ok(true))
  }

  /** `updateStage`: moves one deal to another stage, nothing else about it changes but
      `updatedAt`. */
  function UpdateStage(s: seq<Deal>, id: Raw, stage: string, now: string): (r: Step<seq<Deal>, Deal>)
    ensures r.result.Ok? <==> GetById(s, id).Ok?
    ensures r.result.Err? ==> r == Step(s, Err("Deal not found"))
    ensures r.result.Ok? ==>
      var i := Locate(s, IdOf, ParseRaw(id)).value;
      && r.result.value == s[i].(stage := stage, updatedAt := now)
      && r.state == s[i := r.result.value]
  {
    match Locate(s, IdOf, ParseRaw(id))
    case None => Step(s, Err("Deal not found"))
    case Some(i) =>
      var n := s[i].(stage := stage, updatedAt := now);
      Step(s[i := n], Ok(n))
  }

  /** `getByStage`: exactly the deals in one stage, in store order. */
  function GetByStage(s: seq<Deal>, stage: string): (r: seq<Deal>)
    ensures forall i :: 0 <= i < |r| ==> r[i] in s && r[i].stage == stage
    ensures forall i :: 0 <= i < |s| && s[i].stage == stage ==> s[i] in r
    ensures forall d :: multiset(r)[d] == if d.stage == stage then multiset(s)[d] else 0
  {
    FilterCounts(s, (d: Deal) => d.stage == stage);
    Filter(s, (d: Deal) => d.stage == stage)
  }

  // ---------------------------------------------------------------- properties across calls

  lemma CreateKeepsUnique(s: seq<Deal>, d: Draft, now: string)
    requires Unique(s, IdOf)
    ensures Unique(Create(s, d, now).state, IdOf)
  {
    UniqueAppend(s, IdOf, Create(s, d, now).result.value);
  }

  lemma UpdateKeepsUnique(s: seq<Deal>, id: Raw, p: Patch, now: string)
    requires Unique(s, IdOf)
    ensures Unique(Update(s, id, p, now).state, IdOf)
  {
    if Update(s, id, p, now).result.Ok? {
      UniqueReplace(s, IdOf, Locate(s, IdOf, ParseRaw(id)).value, Update(s, id, p, now).result.value);
    }
  }

  lemma UpdateStageKeepsUnique(s: seq<Deal>, id: Raw, stage: string, now: string)
    requires Unique(s, IdOf)
    ensures Unique(UpdateStage(s, id, stage, now).state, IdOf)
  {
    if UpdateStage(s, id, stage, now).result.Ok? {
      UniqueReplace(s, IdOf, Locate(s, IdOf, ParseRaw(id)).value, UpdateStage(s, id, stage, now).result.value);
    }
  }

  lemma DeleteKeepsUnique(s: seq<Deal>, id: Raw)
    requires Unique(s, IdOf)
    ensures Unique(Delete(s, id).state, IdOf)
    ensures Delete(s, id).result.Ok? ==> !HasId(Delete(s, id).state, IdOf, ParseRaw(id).value)
  {
    if Delete(s, id).result.Ok? {
      UniqueRemove(s, IdOf, Locate(s, IdOf, ParseRaw(id)).value);
    }
  }

  /** After a stage move the deal is listed under its new stage and under no other, and the
      number of deals is unchanged. */
  lemma UpdateStageMoves(s: seq<Deal>, id: Raw, stage: string, other: string, now: string)
    requires Unique(s, IdOf) && UpdateStage(s, id, stage, now).result.Ok? && other != stage
    ensures var r := UpdateStage(s, id, stage, now);
      && r.result.value in GetByStage(r.state, stage)
      && (forall k :: 0 <= k < |GetByStage(r.state, other)| ==> GetByStage(r.state, other)[k].Id != r.result.value.Id)
      && |r.state| == |s|
  {
    var r := UpdateStage(s, id, stage, now);
    var i := Locate(s, IdOf, ParseRaw(id)).value;
    assert r.state[i] == r.result.value;
    var g := GetByStage(r.state, other);
    forall k | 0 <= k < |g|
      ensures g[k].Id != r.result.value.Id
    {
      var j :| 0 <= j < |r.state| && r.state[j] == g[k];
      if j != i {
        assert r.state[j] == s[j];
      }
    }
  }

  /** Saving the stored deal back unchanged from the form (references shown as their ids,
      numbers truthy) leaves every field but `updatedAt` as it was. */
  lemma UpdateWithOwnFields(d: Deal, now: string)
    requires d.value != 0 && d.probability != 0
    requires d.contactId.Some? && d.contactId.value != 0
    requires d.companyId.Some? && d.companyId.value != 0
    ensures Merge(d, Patch(Some(d.name), Num(d.contactId.value), Num(d.companyId.value), Num(d.value),
      Num(d.probability), Some(d.stage), Some(d.expectedCloseDate), Some(d.description), Some(d.notes)), now)
      == d.(updatedAt := now)
  {
  }
}

=== FILE: email_builder.dfy ===
/** The email builder's editing state: a list of content blocks (text or image) with a
    settings map, and the id of the selected block. Blocks are dropped in from the toolbar,
    reordered on the canvas, edited, deleted, and the whole is saved once non-empty. */
module EmailBuilder {
  import opened Wrappers
  import opened Store
  import Text

  /** A value in a block's `data` or in the settings: text, or a number such as `fontSize`. */
  datatype DataValue = S(s: string) | N(n: int)

  /** A block; `kind` is the source's `type`. */
  datatype Block = Block(id: string, kind: string, data: map<string, DataValue>)

  datatype Content = Content(blocks: seq<Block>, settings: map<string, DataValue>)

  /** The component's state: the content being edited and `selectedBlockId`. */
  datatype Editor = Editor(content: Content, selected: Option<string>)

  /** One end of a drag: the droppable's id and the position in it. */
  datatype Location = Location(droppableId: string, index: int)

  /** What the drag-and-drop library reports when a drag ends. */
  datatype DragResult = DragResult(source: Location, destination: Option<Location>, draggableId: string)

  function TextDefaults(): map<string, DataValue> {
    map["content" := S("Click to edit text..."), "fontSize" := N(16), "color" := S("#333333"),
        "textAlign" := S("left"), "fontWeight" := S("normal")]
  }

  function ImageDefaults(): map<string, DataValue> {
    map["src" := S(""), "alt" := S("Image"), "width" := S("100%"), "alignment" := S("center")]
  }

  /** Where `Array.prototype.splice` starts for a `start` argument on a list of length `len`:
      a negative start counts from the end (but not past the front), a large one is clamped
      to the end. */
  function SpliceIndex(start: int, len: nat): (k: nat)
    ensures k <= len
    ensures 0 <= start <= len ==> k == start
    ensures start > len ==> k == len
    ensures start < 0 ==> k == if len + start < 0 then 0 else len + start
  {
    if start < 0 then (if len + start < 0 then 0 else len + start)
    else if start > len then len
    else start
  }

  /** `s.splice(k, 0, x)`: `x` placed at position `k`, later elements shifted right. */
  function InsertAt<T>(s: seq<T>, k: nat, x: T): (r: seq<T>)
    requires k <= |s|
    ensures |r| == |s| + 1 && r[k] == x
    ensures r[..k] == s[..k] && r[k + 1..] == s[k..]
    ensures multiset(r) == multiset(s) + multiset{x}
  {
    assert s == s[..k] + s[k..];
    s[..k] + [x] + s[k..]
  }

  /** Taking out what was just put in gives back the list. */
  lemma RemoveInserted<T>(s: seq<T>, k: nat, x: T)
    requires k <= |s|
    ensures RemoveAt(InsertAt(s, k, x), k) == s
  {
    var r := InsertAt(s, k, x);
    assert RemoveAt(r, k) == r[..k] + r[k + 1..];
    assert s == s[..k] + s[k..];
  }

  /** Putting back what was just taken out, where it was, gives back the list. */
  lemma InsertRemoved<T>(s: seq<T>, i: nat)
    requires i < |s|
    ensures InsertAt(RemoveAt(s, i), i, s[i]) == s
  {
    var t := RemoveAt(s, i);
    var r := InsertAt(t, i, s[i]);
    assert |r| == |s|;
    forall k | 0 <= k < |s|
      ensures r[k] == s[k]
    {
      if k < i {
        assert r[k] == r[..i][k] == t[..i][k];
      } else if k > i {
        assert r[k] == r[i + 1..][k - i - 1] == t[i..][k - i - 1];
      }
    }
  }

  /** The canvas reorder: the block at `from` taken out and put back in at `to`; the other
      blocks keep their relative order. */
  function Move<T>(s: seq<T>, from: nat, to: int): (r: seq<T>)
    requires from < |s|
    ensures |r| == |s| && multiset(r) == multiset(s)
    ensures r[SpliceIndex(to, |s| - 1)] == s[from]
    ensures RemoveAt(r, SpliceIndex(to, |s| - 1)) == RemoveAt(s, from)
  {
    RemoveInserted(RemoveAt(s, from), SpliceIndex(to, |s| - 1), s[from]);
    InsertAt(RemoveAt(s, from), SpliceIndex(to, |s| - 1), s[from])
  }

  /** The toolbar item `toolbar-<type>` names the type of block it creates. */
  function NewBlock(draggableId: string, freshId: string): (b: Block)
    ensures b.id == freshId
    ensures "toolbar-" <= draggableId ==> b.kind == draggableId[8..]
    ensures b.kind == "text" ==> b.data == TextDefaults()
    ensures b.kind != "text" ==> b.data == ImageDefaults()
  {
    var kind := Text.RemoveFirst(draggableId, "toolbar-");
    Block(freshId, kind, if kind == "text" then TextDefaults() else ImageDefaults())
  }

  predicate FromToolbar(d: DragResult) {
    d.destination.Some? && d.source.droppableId == "toolbar" && d.destination.value.droppableId == "canvas"
  }

  predicate WithinCanvas(d: DragResult) {
    d.destination.Some? && d.source.droppableId == "canvas" && d.destination.value.droppableId == "canvas"
  }

  /** `handleDragEnd`: a toolbar drop inserts a new block (named `freshId`, the source's
      `block-<Date.now()>`) and selects it; a canvas drop moves a block; anything else,
      including a drop outside any target, changes nothing. */
  function HandleDragEnd(e: Editor, d: DragResult, freshId: string): (r: Editor)
    ensures d.destination.None? ==> r == e
    ensures !FromToolbar(d) && !WithinCanvas(d) ==> r == e
    ensures r.content.settings == e.content.settings
    ensures FromToolbar(d) ==>
      var bs := e.content.blocks;
      var k := SpliceIndex(d.destination.value.index, |bs|);
      && r.selected == Some(freshId)
      && |r.content.blocks| == |bs| + 1
      && r.content.blocks[k] == NewBlock(d.draggableId, freshId)
      && r.content.blocks[..k] == bs[..k] && r.content.blocks[k + 1..] == bs[k..]
    ensures WithinCanvas(d) ==>
      var bs := e.content.blocks;
      && r.selected == e.selected
      && |r.content.blocks| == |bs|
      && multiset(r.content.blocks) == multiset(bs)
      && (SpliceIndex(d.source.index, |bs|) < |bs| ==>
            var to := SpliceIndex(d.destination.value.index, |bs| - 1);
            var from := SpliceIndex(d.source.index, |bs|);
            && r.content.blocks[to] == bs[from]
            && RemoveAt(r.content.blocks, to) == RemoveAt(bs, from))
  {
    if d.destination.None? then e
    else if FromToolbar(d) then
      var bs := e.content.blocks;
      var k := SpliceIndex(d.destination.value.index, |bs|);
      Editor(e.content.(blocks := InsertAt(bs, k, NewBlock(d.draggableId, freshId))), Some(freshId))
    else if WithinCanvas(d) then
      var bs := e.content.blocks;
      var from := SpliceIndex(d.source.index, |bs|);
      if from < |bs| then e.(content := e.content.(blocks := Move(bs, from, d.destination.value.index)))
      else e
    else e
  }

  /** `updateBlock`: the data of the blocks with that id merged with `newData` (its keys
      win); every block keeps its place, id and type. */
  function UpdateBlock(e: Editor, blockId: string, newData: map<string, DataValue>): (r: Editor)
    ensures r.selected == e.selected && r.content.settings == e.content.settings
    ensures |r.content.blocks| == |e.content.blocks|
    ensures forall i :: 0 <= i < |e.content.blocks| ==>
      var b := e.content.blocks[i];
      && r.content.blocks[i].id == b.id && r.content.blocks[i].kind == b.kind
      && (b.id != blockId ==> r.content.blocks[i] == b)
      && (b.id == blockId ==>
            && r.content.blocks[i].data.Keys == b.data.Keys + newData.Keys
            && (forall k :: k in newData ==> r.content.blocks[i].data[k] == newData[k])
            && (forall k :: k in b.data && k !in newData ==> r.content.blocks[i].data[k] == b.data[k]))
  {
    var bs := seq(|e.content.blocks|, i requires 0 <= i < |e.content.blocks| =>
      var b := e.content.blocks[i];
      if b.id == blockId then b.(data := b.data + newData) else b);
    e.(content := e.content.(blocks := bs))
  }

  /** `deleteBlock`: every block with that id removed, the others in order; the selection
      is cleared exactly when it was that block. */
  function DeleteBlock(e: Editor, blockId: string): (r: Editor)
    ensures r.content.settings == e.content.settings
    ensures forall b :: multiset(r.content.blocks)[b] == if b.id == blockId then 0 else multiset(e.content.blocks)[b]
    ensures forall i :: 0 <= i < |r.content.blocks| ==> r.content.blocks[i].id != blockId
    ensures forall i :: 0 <= i < |e.content.blocks| && e.content.blocks[i].id != blockId ==>
      e.content.blocks[i] in r.content.blocks
    ensures forall b :: b in r.content.blocks ==> b in e.content.blocks
    ensures e.selected == Some(blockId) ==> r.selected.None?
    ensures e.selected != Some(blockId) ==> r.selected == e.selected
  {
    FilterCounts(e.content.blocks, (b: Block) => b.id != blockId);
    var bs := Filter(e.content.blocks, (b: Block) => b.id != blockId);
    Editor(e.content.(blocks := bs), if e.selected == Some(blockId) then None else e.selected)
  }

  /** `updateSettings`: the settings merged with `newSettings` (its keys win); the blocks and
      the selection are untouched. */
  function UpdateSettings(e: Editor, newSettings: map<string, DataValue>): (r: Editor)
    ensures r.content.blocks == e.content.blocks && r.selected == e.selected
    ensures r.content.settings.Keys == e.content.settings.Keys + newSettings.Keys
    ensures forall k :: k in newSettings ==> r.content.settings[k] == newSettings[k]
    ensures forall k :: k in e.content.settings && k !in newSettings ==> r.content.settings[k] == e.content.settings[k]
  {
    e.(content := e.content.(settings := e.content.settings + newSettings))
  }

  /** `handleSave`: refused while the email has no block; otherwise the content is handed on. */
  function Save(c: Content): (r: Result<Content>)
    ensures r.Err? <==> |c.blocks| == 0
    ensures r.Err? ==> r.message == "Please add at least one block to your email"
    ensures r.Ok? ==> r.value == c
  {
    if |c.blocks| == 0 then Err("Please add at least one block to your email") else Ok(c)
  }

  /** The test of `blocks.find(b => b.id === id)`. */
  function IdIs(id: string): Block -> bool {
    (b: Block) => b.id == id
  }

  /** `selectedBlock`: the first block carrying the selected id, if any. */
  function SelectedBlock(e: Editor): (r: Option<Block>)
    ensures r.Some? ==>
      && e.selected.Some? && r.value.id == e.selected.value
      && exists k :: FirstAt(e.content.blocks, IdIs(e.selected.value), k) && e.content.blocks[k] == r.value
    ensures r.None? <==>
      e.selected.None? || forall i :: 0 <= i < |e.content.blocks| ==> e.content.blocks[i].id != e.selected.value
  {
    if e.selected.None? then None else First(e.content.blocks, IdIs(e.selected.value))
  }

  ghost predicate FreshId(e: Editor, id: string) {
    forall i :: 0 <= i < |e.content.blocks| ==> e.content.blocks[i].id != id
  }

  // ---------------------------------------------------------------- properties across calls

  /** A dropped block is the selected block, and the email can then be saved. */
  lemma DropSelectsNewBlock(e: Editor, d: DragResult, freshId: string)
    requires FromToolbar(d) && FreshId(e, freshId)
    ensures SelectedBlock(HandleDragEnd(e, d, freshId)) == Some(NewBlock(d.draggableId, freshId))
    ensures Save(HandleDragEnd(e, d, freshId).content).Ok?
  {
    var r := HandleDragEnd(e, d, freshId);
    var k := SpliceIndex(d.destination.value.index, |e.content.blocks|);
    var bs := r.content.blocks;
    forall j | 0 <= j < |bs| && j != k
      ensures bs[j].id != freshId
    {
      if j < k {
        assert bs[j] == bs[..k][j] == e.content.blocks[..k][j];
      } else {
        assert bs[j] == bs[k + 1..][j - k - 1] == e.content.blocks[k..][j - k - 1];
      }
    }
    assert FirstAt(bs, IdIs(freshId), k);
    FirstIs(bs, IdIs(freshId), k);
  }

  /** Deleting a freshly dropped block undoes the drop: the blocks are as before and
      nothing is selected. */
  lemma DeleteUndoesDrop(e: Editor, d: DragResult, freshId: string)
    requires FromToolbar(d) && FreshId(e, freshId)
    ensures var r := DeleteBlock(HandleDragEnd(e, d, freshId), freshId);
      r.content == e.content && r.selected.None?
  {
    var bs := e.content.blocks;
    var k := SpliceIndex(d.destination.value.index, |bs|);
    assert bs == bs[..k] + bs[k..];
    FilterDropsOne(bs[..k], NewBlock(d.draggableId, freshId), bs[k..], (x: Block) => x.id != freshId);
  }

  /** Filtering out the one element that fails leaves the others, in order. */
  lemma FilterDropsOne<T>(pre: seq<T>, x: T, post: seq<T>, p: T -> bool)
    requires forall y :: y in pre ==> p(y)
    requires forall y :: y in post ==> p(y)
    requires !p(x)
    ensures Filter(pre + [x] + post, p) == pre + post
  {
    FilterAll(pre, p);
    FilterAll(post, p);
    FilterNone([x], p);
    FilterConcat(pre, [x], p);
    assert pre + [] == pre;
    FilterConcat(pre + [x], post, p);
  }

  /** Dragging a block from `i` to `j` and back from `j` to `i` restores the order. */
  lemma MoveAndBack(e: Editor, i: nat, j: nat, freshId: string)
    requires i < |e.content.blocks| && j < |e.content.blocks|
    ensures var there := DragResult(Location("canvas", i), Some(Location("canvas", j)), "");
      var back := DragResult(Location("canvas", j), Some(Location("canvas", i)), "");
      HandleDragEnd(HandleDragEnd(e, there, freshId), back, freshId) == e
  {
    var s := e.content.blocks;
    var t := RemoveAt(s, i);
    var u := Move(s, i, j);
    assert u == InsertAt(t, j, s[i]);
    RemoveInserted(t, j, s[i]);
    InsertRemoved(s, i);
    assert Move(u, j, i) == s;
  }

  /** Deleting a block distributes over the block list: the survivors of two stretches are
      the first stretch's survivors followed by the second's, so the order is kept. */
  lemma DeleteBlockKeepsOrder(e: Editor, blockId: string, a: seq<Block>, c: seq<Block>)
    requires e.content.blocks == a + c
    ensures DeleteBlock(e, blockId).content.blocks ==
      DeleteBlock(e.(content := e.content.(blocks := a)), blockId).content.blocks +
      DeleteBlock(e.(content := e.content.(blocks := c)), blockId).content.blocks
  {
    FilterConcat(a, c, (b: Block) => b.id != blockId);
  }

  /** Merging the same data into a block twice is the same as merging it once. */
  lemma UpdateBlockIdempotent(e: Editor, blockId: string, newData: map<string, DataValue>)
    ensures UpdateBlock(UpdateBlock(e, blockId, newData), blockId, newData) == UpdateBlock(e, blockId, newData)
  {
    var once := UpdateBlock(e, blockId, newData).content.blocks;
    var twice := UpdateBlock(UpdateBlock(e, blockId, newData), blockId, newData).content.blocks;
    forall i | 0 <= i < |once|
      ensures twice[i] == once[i]
    {
      if once[i].id == blockId {
        assert twice[i].data == once[i].data;
      }
    }
  }
}

=== FILE: es_modules.dfy ===
/** Loading the ES modules the pages and services are written as. A module whose exports
    name one binding twice is a syntax error; an import of a name the imported module does
    not export is a link error. Either one stops the importing module, and everything that
    imports it in turn, from running at all. */
module EsModules {
  import opened Wrappers

  datatype LoadError =
    | DuplicateExport(name: string)   // "Duplicate export of 'name'"
    | MissingExport(name: string)     // "does not provide an export named 'name'"

  /** No name occurs twice. */
  predicate Distinct(names: seq<string>) {
    forall i, j :: 0 <= i < j < |names| ==> names[i] != names[j]
  }

  /** The first name of the list that occurs again further on. */
  function FirstDuplicate(names: seq<string>): (r: Option<string>)
    ensures r.None? <==> Distinct(names)
    ensures r.Some? ==> exists i, j :: 0 <= i < j < |names| && names[i] == r.value && names[j] == r.value
    decreases |names|
  {
    if |names| == 0 then None
    else if names[0] in names[1..] then
      var j :| 0 <= j < |names[1..]| && names[1..][j] == names[0];
      assert names[j + 1] == names[0];
      Some(names[0])
    else
      var r := FirstDuplicate(names[1..]);
      assert forall i :: 0 < i < |names| ==> names[i] == names[1..][i - 1];
      if r.Some? then
        var i, j :| 0 <= i < j < |names[1..]| && names[1..][i] == r.value && names[1..][j] == r.value;
        assert names[i + 1] == r.value && names[j + 1] == r.value;
        r
      else
        r
  }

  /** The first imported name the exports lack. */
  function FirstMissing(imports: seq<string>, exports: seq<string>): (r: Option<string>)
    ensures r.None? <==> forall i :: 0 <= i < |imports| ==> imports[i] in exports
    ensures r.Some? ==> r.value in imports && r.value !in exports
    decreases |imports|
  {
    if |imports| == 0 then None
    else if imports[0] !in exports then Some(imports[0])
    else
      assert forall i :: 0 < i < |imports| ==> imports[i] == imports[1..][i - 1];
      FirstMissing(imports[1..], exports)
  }

  /** Loading a module that imports `imports` by name from a module exporting `exports`
      (a namespace import, `import * as x`, names nothing): the imported module's own
      syntax is checked first, then the names are linked. */
  function Load(imports: seq<string>, exports: seq<string>): (e: Option<LoadError>)
    ensures e.None? <==> Distinct(exports) && forall i :: 0 <= i < |imports| ==> imports[i] in exports
    ensures e.Some? && e.value.DuplicateExport? ==>
      exists i, j :: 0 <= i < j < |exports| && exports[i] == e.value.name && exports[j] == e.value.name
    ensures e.Some? && e.value.MissingExport? ==> Distinct(exports) && e.value.name in imports && e.value.name !in exports
  {
    match FirstDuplicate(exports)
    case Some(n) => Some(DuplicateExport(n))
    case None =>
      match FirstMissing(imports, exports)
      case Some(n) => Some(MissingExport(n))
      case None => None
  }

  // ---------------------------------------------------------------- the modules

  /** The exports of `contactService.js`: `delete_` is exported by its declaration and a
      second time by the export list that closes the file. */
  const ContactExportsAsWritten: seq<string> := ["getAll", "getById", "create", "update", "delete_", "delete_"]

  /** The same module without the closing export list. */
  const ContactExports: seq<string> := ["getAll", "getById", "create", "update", "delete_"]

  /** The exports of `workflowService.js`. */
  const WorkflowExports: seq<string> := ["getAll", "getById", "create", "update", "delete_", "activate", "deactivate"]

  /** What the workflows page calls on the workflow module, once `delete` is read as the
      module's `delete_`. */
  const WorkflowCalls: seq<string> := ["getAll", "create", "update", "delete_"]

  // ---------------------------------------------------------------- properties

  /** As written, the contact module does not load, so neither does the contacts page (a
      namespace import) nor the analytics service (which imports `getAll`). */
  lemma ContactModuleFailsAsWritten()
    ensures Load([], ContactExportsAsWritten) == Some(DuplicateExport("delete_"))
    ensures Load(["getAll"], ContactExportsAsWritten) == Some(DuplicateExport("delete_"))
  {
    assert ContactExportsAsWritten[0] !in ContactExportsAsWritten[1..];
    assert ContactExportsAsWritten[1..][0] !in ContactExportsAsWritten[2..];
    assert ContactExportsAsWritten[2..][0] !in ContactExportsAsWritten[3..];
    assert ContactExportsAsWritten[3..][0] !in ContactExportsAsWritten[4..];
    assert ContactExportsAsWritten[4..][0] in ContactExportsAsWritten[5..];
    assert ContactExportsAsWritten[1..][1..] == ContactExportsAsWritten[2..];
    assert ContactExportsAsWritten[2..][1..] == ContactExportsAsWritten[3..];
    assert ContactExportsAsWritten[3..][1..] == ContactExportsAsWritten[4..];
    assert FirstDuplicate(ContactExportsAsWritten[4..]) == Some("delete_");
  }

  /** Without the second export the contact module loads for both of its importers. */
  lemma ContactModuleLoads()
    ensures Load([], ContactExports).None?
    ensures Load(["getAll"], ContactExports).None?
  {
    assert Distinct(ContactExports);
  }

  /** As written, the workflows page imports a binding `workflowService` that the workflow
      module does not export, so the page does not load. */
  lemma WorkflowsPageFailsAsWritten()
    ensures Load(["workflowService"], WorkflowExports) == Some(MissingExport("workflowService"))
  {
    assert Distinct(WorkflowExports);
    assert "workflowService" !in WorkflowExports;
  }

  /** Imported as a namespace, the workflow module loads and provides every function the
      page calls. */
  lemma WorkflowsPageLoads()
    ensures Load([], WorkflowExports).None?
    ensures Load(WorkflowCalls, WorkflowExports).None?
  {
    assert Distinct(WorkflowExports);
    assert forall i :: 0 <= i < |WorkflowCalls| ==> WorkflowCalls[i] in WorkflowExports;
  }
}

=== FILE: form.dfy ===
/** What every modal form shares: its data is a plain object of loosely typed fields, its
    errors map a field name to a message, a message that is `""` counts as no error, and
    `handleChange` writes the edited field and clears that field's error. */
module Form {
  import opened Js

  /** `formData`: field to value; each form names its fields with a datatype `F`. */
  type Data<F> = map<F, Raw>

  /** `errors`: field to message; validation only ever stores non-empty messages. */
  type Errors<F> = map<F, string>

  /** `formData[name]`, `undefined` when the form has no such field. */
  function Get<F>(d: Data<F>, name: F): (v: Raw)
    ensures name !in d ==> v == Missing
  {
    if name in d then d[name] else Missing
  }

  /** The field as the string an input displays: a number is shown in decimal. Every form
      initialises each of its fields, so the empty string for an absent one never shows. */
  function Shown<F>(d: Data<F>, name: F): string {
    match Get(d, name)
    case Missing => ""
    case Str(s) => s
    case Num(n) => ShowInt(n)
  }

  /** `errors[name]` is truthy. */
  predicate HasError<F>(errors: Errors<F>, name: F) {
    name in errors && errors[name] != ""
  }

  /** `Object.keys(newErrors).length === 0`. */
  predicate NoErrors<F>(errors: Errors<F>) {
    |errors| == 0
  }

  /** The error half of `handleChange`: a truthy error for the field is replaced by `""`;
      every other entry, and a field without an error, is left as it was. */
  function ClearError<F>(errors: Errors<F>, name: F): (r: Errors<F>)
    ensures !HasError(r, name)
    ensures r.Keys == errors.Keys
    ensures forall k :: k in errors && k != name ==> r[k] == errors[k]
    ensures !HasError(errors, name) ==> r == errors
  {
    if HasError(errors, name) then errors[name := ""] else errors
  }

  /** `handleChange` for a text, select or textarea input: the named field takes the new
      value and its error is cleared. */
  function Change<F(!new)>(d: Data<F>, errors: Errors<F>, name: F, value: Raw): (r: (Data<F>, Errors<F>))
    ensures Get(r.0, name) == value
    ensures forall k :: k != name ==> Get(r.0, k) == Get(d, k)
    ensures r.1 == ClearError(errors, name)
  {
    (d[name := value], ClearError(errors, name))
  }

  /** Editing a field clears only that field's error: every other field keeps its error,
      and after one edit the field shows none until the next validation. */
  lemma ChangeClearsOnlyItsError<F(!new)>(d: Data<F>, errors: Errors<F>, name: F, value: Raw, other: F)
    requires other != name
    ensures var r := Change(d, errors, name, value).1;
      && !HasError(r, name)
      && (HasError(r, other) <==> HasError(errors, other))
  {
  }

  /** Clearing twice is clearing once. */
  lemma ClearErrorIdempotent<F>(errors: Errors<F>, name: F)
    ensures ClearError(ClearError(errors, name), name) == ClearError(errors, name)
  {
  }
}

=== FILE: image_block.dfy ===
/** The image block's URL editor: clicking an empty placeholder opens it, Save (button or
    Enter) hands on the trimmed URL, Cancel (button or Escape) restores the stored one, and
    Remove clears the image. `Handle` keeps the editor's clicks to the editor;
    `HandleAsWritten` lets them reach the placeholder around it, as the component does. */
module ImageBlock {
  import opened Wrappers
  import Text

  /** `isEditing` and `tempUrl`. */
  datatype EditState = EditState(editing: bool, tempUrl: string)

  datatype Event =
    | PlaceholderClick      // the empty image area
    | EditClick             // the Edit overlay button on a present image
    | Typed(value: string)
    | SaveClick             // the Save button, disabled while the URL trims to nothing
    | CancelClick
    | InputClick            // a click into the URL field
    | KeyDown(key: string)
    | RemoveClick

  /** The new state and the `src` handed to `onChange`, if any. */
  datatype Outcome = Outcome(state: EditState, emitted: Option<string>)

  function Initial(src: string): (s: EditState)
    ensures !s.editing && s.tempUrl == src
  {
    EditState(false, src)
  }

  /** `handleUrlSave`: emit the trimmed URL and leave editing. */
  function SaveUrl(s: EditState): (o: Outcome)
    ensures !o.state.editing && o.state.tempUrl == s.tempUrl
    ensures o.emitted.Some? && Text.Trim(o.emitted.value) == o.emitted.value
    ensures o.emitted.value == "" <==> Text.AllSpace(s.tempUrl)
  {
    Text.TrimIdempotent(s.tempUrl);
    Text.TrimEmptyIffBlank(s.tempUrl);
    Outcome(EditState(false, s.tempUrl), Some(Text.Trim(s.tempUrl)))
  }

  /** `handleUrlCancel`: the URL reset to the stored one, editing left, nothing emitted. */
  function CancelUrl(src: string): (o: Outcome)
    ensures o.state == Initial(src) && o.emitted.None?
  {
    Outcome(EditState(false, src), None)
  }

  /** One event against the block whose stored image is `src`. */
  function Handle(s: EditState, src: string, e: Event): (o: Outcome)
    ensures e.PlaceholderClick? && src == "" ==> o == Outcome(EditState(true, ""), None)
    ensures e.PlaceholderClick? && src != "" ==> o == Outcome(s, None)
    ensures e.EditClick? ==> o == Outcome(EditState(true, src), None)
    ensures e.Typed? ==> o == Outcome(s.(tempUrl := e.value), None)
    ensures e.SaveClick? && Text.AllSpace(s.tempUrl) ==> o == Outcome(s, None)
    ensures e.SaveClick? && !Text.AllSpace(s.tempUrl) ==> o == SaveUrl(s)
    ensures e == KeyDown("Enter") ==> o == SaveUrl(s)
    ensures e.CancelClick? || e == KeyDown("Escape") ==> o == CancelUrl(src)
    ensures e.KeyDown? && e.key != "Enter" && e.key != "Escape" ==> o == Outcome(s, None)
    ensures e.InputClick? ==> o == Outcome(s, None)
    ensures e.RemoveClick? ==> o == Outcome(s, Some(""))
  {
    match e
    case PlaceholderClick => if src == "" then Outcome(EditState(true, ""), None) else Outcome(s, None)
    case EditClick => Outcome(EditState(true, src), None)
    case Typed(v) => Outcome(s.(tempUrl := v), None)
    case SaveClick =>
      Text.TrimEmptyIffBlank(s.tempUrl);
      if Text.Trim(s.tempUrl) == "" then Outcome(s, None) else SaveUrl(s)
    case CancelClick => CancelUrl(src)
    case InputClick => Outcome(s, None)
    case KeyDown(key) =>
      if key == "Enter" then SaveUrl(s)
      else if key == "Escape" then CancelUrl(src)
      else Outcome(s, None)
    case RemoveClick => Outcome(s, Some(""))
  }

  /** A click that lands inside the URL editor: the editor is drawn inside the placeholder,
      so the click also reaches the placeholder's handler. A disabled Save button fires no
      click at all. */
  predicate Bubbles(s: EditState, e: Event)
  {
    (e.SaveClick? && !Text.AllSpace(s.tempUrl)) || e.CancelClick? || e.InputClick?
  }

  /** `Handle` as the component runs it: after a click inside the editor the placeholder's
      `handleImageClick` runs too, still seeing the stored `src` of the render the click
      came from. */
  function HandleAsWritten(s: EditState, src: string, e: Event): (o: Outcome)
    ensures !Bubbles(s, e) || src != "" ==> o == Handle(s, src, e)
    ensures Bubbles(s, e) && src == "" ==> o.state == EditState(true, "")
    ensures o.emitted == Handle(s, src, e).emitted
  {
    var inner := Handle(s, src, e);
    if Bubbles(s, e) then Outcome(Handle(inner.state, src, PlaceholderClick).state, inner.emitted)
    else inner
  }

  /** The image shows, rather than the placeholder or the editor, exactly when a `src` is
      stored and the editor is closed. */
  predicate ShowsImage(src: string, s: EditState)
  {
    src != "" && !s.editing
  }

  /** The CSS `justifyContent` for the block's `alignment`. */
  function Justify(alignment: string): (j: string)
    ensures alignment == "left" <==> j == "flex-start"
    ensures alignment == "right" <==> j == "flex-end"
    ensures j == "flex-start" || j == "flex-end" || j == "center"
  {
    if alignment == "left" then "flex-start"
    else if alignment == "right" then "flex-end"
    else "center"
  }

  // ---------------------------------------------------------------- properties

  /** The Save button never emits an empty `src`, while Enter on a blank URL does: the
      keyboard path skips the button's disabled guard. */
  lemma SaveButtonVersusEnter(s: EditState, src: string)
    ensures var o := Handle(s, src, SaveClick);
      o.emitted.Some? ==> o.emitted.value != ""
    ensures Text.AllSpace(s.tempUrl) ==> Handle(s, src, KeyDown("Enter")).emitted == Some("")
  {
  }

  /** Typing a URL and saving hands on that URL trimmed; cancelling instead emits nothing
      and brings back the stored image's URL. */
  lemma TypeThenSaveOrCancel(s: EditState, src: string, url: string)
    ensures var typed := Handle(s, src, Typed(url)).state;
      && Handle(typed, src, KeyDown("Enter")).emitted == Some(Text.Trim(url))
      && Handle(typed, src, KeyDown("Escape")) == Outcome(Initial(src), None)
  {
  }

  /** As the component runs it, a new image block does not show its image after a click on
      Save: Save hands on the URL but leaves the editor open with an empty field, Cancel
      leaves it open too, and a click into the field wipes what was typed. Enter in the
      field involves no click, so it saves, closes the editor and shows the image. */
  lemma NewImageHiddenAfterClickAsWritten(s: EditState)
    requires s.editing && !Text.AllSpace(s.tempUrl)
    ensures var o := HandleAsWritten(s, "", SaveClick);
      && o.emitted == Some(Text.Trim(s.tempUrl)) && o.emitted.value != ""
      && o.state == EditState(true, "") && !ShowsImage(o.emitted.value, o.state)
    ensures HandleAsWritten(s, "", CancelClick).state == EditState(true, "")
    ensures HandleAsWritten(s, "", InputClick).state.tempUrl == ""
    ensures var o := HandleAsWritten(s, "", KeyDown("Enter"));
      && o.emitted == Some(Text.Trim(s.tempUrl)) && ShowsImage(o.emitted.value, o.state)
  {
    Text.TrimEmptyIffBlank(s.tempUrl);
  }

  /** With the editor's clicks kept from the placeholder, saving a non-blank URL on a new
      block shows the image, a click into the field keeps the typed URL, and cancelling
      closes the editor. */
  lemma NewImageShows(s: EditState)
    requires s.editing && !Text.AllSpace(s.tempUrl)
    ensures var o := Handle(s, "", SaveClick);
      && o.emitted == Some(Text.Trim(s.tempUrl)) && ShowsImage(o.emitted.value, o.state)
    ensures !Handle(s, "", CancelClick).state.editing
    ensures Handle(s, "", InputClick).state == s
  {
  }
}

=== FILE: js.dfy ===
/** The JavaScript value coercions the services and forms apply to loosely typed input:
    truthiness, `parseInt`/`parseFloat` and `Number(...)`, all restricted to integers. */
module Js {
  import opened Wrappers
  import Text

  /** A field value as it arrives from a form or a caller: absent (`undefined`/`null`),
      a string, or a number. */
  datatype Raw = Missing | Str(s: string) | Num(n: int)

  /** JavaScript truthiness: `undefined`, `null`, `""` and `0` are falsy. */
  predicate Truthy(r: Raw) {
    match r
    case Missing => false
    case Str(s) => s != ""
    case Num(n) => n != 0
  }

  predicate IsDigit(c: char) {
    '0' <= c <= '9'
  }

  predicate AllDigits(s: string) {
    forall i :: 0 <= i < |s| ==> IsDigit(s[i])
  }

  function DigitValue(c: char): (d: nat)
    requires IsDigit(c)
    ensures d < 10
  {
    c as int - '0' as int
  }

  function DigitChar(d: nat): (c: char)
    requires d < 10
    ensures IsDigit(c) && DigitValue(c) == d
  {
    (d + '0' as int) as char
  }

  /** Length of the run of decimal digits at the front of `s`. */
  function DigitRun(s: string): (n: nat)
    ensures n <= |s|
    ensures AllDigits(s[..n])
    ensures n < |s| ==> !IsDigit(s[n])
    decreases |s|
  {
    if |s| > 0 && IsDigit(s[0]) then
      var n := 1 + DigitRun(s[1..]);
      assert s[..n] == [s[0]] + s[1..][..n - 1];
      n
    else 0
  }

  /** The value of a string of decimal digits, most significant first. */
  function DigitsValue(ds: string): nat
    requires AllDigits(ds)
    decreases |ds|
  {
    if |ds| == 0 then 0 else 10 * DigitsValue(ds[..|ds| - 1]) + DigitValue(ds[|ds| - 1])
  }

  /** The decimal rendering of a natural number, no leading zeros. */
  function ShowNat(n: nat): (s: string)
    ensures |s| > 0 && AllDigits(s)
    decreases n
  {
    if n < 10 then [DigitChar(n)] else ShowNat(n / 10) + [DigitChar(n % 10)]
  }

  /** `n.toString()` for an integer. */
  function ShowInt(n: int): (s: string)
    ensures |s| > 0
  {
    if n < 0 then "-" + ShowNat(-n) else ShowNat(n)
  }

  /** `parseInt(s)`: leading whitespace, an optional sign, then the longest run of decimal
      digits; `None` stands for `NaN` (no digit where one is needed). */
  function ParseInt(s: string): (r: Option<int>)
    ensures r.None? <==> DigitRun(Unsigned(Text.TrimStart(s))) == 0
  {
    var t := Text.TrimStart(s);
    var u := Unsigned(t);
    var n := DigitRun(u);
    if n == 0 then None else Some(Signed(t, DigitsValue(u[..n])))
  }

  /** The magnitude `m` with the sign `t` starts with. */
  function Signed(t: string, m: nat): int {
    if |t| > 0 && t[0] == '-' then -(m as int) else m
  }

  /** `t` without one leading sign character. */
  function Unsigned(t: string): string {
    if |t| > 0 && (t[0] == '-' || t[0] == '+') then t[1..] else t
  }

  lemma {:induction false} DigitsValueShowNat(n: nat)
    ensures DigitsValue(ShowNat(n)) == n
    decreases n
  {
    if n >= 10 {
      var s := ShowNat(n);
      DigitsValueShowNat(n / 10);
      assert s[..|s| - 1] == ShowNat(n / 10);
    }
  }

  lemma {:induction false} DigitRunAllDigits(s: string)
    requires AllDigits(s)
    ensures DigitRun(s) == |s|
    decreases |s|
  {
    if |s| > 0 {
      DigitRunAllDigits(s[1..]);
    }
  }

  /** Rendering an integer and parsing it back gives the integer: the round trip behind
      `contact.Id.toString()` in a `<select>` and `parseInt(formData.contactId)` on submit. */
  lemma ParseShowInt(n: int)
    ensures ParseInt(ShowInt(n)) == Some(n)
  {
    var m := if n < 0 then -n else n;
    var digits := ShowNat(m);
    var s := ShowInt(n);
    assert !Text.IsSpace(s[0]);
    assert Text.TrimStart(s) == s;
    if n < 0 {
      assert Unsigned(s) == digits;
    } else {
      assert Unsigned(s) == digits;
    }
    DigitRunAllDigits(digits);
    assert digits[..|digits|] == digits;
    DigitsValueShowNat(m);
  }

  /** `parseInt(x)` (and `parseFloat(x)` on integers) of a loose value: a number is itself. */
  function ParseRaw(r: Raw): (v: Option<int>)
    ensures r.Num? ==> v == Some(r.n)
    ensures r.Missing? ==> v.None?
  {
    match r
    case Missing => None
    case Str(s) => ParseInt(s)
    case Num(n) => Some(n)
  }

  /** `x ? parseInt(x) : null`, the coercion the services apply to foreign-key fields.
      A truthy string with no digits would give `NaN` in JavaScript; since `NaN` equals
      nothing, every lookup the code makes treats it as `null`, and so does this model. */
  function RefOf(r: Raw): (v: Option<int>)
    ensures !Truthy(r) ==> v.None?
    ensures Truthy(r) ==> v == ParseRaw(r)
  {
    if Truthy(r) then ParseRaw(r) else None
  }

  /** `parseInt(x) || 0`: the parsed integer, or 0 when there is none. */
  function IntOrZero(r: Raw): (v: int)
    ensures ParseRaw(r).None? ==> v == 0
    ensures ParseRaw(r).Some? ==> v == ParseRaw(r).value
  {
    ParseRaw(r).GetOr(0)
  }

  /** A referenced id chosen in a `<select>` survives the trip through its string form. */
  lemma RefOfShownId(n: int)
    ensures RefOf(Str(ShowInt(n))) == Some(n)
  {
    ParseShowInt(n);
  }

  /** `Number(x)` on a loose value, as `isNaN(x)` and `x < 1` coerce it: the whole trimmed
      string must be an optionally signed run of digits (the empty string is 0). */
  function ToNumber(r: Raw): (v: Option<int>)
    ensures r.Num? ==> v == Some(r.n)
    ensures r.Str? && Text.Trim(r.s) == "" ==> v == Some(0)
  {
    match r
    case Missing => None
    case Num(n) => Some(n)
    case Str(s) =>
      var t := Text.Trim(s);
      var u := Unsigned(t);
      if t == "" then Some(0)
      else if |u| > 0 && AllDigits(u) then Some(Signed(t, DigitsValue(u)))
      else None
  }

  /** Where `Number(s)` yields a value on a non-blank string, `parseInt(s)` yields the same. */
  lemma ToNumberAgreesWithParseInt(s: string)
    requires Text.Trim(s) != "" && ToNumber(Str(s)).Some?
    ensures ParseInt(s) == ToNumber(Str(s))
  {
    var ts := Text.TrimStart(s);
    var t := Text.TrimEnd(ts);
    assert t == Text.Trim(s);
    var u := Unsigned(t);
    assert |u| > 0 && AllDigits(u);
    var m := DigitsValue(u);
    assert ToNumber(Str(s)) == Some(Signed(t, m));
    TrimmedDigitsParse(ts, t, u);
    assert ParseInt(s) == Some(Signed(ts, m));
    assert t[0] == ts[0];
  }

  lemma TrimmedDigitsParse(ts: string, t: string, u: string)
    requires t == Text.TrimEnd(ts) && t != "" && u == Unsigned(t) && |u| > 0 && AllDigits(u)
    ensures DigitRun(Unsigned(ts)) == |u|
    ensures Unsigned(ts)[..|u|] == u
  {
    assert t == ts[..|t|];
    var us := Unsigned(ts);
    assert u == us[..|u|];
    if |us| > |u| {
      assert us[|u|] == ts[|t|];
      assert ts[|t|..][0] == ts[|t|];
    }
    DigitRunPrefix(u, us);
  }

  /** A digit run followed by a non-digit is exactly the digit run of the longer string. */
  lemma {:induction false} DigitRunPrefix(u: string, us: string)
    requires u <= us && AllDigits(u) && |u| > 0
    requires |us| > |u| ==> !IsDigit(us[|u|])
    ensures DigitRun(us) == |u|
    decreases |u|
  {
    if |u| > 1 {
      DigitRunPrefix(u[1..], us[1..]);
    } else if |us| > 1 {
      assert !IsDigit(us[1..][0]);
    }
  }
}

=== FILE: kanban_board.dfy ===
/** The sales pipeline board: one column per pipeline stage in board order, each holding the
    deals of that stage in store order with their contact and company, a header with the
    stage's deal count and summed value, the stage's colours, and the empty-column hint. */
module KanbanBoard {
  import opened Wrappers
  import opened Store
  import DealService
  import ContactService
  import CompanyService
  import AnalyticsService

  type Deal = DealService.Deal
  type Contact = ContactService.Contact
  type Company = CompanyService.Company

  /** A deal card with the deal's contact and company, `None` for `undefined`. */
  datatype Card = Card(deal: Deal, contact: Option<Contact>, company: Option<Company>)

  /** `getStageStats`: how many deals a stage holds and their summed value. */
  datatype Stats = Stats(count: nat, value: int)

  /** One stage column: its border and header colours, the header's count and total, its
      cards, and whether the "No deals in …" hint shows. */
  datatype Column = Column(stage: string, color: string, headerColor: string, stats: Stats,
    cards: seq<Card>, emptyHint: bool)

  /** The deals a column's cards show, in card order. */
  function Deals(col: Column): (r: seq<Deal>)
    ensures |r| == |col.cards|
    ensures forall k :: 0 <= k < |r| ==> r[k] == col.cards[k].deal
  {
    seq(|col.cards|, k requires 0 <= k < |col.cards| => col.cards[k].deal)
  }

  /** `getStageColor`: the column's background and border. */
  function StageColor(stage: string): (c: string)
    ensures c == "bg-gray-100 border-gray-300" <==> stage !in DealService.StageOrder[1..]
  {
    if stage == "Qualified" then "bg-info-50 border-info-200"
    else if stage == "Proposal" then "bg-warning-50 border-warning-200"
    else if stage == "Negotiation" then "bg-accent-50 border-accent-200"
    else if stage == "Closed Won" then "bg-success-50 border-success-200"
    else if stage == "Closed Lost" then "bg-error-50 border-error-200"
    else "bg-gray-100 border-gray-300"
  }

  /** `getStageHeaderColor`: the stage title's text colour. */
  function HeaderColor(stage: string): (c: string)
    ensures c == "text-gray-700" <==> stage !in DealService.StageOrder[1..]
  {
    if stage == "Qualified" then "text-info-700"
    else if stage == "Proposal" then "text-warning-700"
    else if stage == "Negotiation" then "text-accent-700"
    else if stage == "Closed Won" then "text-success-700"
    else if stage == "Closed Lost" then "text-error-700"
    else "text-gray-700"
  }

  /** `getStageStats`: the count and the summed value of the stage's deals. */
  function StageStats(deals: seq<Deal>, stage: string): (s: Stats)
    ensures s.count <= |deals|
    ensures s.count == 0 <==> forall i :: 0 <= i < |deals| ==> deals[i].stage != stage
    ensures (forall i :: 0 <= i < |deals| ==> deals[i].value >= 0) ==> s.value >= 0
    ensures s.count == |DealService.GetByStage(deals, stage)|
    ensures s.value == Sum(DealService.GetByStage(deals, stage), AnalyticsService.DealValue)
  {
    var stageDeals := DealService.GetByStage(deals, stage);
    assert |stageDeals| > 0 ==> stageDeals[0] in deals;
    SumNonNegativeFromAll(deals, stageDeals);
    Stats(|stageDeals|, Sum(stageDeals, AnalyticsService.DealValue))
  }

  /** A sum over a sub-collection of non-negative values is non-negative. */
  lemma SumNonNegativeFromAll(deals: seq<Deal>, part: seq<Deal>)
    requires forall k :: 0 <= k < |part| ==> part[k] in deals
    ensures (forall i :: 0 <= i < |deals| ==> deals[i].value >= 0) ==> Sum(part, AnalyticsService.DealValue) >= 0
  {
    if forall i :: 0 <= i < |deals| ==> deals[i].value >= 0 {
      SumNonNegative(part, AnalyticsService.DealValue);
    }
  }

  /** One card: `contacts.find` and `companies.find` on the deal's references. */
  function CardFor(deal: Deal, contacts: seq<Contact>, companies: seq<Company>): (c: Card)
    ensures c.deal == deal
    ensures c.contact.None? <==> deal.contactId.None? || !HasId(contacts, ContactService.IdOf, deal.contactId.value)
    ensures c.contact.Some? ==> c.contact.value in contacts && c.contact.value.Id == deal.contactId.value
    ensures c.company.None? <==> deal.companyId.None? || !HasId(companies, CompanyService.CompanyId, deal.companyId.value)
    ensures c.company.Some? ==> c.company.value in companies && c.company.value.Id == deal.companyId.value
  {
    Card(deal, Find(contacts, ContactService.IdOf, deal.contactId), Find(companies, CompanyService.CompanyId, deal.companyId))
  }

  /** One column; `dragOver` is the column a card is being dragged over, if any. */
  function ColumnFor(deals: seq<Deal>, contacts: seq<Contact>, companies: seq<Company>, dragOver: Option<string>,
    stage: string): (col: Column)
    ensures col.stage == stage && col.stats.count == |col.cards|
    ensures Deals(col) == DealService.GetByStage(deals, stage)
    ensures forall k :: 0 <= k < |col.cards| ==> col.cards[k] == CardFor(col.cards[k].deal, contacts, companies)
    ensures col.emptyHint <==> (forall i :: 0 <= i < |deals| ==> deals[i].stage != stage) && dragOver != Some(stage)
  {
    var stageDeals := DealService.GetByStage(deals, stage);
    var stats := StageStats(deals, stage);
    assert stats.count == |stageDeals|;
    var cards := Cards(stageDeals, contacts, companies);
    var col := Column(stage, StageColor(stage), HeaderColor(stage), stats, cards, stats.count == 0 && dragOver != Some(stage));
    assert Deals(col) == stageDeals;
    col
  }

  /** `stageDeals.map(deal => <DealCard …/>)`: one card per deal, in order. */
  function Cards(stageDeals: seq<Deal>, contacts: seq<Contact>, companies: seq<Company>): (cards: seq<Card>)
    ensures |cards| == |stageDeals|
    ensures forall k :: 0 <= k < |cards| ==> cards[k] == CardFor(stageDeals[k], contacts, companies)
  {
    seq(|stageDeals|, k requires 0 <= k < |stageDeals| => CardFor(stageDeals[k], contacts, companies))
  }

  /** `stages.map(...)`: one column per stage, in the order given. */
  function Columns(deals: seq<Deal>, contacts: seq<Contact>, companies: seq<Company>, dragOver: Option<string>,
    stages: seq<string>): (cols: seq<Column>)
    ensures |cols| == |stages|
    ensures forall i :: 0 <= i < |stages| ==> cols[i].stage == stages[i]
    ensures forall i :: 0 <= i < |stages| ==> cols[i] == ColumnFor(deals, contacts, companies, dragOver, stages[i])
    decreases |stages|
  {
    if |stages| == 0 then []
    else
      var rest := Columns(deals, contacts, companies, dragOver, stages[1..]);
      var head := ColumnFor(deals, contacts, companies, dragOver, stages[0]);
      ColumnsCons(deals, contacts, companies, dragOver, stages, head, rest);
      [head] + rest
  }

  /** The column of the first stage in front of the columns of the rest are the columns of
      all the stages. */
  lemma ColumnsCons(deals: seq<Deal>, contacts: seq<Contact>, companies: seq<Company>, dragOver: Option<string>,
    stages: seq<string>, head: Column, rest: seq<Column>)
    requires |stages| > 0 && head == ColumnFor(deals, contacts, companies, dragOver, stages[0]) && head.stage == stages[0]
    requires |rest| == |stages| - 1
    requires forall i :: 0 <= i < |rest| ==> rest[i].stage == stages[1..][i]
    requires forall i :: 0 <= i < |rest| ==> rest[i] == ColumnFor(deals, contacts, companies, dragOver, stages[1..][i])
    ensures forall i :: 0 <= i < |stages| ==> ([head] + rest)[i].stage == stages[i]
    ensures forall i :: 0 <= i < |stages| ==> ([head] + rest)[i] == ColumnFor(deals, contacts, companies, dragOver, stages[i])
  {
    var cols := [head] + rest;
    forall i | 0 <= i < |stages|
      ensures cols[i].stage == stages[i]
      ensures cols[i] == ColumnFor(deals, contacts, companies, dragOver, stages[i])
    {
      if i > 0 {
        assert cols[i] == rest[i - 1] && stages[i] == stages[1..][i - 1];
      }
    }
  }

  /** The board: the columns of `STAGE_ORDER`, left to right. */
  function Board(deals: seq<Deal>, contacts: seq<Contact>, companies: seq<Company>, dragOver: Option<string>): (cols: seq<Column>)
    ensures |cols| == |DealService.StageOrder|
    ensures forall i :: 0 <= i < |cols| ==> cols[i].stage == DealService.StageOrder[i]
  {
    Columns(deals, contacts, companies, dragOver, DealService.StageOrder)
  }

  /** The sum of the header counts. */
  function Counted(cols: seq<Column>): nat
    decreases |cols|
  {
    if |cols| == 0 then 0 else cols[0].stats.count + Counted(cols[1..])
  }

  /** The sum of the header totals. */
  function Valued(cols: seq<Column>): int
    decreases |cols|
  {
    if |cols| == 0 then 0 else cols[0].stats.value + Valued(cols[1..])
  }

  // ---------------------------------------------------------------- properties

  /** A column keeps the store's order: the deals of two stores laid end to end fill a
      stage's column with the first store's deals and then the second's. */
  lemma StageDealsKeepOrder(a: seq<Deal>, b: seq<Deal>, stage: string)
    ensures DealService.GetByStage(a + b, stage) == DealService.GetByStage(a, stage) + DealService.GetByStage(b, stage)
  {
    FilterConcat(a, b, (d: Deal) => d.stage == stage);
  }

  /** A deal of the store shows in a column exactly when its stage is that column's. */
  lemma ShownIffStage(deals: seq<Deal>, contacts: seq<Contact>, companies: seq<Company>, dragOver: Option<string>,
    d: Deal, i: nat)
    requires d in deals && i < |DealService.StageOrder|
    ensures d in Deals(Board(deals, contacts, companies, dragOver)[i]) <==> d.stage == DealService.StageOrder[i]
  {
  }

  /** Because the pipeline stages are distinct, no deal shows in two columns. */
  lemma AtMostOneColumn(deals: seq<Deal>, contacts: seq<Contact>, companies: seq<Company>, dragOver: Option<string>,
    d: Deal, i: nat, j: nat)
    requires i < |DealService.StageOrder| && j < |DealService.StageOrder|
    requires d in Deals(Board(deals, contacts, companies, dragOver)[i])
    requires d in Deals(Board(deals, contacts, companies, dragOver)[j])
    ensures i == j
  {
    DealService.StageOrderDistinct();
    var b := Board(deals, contacts, companies, dragOver);
    assert d.stage == DealService.StageOrder[i] by {
      var k :| 0 <= k < |Deals(b[i])| && Deals(b[i])[k] == d;
    }
    assert d.stage == DealService.StageOrder[j] by {
      var k :| 0 <= k < |Deals(b[j])| && Deals(b[j])[k] == d;
    }
  }

  /** A deal whose stage is not a pipeline stage shows in no column. */
  lemma UnlistedStageHidden(deals: seq<Deal>, contacts: seq<Contact>, companies: seq<Company>, dragOver: Option<string>,
    d: Deal)
    requires d.stage !in DealService.StageOrder
    ensures forall i :: 0 <= i < |DealService.StageOrder| ==> d !in Deals(Board(deals, contacts, companies, dragOver)[i])
  {
    var b := Board(deals, contacts, companies, dragOver);
    forall i | 0 <= i < |DealService.StageOrder|
      ensures d !in Deals(b[i])
    {
      if d in Deals(b[i]) {
        assert false;
      }
    }
  }

  /** The board's header figures are the dashboard's stage distribution: the same count and
      the same summed value for every stage. */
  lemma StatsMatchAnalytics(deals: seq<Deal>, contacts: seq<Contact>, companies: seq<Company>, dragOver: Option<string>,
    currentMonth: string, months: seq<string>, i: nat)
    requires i < |DealService.StageOrder|
    ensures var col := Board(deals, contacts, companies, dragOver)[i];
      var e := AnalyticsService.GetAnalytics(contacts, deals, currentMonth, months).stageDistribution[i];
      col.stats == Stats(e.count, e.value)
  {
    var stage := DealService.StageOrder[i];
    FilterSame(deals, (d: Deal) => d.stage == stage, (d: Deal) => d.stage == stage);
    assert DealService.GetByStage(deals, stage) == Filter(deals, (d: Deal) => d.stage == stage);
  }

  /** The header counts of the given stages add up to the dashboard's stage total. */
  lemma {:induction false} CountedIsStageTotal(deals: seq<Deal>, contacts: seq<Contact>, companies: seq<Company>,
    dragOver: Option<string>, stages: seq<string>)
    ensures Counted(Columns(deals, contacts, companies, dragOver, stages)) == AnalyticsService.StageTotal(deals, stages)
    decreases |stages|
  {
    if |stages| > 0 {
      var cols := Columns(deals, contacts, companies, dragOver, stages);
      CountedIsStageTotal(deals, contacts, companies, dragOver, stages[1..]);
      assert cols[1..] == Columns(deals, contacts, companies, dragOver, stages[1..]);
      FilterSame(deals, (d: Deal) => d.stage == stages[0], (d: Deal) => d.stage == stages[0]);
    }
  }

  /** When every deal sits in a pipeline stage, the board's header counts account for every
      deal exactly once. */
  lemma BoardCountsEveryDeal(deals: seq<Deal>, contacts: seq<Contact>, companies: seq<Company>, dragOver: Option<string>)
    requires forall i :: 0 <= i < |deals| ==> deals[i].stage in DealService.StageOrder
    ensures Counted(Board(deals, contacts, companies, dragOver)) == |deals|
  {
    CountedIsStageTotal(deals, contacts, companies, dragOver, DealService.StageOrder);
    AnalyticsService.DistributionCoversAll(deals);
  }

  /** The header totals of the given stages add up to the dashboard's stage values. */
  lemma {:induction false} ValuedIsStageValueTotal(deals: seq<Deal>, contacts: seq<Contact>, companies: seq<Company>,
    dragOver: Option<string>, stages: seq<string>)
    ensures Valued(Columns(deals, contacts, companies, dragOver, stages)) == AnalyticsService.StageValueTotal(deals, stages)
    decreases |stages|
  {
    if |stages| > 0 {
      var cols := Columns(deals, contacts, companies, dragOver, stages);
      ValuedIsStageValueTotal(deals, contacts, companies, dragOver, stages[1..]);
      assert cols[1..] == Columns(deals, contacts, companies, dragOver, stages[1..]);
      FilterSame(deals, (d: Deal) => d.stage == stages[0], (d: Deal) => d.stage == stages[0]);
    }
  }

  /** When every deal sits in a pipeline stage, the board's header totals add up to the
      value of all the deals. */
  lemma BoardValuesEveryDeal(deals: seq<Deal>, contacts: seq<Contact>, companies: seq<Company>, dragOver: Option<string>)
    requires forall i :: 0 <= i < |deals| ==> deals[i].stage in DealService.StageOrder
    ensures Valued(Board(deals, contacts, companies, dragOver)) == Sum(deals, AnalyticsService.DealValue)
  {
    DealService.StageOrderDistinct();
    ColumnsValueEveryDeal(deals, contacts, companies, dragOver, DealService.StageOrder);
  }

  /** Over distinct stages that hold every deal, the header totals add up to the value of
      all the deals. */
  lemma ColumnsValueEveryDeal(deals: seq<Deal>, contacts: seq<Contact>, companies: seq<Company>,
    dragOver: Option<string>, stages: seq<string>)
    requires forall i, j :: 0 <= i < j < |stages| ==> stages[i] != stages[j]
    requires forall i :: 0 <= i < |deals| ==> deals[i].stage in stages
    ensures Valued(Columns(deals, contacts, companies, dragOver, stages)) == Sum(deals, AnalyticsService.DealValue)
  {
    ValuedIsStageValueTotal(deals, contacts, companies, dragOver, stages);
    AnalyticsService.ValuesCoverAll(deals, stages);
  }

  /** The colours of the six pipeline stages, in board order. */
  const StageColors := ["bg-gray-100 border-gray-300", "bg-info-50 border-info-200", "bg-warning-50 border-warning-200",
    "bg-accent-50 border-accent-200", "bg-success-50 border-success-200", "bg-error-50 border-error-200"]
  const HeaderColors := ["text-gray-700", "text-info-700", "text-warning-700", "text-accent-700", "text-success-700",
    "text-error-700"]

  /** The colours the switches give the pipeline stages. */
  lemma PipelineColors(i: nat)
    requires i < |DealService.StageOrder|
    ensures StageColor(DealService.StageOrder[i]) == StageColors[i]
    ensures HeaderColor(DealService.StageOrder[i]) == HeaderColors[i]
  {
  }

  /** Each pipeline stage has its own column colours. */
  lemma StageColorsDistinct(i: nat, j: nat)
    requires i < j < |DealService.StageOrder|
    ensures StageColor(DealService.StageOrder[i]) != StageColor(DealService.StageOrder[j])
    ensures HeaderColor(DealService.StageOrder[i]) != HeaderColor(DealService.StageOrder[j])
  {
    PipelineColors(i);
    PipelineColors(j);
    ColorInitial(i);
    ColorInitial(j);
  }

  /** The position in the board of the colour name a colour class starts with. */
  function InitialRank(c: char): int {
    if c == 'g' then 0 else if c == 'i' then 1 else if c == 'w' then 2
    else if c == 'a' then 3 else if c == 's' then 4 else if c == 'e' then 5 else -1
  }

  /** The colour name of each stage's classes starts with a letter no other stage's does. */
  lemma ColorInitial(i: nat)
    requires i < |StageColors| && i < |HeaderColors|
    ensures |StageColors[i]| > 3 && InitialRank(StageColors[i][3]) == i
    ensures |HeaderColors[i]| > 5 && InitialRank(HeaderColors[i][5]) == i
  {
    if i == 0 {
    } else if i == 1 {
    } else if i == 2 {
    } else if i == 3 {
    } else if i == 4 {
    } else {
    }
  }

  /** A stage outside the pipeline is drawn like "Prospect". */
  lemma UnknownStageLikeProspect(stage: string)
    requires stage !in DealService.StageOrder
    ensures StageColor(stage) == StageColor("Prospect") && HeaderColor(stage) == HeaderColor("Prospect")
  {
  }
}

=== FILE: lifecycle_badge.dfy ===
/** The lifecycle stage badge: its colour variant, chosen case-insensitively among lead,
    prospect and customer, and its text, the stage with the first letter raised and the rest
    lowered ("Unknown" for a missing stage). */
module LifecycleBadge {
  import opened Wrappers
  import Text

  datatype Variant = Lead | Prospect | Customer | Default

  /** `getVariant`: `stage?.toLowerCase()` matched against the three known stages; a missing
      stage lowers to `undefined` and falls to the default. */
  function GetVariant(stage: Option<string>): (v: Variant)
    ensures v == Lead <==> stage.Some? && Text.Lower(stage.value) == "lead"
    ensures v == Prospect <==> stage.Some? && Text.Lower(stage.value) == "prospect"
    ensures v == Customer <==> stage.Some? && Text.Lower(stage.value) == "customer"
  {
    match stage
    case None => Default
    case Some(s) =>
      var key := Text.Lower(s);
      if key == "lead" then Lead
      else if key == "prospect" then Prospect
      else if key == "customer" then Customer
      else Default
  }

  /** `getDisplayText`: "Unknown" for a missing or empty stage; otherwise the first
      character upper-cased and the rest lower-cased. */
  function DisplayText(stage: Option<string>): (t: string)
    ensures stage.None? || stage.value == "" ==> t == "Unknown"
    ensures stage.Some? && stage.value != "" ==>
      && |t| == |stage.value|
      && t[0] == Text.UpperChar(stage.value[0])
      && forall i :: 1 <= i < |t| ==> t[i] == Text.LowerChar(stage.value[i])
  {
    match stage
    case None => "Unknown"
    case Some(s) => if s == "" then "Unknown" else Text.Upper(s[..1]) + Text.Lower(s[1..])
  }

  // ---------------------------------------------------------------- properties

  /** Lowering a character after raising it lowers it. */
  lemma LowerUpperChar(c: char)
    ensures Text.LowerChar(Text.UpperChar(c)) == Text.LowerChar(c)
  {
  }

  /** The variant ignores case: the stage, lowered or raised, picks the same one. */
  lemma VariantIgnoresCase(s: string)
    ensures GetVariant(Some(Text.Lower(s))) == GetVariant(Some(s))
    ensures GetVariant(Some(Text.Upper(s))) == GetVariant(Some(s))
  {
    Text.LowerIdempotent(s);
    Text.LowerOfUpper(s);
  }

  /** The text differs from the stage only in case, so it picks the stage's own variant. */
  lemma TextKeepsVariant(stage: Option<string>)
    ensures GetVariant(Some(DisplayText(stage))) == GetVariant(stage)
  {
    var t := DisplayText(stage);
    if stage.Some? && stage.value != "" {
      var s := stage.value;
      forall i | 0 <= i < |s|
        ensures Text.LowerChar(t[i]) == Text.LowerChar(s[i])
      {
        if i == 0 {
          LowerUpperChar(s[0]);
        } else {
          assert t[i] == Text.LowerChar(s[i]);
        }
      }
      SameLower(t, s);
    } else {
      assert t == "Unknown";
      assert |Text.Lower(t)| == 7;
    }
  }

  /** Strings that agree once each character is lowered lower to the same string. */
  lemma SameLower(t: string, s: string)
    requires |t| == |s| && forall i :: 0 <= i < |s| ==> Text.LowerChar(t[i]) == Text.LowerChar(s[i])
    ensures Text.Lower(t) == Text.Lower(s)
  {
    var a := Text.Lower(t);
    var b := Text.Lower(s);
    forall i | 0 <= i < |s|
      ensures a[i] == b[i]
    {
    }
  }

  /** Formatting twice is formatting once. */
  lemma TextIdempotent(stage: Option<string>)
    ensures DisplayText(Some(DisplayText(stage))) == DisplayText(stage)
  {
    var t := DisplayText(stage);
    if stage.Some? && stage.value != "" {
      var s := stage.value;
      forall i | 1 <= i < |t|
        ensures Text.LowerChar(t[i]) == t[i]
      {
        assert t[i] == Text.LowerChar(s[i]);
      }
      assert Text.UpperChar(t[0]) == t[0] by {
        assert t[0] == Text.UpperChar(s[0]);
      }
      FormattedIsFixed(t);
    } else {
      assert t == "Unknown";
      assert t[0] == 'U';
      assert t[1] == 'n' && t[2] == 'k' && t[3] == 'n' && t[4] == 'o' && t[5] == 'w' && t[6] == 'n';
      FormattedIsFixed(t);
    }
  }

  /** Text already capitalised this way is its own display text. */
  lemma FormattedIsFixed(t: string)
    requires t != "" && Text.UpperChar(t[0]) == t[0]
    requires forall i :: 1 <= i < |t| ==> Text.LowerChar(t[i]) == t[i]
    ensures DisplayText(Some(t)) == t
  {
    var u := DisplayText(Some(t));
    forall i | 0 <= i < |t|
      ensures u[i] == t[i]
    {
    }
  }

  /** A stage already written "Lead" reads as itself and picks the lead colour. */
  lemma LeadReadsAsItself()
    ensures DisplayText(Some("Lead")) == "Lead" && GetVariant(Some("Lead")) == Lead
  {
    var l := Text.Lower("Lead");
    assert l[0] == 'l' && l[1] == 'e' && l[2] == 'a' && l[3] == 'd';
    assert l == "lead";
    var t := DisplayText(Some("Lead"));
    assert t[0] == 'L' && t[1] == 'e' && t[2] == 'a' && t[3] == 'd';
  }

  /** A missing stage reads "Unknown" in the default colour. */
  lemma MissingStageUnknown()
    ensures DisplayText(None) == "Unknown" && GetVariant(None) == Default
  {
  }
}

=== FILE: sorting.dfy ===
/** `Array.prototype.sort` with a three-way comparator, as the contact table and the deal
    activity list use it: a stable insertion sort on sequences, generic in the order. */
module Sorting {
  import Text
  import Store

  /** `le(a, b)`: `a` may stand before `b`. A comparator returning -1/0/1 from a key order
      defines a total preorder. */
  ghost predicate TotalPreorder<T(!new)>(le: (T, T) -> bool) {
    && (forall a, b :: le(a, b) || le(b, a))
    && (forall a, b, c :: le(a, b) && le(b, c) ==> le(a, c))
  }

  ghost predicate Sorted<T>(s: seq<T>, le: (T, T) -> bool) {
    forall i, j :: 0 <= i < j < |s| ==> le(s[i], s[j])
  }

  /** Places `x` before the first element it may precede. */
  function Insert<T>(x: T, s: seq<T>, le: (T, T) -> bool): (r: seq<T>)
    ensures |r| == |s| + 1
    ensures multiset(r) == multiset(s) + multiset{x}
    decreases |s|
  {
    if |s| == 0 then [x]
    else if le(x, s[0]) then [x] + s
    else
      assert s == [s[0]] + s[1..];
      [s[0]] + Insert(x, s[1..], le)
  }

  /** Insertion sort; an element is inserted ahead of the equal elements that followed it,
      so ties keep their original order. */
  function Sort<T>(s: seq<T>, le: (T, T) -> bool): (r: seq<T>)
    ensures |r| == |s|
    ensures multiset(r) == multiset(s)
    decreases |s|
  {
    if |s| == 0 then []
    else
      assert s == [s[0]] + s[1..];
      Insert(s[0], Sort(s[1..], le), le)
  }

  lemma {:induction false} InsertSorted<T(!new)>(x: T, s: seq<T>, le: (T, T) -> bool)
    requires TotalPreorder(le) && Sorted(s, le)
    ensures Sorted(Insert(x, s, le), le)
    decreases |s|
  {
    if |s| > 0 && !le(x, s[0]) {
      var t := Insert(x, s[1..], le);
      InsertSorted(x, s[1..], le);
      assert le(s[0], x);
      forall k | 0 <= k < |s[1..]|
        ensures le(s[0], s[1..][k])
      {
        assert s[1..][k] == s[k + 1];
      }
      BelowAll(s[0], x, s[1..], t, le);
      ConsSorted(s[0], t, le);
      assert Insert(x, s, le) == [s[0]] + t;
    } else if |s| > 0 {
      forall y | y in s
        ensures le(x, y)
      {
        var k :| 0 <= k < |s| && s[k] == y;
        if k > 0 {
          assert le(s[0], s[k]);
        }
      }
      ConsSorted(x, s, le);
    }
  }

  /** An element that may precede every element of a sorted sequence may head it. */
  lemma ConsSorted<T>(h: T, t: seq<T>, le: (T, T) -> bool)
    requires Sorted(t, le) && forall y :: y in t ==> le(h, y)
    ensures Sorted([h] + t, le)
  {
    var r := [h] + t;
    forall i, j | 0 <= i < j < |r|
      ensures le(r[i], r[j])
    {
      if i == 0 {
        assert r[j] == t[j - 1] && t[j - 1] in t;
      } else {
        assert r[i] == t[i - 1] && r[j] == t[j - 1];
      }
    }
  }

  /** What may precede `x` and every element of `s` may precede every element of a
      permutation of `s` with `x` added. */
  lemma BelowAll<T>(h: T, x: T, s: seq<T>, t: seq<T>, le: (T, T) -> bool)
    requires multiset(t) == multiset(s) + multiset{x}
    requires le(h, x) && forall k :: 0 <= k < |s| ==> le(h, s[k])
    ensures forall y :: y in t ==> le(h, y)
  {
    forall y | y in t
      ensures le(h, y)
    {
      assert y in multiset(t);
      if y != x {
        assert y in multiset(s);
        var k :| 0 <= k < |s| && s[k] == y;
      }
    }
  }

  /** Under a total preorder the result is sorted. */
  lemma {:induction false} SortSorted<T(!new)>(s: seq<T>, le: (T, T) -> bool)
    requires TotalPreorder(le)
    ensures Sorted(Sort(s, le), le)
    decreases |s|
  {
    if |s| > 0 {
      SortSorted(s[1..], le);
      InsertSorted(s[0], Sort(s[1..], le), le);
    }
  }

  /** The order a comparator on string keys defines: `a < b` (ascending) or `a > b`
      (descending) decides, equal keys tie. */
  function KeyOrder<T>(key: T -> string, descending: bool): (T, T) -> bool {
    (a: T, b: T) => if descending then Text.LexLe(key(b), key(a)) else Text.LexLe(key(a), key(b))
  }

  lemma KeyOrderTotal<T(!new)>(key: T -> string, descending: bool)
    ensures TotalPreorder(KeyOrder(key, descending))
  {
    Text.LexLeTotalPreorder();
  }

  /** Sorting by a string key: a permutation whose keys are non-decreasing (ascending) or
      non-increasing (descending) in the `<` order on strings. */
  function SortByKey<T(!new)>(s: seq<T>, key: T -> string, descending: bool): (r: seq<T>)
    ensures multiset(r) == multiset(s)
    ensures !descending ==> forall i, j :: 0 <= i < j < |r| ==> Text.LexLe(key(r[i]), key(r[j]))
    ensures descending ==> forall i, j :: 0 <= i < j < |r| ==> Text.LexLe(key(r[j]), key(r[i]))
  {
    var le := KeyOrder(key, descending);
    KeyOrderTotal(key, descending);
    SortSorted(s, le);
    Sort(s, le)
  }

  // ---------------------------------------------------------------- stability

  /** The elements `le` ties with `c`: those it puts neither before nor after `c`. */
  function Ties<T>(le: (T, T) -> bool, c: T): T -> bool {
    (y: T) => le(c, y) && le(y, c)
  }

  /** Inserting `x` puts it ahead of every element tied with it, and moves no other
      element relative to the elements of its tie. */
  lemma {:induction false} InsertTies<T(!new)>(x: T, t: seq<T>, le: (T, T) -> bool, c: T)
    requires TotalPreorder(le)
    ensures Store.Filter(Insert(x, t, le), Ties(le, c)) ==
      if Ties(le, c)(x) then [x] + Store.Filter(t, Ties(le, c)) else Store.Filter(t, Ties(le, c))
    decreases |t|
  {
    var r := Insert(x, t, le);
    if |t| == 0 {
      assert r[1..] == t;
    } else if le(x, t[0]) {
      assert r[1..] == t;
    } else {
      InsertTies(x, t[1..], le, c);
      assert r[0] == t[0] && r[1..] == Insert(x, t[1..], le);
      if Ties(le, c)(x) {
        assert !Ties(le, c)(t[0]);
      }
    }
  }

  /** The sort is stable: restricted to the elements tied with any `c`, its result is its
      input, so tied elements keep their input order. */
  lemma {:induction false} SortStable<T(!new)>(s: seq<T>, le: (T, T) -> bool, c: T)
    requires TotalPreorder(le)
    ensures Store.Filter(Sort(s, le), Ties(le, c)) == Store.Filter(s, Ties(le, c))
    decreases |s|
  {
    if |s| > 0 {
      SortStable(s[1..], le, c);
      InsertTies(s[0], Sort(s[1..], le), le, c);
    }
  }

  /** Under the key order, the elements tied with `c` are those sharing its key. */
  lemma KeyTies<T>(key: T -> string, descending: bool, c: T, y: T)
    ensures Ties(KeyOrder(key, descending), c)(y) == (key(y) == key(c))
  {
    Text.LexLeAntisymmetric(key(c), key(y));
  }

  /** On any list, filtering by the key order's ties of `c` is filtering by `c`'s key. */
  lemma KeyTiesFilter<T>(s: seq<T>, key: T -> string, descending: bool, c: T)
    ensures Store.Filter(s, Ties(KeyOrder(key, descending), c)) == Store.Filter(s, (y: T) => key(y) == key(c))
  {
    forall i | 0 <= i < |s|
      ensures Ties(KeyOrder(key, descending), c)(s[i]) == (key(s[i]) == key(c))
    {
      KeyTies(key, descending, c, s[i]);
    }
    Store.FilterSame(s, Ties(KeyOrder(key, descending), c), (y: T) => key(y) == key(c));
  }

  /** Sorting by a key keeps the elements sharing a key in their input order. */
  lemma SortByKeyStable<T(!new)>(s: seq<T>, key: T -> string, descending: bool, c: T)
    ensures Store.Filter(SortByKey(s, key, descending), (y: T) => key(y) == key(c)) ==
      Store.Filter(s, (y: T) => key(y) == key(c))
  {
    var le := KeyOrder(key, descending);
    KeyOrderTotal(key, descending);
    assert SortByKey(s, key, descending) == Sort(s, le);
    SortStable(s, le, c);
    KeyTiesFilter(Sort(s, le), key, descending, c);
    KeyTiesFilter(s, key, descending, c);
  }
}

=== FILE: store.dfy ===
/** The in-memory record stores behind every service module: a sequence of records, each
    carrying an integer `Id`, searched with `find`/`findIndex`, grown with `push`, shrunk with
    `splice`, and summarised with `filter`/`reduce`. Each function is generic in the record
    type and takes the record's `Id` accessor. */
module Store {
  import opened Wrappers

  /** The outcome of a service call: the store afterwards and what the promise settles to. */
  datatype Step<S, T> = Step(state: S, result: Result<T>)

  /** No two records share an `Id`. */
  ghost predicate Unique<T>(s: seq<T>, id: T -> int) {
    forall i, j :: 0 <= i < j < |s| ==> id(s[i]) != id(s[j])
  }

  /** `key` is the `Id` of some record. */
  ghost predicate HasId<T>(s: seq<T>, id: T -> int, key: int) {
    exists i :: 0 <= i < |s| && id(s[i]) == key
  }

  /** `s.findIndex(x => x.Id === key)`, with `None` for -1. */
  function FindIndex<T>(s: seq<T>, id: T -> int, key: int): (r: Option<nat>)
    ensures r.None? <==> !HasId(s, id, key)
    ensures r.Some? ==> r.value < |s| && id(s[r.value]) == key
    ensures r.Some? ==> forall i :: 0 <= i < r.value ==> id(s[i]) != key
    decreases |s|
  {
    if |s| == 0 then None
    else if id(s[0]) == key then Some(0)
    else
      var r := FindIndex(s[1..], id, key);
      assert HasId(s, id, key) <==> HasId(s[1..], id, key) by {
        if HasId(s, id, key) {
          var i :| 0 <= i < |s| && id(s[i]) == key;
          assert s[1..][i - 1] == s[i];
        }
        if HasId(s[1..], id, key) {
          var i :| 0 <= i < |s| - 1 && id(s[1..][i]) == key;
          assert s[i + 1] == s[1..][i];
        }
      }
      match r
      case None => None
      case Some(j) => Some(j + 1)
  }

  /** The same search with the key already passed through `parseInt`: `NaN` (`None`)
      matches no record, because `NaN === n` is false. */
  function Locate<T>(s: seq<T>, id: T -> int, key: Option<int>): (r: Option<nat>)
    ensures r.None? <==> (key.None? || !HasId(s, id, key.value))
    ensures r.Some? ==> key.Some? && r.value < |s| && id(s[r.value]) == key.value
  {
    if key.None? then None else FindIndex(s, id, key.value)
  }

  /** `s.find(x => x.Id === key)`: the first record with that id, `undefined` (`None`) when
      there is none or the key is `null`. */
  function Find<T>(s: seq<T>, id: T -> int, key: Option<int>): (r: Option<T>)
    ensures r.None? <==> (key.None? || !HasId(s, id, key.value))
    ensures r.Some? ==> r.value in s && id(r.value) == key.value
  {
    match Locate(s, id, key)
    case None => None
    case Some(i) => Some(s[i])
  }

  /** The search looks only at ids: two stores with the same ids position by position
      answer every search alike. */
  lemma {:induction false} FindIndexSameIds<T>(a: seq<T>, b: seq<T>, id: T -> int, key: int)
    requires |a| == |b| && forall i :: 0 <= i < |a| ==> id(a[i]) == id(b[i])
    ensures FindIndex(a, id, key) == FindIndex(b, id, key)
    decreases |a|
  {
    if |a| > 0 && id(a[0]) != key {
      FindIndexSameIds(a[1..], b[1..], id, key);
    }
  }

  /** A record appended under a fresh id is found at the end. */
  lemma FindIndexAppend<T>(s: seq<T>, id: T -> int, x: T)
    requires !HasId(s, id, id(x))
    ensures FindIndex(s + [x], id, id(x)) == Some(|s|)
  {
    var t := s + [x];
    assert t[|s|] == x;
    assert forall j :: 0 <= j < |s| ==> t[j] == s[j];
  }

  /** In a store with unique ids, the record found is the only one with that id. */
  lemma LocateOnly<T>(s: seq<T>, id: T -> int, key: Option<int>)
    requires Unique(s, id) && Locate(s, id, key).Some?
    ensures forall i :: 0 <= i < |s| && id(s[i]) == key.value ==> i == Locate(s, id, key).value
  {
  }

  /** `Math.max(...s.map(x => x.Id), 0)`. */
  function MaxId<T>(s: seq<T>, id: T -> int): (m: int)
    ensures m >= 0
    ensures forall i :: 0 <= i < |s| ==> id(s[i]) <= m
    ensures m == 0 || HasId(s, id, m)
    decreases |s|
  {
    if |s| == 0 then 0
    else
      var rest := MaxId(s[1..], id);
      assert forall i :: 1 <= i < |s| ==> s[i] == s[1..][i - 1];
      if id(s[0]) > rest then id(s[0])
      else
        assert rest == 0 || HasId(s, id, rest) by {
          if rest != 0 {
            var i :| 0 <= i < |s| - 1 && id(s[1..][i]) == rest;
            assert id(s[i + 1]) == rest;
          }
        }
        rest
  }

  /** The `Id` a max-plus-one store hands out: one above every id present, at least 1. */
  function NextId<T>(s: seq<T>, id: T -> int): (n: int)
    ensures n >= 1
    ensures !HasId(s, id, n)
    ensures forall i :: 0 <= i < |s| ==> id(s[i]) < n
  {
    MaxId(s, id) + 1
  }

  /** `s.splice(i, 1)`: the record at `i` taken out, the others in their order. */
  function RemoveAt<T>(s: seq<T>, i: nat): (r: seq<T>)
    requires i < |s|
    ensures |r| == |s| - 1
    ensures forall k :: 0 <= k < i ==> r[k] == s[k]
    ensures forall k :: i <= k < |r| ==> r[k] == s[k + 1]
    ensures multiset(r) + multiset{s[i]} == multiset(s)
  {
    assert s == s[..i] + [s[i]] + s[i + 1..];
    s[..i] + s[i + 1..]
  }

  /** Removing one place keeps every other record and adds none. */
  lemma RemoveAtMembers<T>(s: seq<T>, i: nat)
    requires i < |s|
    ensures forall k :: 0 <= k < |s| && k != i ==> s[k] in RemoveAt(s, i)
    ensures forall x :: x in RemoveAt(s, i) ==> x in s
  {
    var r := RemoveAt(s, i);
    forall k | 0 <= k < |s| && k != i
      ensures s[k] in r
    {
      if k < i { assert r[k] == s[k]; } else { assert r[k - 1] == s[k]; }
    }
    forall x | x in r
      ensures x in s
    {
      var m :| 0 <= m < |r| && r[m] == x;
      if m < i { assert s[m] == x; } else { assert s[m + 1] == x; }
    }
  }

  lemma UniqueAppend<T>(s: seq<T>, id: T -> int, x: T)
    requires Unique(s, id) && !HasId(s, id, id(x))
    ensures Unique(s + [x], id)
  {
    var t := s + [x];
    forall i, j | 0 <= i < j < |t|
      ensures id(t[i]) != id(t[j])
    {
      if j == |s| {
        assert t[i] == s[i];
      }
    }
  }

  /** Removing a record from a unique store keeps it unique, and its id is then gone. */
  lemma UniqueRemove<T>(s: seq<T>, id: T -> int, i: nat)
    requires i < |s| && Unique(s, id)
    ensures Unique(RemoveAt(s, i), id)
    ensures !HasId(RemoveAt(s, i), id, id(s[i]))
  {
    var r := RemoveAt(s, i);
    forall a, b | 0 <= a < b < |r|
      ensures id(r[a]) != id(r[b])
    {
      var a' := if a < i then a else a + 1;
      var b' := if b < i then b else b + 1;
      assert r[a] == s[a'] && r[b] == s[b'];
    }
  }

  /** Replacing a record by one with the same id keeps the store unique. */
  lemma UniqueReplace<T>(s: seq<T>, id: T -> int, i: nat, x: T)
    requires i < |s| && Unique(s, id) && id(x) == id(s[i])
    ensures Unique(s[i := x], id)
  {
  }

  // ---------------------------------------------------------------- find

  /** Position `k` holds the first element passing `p`. */
  ghost predicate FirstAt<T>(s: seq<T>, p: T -> bool, k: int) {
    0 <= k < |s| && p(s[k]) && forall j :: 0 <= j < k ==> !p(s[j])
  }

  /** `s.find(p)`: the first element passing `p`, undefined when none does. */
  function First<T>(s: seq<T>, p: T -> bool): (r: Option<T>)
    ensures r.None? <==> forall i :: 0 <= i < |s| ==> !p(s[i])
    ensures r.Some? ==> exists k :: FirstAt(s, p, k) && s[k] == r.value
    decreases |s|
  {
    if |s| == 0 then None
    else if p(s[0]) then
      assert FirstAt(s, p, 0);
      Some(s[0])
    else
      var r := First(s[1..], p);
      if r.Some? then FirstShift(s, p, r.value); r else r
  }

  lemma FirstShift<T>(s: seq<T>, p: T -> bool, v: T)
    requires |s| > 0 && !p(s[0])
    requires exists k :: FirstAt(s[1..], p, k) && s[1..][k] == v
    ensures exists k :: FirstAt(s, p, k) && s[k] == v
  {
    var k :| FirstAt(s[1..], p, k) && s[1..][k] == v;
    forall j | 0 <= j < k + 1
      ensures !p(s[j])
    {
      if j > 0 {
        assert s[j] == s[1..][j - 1];
      }
    }
    assert FirstAt(s, p, k + 1);
  }

  /** The element at the first passing position is what `find` returns. */
  lemma {:induction false} FirstIs<T>(s: seq<T>, p: T -> bool, k: int)
    requires FirstAt(s, p, k)
    ensures First(s, p) == Some(s[k])
    decreases k
  {
    if k > 0 {
      assert !p(s[0]);
      assert FirstAt(s[1..], p, k - 1);
      FirstIs(s[1..], p, k - 1);
    }
  }

  /** Appending never changes an element `find` already returns. */
  lemma {:induction false} FirstAppend<T>(s: seq<T>, x: T, p: T -> bool)
    requires First(s, p).Some?
    ensures First(s + [x], p) == First(s, p)
  {
    var k :| FirstAt(s, p, k) && s[k] == First(s, p).value;
    assert FirstAt(s + [x], p, k);
    FirstIs(s + [x], p, k);
  }

  // ---------------------------------------------------------------- filter, count, sum

  /** `s.filter(p)`: the elements satisfying `p`, in their order. */
  function Filter<T>(s: seq<T>, p: T -> bool): (r: seq<T>)
    ensures |r| <= |s|
    ensures forall i :: 0 <= i < |r| ==> r[i] in s && p(r[i])
    ensures forall i :: 0 <= i < |s| && p(s[i]) ==> s[i] in r
    ensures multiset(r) <= multiset(s)
    decreases |s|
  {
    if |s| == 0 then []
    else
      var rest := Filter(s[1..], p);
      assert s == [s[0]] + s[1..];
      if p(s[0]) then [s[0]] + rest else rest
  }

  /** Filtering keeps relative order: it distributes over concatenation. */
  lemma {:induction false} FilterConcat<T>(a: seq<T>, b: seq<T>, p: T -> bool)
    ensures Filter(a + b, p) == Filter(a, p) + Filter(b, p)
    decreases |a|
  {
    if |a| > 0 {
      assert (a + b)[1..] == a[1..] + b;
      FilterConcat(a[1..], b, p);
    } else {
      assert a + b == b;
    }
  }

  /** A filter keeping every element is the identity. */
  lemma {:induction false} FilterAll<T>(s: seq<T>, p: T -> bool)
    requires forall x :: x in s ==> p(x)
    ensures Filter(s, p) == s
    decreases |s|
  {
    if |s| > 0 {
      FilterAll(s[1..], p);
    }
  }

  /** A filter no element passes is empty. */
  lemma {:induction false} FilterNone<T>(s: seq<T>, p: T -> bool)
    requires forall i :: 0 <= i < |s| ==> !p(s[i])
    ensures Filter(s, p) == []
    decreases |s|
  {
    if |s| > 0 {
      FilterNone(s[1..], p);
    }
  }

  /** Filtering twice by `p` and `q` is filtering once by their conjunction. */
  lemma {:induction false} FilterFilter<T>(s: seq<T>, p: T -> bool, q: T -> bool)
    ensures Filter(Filter(s, p), q) == Filter(s, x => p(x) && q(x))
    decreases |s|
  {
    if |s| > 0 {
      FilterFilter(s[1..], p, q);
    }
  }

  /** Two tests that agree on every element keep the same elements. */
  lemma {:induction false} FilterSame<T>(s: seq<T>, p: T -> bool, q: T -> bool)
    requires forall i :: 0 <= i < |s| ==> p(s[i]) == q(s[i])
    ensures Filter(s, p) == Filter(s, q)
    decreases |s|
  {
    if |s| > 0 {
      FilterSame(s[1..], p, q);
    }
  }

  /** Filtering keeps every passing element as often as it occurs and drops the rest. */
  lemma {:induction false} FilterCounts<T>(s: seq<T>, p: T -> bool)
    ensures forall x :: multiset(Filter(s, p))[x] == if p(x) then multiset(s)[x] else 0
    decreases |s|
  {
    if |s| > 0 {
      FilterCounts(s[1..], p);
      assert s == [s[0]] + s[1..];
    }
  }

  /** `s.filter(p).length`. */
  function Count<T>(s: seq<T>, p: T -> bool): (n: nat)
    ensures n <= |s|
  {
    |Filter(s, p)|
  }

  /** One more element counts one more exactly when it passes. */
  lemma CountAppend<T>(s: seq<T>, x: T, p: T -> bool)
    ensures Count(s + [x], p) == Count(s, p) + (if p(x) then 1 else 0)
  {
    FilterConcat(s, [x], p);
    assert Filter([x], p) == if p(x) then [x] else [];
  }

  /** The elements satisfying `p` and those failing it together make up the sequence. */
  lemma {:induction false} CountSplit<T>(s: seq<T>, p: T -> bool)
    ensures Count(s, p) + Count(s, x => !p(x)) == |s|
    decreases |s|
  {
    if |s| > 0 {
      CountSplit(s[1..], p);
    }
  }

  /** Elements satisfying one of two exclusive predicates are counted by either. */
  lemma {:induction false} CountDisjoint<T>(s: seq<T>, p: T -> bool, q: T -> bool, either: T -> bool)
    requires forall i :: 0 <= i < |s| ==> !(p(s[i]) && q(s[i]))
    requires forall i :: 0 <= i < |s| ==> either(s[i]) == (p(s[i]) || q(s[i]))
    ensures Count(s, p) + Count(s, q) == Count(s, either)
    decreases |s|
  {
    if |s| > 0 {
      CountDisjoint(s[1..], p, q, either);
    }
  }

  /** `s.reduce((sum, x) => sum + f(x), 0)`. */
  function Sum<T>(s: seq<T>, f: T -> int): int
    decreases |s|
  {
    if |s| == 0 then 0 else f(s[0]) + Sum(s[1..], f)
  }

  lemma {:induction false} SumConcat<T>(a: seq<T>, b: seq<T>, f: T -> int)
    ensures Sum(a + b, f) == Sum(a, f) + Sum(b, f)
    decreases |a|
  {
    if |a| > 0 {
      assert (a + b)[1..] == a[1..] + b;
      SumConcat(a[1..], b, f);
    } else {
      assert a + b == b;
    }
  }

  /** The sums over the elements passing one of two exclusive tests add up to the sum over
      the elements passing either. */
  lemma {:induction false} SumDisjoint<T>(s: seq<T>, p: T -> bool, q: T -> bool, either: T -> bool, f: T -> int)
    requires forall i :: 0 <= i < |s| ==> !(p(s[i]) && q(s[i]))
    requires forall i :: 0 <= i < |s| ==> either(s[i]) == (p(s[i]) || q(s[i]))
    ensures Sum(Filter(s, p), f) + Sum(Filter(s, q), f) == Sum(Filter(s, either), f)
    decreases |s|
  {
    if |s| > 0 {
      SumDisjoint(s[1..], p, q, either, f);
      SumCons(s[0], Filter(s[1..], p), f);
      SumCons(s[0], Filter(s[1..], q), f);
      SumCons(s[0], Filter(s[1..], either), f);
    }
  }

  lemma SumCons<T>(x: T, rest: seq<T>, f: T -> int)
    ensures Sum([x] + rest, f) == f(x) + Sum(rest, f)
  {
    assert ([x] + rest)[1..] == rest;
  }

  /** A sum of non-negative terms is non-negative. */
  lemma {:induction false} SumNonNegative<T>(s: seq<T>, f: T -> int)
    requires forall x :: x in s ==> f(x) >= 0
    ensures Sum(s, f) >= 0
    decreases |s|
  {
    if |s| > 0 {
      SumNonNegative(s[1..], f);
    }
  }
}

=== FILE: text.dfy ===
/** String operations the components rely on, restricted to what the code uses:
    `trim`, ASCII `toLowerCase`/`toUpperCase`, `includes`, the `<` order on strings,
    `split`/`join` on a one-character separator, and `replace` of the first occurrence. */
module Text {

  /** The whitespace `String.prototype.trim` and the regex class `\s` remove, restricted
      to the ASCII set and the no-break space. */
  predicate IsSpace(c: char) {
    c == ' ' || c == '\t' || c == '\n' || c == '\r' || c == '\U{000B}' || c == '\U{000C}' || c == '\U{00A0}'
  }

  predicate AllSpace(s: string) {
    forall i :: 0 <= i < |s| ==> IsSpace(s[i])
  }

  // ---------------------------------------------------------------- trim

  function TrimStart(s: string): (r: string)
    ensures |r| <= |s| && r == s[|s| - |r|..]
    ensures AllSpace(s[..|s| - |r|])
    ensures r == [] || !IsSpace(r[0])
    decreases |s|
  {
    if |s| > 0 && IsSpace(s[0]) then
      var r := TrimStart(s[1..]);
      assert s[1..][..|s| - 1 - |r|] == s[1..|s| - |r|];
      r
    else s
  }

  function TrimEnd(s: string): (r: string)
    ensures |r| <= |s| && r == s[..|r|]
    ensures AllSpace(s[|r|..])
    ensures r == [] || !IsSpace(r[|r| - 1])
    decreases |s|
  {
    if |s| > 0 && IsSpace(s[|s| - 1]) then
      var r := TrimEnd(s[..|s| - 1]);
      assert s[..|s| - 1][|r|..] + [s[|s| - 1]] == s[|r|..];
      r
    else s
  }

  /** `s.trim()`: `s` with the whitespace at both ends removed, and nothing else. */
  function Trim(s: string): (r: string)
    ensures |r| <= |s|
    ensures r == [] || (!IsSpace(r[0]) && !IsSpace(r[|r| - 1]))
  {
    TrimEnd(TrimStart(s))
  }

  /** `r` sits at `i` in `s`, with only whitespace before and after it. */
  ghost predicate TrimmedAt(s: string, r: string, i: int) {
    0 <= i <= |s| - |r| && r == s[i..i + |r|] && AllSpace(s[..i]) && AllSpace(s[i + |r|..])
  }

  /** What `trim` removes is whitespace at the two ends, and only that. */
  lemma TrimIsInfix(s: string)
    ensures exists i :: TrimmedAt(s, Trim(s), i)
  {
    var t := TrimStart(s);
    var i := |s| - |t|;
    var r := TrimEnd(t);
    InfixOfSuffix(s, t, r, i);
    assert Trim(s) == r;
    assert TrimmedAt(s, Trim(s), i);
  }

  /** A prefix `r` of the suffix `t` of `s` starting at `i` sits at `i` in `s`, and what
      follows it in `t` is what follows it in `s`. */
  lemma InfixOfSuffix(s: string, t: string, r: string, i: int)
    requires 0 <= i <= |s| && t == s[i..] && |r| <= |t| && r == t[..|r|]
    requires AllSpace(s[..i]) && AllSpace(t[|r|..])
    ensures TrimmedAt(s, r, i)
  {
    var j := i + |r|;
    forall k | 0 <= k < |r| ensures r[k] == s[i..j][k] {
      assert r[k] == t[k] == s[i + k];
    }
    forall k | 0 <= k < |s| - j ensures IsSpace(s[j..][k]) {
      assert s[j..][k] == t[|r|..][k];
    }
  }

  /** A string is blank (`!s.trim()`) exactly when it is all whitespace. */
  lemma TrimEmptyIffBlank(s: string)
    ensures Trim(s) == [] <==> AllSpace(s)
  {
    var t := TrimStart(s);
    TrimStartEmptyIff(s);
    TrimEndEmptyIff(t);
    assert AllSpace(t) <==> t == [] by {
      if t != [] {
        assert !IsSpace(t[0]);
      }
    }
  }

  lemma TrimStartEmptyIff(s: string)
    ensures TrimStart(s) == [] <==> AllSpace(s)
  {
    var t := TrimStart(s);
    var n := |s| - |t|;
    assert AllSpace(s[..n]);
    if t != [] {
      assert s[n] == t[0];
      assert !IsSpace(s[n]);
    } else {
      assert s == s[..n];
    }
  }

  lemma TrimEndEmptyIff(s: string)
    ensures TrimEnd(s) == [] <==> AllSpace(s)
  {
    var r := TrimEnd(s);
    assert AllSpace(s[|r|..]);
    if r != [] {
      assert s[|r| - 1] == r[|r| - 1];
      assert !IsSpace(s[|r| - 1]);
    } else {
      assert s == s[|r|..];
    }
  }

  /** Trimming a string that already has no whitespace at its ends changes nothing. */
  lemma TrimOfTrimmed(s: string)
    requires s == [] || (!IsSpace(s[0]) && !IsSpace(s[|s| - 1]))
    ensures Trim(s) == s
  {
  }

  lemma TrimIdempotent(s: string)
    ensures Trim(Trim(s)) == Trim(s)
  {
    TrimOfTrimmed(Trim(s));
  }

  // ---------------------------------------------------------------- ASCII case

  function LowerChar(c: char): char {
    if 'A' <= c <= 'Z' then (c as int + 32) as char else c
  }

  function UpperChar(c: char): char {
    if 'a' <= c <= 'z' then (c as int - 32) as char else c
  }

  /** `s.toLowerCase()` on ASCII letters: same length, each letter lowered, all else kept. */
  function Lower(s: string): (r: string)
    ensures |r| == |s|
    ensures forall i :: 0 <= i < |s| ==> r[i] == LowerChar(s[i])
  {
    if s == [] then [] else [LowerChar(s[0])] + Lower(s[1..])
  }

  /** `s.toUpperCase()` on ASCII letters. */
  function Upper(s: string): (r: string)
    ensures |r| == |s|
    ensures forall i :: 0 <= i < |s| ==> r[i] == UpperChar(s[i])
  {
    if s == [] then [] else [UpperChar(s[0])] + Upper(s[1..])
  }

  lemma LowerIdempotent(s: string)
    ensures Lower(Lower(s)) == Lower(s)
  {
  }

  /** Lowering after raising gives the same result as lowering. */
  lemma LowerOfUpper(s: string)
    ensures Lower(Upper(s)) == Lower(s)
  {
  }

  lemma LowerOfConcat(a: string, b: string)
    ensures Lower(a + b) == Lower(a) + Lower(b)
  {
  }

  // ---------------------------------------------------------------- includes

  ghost predicate OccursAt(s: string, needle: string, i: int) {
    0 <= i && i + |needle| <= |s| && s[i..i + |needle|] == needle
  }

  /** `s.includes(needle)`: `needle` occurs as a contiguous piece of `s`. */
  function Includes(s: string, needle: string): (b: bool)
    ensures b <==> exists i :: OccursAt(s, needle, i)
    decreases |s|
  {
    if needle <= s then
      assert OccursAt(s, needle, 0);
      true
    else if |s| == 0 then
      assert forall i :: !OccursAt(s, needle, i);
      false
    else
      var b := Includes(s[1..], needle);
      IncludesShift(s, needle);
      b
  }

  /** An occurrence in `s` past position 0 is an occurrence in `s[1..]`, and back. */
  lemma IncludesShift(s: string, needle: string)
    requires |s| > 0 && !(needle <= s)
    ensures (exists i :: OccursAt(s, needle, i)) <==> (exists j :: OccursAt(s[1..], needle, j))
  {
    if exists i :: OccursAt(s, needle, i) {
      var i :| OccursAt(s, needle, i);
      assert i != 0;
      assert s[1..][i - 1..i - 1 + |needle|] == s[i..i + |needle|];
      assert OccursAt(s[1..], needle, i - 1);
    }
    if exists j :: OccursAt(s[1..], needle, j) {
      var j :| OccursAt(s[1..], needle, j);
      assert s[1..][j..j + |needle|] == s[j + 1..j + 1 + |needle|];
      assert OccursAt(s, needle, j + 1);
    }
  }

  /** Every string includes the empty string. */
  lemma IncludesEmpty(s: string)
    ensures Includes(s, "")
  {
    assert OccursAt(s, "", 0);
  }

  // ---------------------------------------------------------------- the `<` order on strings

  /** JavaScript's `a < b` on strings: lexicographic by code unit, a proper prefix first. */
  predicate LexLess(a: string, b: string)
    decreases |a|
  {
    if |a| == 0 then |b| > 0
    else if |b| == 0 then false
    else if a[0] != b[0] then a[0] < b[0]
    else LexLess(a[1..], b[1..])
  }

  /** `a <= b` in the same order (not `b < a`). */
  predicate LexLe(a: string, b: string) {
    !LexLess(b, a)
  }

  lemma {:induction false} LexLessIrreflexive(a: string)
    ensures !LexLess(a, a)
    decreases |a|
  {
    if |a| > 0 {
      LexLessIrreflexive(a[1..]);
    }
  }

  lemma {:induction false} LexLessTransitive(a: string, b: string, c: string)
    requires LexLess(a, b) && LexLess(b, c)
    ensures LexLess(a, c)
    decreases |a|
  {
    if |a| > 0 && a[0] == b[0] && b[0] == c[0] {
      LexLessTransitive(a[1..], b[1..], c[1..]);
    }
  }

  lemma {:induction false} LexLessTotal(a: string, b: string)
    requires a != b
    ensures LexLess(a, b) || LexLess(b, a)
    decreases |a|
  {
    if |a| > 0 && |b| > 0 && a[0] == b[0] {
      assert a == [a[0]] + a[1..] && b == [b[0]] + b[1..];
      LexLessTotal(a[1..], b[1..]);
    }
  }

  /** Two strings each `<=` the other are the same string. */
  lemma LexLeAntisymmetric(a: string, b: string)
    ensures LexLe(a, b) && LexLe(b, a) <==> a == b
  {
    if a == b {
      LexLessIrreflexive(a);
    } else {
      LexLessTotal(a, b);
    }
  }

  /** `LexLe` is a total preorder (in fact a total order), so sorting by it is well defined. */
  lemma LexLeTotalPreorder()
    ensures forall a, b :: LexLe(a, b) || LexLe(b, a)
    ensures forall a, b, c :: LexLe(a, b) && LexLe(b, c) ==> LexLe(a, c)
  {
    forall a, b
      ensures LexLe(a, b) || LexLe(b, a)
    {
      if a == b {
        LexLessIrreflexive(a);
      } else if LexLess(a, b) && LexLess(b, a) {
        LexLessTransitive(a, b, a);
        LexLessIrreflexive(a);
      }
    }
    forall a, b, c | LexLe(a, b) && LexLe(b, c)
      ensures LexLe(a, c)
    {
      if LexLess(c, a) {
        if a == b {
        } else if b == c {
        } else {
          LexLessTotal(a, b);
          LexLessTotal(b, c);
          LexLessTransitive(a, b, c);
          LexLessTransitive(c, a, c);
          LexLessIrreflexive(c);
        }
      }
    }
  }

  // ---------------------------------------------------------------- split and join

  /** `s.split(sep)` for a one-character separator: the pieces between separators, at least one. */
  function Split(s: string, sep: char): (parts: seq<string>)
    ensures |parts| >= 1
    ensures forall i :: 0 <= i < |parts| ==> sep !in parts[i]
    decreases |s|
  {
    if |s| == 0 then [""]
    else if s[0] == sep then [""] + Split(s[1..], sep)
    else
      var rest := Split(s[1..], sep);
      [[s[0]] + rest[0]] + rest[1..]
  }

  /** `parts.join(sep)`. */
  function Join(parts: seq<string>, sep: char): string
    decreases |parts|
  {
    if |parts| == 0 then ""
    else if |parts| == 1 then parts[0]
    else parts[0] + [sep] + Join(parts[1..], sep)
  }

  /** A separator-free prefix glues onto the first piece of whatever follows it. */
  lemma {:induction false} SplitPrefix(a: string, t: string, sep: char)
    requires sep !in a
    ensures Split(a + t, sep) == [a + Split(t, sep)[0]] + Split(t, sep)[1..]
    decreases |a|
  {
    if |a| > 0 {
      assert (a + t)[1..] == a[1..] + t;
      SplitPrefix(a[1..], t, sep);
      assert [a[0]] + (a[1..] + Split(t, sep)[0]) == a + Split(t, sep)[0];
    } else {
      var p := Split(t, sep);
      assert a + t == t;
      assert a + p[0] == p[0];
      assert [p[0]] + p[1..] == p;
    }
  }

  /** Joining separator-free pieces and splitting again gives the pieces back. */
  lemma {:induction false} SplitJoin(parts: seq<string>, sep: char)
    requires |parts| >= 1
    requires forall i :: 0 <= i < |parts| ==> sep !in parts[i]
    ensures Split(Join(parts, sep), sep) == parts
    decreases |parts|
  {
    if |parts| == 1 {
      SplitPrefix(parts[0], "", sep);
      assert parts[0] + "" == parts[0];
    } else {
      var rest := Join(parts[1..], sep);
      SplitJoin(parts[1..], sep);
      assert parts[0] + [sep] + rest == parts[0] + ([sep] + rest);
      SplitPrefix(parts[0], [sep] + rest, sep);
      assert ([sep] + rest)[1..] == rest;
      assert Split([sep] + rest, sep) == [""] + parts[1..];
      assert parts[0] + "" == parts[0];
    }
  }

  /** Splitting and joining with the same separator gives the string back. */
  lemma {:induction false} JoinSplit(s: string, sep: char)
    ensures Join(Split(s, sep), sep) == s
    decreases |s|
  {
    if |s| > 0 {
      var rest := Split(s[1..], sep);
      JoinSplit(s[1..], sep);
      if s[0] == sep {
        assert s == [sep] + s[1..];
      } else {
        var parts := [[s[0]] + rest[0]] + rest[1..];
        assert parts[1..] == rest[1..];
        if |rest| == 1 {
          assert s == [s[0]] + rest[0];
        } else {
          assert Join(rest, sep) == rest[0] + [sep] + Join(rest[1..], sep);
          assert s == [s[0]] + s[1..];
        }
      }
    }
  }

  /** `s.split(sep)[0]`: the text before the first separator, a prefix of `s`. */
  lemma {:induction false} SplitHeadIsPrefix(s: string, sep: char)
    ensures Split(s, sep)[0] <= s
    ensures sep in s ==> s[|Split(s, sep)[0]|] == sep
    ensures sep !in s ==> Split(s, sep)[0] == s
    decreases |s|
  {
    if |s| > 0 && s[0] != sep {
      SplitHeadIsPrefix(s[1..], sep);
      assert s == [s[0]] + s[1..];
    }
  }

  // ---------------------------------------------------------------- replace

  /** `s.replace(pattern, '')` for a plain-string pattern: the first occurrence is removed. */
  function RemoveFirst(s: string, pattern: string): (r: string)
    requires |pattern| > 0
    ensures pattern <= s ==> r == s[|pattern|..]
    ensures !Includes(s, pattern) ==> r == s
    decreases |s|
  {
    if pattern <= s then s[|pattern|..]
    else if |s| == 0 then s
    else
      IncludesShift(s, pattern);
      [s[0]] + RemoveFirst(s[1..], pattern)
  }
}

=== FILE: text_block.dfy ===
/** The text block's in-place editor: double-click opens an edit buffer on the block's
    content; blur or Enter commits the trimmed buffer (or a placeholder when it is blank) if
    it differs from the content; Escape abandons the edit. */
module TextBlock {
  import opened Wrappers
  import Text

  const Placeholder := "Click to edit text..."

  /** `isEditing` and `editValue`. */
  datatype EditState = EditState(editing: bool, buffer: string)

  /** What the user does; `KeyDown` carries the key name and whether Shift is held. */
  datatype Event = DoubleClick | Typed(value: string) | Blur | KeyDown(key: string, shift: bool)

  /** The new state and the content handed to `onChange`, if any. */
  datatype Outcome = Outcome(state: EditState, emitted: Option<string>)

  /** The state a block starts in: not editing, the buffer holding the content. */
  function Initial(content: string): (s: EditState)
    ensures !s.editing && s.buffer == content
  {
    EditState(false, content)
  }

  /** `handleBlur`: leave editing; emit the trimmed buffer, or the placeholder when it trims
      to nothing, but only when the trimmed buffer differs from the content. */
  function Commit(s: EditState, content: string): (o: Outcome)
    ensures !o.state.editing && o.state.buffer == s.buffer
    ensures o.emitted.Some? <==> Text.Trim(s.buffer) != content
    ensures o.emitted.Some? && !Text.AllSpace(s.buffer) ==> o.emitted.value == Text.Trim(s.buffer)
    ensures o.emitted.Some? && Text.AllSpace(s.buffer) ==> o.emitted.value == Placeholder
  {
    var t := Text.Trim(s.buffer);
    Text.TrimEmptyIffBlank(s.buffer);
    Outcome(EditState(false, s.buffer), if t != content then Some(if t == "" then Placeholder else t) else None)
  }

  /** One event against the block whose current content is `content`. */
  function Handle(s: EditState, content: string, e: Event): (o: Outcome)
    ensures e.DoubleClick? ==> o == Outcome(EditState(true, content), None)
    ensures e.Typed? ==> o == Outcome(s.(buffer := e.value), None)
    ensures e.Blur? || e == KeyDown("Enter", false) ==> o == Commit(s, content)
    ensures e.KeyDown? && e.key == "Escape" ==> o == Outcome(EditState(false, content), None)
    ensures e.KeyDown? && e.key != "Escape" && !(e.key == "Enter" && !e.shift) ==> o == Outcome(s, None)
  {
    match e
    case DoubleClick => Outcome(EditState(true, content), None)
    case Typed(v) => Outcome(s.(buffer := v), None)
    case Blur => Commit(s, content)
    case KeyDown(key, shift) =>
      if key == "Enter" && !shift then Commit(s, content)
      else if key == "Escape" then Outcome(EditState(false, content), None)
      else Outcome(s, None)
  }

  // ---------------------------------------------------------------- properties

  /** Whatever a commit emits is non-empty and already trimmed. */
  lemma EmittedIsTrimmed(s: EditState, content: string)
    requires Commit(s, content).emitted.Some?
    ensures var c := Commit(s, content).emitted.value;
      c != "" && Text.Trim(c) == c
  {
    var c := Commit(s, content).emitted.value;
    if Text.AllSpace(s.buffer) {
      assert c == Placeholder;
      assert Placeholder[0] == 'C' && Placeholder[|Placeholder| - 1] == '.';
      Text.TrimOfTrimmed(Placeholder);
    } else {
      assert c == Text.Trim(s.buffer);
      Text.TrimEmptyIffBlank(s.buffer);
      Text.TrimIdempotent(s.buffer);
    }
  }

  /** Once the block holds what was emitted, committing the same non-blank buffer again
      emits nothing. */
  lemma CommitSettles(s: EditState, content: string)
    requires Commit(s, content).emitted.Some? && !Text.AllSpace(s.buffer)
    ensures Commit(s, Commit(s, content).emitted.value).emitted.None?
  {
  }

  /** Opening the editor and pressing Escape leaves the block as it started, emitting nothing. */
  lemma OpenThenEscape(s: EditState, content: string, shift: bool)
    ensures var editing := Handle(s, content, DoubleClick).state;
      Handle(editing, content, KeyDown("Escape", shift)) == Outcome(Initial(content), None)
  {
  }

  /** Shift+Enter is not a commit: the editor stays as it was. */
  lemma ShiftEnterKeepsEditing(s: EditState, content: string)
    ensures Handle(s, content, KeyDown("Enter", true)) == Outcome(s, None)
  {
  }
}

=== FILE: toast.dfy ===
/** The notices the pages raise with `toast.warning`, `toast.success` and `toast.error`;
    `Quiet` is a handler that returns without one. */
module Toast {
  datatype Notice = Quiet | Warning(text: string) | Success(text: string) | Failure(text: string)
}

=== FILE: workflow_builder.dfy ===
/** The visual workflow builder: a canvas of trigger and action nodes joined by directed
    connections. Nodes are added at a staggered position, moved, configured and deleted
    (deleting a node drops its connections); saving derives the workflow's trigger and
    action list from the nodes. */
module WorkflowBuilder {
  import opened Wrappers
  import opened Store
  import opened WorkflowService
  import Text

  /** The builder's state: the canvas, the selected node and the name and description fields. */
  datatype Builder = Builder(
    nodes: seq<Node>,
    connections: seq<Connection>,
    selected: Option<string>,
    name: string,
    description: string)

  /** The fields an `updateNode` call carries: `{ x, y }` from a drag, `{ config }` from the
      configuration panel. */
  datatype NodeUpdate = NodeUpdate(x: Option<int>, y: Option<int>, config: Option<map<string, string>>)

  /** The builder opened on `workflow`, or on nothing for a new one. */
  function Open(workflow: Option<Workflow>): (b: Builder)
    ensures b.selected.None?
    ensures workflow.None? ==> b == Builder([], [], None, "", "")
    ensures workflow.Some? ==>
      && b.nodes == workflow.value.nodes && b.connections == workflow.value.connections
      && b.name == workflow.value.name && b.description == workflow.value.description
  {
    match workflow
    case None => Builder([], [], None, "", "")
    case Some(w) => Builder(w.nodes, w.connections, None, w.name, w.description)
  }

  /** `addNode(type, nodeType)`: a node named `freshId` (the source's `node_<Date.now()>`)
      appended with an empty config, placed 50 pixels further down and right per node
      already on the canvas. */
  function AddNode(b: Builder, subType: string, nodeType: string, freshId: string): (r: Builder)
    ensures r.connections == b.connections && r.selected == b.selected
    ensures |r.nodes| == |b.nodes| + 1 && r.nodes[..|b.nodes|] == b.nodes
    ensures var n := r.nodes[|b.nodes|];
      && n.id == freshId && n.kind == nodeType && n.subType == subType && n.config == map[]
      && n.x == 100 + 50 * |b.nodes| && n.y == n.x
  {
    var offset := 100 + |b.nodes| * 50;
    b.(nodes := b.nodes + [Node(freshId, nodeType, subType, offset, offset, map[])])
  }

  function Apply(n: Node, u: NodeUpdate): Node {
    n.(x := u.x.GetOr(n.x), y := u.y.GetOr(n.y), config := u.config.GetOr(n.config))
  }

  /** `updateNode`: the update applied to every node with that id; the list keeps its length,
      order and all other nodes. */
  function UpdateNode(b: Builder, nodeId: string, u: NodeUpdate): (r: Builder)
    ensures r.connections == b.connections && r.selected == b.selected
    ensures |r.nodes| == |b.nodes|
    ensures forall i :: 0 <= i < |b.nodes| ==>
      && r.nodes[i].id == b.nodes[i].id && r.nodes[i].kind == b.nodes[i].kind
      && r.nodes[i].subType == b.nodes[i].subType
      && (b.nodes[i].id != nodeId ==> r.nodes[i] == b.nodes[i])
      && (b.nodes[i].id == nodeId && u.x.Some? ==> r.nodes[i].x == u.x.value)
      && (b.nodes[i].id == nodeId && u.x.None? ==> r.nodes[i].x == b.nodes[i].x)
      && (b.nodes[i].id == nodeId && u.y.Some? ==> r.nodes[i].y == u.y.value)
      && (b.nodes[i].id == nodeId && u.y.None? ==> r.nodes[i].y == b.nodes[i].y)
      && (b.nodes[i].id == nodeId && u.config.Some? ==> r.nodes[i].config == u.config.value)
      && (b.nodes[i].id == nodeId && u.config.None? ==> r.nodes[i].config == b.nodes[i].config)
  {
    var ns := seq(|b.nodes|, i requires 0 <= i < |b.nodes| =>
      if b.nodes[i].id == nodeId then Apply(b.nodes[i], u) else b.nodes[i]);
    b.(nodes := ns)
  }

  /** `handleNodeDrag`: the node moved to the reported position. */
  function DragNode(b: Builder, nodeId: string, x: int, y: int): (r: Builder)
    ensures r.connections == b.connections && |r.nodes| == |b.nodes|
    ensures forall i :: 0 <= i < |b.nodes| && b.nodes[i].id == nodeId ==>
      r.nodes[i] == b.nodes[i].(x := x, y := y)
    ensures forall i :: 0 <= i < |b.nodes| && b.nodes[i].id != nodeId ==> r.nodes[i] == b.nodes[i]
  {
    UpdateNode(b, nodeId, NodeUpdate(Some(x), Some(y), None))
  }

  /** `handleConfigChange` in the configuration panel: the selected node's config with one
      key set, written back through `updateNode`. */
  function ConfigChange(b: Builder, key: string, value: string): (r: Builder)
    ensures b.selected.None? ==> r == b
    ensures b.selected.Some? && FirstNode(b.nodes, b.selected.value).None? ==> r == b
    ensures r.connections == b.connections && r.selected == b.selected && |r.nodes| == |b.nodes|
    ensures forall i :: 0 <= i < |b.nodes| && Some(b.nodes[i].id) != b.selected ==> r.nodes[i] == b.nodes[i]
    ensures b.selected.Some? && FirstNode(b.nodes, b.selected.value).Some? ==>
      var shown := FirstNode(b.nodes, b.selected.value).value;
      forall i :: 0 <= i < |b.nodes| && b.nodes[i].id == b.selected.value ==>
        r.nodes[i] == b.nodes[i].(config := shown.config[key := value])
  {
    if b.selected.None? then b
    else
      match FirstNode(b.nodes, b.selected.value)
      case None => b
      case Some(n) => UpdateNode(b, b.selected.value, NodeUpdate(None, None, Some(n.config[key := value])))
  }

  /** The test of `nodes.find(n => n.id === id)`. */
  function IdIs(id: string): Node -> bool {
    (n: Node) => n.id == id
  }

  /** The node the configuration panel shows: the first one carrying the id. */
  function FirstNode(ns: seq<Node>, id: string): (r: Option<Node>)
    ensures r.None? <==> forall i :: 0 <= i < |ns| ==> ns[i].id != id
    ensures r.Some? ==> r.value.id == id && exists k :: FirstAt(ns, IdIs(id), k) && ns[k] == r.value
  {
    First(ns, IdIs(id))
  }

  predicate Touches(c: Connection, nodeId: string) {
    c.from == nodeId || c.to == nodeId
  }

  /** `deleteNode`: the node and every connection into or out of it removed; everything
      else stays, in order. */
  function DeleteNode(b: Builder, nodeId: string): (r: Builder)
    ensures r.selected == b.selected
    ensures forall n :: multiset(r.nodes)[n] == if n.id == nodeId then 0 else multiset(b.nodes)[n]
    ensures forall i :: 0 <= i < |r.nodes| ==> r.nodes[i].id != nodeId
    ensures forall i :: 0 <= i < |r.connections| ==> !Touches(r.connections[i], nodeId)
    ensures forall i :: 0 <= i < |b.nodes| && b.nodes[i].id != nodeId ==> b.nodes[i] in r.nodes
    ensures forall i :: 0 <= i < |b.connections| && !Touches(b.connections[i], nodeId) ==>
      b.connections[i] in r.connections
    ensures multiset(r.nodes) <= multiset(b.nodes) && multiset(r.connections) <= multiset(b.connections)
  {
    FilterCounts(b.nodes, (n: Node) => n.id != nodeId);
    b.(nodes := Filter(b.nodes, (n: Node) => n.id != nodeId),
       connections := Filter(b.connections, (c: Connection) => !Touches(c, nodeId)))
  }

  ghost predicate NoDuplicates(cs: seq<Connection>) {
    forall i, j :: 0 <= i < j < |cs| ==> cs[i] != cs[j]
  }

  /** `connectNodes`: the edge appended unless the same `(from, to)` pair is already there. */
  function Connect(b: Builder, fromId: string, toId: string): (r: Builder)
    ensures r.nodes == b.nodes && r.selected == b.selected
    ensures Connection(fromId, toId) in r.connections
    ensures Connection(fromId, toId) in b.connections ==> r == b
    ensures Connection(fromId, toId) !in b.connections ==> r.connections == b.connections + [Connection(fromId, toId)]
    ensures NoDuplicates(b.connections) ==> NoDuplicates(r.connections)
  {
    if Connection(fromId, toId) in b.connections then b
    else b.(connections := b.connections + [Connection(fromId, toId)])
  }

  /** `handleCanvasClick`: a click on the bare canvas clears the selection. */
  function CanvasClick(b: Builder, onCanvas: bool): (r: Builder)
    ensures onCanvas ==> r == b.(selected := None)
    ensures !onCanvas ==> r == b
  {
    if onCanvas then b.(selected := None) else b
  }

  // ---------------------------------------------------------------- saving

  predicate IsTrigger(n: Node) {
    n.kind == "trigger"
  }

  /** `nodes.find(n => n.type === 'trigger')`. */
  function FirstTrigger(ns: seq<Node>): (r: Option<Node>)
    ensures r.Some? ==> r.value.kind == "trigger" && exists k :: FirstAt(ns, IsTrigger, k) && ns[k] == r.value
    ensures r.None? <==> forall i :: 0 <= i < |ns| ==> ns[i].kind != "trigger"
  {
    First(ns, IsTrigger)
  }

  /** The saved trigger: the first trigger node, else a bare `contact_created` trigger. */
  function TriggerOf(ns: seq<Node>): (t: Trigger)
    ensures t.NodeTrigger? ==> exists k :: FirstAt(ns, IsTrigger, k) && ns[k] == t.node
    ensures t.TypedTrigger? ==>
      && t == TypedTrigger("contact_created", None)
      && forall i :: 0 <= i < |ns| ==> ns[i].kind != "trigger"
  {
    match FirstTrigger(ns)
    case Some(n) => NodeTrigger(n)
    case None => TypedTrigger("contact_created", None)
  }

  predicate IsAction(n: Node) {
    n.kind == "action"
  }

  /** The saved actions: one `{ type: subType, config }` per action node, in node order. */
  function ActionsOf(ns: seq<Node>): (acts: seq<Action>)
    ensures |acts| == Count(ns, IsAction)
    decreases |ns|
  {
    if |ns| == 0 then []
    else
      var rest := ActionsOf(ns[1..]);
      if IsAction(ns[0]) then [Action(ns[0].subType, ns[0].config)] + rest else rest
  }

  /** `handleSave`: refused while the name is blank; otherwise the workflow (if any) with
      the builder's name, description, canvas and derived trigger and actions. */
  function Save(b: Builder, workflow: Option<Workflow>): (r: Result<Patch>)
    ensures r.Err? <==> Text.AllSpace(b.name)
    ensures r.Err? ==> r.message == "Please enter a workflow name"
    ensures r.Ok? ==>
      && r.value.name == Some(b.name) && r.value.description == Some(b.description)
      && r.value.nodes == Some(b.nodes) && r.value.connections == Some(b.connections)
      && r.value.trigger == Some(TriggerOf(b.nodes)) && r.value.actions == Some(ActionsOf(b.nodes))
      && (workflow.Some? ==> r.value.Id == Some(workflow.value.Id) && r.value.isActive == Some(workflow.value.isActive))
      && (workflow.None? ==> r.value.Id.None? && r.value.isActive.None?)
  {
    Text.TrimEmptyIffBlank(b.name);
    if Text.Trim(b.name) == "" then Err("Please enter a workflow name")
    else
      var base := match workflow
        case Some(w) => WholePatch(w)
        case None => Patch(None, None, None, None, None, None, None, None, None, None, None, None);
      Ok(base.(name := Some(b.name), description := Some(b.description), nodes := Some(b.nodes),
        connections := Some(b.connections), trigger := Some(TriggerOf(b.nodes)),
        actions := Some(ActionsOf(b.nodes))))
  }

  // ---------------------------------------------------------------- properties

  /** Adding an action node appends exactly one action, with an empty config, to what a save
      would derive. */
  lemma {:induction false} AddActionAppendsAction(ns: seq<Node>, n: Node)
    requires IsAction(n)
    ensures ActionsOf(ns + [n]) == ActionsOf(ns) + [Action(n.subType, n.config)]
    decreases |ns|
  {
    if |ns| == 0 {
      assert ns + [n] == [n];
    } else {
      assert (ns + [n])[1..] == ns[1..] + [n];
      AddActionAppendsAction(ns[1..], n);
    }
  }

  /** Adding a node never changes a trigger the canvas already has. */
  lemma AddNodeKeepsTrigger(ns: seq<Node>, n: Node)
    requires FirstTrigger(ns).Some?
    ensures FirstTrigger(ns + [n]) == FirstTrigger(ns)
  {
    FirstAppend(ns, n, IsTrigger);
  }

  /** The saved actions distribute over the canvas: those of two stretches of nodes are the
      first stretch's actions followed by the second's. */
  lemma {:induction false} ActionsOfConcat(a: seq<Node>, c: seq<Node>)
    ensures ActionsOf(a + c) == ActionsOf(a) + ActionsOf(c)
    decreases |a|
  {
    if |a| == 0 {
      assert a + c == c;
    } else {
      assert (a + c)[1..] == a[1..] + c;
      ActionsOfConcat(a[1..], c);
    }
  }

  /** A single node yields its `{ type: subType, config }` action when it is an action node,
      and nothing otherwise; with ActionsOfConcat this fixes every saved action list. */
  lemma ActionsOfOne(n: Node)
    ensures IsAction(n) ==> ActionsOf([n]) == [Action(n.subType, n.config)]
    ensures !IsAction(n) ==> ActionsOf([n]) == []
  {
    assert [n][1..] == [];
  }

  /** A trigger before any other puts every later node out of the save's reach: the saved
      trigger is the earliest trigger node. */
  lemma TriggerIsEarliest(ns: seq<Node>, k: nat)
    requires k < |ns| && ns[k].kind == "trigger"
    requires forall j :: 0 <= j < k ==> ns[j].kind != "trigger"
    ensures TriggerOf(ns) == NodeTrigger(ns[k])
  {
    assert FirstAt(ns, IsTrigger, k);
    FirstIs(ns, IsTrigger, k);
  }

  /** Applying the same update twice is applying it once. */
  lemma UpdateNodeIdempotent(b: Builder, nodeId: string, u: NodeUpdate)
    ensures UpdateNode(UpdateNode(b, nodeId, u), nodeId, u) == UpdateNode(b, nodeId, u)
  {
    var once := UpdateNode(b, nodeId, u);
    var twice := UpdateNode(once, nodeId, u);
    assert twice.nodes == once.nodes;
  }

  /** After a configuration change the panel, reopened on the same node, shows the old
      config with the one key set. */
  lemma ConfigChangeReadsBack(b: Builder, key: string, value: string)
    requires b.selected.Some? && FirstNode(b.nodes, b.selected.value).Some?
    ensures var r := ConfigChange(b, key, value);
      var before := FirstNode(b.nodes, b.selected.value).value;
      && FirstNode(r.nodes, b.selected.value) == Some(before.(config := before.config[key := value]))
      && FirstNode(r.nodes, b.selected.value).value.config[key] == value
  {
    var id := b.selected.value;
    var r := ConfigChange(b, key, value);
    var before := FirstNode(b.nodes, id).value;
    var k :| FirstAt(b.nodes, IdIs(id), k) && b.nodes[k] == before;
    assert r.nodes[k] == before.(config := before.config[key := value]);
    assert FirstAt(r.nodes, IdIs(id), k);
    FirstIs(r.nodes, IdIs(id), k);
  }

  /** Deleting a node distributes over the node list: the survivors of two stretches are the
      first stretch's survivors followed by the second's, so the order is kept. */
  lemma DeleteNodeKeepsOrder(b: Builder, nodeId: string, a: seq<Node>, c: seq<Node>)
    requires b.nodes == a + c
    ensures DeleteNode(b, nodeId).nodes == DeleteNode(b.(nodes := a), nodeId).nodes + DeleteNode(b.(nodes := c), nodeId).nodes
  {
    FilterConcat(a, c, (n: Node) => n.id != nodeId);
  }

  /** Likewise for the connections: those kept from two stretches keep their order. */
  lemma DeleteNodeKeepsConnectionOrder(b: Builder, nodeId: string, a: seq<Connection>, c: seq<Connection>)
    requires b.connections == a + c
    ensures DeleteNode(b, nodeId).connections ==
      DeleteNode(b.(connections := a), nodeId).connections + DeleteNode(b.(connections := c), nodeId).connections
  {
    FilterConcat(a, c, (x: Connection) => !Touches(x, nodeId));
  }

  /** Connecting the same pair twice is the same as connecting it once. */
  lemma ConnectIdempotent(b: Builder, fromId: string, toId: string)
    ensures Connect(Connect(b, fromId, toId), fromId, toId) == Connect(b, fromId, toId)
  {
  }

  /** After deleting a node no connection mentions it, so a later `connectNodes` between
      two other nodes cannot bring it back. */
  lemma DeleteThenConnectOthers(b: Builder, nodeId: string, fromId: string, toId: string)
    requires fromId != nodeId && toId != nodeId
    ensures var r := Connect(DeleteNode(b, nodeId), fromId, toId);
      forall i :: 0 <= i < |r.connections| ==> !Touches(r.connections[i], nodeId)
  {
  }

  /** A saved builder, sent to the store as an update of its workflow, leaves the stored
      workflow with the canvas, trigger and actions the builder derived. */
  lemma SaveThenUpdate(st: Workflows, b: Builder, w: Workflow, now: string)
    requires Save(b, Some(w)).Ok? && GetById(st, Js.Num(w.Id)).Ok?
    ensures var r := Update(st, Js.Num(w.Id), Save(b, Some(w)).value, now);
      && r.result.Ok?
      && r.result.value.Id == w.Id
      && r.result.value.nodes == b.nodes
      && r.result.value.trigger == TriggerOf(b.nodes)
      && r.result.value.actions == ActionsOf(b.nodes)
  {
  }
}

=== FILE: workflow_form.dfy ===
/** The quick workflow form: name, description, an active checkbox and a trigger type.
    It loads from the workflow being edited (active unless stated otherwise), refuses a
    blank name or an empty trigger type, and submits a workflow whose trigger is the chosen
    type and whose actions, nodes and connections are empty. */
module WorkflowForm {
  import opened Wrappers
  import Text
  import Form
  import WorkflowService

  datatype FormData = FormData(name: string, description: string, isActive: bool, triggerType: string)

  datatype Field = Name | Description | IsActive | TriggerType

  const DefaultTrigger := "contact_created"

  /** `isActive ?? true`: only an absent flag defaults, and it defaults to active. */
  function ActiveDefault(flag: Option<bool>): (active: bool)
    ensures flag.Some? ==> active == flag.value
    ensures flag.None? ==> active
  {
    flag.GetOr(true)
  }

  /** `trigger.type`: a typed trigger's type; a trigger saved from the builder is the node
      itself, whose `type` is its node kind. */
  function TriggerKind(t: WorkflowService.Trigger): string {
    match t
    case NodeTrigger(node) => node.kind
    case TypedTrigger(kind, _) => kind
  }

  /** The form's initial data: blank and active for a new workflow; the workflow's own name,
      description, flag and trigger type when editing, "contact_created" standing in for a
      trigger without a type. */
  function Init(workflow: Option<WorkflowService.Workflow>): (f: FormData)
    ensures workflow.None? ==> f == FormData("", "", true, DefaultTrigger)
    ensures workflow.Some? ==>
      && f.name == workflow.value.name && f.description == workflow.value.description
      && f.isActive == workflow.value.isActive
      && (TriggerKind(workflow.value.trigger) != "" ==> f.triggerType == TriggerKind(workflow.value.trigger))
      && (TriggerKind(workflow.value.trigger) == "" ==> f.triggerType == "contact_created")
    ensures f.triggerType != ""
  {
    match workflow
    case None => FormData("", "", ActiveDefault(None), DefaultTrigger)
    case Some(w) =>
      var kind := TriggerKind(w.trigger);
      FormData(w.name, w.description, ActiveDefault(Some(w.isActive)), if kind != "" then kind else DefaultTrigger)
  }

  /** `validateForm`: a blank name and an empty trigger type are the two refusals. */
  function Validate(f: FormData): (errors: Form.Errors<Field>)
    ensures Name in errors <==> Text.AllSpace(f.name)
    ensures TriggerType in errors <==> f.triggerType == ""
    ensures Description !in errors && IsActive !in errors
    ensures forall k :: k in errors ==> Form.HasError(errors, k)
  {
    Text.TrimEmptyIffBlank(f.name);
    var e: Form.Errors<Field> := if Text.Trim(f.name) == "" then map[Name := "Workflow name is required"] else map[];
    if f.triggerType == "" then e[TriggerType := "Trigger type is required"] else e
  }

  /** `handleChange`: the checkbox writes its `checked` state, the other inputs their value;
      the edited field's error is cleared. The form's only checkbox is the active flag. */
  function Change(f: FormData, errors: Form.Errors<Field>, field: Field, value: string, checked: bool): (r: (FormData, Form.Errors<Field>))
    ensures r.1 == Form.ClearError(errors, field)
    ensures field == IsActive ==> r.0 == f.(isActive := checked)
    ensures field == Name ==> r.0 == f.(name := value)
    ensures field == Description ==> r.0 == f.(description := value)
    ensures field == TriggerType ==> r.0 == f.(triggerType := value)
  {
    var data := match field
      case Name => f.(name := value)
      case Description => f.(description := value)
      case IsActive => f.(isActive := checked)
      case TriggerType => f.(triggerType := value);
    (data, Form.ClearError(errors, field))
  }

  /** `handleSubmit`: nothing reaches `onSave` from an invalid form; a valid one sends its
      fields with the trigger `{type, config: {}}` and empty actions, nodes and connections. */
  function Submit(f: FormData): (payload: Option<WorkflowService.Draft>)
    ensures payload.Some? <==> Form.NoErrors(Validate(f))
    ensures payload.Some? ==> payload.value == WorkflowService.Draft(f.name, f.description, Some(f.isActive),
      WorkflowService.TypedTrigger(f.triggerType, Some(map[])), [], [], [])
  {
    var e := Validate(f);
    if |e| != 0 then None
    else Some(WorkflowService.Draft(f.name, f.description, Some(f.isActive),
      WorkflowService.TypedTrigger(f.triggerType, Some(map[])), [], [], []))
  }

  // ---------------------------------------------------------------- properties

  /** The form submits exactly when the name is not blank and a trigger type is chosen. */
  lemma SubmitIff(f: FormData)
    ensures Submit(f).Some? <==> !Text.AllSpace(f.name) && f.triggerType != ""
  {
    var e := Validate(f);
    if !Text.AllSpace(f.name) && f.triggerType != "" {
      assert forall k :: k !in e by {
        forall k ensures k !in e {
          match k
          case Name =>
          case TriggerType =>
          case Description =>
          case IsActive =>
        }
      }
      assert e == map[];
    } else if Text.AllSpace(f.name) {
      assert Name in e;
    } else {
      assert TriggerType in e;
    }
  }

  /** Opening the form on an existing workflow and submitting it unchanged sends back its own
      name, description and flag, but replaces its trigger by a typed one and empties its
      actions, nodes and connections. */
  lemma ResubmitKeepsFieldsDropsGraph(w: WorkflowService.Workflow)
    requires !Text.AllSpace(w.name)
    ensures var p := Submit(Init(Some(w)));
      && p.Some?
      && p.value.name == w.name && p.value.description == w.description && p.value.isActive == Some(w.isActive)
      && p.value.trigger.TypedTrigger? && p.value.nodes == [] && p.value.connections == []
  {
    SubmitIff(Init(Some(w)));
  }

  /** A new workflow created from the form is active unless the box was cleared, and has no
      graph. */
  lemma NewFormCreatesActive(st: WorkflowService.Workflows, name: string, now: string)
    requires !Text.AllSpace(name)
    ensures var f := Init(None).(name := name);
      var created := WorkflowService.Create(st, Submit(f).value, now).result.value;
      created.isActive && created.nodes == [] && created.name == name
  {
    SubmitIff(Init(None).(name := name));
  }
}

=== FILE: workflow_node.dfy ===
/** Dragging a node on the workflow canvas: mouse-down (outside the node's own buttons)
    records the grab offset and selects the node; each mouse-move while dragging reports the
    pointer minus that offset, clamped to the canvas's top-left corner; mouse-up stops. */
module WorkflowNode {
  import opened Wrappers

  /** `isDragging` and `dragStart` (the grab offset). */
  datatype DragState = DragState(dragging: bool, offsetX: int, offsetY: int)

  datatype Event =
    | MouseDown(clientX: int, clientY: int, onAction: bool)   // `onAction`: inside a `.node-action`
    | MouseMove(clientX: int, clientY: int)
    | MouseUp

  datatype Position = Position(x: int, y: int)

  /** The new state, whether `onSelect` was called, and the position passed to `onDrag`. */
  datatype Outcome = Outcome(state: DragState, selected: bool, moved: Option<Position>)

  const Idle := DragState(false, 0, 0)

  function Clamp(v: int): (c: int)
    ensures c >= 0 && c >= v
    ensures v >= 0 ==> c == v
    ensures v < 0 ==> c == 0
  {
    if v < 0 then 0 else v
  }

  /** One event against a node currently drawn at `node`. */
  function Handle(s: DragState, node: Position, e: Event): (o: Outcome)
    ensures e.MouseDown? && e.onAction ==> o == Outcome(s, false, None)
    ensures e.MouseDown? && !e.onAction ==>
      o == Outcome(DragState(true, e.clientX - node.x, e.clientY - node.y), true, None)
    ensures e.MouseMove? && !s.dragging ==> o == Outcome(s, false, None)
    ensures e.MouseMove? && s.dragging ==> o.state == s && !o.selected && o.moved.Some?
    ensures o.moved.Some? ==> e.MouseMove? && o.moved.value.x >= 0 && o.moved.value.y >= 0
    ensures o.moved.Some? && e.clientX - s.offsetX >= 0 ==> o.moved.value.x == e.clientX - s.offsetX
    ensures o.moved.Some? && e.clientY - s.offsetY >= 0 ==> o.moved.value.y == e.clientY - s.offsetY
    ensures e.MouseUp? ==> o == Outcome(s.(dragging := false), false, None)
  {
    match e
    case MouseDown(cx, cy, onAction) =>
      if onAction then Outcome(s, false, None)
      else Outcome(DragState(true, cx - node.x, cy - node.y), true, None)
    case MouseMove(cx, cy) =>
      if !s.dragging then Outcome(s, false, None)
      else Outcome(s, false, Some(Position(Clamp(cx - s.offsetX), Clamp(cy - s.offsetY))))
    case MouseUp => Outcome(s.(dragging := false), false, None)
  }

  /** Grabbing a node and moving the pointer by `(dx, dy)` moves the node by the same amount,
      stopped at the canvas edge. */
  lemma DragFollowsPointer(s: DragState, node: Position, cx: int, cy: int, dx: int, dy: int)
    ensures var down := Handle(s, node, MouseDown(cx, cy, false)).state;
      Handle(down, node, MouseMove(cx + dx, cy + dy)).moved == Some(Position(Clamp(node.x + dx), Clamp(node.y + dy)))
  {
  }

  /** After mouse-up no movement is reported until the next mouse-down. */
  lemma NoMoveAfterRelease(s: DragState, node: Position, cx: int, cy: int)
    ensures var up := Handle(s, node, MouseUp).state;
      Handle(up, node, MouseMove(cx, cy)).moved.None?
  {
  }
}

=== FILE: workflow_service.dfy ===
/** The workflow store: automation workflows built from trigger and action nodes, with a
    monotone `nextId` counter, a field-by-field merge on update, and activation switches. */
module WorkflowService {
  import opened Wrappers
  import opened Js
  import opened Store

  /** A node on the builder canvas; `kind` is the source's `type` ("trigger" or "action"). */
  datatype Node = Node(id: string, kind: string, subType: string, x: int, y: int, config: map<string, string>)

  /** A directed edge between two nodes, by node id. */
  datatype Connection = Connection(from: string, to: string)

  /** What starts a workflow: the builder stores its first trigger node, the form and the
      builder's fallback store a bare `{ type, config? }`. */
  datatype Trigger = NodeTrigger(node: Node) | TypedTrigger(kind: string, config: Option<map<string, string>>)

  /** One step the workflow performs, as the builder derives it from an action node. */
  datatype Action = Action(kind: string, config: map<string, string>)

  /** A past run, carried through unchanged. */
  datatype Execution = Execution(id: string, status: string, startedAt: string, completedAt: string)

  datatype Workflow = Workflow(
    Id: int,
    name: string,
    description: string,
    isActive: bool,
    trigger: Trigger,
    actions: seq<Action>,
    nodes: seq<Node>,
    connections: seq<Connection>,
    executionCount: int,
    successRate: int,
    executionHistory: seq<Execution>,
    createdAt: string,
    updatedAt: string)

  /** What `create` receives; an absent `isActive` is `None`. */
  datatype Draft = Draft(
    name: string,
    description: string,
    isActive: Option<bool>,
    trigger: Trigger,
    actions: seq<Action>,
    nodes: seq<Node>,
    connections: seq<Connection>)

  /** What `update` receives: any subset of the stored fields (the pages send whole
      workflows back, `Id` included). */
  datatype Patch = Patch(
    Id: Option<int>,
    name: Option<string>,
    description: Option<string>,
    isActive: Option<bool>,
    trigger: Option<Trigger>,
    actions: Option<seq<Action>>,
    nodes: Option<seq<Node>>,
    connections: Option<seq<Connection>>,
    executionCount: Option<int>,
    successRate: Option<int>,
    executionHistory: Option<seq<Execution>>,
    createdAt: Option<string>)

  /** The module's state: the workflow list and the id the next `create` hands out. */
  datatype Workflows = Workflows(items: seq<Workflow>, nextId: int)

  function IdOf(w: Workflow): int {
    w.Id
  }

  ghost predicate Valid(st: Workflows) {
    Unique(st.items, IdOf) && forall i :: 0 <= i < |st.items| ==> st.items[i].Id < st.nextId
  }

  /** The state at module load: `Math.max(...ids, 0) + 1`. */
  function Init(seed: seq<Workflow>): (st: Workflows)
    ensures st.items == seed && st.nextId >= 1
    ensures Unique(seed, IdOf) ==> Valid(st)
  {
    Workflows(seed, NextId(seed, IdOf))
  }

  /** `{ ...w }` as a patch: every stored field, as the pages send a workflow back. */
  function WholePatch(w: Workflow): Patch {
    Patch(Some(w.Id), Some(w.name), Some(w.description), Some(w.isActive), Some(w.trigger),
      Some(w.actions), Some(w.nodes), Some(w.connections), Some(w.executionCount),
      Some(w.successRate), Some(w.executionHistory), Some(w.createdAt))
  }

  /** `getById`: the workflow whose id is `parseInt(id)`. */
  function GetById(st: Workflows, id: Raw): (r: Result<Workflow>)
    ensures r.Ok? <==> ParseRaw(id).Some? && HasId(st.items, IdOf, ParseRaw(id).value)
    ensures r.Ok? ==> r.value in st.items && r.value.Id == ParseRaw(id).value
    ensures r.Err? ==> r.message == "Workflow not found"
  {
    match Locate(st.items, IdOf, ParseRaw(id))
    case None => Err("Workflow not found")
    case Some(i) => Ok(st.items[i])
  }

  /** `create`: numbered `nextId`, inactive unless asked otherwise, no runs yet and a
      success rate of 100. */
  function Create(st: Workflows, d: Draft, now: string): (r: Step<Workflows, Workflow>)
    ensures r.result.Ok?
    ensures r.state == Workflows(st.items + [r.result.value], st.nextId + 1)
    ensures var w := r.result.value;
      && w.Id == st.nextId
      && w.isActive == (d.isActive == Some(true))
      && w.executionCount == 0 && w.successRate == 100 && w.executionHistory == []
      && w.name == d.name && w.description == d.description && w.trigger == d.trigger
      && w.actions == d.actions && w.nodes == d.nodes && w.connections == d.connections
      && w.createdAt == now && w.updatedAt == now
  {
    var w := Workflow(st.nextId, d.name, d.description, d.isActive.GetOr(false), d.trigger,
      d.actions, d.nodes, d.connections, 0, 100, [], now, now);
    Step(Workflows(st.items + [w], st.nextId + 1), Ok(w))
  }

  /** `{ ...w, ...p, updatedAt }`: every supplied field overrides, `Id` included. */
  function Merge(w: Workflow, p: Patch, now: string): (m: Workflow)
    ensures m.updatedAt == now
    ensures p.Id.Some? ==> m.Id == p.Id.value
    ensures p.Id.None? ==> m.Id == w.Id
    ensures p.name.Some? ==> m.name == p.name.value
    ensures p.name.None? ==> m.name == w.name
    ensures p.description.Some? ==> m.description == p.description.value
    ensures p.description.None? ==> m.description == w.description
    ensures p.isActive.Some? ==> m.isActive == p.isActive.value
    ensures p.isActive.None? ==> m.isActive == w.isActive
    ensures p.trigger.Some? ==> m.trigger == p.trigger.value
    ensures p.trigger.None? ==> m.trigger == w.trigger
    ensures p.actions.Some? ==> m.actions == p.actions.value
    ensures p.actions.None? ==> m.actions == w.actions
    ensures p.nodes.Some? ==> m.nodes == p.nodes.value
    ensures p.nodes.None? ==> m.nodes == w.nodes
    ensures p.connections.Some? ==> m.connections == p.connections.value
    ensures p.connections.None? ==> m.connections == w.connections
    ensures p.executionCount.Some? ==> m.executionCount == p.executionCount.value
    ensures p.executionCount.None? ==> m.executionCount == w.executionCount
    ensures p.successRate.Some? ==> m.successRate == p.successRate.value
    ensures p.successRate.None? ==> m.successRate == w.successRate
    ensures p.executionHistory.Some? ==> m.executionHistory == p.executionHistory.value
    ensures p.executionHistory.None? ==> m.executionHistory == w.executionHistory
    ensures p.createdAt.Some? ==> m.createdAt == p.createdAt.value
    ensures p.createdAt.None? ==> m.createdAt == w.createdAt
  {
    Workflow(p.Id.GetOr(w.Id), p.name.GetOr(w.name), p.description.GetOr(w.description),
      p.isActive.GetOr(w.isActive), p.trigger.GetOr(w.trigger), p.actions.GetOr(w.actions),
      p.nodes.GetOr(w.nodes), p.connections.GetOr(w.connections),
      p.executionCount.GetOr(w.executionCount), p.successRate.GetOr(w.successRate),
      p.executionHistory.GetOr(w.executionHistory), p.createdAt.GetOr(w.createdAt), now)
  }

  /** Sending a workflow back whole with one field changed replaces the stored record by
      exactly that workflow, stamped with the time, whatever was stored before. */
  lemma MergeWholePatch(stored: Workflow, w: Workflow, active: bool, now: string)
    ensures Merge(stored, WholePatch(w).(isActive := Some(active)), now) == w.(isActive := active, updatedAt := now)
  {
  }

  /** `update`: merges into the matching workflow; an unknown id changes nothing. */
  function Update(st: Workflows, id: Raw, p: Patch, now: string): (r: Step<Workflows, Workflow>)
    ensures r.result.Ok? <==> GetById(st, id).Ok?
    ensures r.result.Err? ==> r == Step(st, Err("Workflow not found"))
    ensures r.result.Ok? ==>
      var i := Locate(st.items, IdOf, ParseRaw(id)).value;
      && r.result.value == Merge(st.items[i], p, now)
      && r.state == st.(items := st.items[i := r.result.value])
  {
    match Locate(st.items, IdOf, ParseRaw(id))
    case None => Step(st, Err("Workflow not found"))
    case Some(i) =>
      var w := Merge(st.items[i], p, now);
      Step(st.(items := st.items[i := w]), Ok(w))
  }

  /** `delete_`: removes the matching workflow and resolves to `true`. */
  function Delete(st: Workflows, id: Raw): (r: Step<Workflows, bool>)
    ensures r.result.Ok? <==> GetById(st, id).Ok?
    ensures r.result.Err? ==> r == Step(st, Err("Workflow not found"))
    ensures r.result.Ok? ==>
      r.result.value && r.state == st.(items := RemoveAt(st.items, Locate(st.items, IdOf, ParseRaw(id)).value))
  {
    match Locate(st.items, IdOf, ParseRaw(id))
    case None => Step(st, Err("Workflow not found"))
    case Some(i) => Step(st.(items := RemoveAt(st.items, i)), Ok(true))
  }

  /** `activate` (`on`) and `deactivate` (`!on`): set the flag and the update time. */
  function SetActive(st: Workflows, id: Raw, on: bool, now: string): (r: Step<Workflows, Workflow>)
    ensures r.result.Ok? <==> GetById(st, id).Ok?
    ensures r.result.Err? ==> r == Step(st, Err("Workflow not found"))
    ensures r.result.Ok? ==>
      var i := Locate(st.items, IdOf, ParseRaw(id)).value;
      && r.result.value == st.items[i].(isActive := on, updatedAt := now)
      && r.state == st.(items := st.items[i := r.result.value])
  {
    match Locate(st.items, IdOf, ParseRaw(id))
    case None => Step(st, Err("Workflow not found"))
    case Some(i) =>
      var w := st.items[i].(isActive := on, updatedAt := now);
      Step(st.(items := st.items[i := w]), Ok(w))
  }

  // ---------------------------------------------------------------- properties across calls

  /** Activating (or deactivating) twice is the same as doing it once. */
  lemma SetActiveIdempotent(st: Workflows, id: Raw, on: bool, now: string)
    ensures SetActive(SetActive(st, id, on, now).state, id, on, now).state == SetActive(st, id, on, now).state
  {
    var r := SetActive(st, id, on, now);
    if r.result.Ok? {
      var i := Locate(st.items, IdOf, ParseRaw(id)).value;
      FindIndexSameIds(st.items, r.state.items, IdOf, ParseRaw(id).value);
      assert Locate(r.state.items, IdOf, ParseRaw(id)) == Some(i);
      var w := r.state.items[i];
      assert w.(isActive := on, updatedAt := now) == w;
    }
  }

  /** Deactivating after activating leaves the workflow inactive, all else as activation
      left it. */
  lemma ActivateThenDeactivate(st: Workflows, id: Raw, now: string)
    requires GetById(st, id).Ok?
    ensures var i := Locate(st.items, IdOf, ParseRaw(id)).value;
      SetActive(SetActive(st, id, true, now).state, id, false, now).state
        == st.(items := st.items[i := st.items[i].(isActive := false, updatedAt := now)])
  {
    FindIndexSameIds(st.items, SetActive(st, id, true, now).state.items, IdOf, ParseRaw(id).value);
  }

  lemma CreateKeepsValid(st: Workflows, d: Draft, now: string)
    requires Valid(st)
    ensures Valid(Create(st, d, now).state)
  {
    UniqueAppend(st.items, IdOf, Create(st, d, now).result.value);
  }

  /** An update keeps ids unique as long as the patch does not carry a different id. */
  lemma UpdateKeepsValid(st: Workflows, id: Raw, p: Patch, now: string)
    requires Valid(st)
    requires p.Id.None? || p.Id == ParseRaw(id)
    ensures Valid(Update(st, id, p, now).state)
  {
    if Update(st, id, p, now).result.Ok? {
      UniqueReplace(st.items, IdOf, Locate(st.items, IdOf, ParseRaw(id)).value, Update(st, id, p, now).result.value);
    }
  }

  lemma DeleteKeepsValid(st: Workflows, id: Raw)
    requires Valid(st)
    ensures Valid(Delete(st, id).state)
    ensures GetById(Delete(st, id).state, id).Err?
  {
    if Delete(st, id).result.Ok? {
      UniqueRemove(st.items, IdOf, Locate(st.items, IdOf, ParseRaw(id)).value);
    }
  }
}

=== FILE: workflows_page.dfy ===
/** The workflows page: the searched and status-filtered list, row selection and
    select-all, the bulk activate / deactivate / delete actions run one workflow at a time
    against the store, the per-row status toggle, and saving the quick form.

    The page imports a `workflowService` object that the workflow module does not export;
    the model wires the page to the workflow store's operations it evidently means. */
module WorkflowsPage {
  import opened Wrappers
  import opened Js
  import opened Store
  import Text
  import opened WorkflowService
  import opened Toast

  datatype Page = Page(workflows: seq<Workflow>, searchTerm: string, statusFilter: string, selection: seq<int>)

  /** The page and store after an action, and what the page tells the user. */
  datatype Outcome = Outcome(page: Page, store: Workflows, notice: Notice)

  // ---------------------------------------------------------------- the visible list

  /** The search: the lower-cased term inside the lower-cased name or description. */
  predicate MatchesSearch(w: Workflow, term: string) {
    var t := Text.Lower(term);
    Text.Includes(Text.Lower(w.name), t) || Text.Includes(Text.Lower(w.description), t)
  }

  /** The status filter: "all", or "active"/"inactive" agreeing with the flag; any other
      value shows nothing. */
  predicate MatchesStatus(w: Workflow, filter: string) {
    filter == "all" || (filter == "active" && w.isActive) || (filter == "inactive" && !w.isActive)
  }

  /** `filteredWorkflows`: exactly the workflows passing search and status, in list order. */
  function Filtered(p: Page): (r: seq<Workflow>)
    ensures forall w :: w in r <==> w in p.workflows && MatchesSearch(w, p.searchTerm) && MatchesStatus(w, p.statusFilter)
    ensures |r| <= |p.workflows|
  {
    Filter(p.workflows, (w: Workflow) => MatchesSearch(w, p.searchTerm) && MatchesStatus(w, p.statusFilter))
  }

  /** `filteredWorkflows.map(w => w.Id)`. */
  function Ids(ws: seq<Workflow>): (ids: seq<int>)
    ensures |ids| == |ws|
    ensures forall i :: 0 <= i < |ws| ==> ids[i] == ws[i].Id
  {
    seq(|ws|, i requires 0 <= i < |ws| => ws[i].Id)
  }

  // ---------------------------------------------------------------- selection

  /** `handleSelectWorkflow`: a selected id is removed (every copy), an unselected one is
      appended. */
  function Toggle(selection: seq<int>, id: int): (r: seq<int>)
    ensures id in r <==> id !in selection
    ensures forall x :: x != id ==> (x in r <==> x in selection)
    ensures id !in selection ==> r == selection + [id]
  {
    if id in selection then Filter(selection, (x: int) => x != id) else selection + [id]
  }

  /** `handleSelectAll`: when as many ids are selected as rows are shown, the selection is
      cleared; otherwise it becomes exactly the shown rows' ids. */
  function SelectAll(p: Page): (r: Page)
    ensures |p.selection| == |Filtered(p)| ==> r.selection == []
    ensures |p.selection| != |Filtered(p)| ==> r.selection == Ids(Filtered(p))
    ensures r.workflows == p.workflows && r.searchTerm == p.searchTerm && r.statusFilter == p.statusFilter
  {
    var f := Filtered(p);
    if |p.selection| == |f| then p.(selection := []) else p.(selection := Ids(f))
  }

  // ---------------------------------------------------------------- bulk actions

  /** One turn of the bulk activate (`on`) or deactivate (`!on`) loop: the page's copy of
      the workflow with that id, when there is one and its flag differs, is sent back whole
      with the flag set. */
  function SetOne(st: Workflows, page: seq<Workflow>, id: int, on: bool, now: string): (r: Step<Workflows, bool>)
    ensures !HasId(page, IdOf, id) ==> r == Step(st, Ok(true))
    ensures r.result.Err? ==> r.state == st
  {
    match FindIndex(page, IdOf, id)
    case None => Step(st, Ok(true))
    case Some(j) =>
      if page[j].isActive == on then Step(st, Ok(true))
      else
        var u := Update(st, Num(id), WholePatch(page[j]).(isActive := Some(on)), now);
        Step(u.state, if u.result.Ok? then Ok(true) else Err(u.result.message))
  }

  /** The bulk activate or deactivate loop over the selected ids, in order; the first
      failing update ends it. */
  function SetEach(st: Workflows, page: seq<Workflow>, ids: seq<int>, on: bool, now: string): (r: Step<Workflows, bool>)
    ensures |ids| == 0 ==> r == Step(st, Ok(true))
    decreases |ids|
  {
    if |ids| == 0 then Step(st, Ok(true))
    else
      var u := SetOne(st, page, ids[0], on, now);
      if u.result.Err? then u else SetEach(u.state, page, ids[1..], on, now)
  }

  /** The loop of a bulk delete: each selected id deleted in turn; the first failure ends it.
      Every turn that succeeds removes one workflow, and none is ever added or copied. */
  function DeleteEach(st: Workflows, ids: seq<int>): (r: Step<Workflows, bool>)
    ensures |ids| == 0 ==> r == Step(st, Ok(true))
    ensures |ids| > 0 && !HasId(st.items, IdOf, ids[0]) ==> r == Step(st, Err("Workflow not found"))
    ensures r.result.Ok? ==> |r.state.items| + |ids| == |st.items|
    ensures r.result.Err? ==> r.result.message == "Workflow not found" && |r.state.items| + |ids| > |st.items|
    ensures multiset(r.state.items) <= multiset(st.items) && r.state.nextId == st.nextId
    decreases |ids|
  {
    if |ids| == 0 then Step(st, Ok(true))
    else
      var d := Delete(st, Num(ids[0]));
      if d.result.Err? then Step(d.state, Err(d.result.message))
      else DeleteEach(d.state, ids[1..])
  }

  /** After a bulk action the selection is cleared and the list reloaded from the store; a
      failure leaves the selection and the list as they were. */
  function Finish(p: Page, r: Step<Workflows, bool>, done: string): (o: Outcome)
    ensures o.store == r.state
    ensures r.result.Ok? ==> o.page == p.(selection := [], workflows := r.state.items) && o.notice == Success(done)
    ensures r.result.Err? ==> o.page == p && o.notice == Failure("Failed to perform bulk action")
  {
    if r.result.Ok? then Outcome(p.(selection := [], workflows := r.state.items), r.state, Success(done))
    else Outcome(p, r.state, Failure("Failed to perform bulk action"))
  }

  /** `handleBulkAction(action)`; `confirmed` is the answer to the delete confirmation. */
  function BulkAction(p: Page, st: Workflows, action: string, confirmed: bool, now: string): (o: Outcome)
    ensures p.selection == [] ==> o == Outcome(p, st, Warning("Please select workflows first"))
    ensures action == "delete" && !confirmed ==> o.store == st && o.page == p
    ensures action !in {"activate", "deactivate", "delete"} && p.selection != [] ==>
      o.store == st && o.page == p.(selection := [], workflows := st.items)
  {
    var n := ShowInt(|p.selection|);
    if p.selection == [] then Outcome(p, st, Warning("Please select workflows first"))
    else if action == "activate" then
      Finish(p, SetEach(st, p.workflows, p.selection, true, now), n + " workflows activated")
    else if action == "deactivate" then
      Finish(p, SetEach(st, p.workflows, p.selection, false, now), n + " workflows deactivated")
    else if action == "delete" then
      if !confirmed then Outcome(p, st, Quiet)
      else Finish(p, DeleteEach(st, p.selection), n + " workflows deleted")
    else Outcome(p.(selection := [], workflows := st.items), st, Quiet)
  }

  // ---------------------------------------------------------------- single-row actions

  /** `handleToggleStatus`: the page's copy of the workflow sent back whole with its flag
      negated; the stored record becomes that copy. */
  function ToggleStatus(st: Workflows, w: Workflow, now: string): (r: Step<Workflows, Workflow>)
    ensures r.result.Ok? <==> HasId(st.items, IdOf, w.Id)
    ensures r.result.Ok? ==> r.result.value == w.(isActive := !w.isActive, updatedAt := now)
    ensures r.result.Err? ==> r.state == st
  {
    var u := Update(st, Num(w.Id), WholePatch(w).(isActive := Some(!w.isActive)), now);
    assert u.result.Ok? ==> u.result.value == w.(isActive := !w.isActive, updatedAt := now) by {
      if u.result.Ok? {
        MergeWholePatch(st.items[Locate(st.items, IdOf, Some(w.Id)).value], w, !w.isActive, now);
      }
    }
    u
  }

  /** The form's payload as the partial update `update(id, workflowData)` merges. */
  function AsPatch(d: Draft): (p: Patch)
    ensures p.Id.None? && p.executionCount.None? && p.executionHistory.None? && p.createdAt.None?
    ensures p.name == Some(d.name) && p.isActive == d.isActive && p.nodes == Some(d.nodes)
  {
    Patch(None, Some(d.name), Some(d.description), d.isActive, Some(d.trigger), Some(d.actions),
      Some(d.nodes), Some(d.connections), None, None, None, None)
  }

  /** `handleSave`: an edit updates the workflow being edited; otherwise a workflow is
      created. */
  function Save(st: Workflows, editing: Option<Workflow>, d: Draft, now: string): (r: Step<Workflows, Workflow>)
    ensures editing.None? ==> r == Create(st, d, now)
    ensures editing.Some? ==> r == Update(st, Num(editing.value.Id), AsPatch(d), now)
  {
    match editing
    case None => Create(st, d, now)
    case Some(w) => Update(st, Num(w.Id), AsPatch(d), now)
  }

  // ---------------------------------------------------------------- properties

  /** Toggling an id twice restores its membership, and the others' too; from an
      unselected id it restores the selection exactly. */
  lemma ToggleTwice(selection: seq<int>, id: int)
    ensures var r := Toggle(Toggle(selection, id), id);
      forall x :: x in r <==> x in selection
    ensures id !in selection ==> Toggle(Toggle(selection, id), id) == selection
  {
    if id !in selection {
      var keep := (x: int) => x != id;
      FilterConcat(selection, [id], keep);
      FilterAll(selection, keep);
      FilterNone([id], keep);
      assert selection + [] == selection;
    }
  }

  /** Select-all pressed twice on a non-empty shown list with a different-sized selection
      selects all shown rows and then clears them. */
  lemma SelectAllTwice(p: Page)
    requires |p.selection| != |Filtered(p)|
    ensures SelectAll(p).selection == Ids(Filtered(p))
    ensures SelectAll(SelectAll(p)).selection == []
  {
  }

  /** The store a bulk set should leave: every workflow of the page's list whose id is in
      `ids` and whose flag differs, replaced by its copy with the flag set and stamped. */
  function Expected(page: seq<Workflow>, ids: set<int>, on: bool, now: string): (r: seq<Workflow>)
    ensures |r| == |page|
    ensures forall i :: 0 <= i < |page| ==> r[i].Id == page[i].Id
  {
    seq(|page|, i requires 0 <= i < |page| =>
      if page[i].Id in ids && page[i].isActive != on then page[i].(isActive := on, updatedAt := now) else page[i])
  }

  function Elems(ids: seq<int>): set<int> {
    set x | x in ids
  }

  /** Handling one more id changes the expected store at that id's position only. */
  lemma ExpectedAdd(page: seq<Workflow>, done: set<int>, j: nat, on: bool, now: string)
    requires Unique(page, IdOf) && j < |page|
    ensures Expected(page, done + {page[j].Id}, on, now) == Expected(page, done, on, now)[j :=
      if page[j].isActive != on then page[j].(isActive := on, updatedAt := now) else page[j]]
  {
    var e0 := Expected(page, done, on, now);
    var e1 := Expected(page, done + {page[j].Id}, on, now);
    forall i | 0 <= i < |page| && i != j
      ensures e1[i] == e0[i]
    {
      assert page[i].Id != page[j].Id;
    }
  }

  /** Sending back the page's copy of a workflow with the flag set, to a store holding the
      same ids in the same places, replaces that place by the copy with the flag set. */
  lemma UpdateAt(st: Workflows, page: seq<Workflow>, j: nat, on: bool, now: string)
    requires Unique(page, IdOf) && j < |page|
    requires |st.items| == |page| && forall i :: 0 <= i < |page| ==> st.items[i].Id == page[i].Id
    ensures var u := Update(st, Num(page[j].Id), WholePatch(page[j]).(isActive := Some(on)), now);
      u.result.Ok? && u.state.items == st.items[j := page[j].(isActive := on, updatedAt := now)]
  {
    var id := page[j].Id;
    FindIndexSameIds(page, st.items, IdOf, id);
    LocateOnly(page, IdOf, Some(id));
    MergeWholePatch(st.items[j], page[j], on, now);
  }

  /** One turn of the bulk-set loop, from a store that already holds the expected result
      for the ids handled so far, succeeds and holds the expected result for one id more. */
  lemma SetOneStep(st: Workflows, page: seq<Workflow>, done: set<int>, id: int, on: bool, now: string)
    requires Unique(page, IdOf) && st.items == Expected(page, done, on, now)
    ensures var r := SetOne(st, page, id, on, now);
      r.result.Ok? && r.state.items == Expected(page, done + {id}, on, now)
  {
    match FindIndex(page, IdOf, id)
    case None =>
      assert Expected(page, done, on, now) == Expected(page, done + {id}, on, now);
    case Some(j) =>
      ExpectedAdd(page, done, j, on, now);
      if page[j].isActive != on {
        UpdateAt(st, page, j, on, now);
      }
  }

  /** The bulk-set loop from a store holding the expected result for `done` ends holding the
      expected result for `done` and every id of `ids`. */
  lemma {:induction false} SetEachFrom(st: Workflows, page: seq<Workflow>, ids: seq<int>, done: set<int>, on: bool, now: string)
    requires Unique(page, IdOf) && st.items == Expected(page, done, on, now)
    ensures var r := SetEach(st, page, ids, on, now);
      r.result.Ok? && r.state.items == Expected(page, done + Elems(ids), on, now)
    decreases |ids|
  {
    if |ids| == 0 {
      assert done + Elems(ids) == done;
    } else {
      SetOneStep(st, page, done, ids[0], on, now);
      var next := SetOne(st, page, ids[0], on, now);
      assert SetEach(st, page, ids, on, now) == SetEach(next.state, page, ids[1..], on, now);
      SetEachFrom(next.state, page, ids[1..], done + {ids[0]}, on, now);
      ElemsCons(ids);
      assert done + {ids[0]} + Elems(ids[1..]) == done + Elems(ids);
    }
  }

  lemma ElemsCons(ids: seq<int>)
    requires |ids| > 0
    ensures Elems(ids) == {ids[0]} + Elems(ids[1..])
  {
    forall x | x in Elems(ids) ensures x in {ids[0]} + Elems(ids[1..]) {
      var k :| 0 <= k < |ids| && ids[k] == x;
      if k > 0 {
        assert ids[1..][k - 1] == x;
      }
    }
  }

  /** Bulk activate (or deactivate) on a page showing the store as loaded: every selected
      workflow ends with the flag set, those whose flag changed are stamped, and every other
      workflow is untouched. */
  lemma BulkSetsSelected(p: Page, st: Workflows, on: bool, now: string)
    requires Unique(st.items, IdOf) && p.workflows == st.items && p.selection != []
    ensures var o := BulkAction(p, st, if on then "activate" else "deactivate", false, now);
      && o.notice.Success?
      && o.page.selection == []
      && |o.store.items| == |st.items|
      && forall i :: 0 <= i < |st.items| ==>
        && o.store.items[i].Id == st.items[i].Id
        && (st.items[i].Id in p.selection ==> o.store.items[i].isActive == on)
        && (st.items[i].Id !in p.selection ==> o.store.items[i] == st.items[i])
  {
    assert Expected(st.items, {}, on, now) == st.items;
    SetEachFrom(st, st.items, p.selection, {}, on, now);
    assert {} + Elems(p.selection) == Elems(p.selection);
  }

  /** Deleting a present id succeeds, removes it, keeps ids unique, and keeps every other
      workflow; nothing new appears. */
  lemma DeleteOne(st: Workflows, id: int)
    requires Valid(st) && HasId(st.items, IdOf, id)
    ensures var d := Delete(st, Num(id));
      && d.result.Ok? && Valid(d.state) && !HasId(d.state.items, IdOf, id)
      && (forall w :: w in st.items && w.Id != id ==> w in d.state.items)
      && (forall w :: w in d.state.items ==> w in st.items)
  {
    DeleteKeepsValid(st, Num(id));
    var k := Locate(st.items, IdOf, Some(id)).value;
    RemoveAtMembers(st.items, k);
    forall w | w in st.items && w.Id != id
      ensures w in Delete(st, Num(id)).state.items
    {
      var m :| 0 <= m < |st.items| && st.items[m] == w;
      assert m != k;
    }
  }

  /** After the first id of a distinct, present list is deleted, the rest of the list is
      still distinct and present. */
  lemma DeleteFirstLeavesRest(st: Workflows, ids: seq<int>)
    requires Valid(st) && |ids| > 0
    requires forall i, j :: 0 <= i < j < |ids| ==> ids[i] != ids[j]
    requires forall i :: 0 <= i < |ids| ==> HasId(st.items, IdOf, ids[i])
    ensures var d := Delete(st, Num(ids[0])).state;
      && Valid(d)
      && (forall i, j :: 0 <= i < j < |ids[1..]| ==> ids[1..][i] != ids[1..][j])
      && (forall i :: 0 <= i < |ids[1..]| ==> HasId(d.items, IdOf, ids[1..][i]))
  {
    var d := Delete(st, Num(ids[0]));
    DeleteOne(st, ids[0]);
    var rest := ids[1..];
    forall i | 0 <= i < |rest|
      ensures HasId(d.state.items, IdOf, rest[i])
    {
      assert rest[i] == ids[i + 1] && HasId(st.items, IdOf, ids[i + 1]);
      var m :| 0 <= m < |st.items| && st.items[m].Id == rest[i];
      assert st.items[m] in d.state.items;
      var n :| 0 <= n < |d.state.items| && d.state.items[n] == st.items[m];
    }
    forall i, j | 0 <= i < j < |rest|
      ensures rest[i] != rest[j]
    {
      assert rest[i] == ids[i + 1] && rest[j] == ids[j + 1];
    }
  }

  /** A bulk delete of distinct ids all present in the store succeeds, removes each of them,
      and keeps every workflow that was not selected. */
  lemma {:induction false} DeleteEachRemoves(st: Workflows, ids: seq<int>)
    requires Valid(st)
    requires forall i, j :: 0 <= i < j < |ids| ==> ids[i] != ids[j]
    requires forall i :: 0 <= i < |ids| ==> HasId(st.items, IdOf, ids[i])
    ensures DeleteEach(st, ids).result.Ok? && Valid(DeleteEach(st, ids).state)
    ensures forall i :: 0 <= i < |ids| ==> !HasId(DeleteEach(st, ids).state.items, IdOf, ids[i])
    ensures forall w :: w in st.items && w.Id !in ids ==> w in DeleteEach(st, ids).state.items
    ensures forall w :: w in DeleteEach(st, ids).state.items ==> w in st.items
    decreases |ids|
  {
    if |ids| > 0 {
      var d := Delete(st, Num(ids[0]));
      DeleteOne(st, ids[0]);
      DeleteFirstLeavesRest(st, ids);
      var rest := ids[1..];
      DeleteEachRemoves(d.state, rest);
      var r := DeleteEach(d.state, rest);
      assert DeleteEach(st, ids) == r;
      KeptAcross(st.items, d.state.items, r.state.items, ids);
      RemovedAcross(d.state.items, r.state.items, ids);
    }
  }

  /** Workflows kept by the first delete and by the rest of the loop are kept by the loop. */
  lemma KeptAcross(a: seq<Workflow>, b: seq<Workflow>, c: seq<Workflow>, ids: seq<int>)
    requires |ids| > 0
    requires forall w :: w in a && w.Id != ids[0] ==> w in b
    requires forall w :: w in b && w.Id !in ids[1..] ==> w in c
    ensures forall w :: w in a && w.Id !in ids ==> w in c
  {
    forall w | w in a && w.Id !in ids
      ensures w in c
    {
      assert w.Id != ids[0];
      assert w.Id !in ids[1..];
    }
  }

  /** An id gone after the first delete stays gone, and the rest of the loop removes the
      others. */
  lemma RemovedAcross(b: seq<Workflow>, c: seq<Workflow>, ids: seq<int>)
    requires |ids| > 0
    requires !HasId(b, IdOf, ids[0])
    requires forall w :: w in c ==> w in b
    requires forall i :: 0 <= i < |ids[1..]| ==> !HasId(c, IdOf, ids[1..][i])
    ensures forall i :: 0 <= i < |ids| ==> !HasId(c, IdOf, ids[i])
  {
    forall i | 0 <= i < |ids|
      ensures !HasId(c, IdOf, ids[i])
    {
      if i == 0 {
        forall k | 0 <= k < |c|
          ensures IdOf(c[k]) != ids[0]
        {
          assert c[k] in b;
          var m :| 0 <= m < |b| && b[m] == c[k];
        }
      } else {
        assert ids[1..][i - 1] == ids[i];
      }
    }
  }

  /** Saving the quick form over a workflow drawn in the builder keeps its name but empties
      its nodes and connections, because the form always sends empty ones. */
  lemma QuickSaveClearsGraph(st: Workflows, w: Workflow, d: Draft, now: string)
    requires HasId(st.items, IdOf, w.Id) && d.nodes == [] && d.connections == []
    ensures var r := Save(st, Some(w), d, now);
      r.result.Ok? && r.result.value.nodes == [] && r.result.value.connections == [] && r.result.value.Id == w.Id
  {
  }
}

=== FILE: wrappers.dfy ===
/** Option and Result, the two failure-carrying shapes every service and editor uses.
    A JavaScript `null`/`undefined` becomes `None`; a rejected promise or a thrown
    `Error(message)` becomes `Err(message)`. */
module Wrappers {

  datatype Option<+T> = None | Some(value: T) {

    /** The wrapped value, or `default` when there is none (the `x || d` idiom on objects). */
    function GetOr(default: T): T {
      match this
      case Some(v) => v
      case None => default
    }
  }

  datatype Result<+T> = Ok(value: T) | Err(message: string) {

    function ToOption(): Option<T> {
      match this
      case Ok(v) => Some(v)
      case Err(_) => None
    }
  }
}
